=== FILE: README.md ===
# Azure Spark Java SDK: a Dafny model of its decision and text logic

This project models the pure core of the Azure Spark Java SDK in Dafny 4.11 and proves properties about that model. The SDK is the library that submits Spark batch jobs to Livy on HDInsight, Arcadia (Synapse) and Azure-backed clusters, polls their state, and reads their driver logs through the Yarn UI.

The model covers:

- **Batch state checks.** `isDone`, `isRunning` and `isSuccess`, the start decision of `awaitStarted`, and the reply checks of `createBatchJob` and `killBatchJob`.
- **Polling loops.** The retry loop shared by `getState`, `getSparkJobApplicationId` and `isActive`, and the paging and filtering of `getSubmissionLog`.
- **Cluster endpoints and names.**
  - HDInsight: the connection, Livy and Yarn URLs, the title and the gateway credentials.
  - Arcadia: the URL patterns of the compute detail and the parsing of a Livy URL.
  - Livy: the batch and session URLs, resolved as `java.net.URI` does.
  - `UriUtils.normalizeWithSlashEnding`.
- **Storage URIs.** `WasbUri` parsing and rendering.
- **HTTP plumbing.** The default headers and parameters of the HTTP helpers, the lazily computed and set-once cells they rely on, `HttpErrorStatus` and its error details, the `User-Agent` builder, and the authorization headers.
- **Request and response types.** `PostBatches` (its job configuration flattening), `BatchState`, `SparkSubmitResponse.isAlive`, and the Yarn `App` checks.
- **Yarn log readers.** The container log fetcher and the driver log reader:
  - the driver address parser;
  - the choice of the current attempt;
  - the probing of public log URL forms;
  - the per-type offsets;
  - the scan of a log page.
- **Other components.** The log input stream, the upload path of `Deployable`, and the tests' `MockHttpService`.

Each source class is one module: `WasbUri`, `ArcadiaCompute`, `LivySparkBatch`, `YarnContainerLog` and so on. Shared pieces live in their own modules:

- `Wrappers`: `Option` and `Result`.
- `Text`: ASCII case, trimming, decimal text, joining.
- `Uri`: the part of `java.net.URI` the code relies on, which is parse, render and resolve.
- `YarnLogCommon`: what the two Yarn log readers share.

Anything the code obtains from outside becomes a parameter of the model:

- HTTP replies and probe answers;
- clocks and UUIDs;
- template rendering and HTML unescaping;
- charset encoding and token fetching.

Exceptions become `Result` failures carrying the message text the code builds. Nullable values become `Option`. Java's `byte`, `int` and `long` arithmetic is written out where it matters.

## Model

| member | source | states |
|---|---|---|
| ArcadiaCompute.SplitsRegionSuffixMeans | src/main/java/com/microsoft/azure/spark/tools/clusters/ArcadiaComputeDetail.java:22 | the host after "arcadia-spark-service-prod." splits into a region (no '/' or '.') and a non-empty suffix (no '/' or ':') exactly when it has the shape the declarative region/suffix predicate names |
| ArcadiaCompute.ServiceHostDecides | src/main/java/com/microsoft/azure/spark/tools/clusters/ArcadiaComputeDetail.java:22 | the executable service-host test agrees in both directions with the declarative reading of the no-workspace host, optional port included |
| ArcadiaCompute.MatchWorkspaceUrl | src/main/java/com/microsoft/azure/spark/tools/clusters/ArcadiaComputeDetail.java:16-19 | a match yields a workspace (non-empty, no '/' or '.'), an optional numeric port, an API version, a compute name and an optional trailing '/', and the URL equals their rendering ignoring case |
| ArcadiaCompute.MatchNoWorkspaceUrl | src/main/java/com/microsoft/azure/spark/tools/clusters/ArcadiaComputeDetail.java:21-24 | a match yields a valid service host, API version, compute and optional '/', and the URL equals their rendering ignoring case |
| ArcadiaCompute.MatchWorkspaceUrlOf | src/main/java/com/microsoft/azure/spark/tools/clusters/ArcadiaComputeDetail.java:16-19 | the rendering of any valid workspace-in-hostname match is matched back to exactly that match |
| ArcadiaCompute.MatchNoWorkspaceUrlOf | src/main/java/com/microsoft/azure/spark/tools/clusters/ArcadiaComputeDetail.java:21-24 | the rendering of any valid no-workspace match is matched back to exactly that match |
| ArcadiaCompute.MatchWorkspaceUrlIgnoringCase | src/main/java/com/microsoft/azure/spark/tools/clusters/ArcadiaComputeDetail.java:16-19 | the pattern is compiled CASE_INSENSITIVE: every spelling, in any letter case, of a valid workspace URL matches, and the captures equal the match's parts ignoring case, with the same scheme, port and trailing '/' |
| ArcadiaCompute.MatchNoWorkspaceUrlIgnoringCase | src/main/java/com/microsoft/azure/spark/tools/clusters/ArcadiaComputeDetail.java:21-24 | every spelling, in any letter case, of a valid no-workspace URL matches, and the captures equal the match's parts ignoring case |
| ArcadiaCompute.WorkspaceUrlAccepted | src/main/java/com/microsoft/azure/spark/tools/clusters/ArcadiaComputeDetail.java:16-19 | the workspace pattern accepts a text exactly when it equals, ignoring case, the rendering of some valid workspace match |
| ArcadiaCompute.NoWorkspaceUrlAccepted | src/main/java/com/microsoft/azure/spark/tools/clusters/ArcadiaComputeDetail.java:21-24 | the no-workspace pattern accepts a text exactly when it equals, ignoring case, the rendering of some valid no-workspace match |
| ArcadiaCompute.MatchPortTailOf | src/main/java/com/microsoft/azure/spark/tools/clusters/ArcadiaComputeDetail.java:17-18 | an optional ":digits" port followed by the "/versions/…/sparkcomputes/…" tail is split back into that port and tail |
| ArcadiaCompute.ParseFromLivyUrl | src/main/java/com/microsoft/azure/spark/tools/clusters/ArcadiaComputeDetail.java:79-90 | as written: fails with "Bad Arcadia URL: " + url exactly when the workspace-in-hostname pattern does not match; otherwise sparkCompute is the workspace capture, workspace the compute capture, and the URL is kept verbatim |
| ArcadiaCompute.ParseFromLivyUrlSwapsNames | src/main/java/com/microsoft/azure/spark/tools/clusters/ArcadiaComputeDetail.java:79-90 | for every valid rendering the one-argument factory stores the workspace as the compute name and the compute as the workspace |
| ArcadiaCompute.ParseFromLivyUrlCorrected | src/main/java/com/microsoft/azure/spark/tools/clusters/ArcadiaComputeDetail.java:79-90 | the corrected factory fails with "Bad Arcadia URL: " + url exactly when the pattern does not match |
| ArcadiaCompute.ParseFromLivyUrlCorrectedOf | src/main/java/com/microsoft/azure/spark/tools/clusters/ArcadiaComputeDetail.java:79-90 | the corrected factory gives back the compute and the workspace of any valid rendering in the constructor's own order, with the URL verbatim |
| ArcadiaCompute.ParseFromLivyUrlCorrectedIgnoringCase | src/main/java/com/microsoft/azure/spark/tools/clusters/ArcadiaComputeDetail.java:79-90 | the corrected factory accepts every spelling, in any letter case, of a valid workspace URL; the compute and workspace names equal the match's ignoring case, and the URL is kept verbatim |
| ArcadiaCompute.ParseFromLivyUrlWithWorkspace | src/main/java/com/microsoft/azure/spark/tools/clusters/ArcadiaComputeDetail.java:99-110 | fails with "Bad Arcadia URL: " + url exactly when the no-workspace pattern does not match; otherwise sparkCompute is the compute capture, workspace the argument and the URL is kept |
| ArcadiaCompute.ParseFromLivyUrlWithWorkspaceOf | src/main/java/com/microsoft/azure/spark/tools/clusters/ArcadiaComputeDetail.java:99-110 | the rendering of any valid no-workspace match parses to its compute, the given workspace and the URL itself |
| ArcadiaCompute.ProbeLivyUrlType | src/main/java/com/microsoft/azure/spark/tools/clusters/ArcadiaComputeDetail.java:63-71 | NO_WORKSPACE exactly when the no-workspace pattern matches; otherwise WORKSPACE_IN_HOSTNAME exactly when the one-argument factory accepts the URL, and UNKNOWN exactly when it fails |
| ArcadiaCompute.ProbeAgreesWithParsers | src/main/java/com/microsoft/azure/spark/tools/clusters/ArcadiaComputeDetail.java:63-71 | `probeLivyUrlType` answers NO_WORKSPACE iff the two-argument factory accepts the URL, WORKSPACE_IN_HOSTNAME iff only the one-argument factory does, and UNKNOWN iff neither does |
| ArcadiaCompute.ProbeOfRenderings | src/main/java/com/microsoft/azure/spark/tools/clusters/ArcadiaComputeDetail.java:63-71 | every spelling, in any letter case, of a valid no-workspace URL probes as NO_WORKSPACE, and every spelling of a valid workspace URL as something other than UNKNOWN |
| ArcadiaCompute.ProbePrefersNoWorkspace | src/main/java/com/microsoft/azure/spark/tools/clusters/ArcadiaComputeDetail.java:63-71 | a URL of both shapes exists (workspace "arcadia-spark-service-prod"); the one-argument factory accepts it, yet the probe, testing the no-workspace pattern first, answers NO_WORKSPACE |
| Deployable.PathMonth | src/main/java/com/microsoft/azure/spark/tools/job/Deployable.java:32 | a calendar month counted from 0 becomes a path month in 1..12 |
| Deployable.RelatedDestParentPath | src/main/java/com/microsoft/azure/spark/tools/job/Deployable.java:30-38 | the destination path ends with '/' |
| Deployable.DestPathShape | src/main/java/com/microsoft/azure/spark/tools/job/Deployable.java:37 | the path starts with the folder and ends with the UUID, each followed by '/' |
| Deployable.DestPathRoundTrip | src/main/java/com/microsoft/azure/spark/tools/job/Deployable.java:30-38 | for a folder and a UUID without '/', splitting the path on '/' gives back the folder, the year, the month counted from 1, the day and the UUID, then an empty part |
| Deployable.DateFieldWidths | src/main/java/com/microsoft/azure/spark/tools/job/Deployable.java:37 | for a year below 10000 and a calendar date, the fields are 4, 2 and 2 characters wide, so the path is 13 characters longer than the folder and the UUID together |
| Deployable.DocumentedExample | src/main/java/com/microsoft/azure/spark/tools/job/Deployable.java:23-25 | 20 January 2019 in the default folder gives "SparkSubmission/2019/01/20/<uuid>/" |
| Deployable.SplitOnJoin | src/main/java/com/microsoft/azure/spark/tools/job/Deployable.java:37 | splitting on a character and joining with it gives back the text |
| Deployable.SplitOnJoined | src/main/java/com/microsoft/azure/spark/tools/job/Deployable.java:37 | fields without the separator, each followed by it, split back into the fields and a final empty part |
| HdiCluster.FirstHttps | src/main/java/com/microsoft/azure/spark/tools/clusters/HdiClusterDetail.java:49-52 | the index found is that of an endpoint named "HTTPS" ignoring case with none before it; None means no endpoint has that name |
| HdiCluster.GetConnectionUrl | src/main/java/com/microsoft/azure/spark/tools/clusters/HdiClusterDetail.java:48-58 | fails, with the "Can't find HTTPS connection entity" message, exactly when no endpoint is named HTTPS; otherwise it is "https://" + the location of the first such endpoint |
| HdiCluster.LowerHttps | src/main/java/com/microsoft/azure/spark/tools/clusters/HdiClusterDetail.java:57 | a name equal to "HTTPS" ignoring case lower-cases to "https" |
| HdiCluster.GetYarnUIBaseUrl | src/main/java/com/microsoft/azure/spark/tools/clusters/HdiClusterDetail.java:28-30 | exists exactly when the connection URL does, and is that URL followed by "/yarnui/" |
| HdiCluster.GetLivyConnectionUrl | src/main/java/com/microsoft/azure/spark/tools/clusters/HdiClusterDetail.java:32-34 | exists exactly when the connection URL does, and is that URL followed by "/livy/" |
| HdiCluster.GetYarnNMConnectionUrl | src/main/java/com/microsoft/azure/spark/tools/clusters/HdiClusterDetail.java:36-38 | exists exactly when the connection URL does, and is that URL followed by "/yarnui/ws/v1/clusters/apps/" |
| HdiCluster.GetTitle | src/main/java/com/microsoft/azure/spark/tools/clusters/HdiClusterDetail.java:44-46 | the title is the name, then " @", then the region name, and nothing else |
| HdiCluster.GetHttpUserName | src/main/java/com/microsoft/azure/spark/tools/clusters/HdiClusterDetail.java:64-69 | absent unless gateway credentials are enabled; when they are, the configured user name if there is one |
| HdiCluster.GetHttpPassword | src/main/java/com/microsoft/azure/spark/tools/clusters/HdiClusterDetail.java:71-76 | absent unless gateway credentials are enabled; when they are, the configured password if there is one |
| HdiCluster.CredentialsGated | src/main/java/com/microsoft/azure/spark/tools/clusters/HdiClusterDetail.java:84-86 | a user name is exposed only when "restAuthCredential.isEnabled" is present and reads "true" ignoring case, and then the configured user name is exposed |
| HdiCluster.LivyUrls | src/main/java/com/microsoft/azure/spark/tools/clusters/HdiClusterDetail.java:32-34 | for a first HTTPS endpoint with a plain host name, the Livy URL is "https://" + host + "/livy/" and the batch and session URLs are it followed by "batches" and "sessions" |
| HdiCluster.FirstHttpsUnique | src/main/java/com/microsoft/azure/spark/tools/clusters/HdiClusterDetail.java:49-52 | an HTTPS endpoint with none before it is the one `findFirst` picks |
| HdiCluster.HostLivyEndpoint | src/main/java/com/microsoft/azure/spark/tools/clusters/HdiClusterDetail.java:32-34 | for an HTTPS host, the Livy batch and session URLs are the Livy connection URL followed by the segment |
| Headers.Without | src/main/java/com/microsoft/azure/spark/tools/http/OAuthTokenHttpObservable.java:70-72 | the filter keeps exactly the elements not dropped, and removes nothing when none is to be dropped |
| Headers.WithoutSubsequence | src/main/java/com/microsoft/azure/spark/tools/http/OAuthTokenHttpObservable.java:70-72 | the kept elements stay in their original relative order |
| Headers.WithoutConcat | src/main/java/com/microsoft/azure/spark/tools/http/AzureHttpObservable.java:52-56 | filtering a concatenation filters each part |
| Headers.ReplaceDefaults | src/main/java/com/microsoft/azure/spark/tools/http/AzureHttpObservable.java:48-57 | the result ends with the overrides; before them come exactly the parent entries whose name no override has (ignoring case), in their parent order |
| Headers.ReplaceSingle | src/main/java/com/microsoft/azure/spark/tools/http/OAuthTokenHttpObservable.java:64-74 | replacing with one entry leaves it last and the only one of that name (ignoring case), with the other parent entries kept in order |
| Headers.UpdateHeader | src/main/java/com/microsoft/azure/spark/tools/http/HttpObservable.java:191-192 | `updateHeader` replaces the first entry of the same name (ignoring case) in place, or appends when there is none; the new header is always present |
| OAuthTokenHttp.NewOAuthHttp | src/main/java/com/microsoft/azure/spark/tools/http/OAuthTokenHttpObservable.java:22-31 | a new observable has nothing memoised |
| OAuthTokenHttp.ConstantFetcher | src/main/java/com/microsoft/azure/spark/tools/http/OAuthTokenHttpObservable.java:33-35 | the String constructor's fetcher always returns that token |
| OAuthTokenHttp.OAuthDefaultHeaders | src/main/java/com/microsoft/azure/spark/tools/http/OAuthTokenHttpObservable.java:46-62 | fails with the fetcher's IOException exactly when nothing is memoised and the fetch fails, caching nothing; a memoised list is returned unchanged; otherwise the single Bearer header of the fetched token is returned and memoised |
| OAuthTokenHttp.OAuthDefaultHeadersIsLazy | src/main/java/com/microsoft/azure/spark/tools/http/OAuthTokenHttpObservable.java:46-62 | the memo is `Lazy.getOrEvaluate`, with the IOException unwrapped from the RuntimeException around it |
| OAuthTokenHttp.CachedIgnoresFetcher | src/main/java/com/microsoft/azure/spark/tools/http/OAuthTokenHttpObservable.java:22-48 | once a header list is memoised, any later fetch outcome gives the same list |
| OAuthTokenHttp.DefaultHeaders | src/main/java/com/microsoft/azure/spark/tools/http/OAuthTokenHttpObservable.java:64-74 | on success the last header is Authorization, no earlier header is named Authorization (ignoring case), and the earlier ones are the other parent defaults in their order; a fresh fetch puts "Bearer " + token last |
| AzureHttp.ApiVersionParam | src/main/java/com/microsoft/azure/spark/tools/http/AzureHttpObservable.java:18-29 | the parameter is named "api-version" and carries the value |
| AzureHttp.AzureDefaultParameters | src/main/java/com/microsoft/azure/spark/tools/http/AzureHttpObservable.java:37-45 | empty exactly when the API version is absent or blank; otherwise the single api-version parameter |
| AzureHttp.DefaultParameters | src/main/java/com/microsoft/azure/spark/tools/http/AzureHttpObservable.java:47-57 | with a blank version the parent parameters unchanged; otherwise they end with the api-version parameter, no earlier one is named api-version, and the others keep their order |
| AzureHttp.OneApiVersion | src/main/java/com/microsoft/azure/spark/tools/http/AzureHttpObservable.java:52-56 | with a non-blank version exactly one parameter is named api-version (ignoring case) |
| AmbariHttp.AmbariGroup | src/main/java/com/microsoft/azure/spark/tools/http/AmbariHttpObservable.java:28-37 | the group is the parent headers without any "X-Requested-By: ambari" (ignoring case in both), in order, followed by one "X-Requested-By: ambari" |
| AmbariHttp.OthersKept | src/main/java/com/microsoft/azure/spark/tools/http/AmbariHttpObservable.java:30-33 | any other parent header is kept, including an X-Requested-By with another value |
| AmbariHttp.DefaultHeaderGroup | src/main/java/com/microsoft/azure/spark/tools/http/AmbariHttpObservable.java:25-39 | the group is built once from the parent's group and memoised; a memoised group is returned unchanged |
| AmbariHttp.DefaultHeaderGroupIsLazy | src/main/java/com/microsoft/azure/spark/tools/http/AmbariHttpObservable.java:27 | the memo is `Lazy.getOrEvaluate` of the group builder |
| AmbariHttp.SetContentType | src/main/java/com/microsoft/azure/spark/tools/http/HttpObservable.java:191-192 | setting the content type leaves a memoised group that holds the Content-Type header |
| AmbariHttp.ComputedOnce | src/main/java/com/microsoft/azure/spark/tools/http/AmbariHttpObservable.java:25-39 | later calls return the memoised group whatever the parent's group has become, and a content-type update made in between is what they return |
| Lazy.Get | src/main/java/com/microsoft/azure/spark/tools/utils/Lazy.java:27-43 | a held value is returned unchanged; an empty cell without a supplier fails with "The supplier method is not set, call getOrEvaluate()."; otherwise the supplier's result is stored and returned, its exception propagating |
| Lazy.GetOrEvaluate | src/main/java/com/microsoft/azure/spark/tools/utils/Lazy.java:45-59 | a held value is returned unchanged; an empty cell with a supplier fails with "The supplier method has been set, call get()."; otherwise the evaluation's result (null included) is stored and returned, its exception propagating |
| Lazy.NotConsultedIgnored | src/main/java/com/microsoft/azure/spark/tools/utils/Lazy.java:27-59 | when the cell already holds a value (or the call fails before evaluating), the supplier or evaluation makes no difference |
| Lazy.RunCaches | src/main/java/com/microsoft/azure/spark/tools/utils/Lazy.java:45-59 | in a run of `getOrEvaluate` calls the evaluation is consulted until it first returns a non-null value; every later call returns that value |
| Lazy.CachedRun | src/main/java/com/microsoft/azure/spark/tools/utils/Lazy.java:46 | a cell holding a value returns it to every later call and never changes |
| LaterInit.Empty | src/main/java/com/microsoft/azure/spark/tools/utils/LaterInit.java:14-15 | a new cell is uninitialised and `getWithNull` gives null |
| LaterInit.Set | src/main/java/com/microsoft/azure/spark/tools/utils/LaterInit.java:21-27 | fails with the already-initialised error exactly when the cell is initialised; otherwise the cell is initialised to the value (null included) |
| LaterInit.SetIfNull | src/main/java/com/microsoft/azure/spark/tools/utils/LaterInit.java:29-34 | an initialised cell is unchanged; an uninitialised one takes the value; either way the cell ends up initialised |
| LaterInit.Get | src/main/java/com/microsoft/azure/spark/tools/utils/LaterInit.java:41-47 | fails with the not-initialised error exactly when the cell is uninitialised; otherwise gives the stored value |
| LaterInit.Observed | src/main/java/com/microsoft/azure/spark/tools/utils/LaterInit.java:17-19 | the observable yields a value exactly when the cell holds a non-null value, and it is that value |
| LaterInit.InitialisedIsFinal | src/main/java/com/microsoft/azure/spark/tools/utils/LaterInit.java:21-34 | after initialisation no sequence of `set`/`setIfNull` changes the cell, and the sequence raises an error exactly when it contains a `set` |
| LaterInit.FirstWriteWins | src/main/java/com/microsoft/azure/spark/tools/utils/LaterInit.java:21-47 | the first `set` or `setIfNull` on a new cell fixes what `get` and the observable return, whatever follows |
| LivySparkBatch.StateChecksOf | src/main/java/com/microsoft/azure/spark/tools/job/LivySparkBatch.java:693-721 | for a state naming a batch state ignoring case, `isDone` holds exactly for shutting_down, error, dead and success, `isRunning` exactly for running and `isSuccess` exactly for success |
| LivySparkBatch.IsDone | src/main/java/com/microsoft/azure/spark/tools/job/LivySparkBatch.java:693-709 | fails with the `valueOf` error on the upper-cased text when it names no batch state; otherwise holds exactly for SHUTTING_DOWN, ERROR, DEAD and SUCCESS |
| LivySparkBatch.IsRunning | src/main/java/com/microsoft/azure/spark/tools/job/LivySparkBatch.java:712-715 | fails with the `valueOf` error when the upper-cased text names no batch state; otherwise holds exactly for RUNNING |
| LivySparkBatch.IsSuccess | src/main/java/com/microsoft/azure/spark/tools/job/LivySparkBatch.java:717-720 | fails with the `valueOf` error when the upper-cased text names no batch state; otherwise holds exactly for SUCCESS |
| LivySparkBatch.ValueOfState | src/main/java/com/microsoft/azure/spark/tools/job/LivySparkBatch.java:695 | a state equal to a batch state's name ignoring case is looked up as that state |
| LivySparkBatch.UnknownStateFails | src/main/java/com/microsoft/azure/spark/tools/job/LivySparkBatch.java:695-719 | a state naming no batch state makes all three checks fail with the `valueOf` error on the upper-cased text |
| LivySparkBatch.ChecksConsistent | src/main/java/com/microsoft/azure/spark/tools/job/LivySparkBatch.java:693-721 | a successful state is done, a running state is not done, and the three checks fail on exactly the same inputs |
| LivySparkBatch.AliveIffNotDone | src/main/java/com/microsoft/azure/spark/tools/job/LivySparkBatch.java:693-711 | apart from shutting_down, a state is alive in the response's sense exactly when the job does not consider it done |
| LivySparkBatch.StartDecisionOf | src/main/java/com/microsoft/azure/spark/tools/job/LivySparkBatch.java:744-763 | `awaitStarted` fails on an unknown state, fails with "The Spark job failed to start due to " + the joined log exactly for a done state that is not success, and otherwise keeps waiting or emits the state |
| LivySparkBatch.StartDecisionOfState | src/main/java/com/microsoft/azure/spark/tools/job/LivySparkBatch.java:754-763 | for a known state the decision keeps waiting exactly when the state is neither done nor running, and emits the state exactly when it is running |
| LivySparkBatch.CreateBatchJob | src/main/java/com/microsoft/azure/spark/tools/job/LivySparkBatch.java:237-259 | a 2xx reply with a readable body yields its batch id; a 2xx reply without one fails with "Bad spark job response: " + message; every other code fails with the code, type and reason |
| LivySparkBatch.KillBatchJob | src/main/java/com/microsoft/azure/spark/tools/job/LivySparkBatch.java:266-280 | as written, the kill fails exactly for codes above 300, with the code and the reason in the message |
| LivySparkBatch.KillAccepts300 | src/main/java/com/microsoft/azure/spark/tools/job/LivySparkBatch.java:271 | as written, the kill accepts code 300, which the job's other reply checks reject |
| LivySparkBatch.KillBatchJobCorrected | src/main/java/com/microsoft/azure/spark/tools/job/LivySparkBatch.java:266-280 | the corrected kill fails exactly for codes outside 200..299 |
| LivySparkBatch.KillChecksCompared | src/main/java/com/microsoft/azure/spark/tools/job/LivySparkBatch.java:244-271 | the two kill checks agree on every code from 200 up except 300, and the corrected one accepts exactly the codes `createBatchJob` accepts |
| LivySparkBatch.Rounds | src/main/java/com/microsoft/azure/spark/tools/job/LivySparkBatch.java:288-316 | the do/while loop runs at least once, and exactly retriesMax times when that is positive |
| LivySparkBatch.FirstDecisive | src/main/java/com/microsoft/azure/spark/tools/job/LivySparkBatch.java:288-316 | the round that ends the loop is the first one whose reply is usable or whose sleep is interrupted |
| LivySparkBatch.RetryOutcomeCases | src/main/java/com/microsoft/azure/spark/tools/job/LivySparkBatch.java:288-316 | the first usable round's value is returned unless an interrupted sleep comes before it, which fails with "Interrupted in retry attempting" |
| LivySparkBatch.RetryExhausted | src/main/java/com/microsoft/azure/spark/tools/job/LivySparkBatch.java:314-316 | when no round ends the loop, the call fails with "…Unknown service error after " + (rounds - 1) + " retries" |
| LivySparkBatch.Retry | src/main/java/com/microsoft/azure/spark/tools/job/LivySparkBatch.java:288-316 | the loop as written computes the outcome described by the rounds above |
| LivySparkBatch.GetState | src/main/java/com/microsoft/azure/spark/tools/job/LivySparkBatch.java:286-317 | `getState` is the retry loop with the state as its usable result |
| LivySparkBatch.GetSparkJobApplicationId | src/main/java/com/microsoft/azure/spark/tools/job/LivySparkBatch.java:327-359 | `getSparkJobApplicationId` is the retry loop with a present application id as its usable result |
| LivySparkBatch.IsActive | src/main/java/com/microsoft/azure/spark/tools/job/LivySparkBatch.java:595-625 | `isActive` is the retry loop with the activity flag as its usable result |
| LivySparkBatch.MissingAppIdRetried | src/main/java/com/microsoft/azure/spark/tools/job/LivySparkBatch.java:335-345 | a 2xx reply without an application id does not end the application-id loop (unless the sleep is interrupted), though it ends the state loop |
| LivySparkBatch.ForwardedLines | src/main/java/com/microsoft/azure/spark/tools/job/LivySparkBatch.java:542-572 | the forwarded lines are exactly the lines that are not "stdout:", "stderr:" or "yarn diagnostics:" after trimming and lower-casing, in their order |
| LivySparkBatch.Poll | src/main/java/com/microsoft/azure/spark/tools/job/LivySparkBatch.java:557-585 | the loop takes at most one round per reply; when it ends with an Error message, that is the message of the last round taken |
| LivySparkBatch.SubmissionLog | src/main/java/com/microsoft/azure/spark/tools/job/LivySparkBatch.java:550-592 | `getSubmissionLog` takes at most one round per reply, and an Error message it ends with comes from the last round taken: a bad reply body's "Bad spark log response: " + body, or an IOException's message |
| LivySparkBatch.Emitted | src/main/java/com/microsoft/azure/spark/tools/job/LivySparkBatch.java:572-590 | the subscriber receives one Log message per forwarded line, in order, then the Error message if there is one |
| LivySparkBatch.PollStops | src/main/java/com/microsoft/azure/spark/tools/job/LivySparkBatch.java:557-590 | the log loop takes rounds until the first one that does not keep it polling (a failure, a page with no lines whose check says stop) and no further, and ends with that round's Error message, if it has one |
| LivySparkBatch.PollOffset | src/main/java/com/microsoft/azure/spark/tools/job/LivySparkBatch.java:576-577 | the offset after the loop is the start plus the number of lines of the pages read |
| LivySparkBatch.PollForwarded | src/main/java/com/microsoft/azure/spark/tools/job/LivySparkBatch.java:570-572 | the lines emitted are the forwarding of all lines of the pages read |
| LivySparkBatch.ForwardedLinesLineByLine | src/main/java/com/microsoft/azure/spark/tools/job/LivySparkBatch.java:570-572 | the filter works line by line, so filtering page by page equals filtering the concatenation |
| LivySparkBatch.SubmissionLogCounts | src/main/java/com/microsoft/azure/spark/tools/job/LivySparkBatch.java:542-592 | `getSubmissionLog` stops at the first round that does not keep it polling, advances the offset by every line received, and emits the filtered lines of the pages read followed by that round's Error message, if any |
| LivySparkBatch.FailureEndsStream | src/main/java/com/microsoft/azure/spark/tools/job/LivySparkBatch.java:564-590 | after pages that keep it polling, a bad reply body or an IOException emits the lines so far and then its Error message, an interrupted sleep emits the lines so far and nothing more, and no later round is taken |
| LivySparkBatch.PollStopsAt | src/main/java/com/microsoft/azure/spark/tools/job/LivySparkBatch.java:557-585 | when the first round that does not keep the loop polling is round k, the loop takes exactly k + 1 rounds and ends with that round's Error message |
| LivySparkBatch.ChecksOfValue | src/main/java/com/microsoft/azure/spark/tools/job/LivySparkBatch.java:693-721 | for a state whose upper-cased text names a batch state, the three checks answer whether it is shutting_down, error, dead or success, whether it is running, and whether it is success |
| LivySparkBatch.DecisionOfValue | src/main/java/com/microsoft/azure/spark/tools/job/LivySparkBatch.java:754-763 | for such a state, `awaitStarted` keeps waiting exactly when the state is neither done nor running, and emits it exactly when it is running |
| HttpErrorStatus.FixedCode | src/main/java/com/microsoft/azure/spark/tools/http/status/ClientError.java:23-59 | every fixed-code subclass has its code (400, 401, 403, 404, 405 and, in ServerError.java, 500); only the unclassified status has none |
| HttpErrorStatus.ClassifyHttpError | src/main/java/com/microsoft/azure/spark/tools/http/status/HttpErrorStatus.java:69-90 | fails with `EntityUtils.toString`'s "Entity may not be null" exactly when the response has no entity; otherwise the status code, message, headers and entity are kept, and the class is the fixed-code subclass for 400, 401, 403, 404, 405 and 500 and unclassified exactly for every other code |
| HttpErrorStatus.ClassOfFixedCode | src/main/java/com/microsoft/azure/spark/tools/http/status/HttpErrorStatus.java:75-89 | with an entity present, each fixed-code class's code classifies back to exactly that class's status; client errors have codes 400-499 and server errors 500-599 |
| HttpErrorStatus.HeaderLines | src/main/java/com/microsoft/azure/spark/tools/http/status/HttpErrorStatus.java:60-62 | one "name: value" line per non-null header, in order, and one per header when none is null |
| HttpErrorStatus.NullHeadersSkipped | src/main/java/com/microsoft/azure/spark/tools/http/status/HttpErrorStatus.java:61 | null headers contribute nothing: the lines equal those of the list without them |
| HttpErrorStatus.ErrorDetails | src/main/java/com/microsoft/azure/spark/tools/http/status/HttpErrorStatus.java:55-67 | the details start with "Status Code: " + code + a newline and end with "Error message: " + message |
| HttpErrorStatus.ReadStatusCodeOf | src/main/java/com/microsoft/azure/spark/tools/http/status/HttpErrorStatus.java:55-57 | the status code can be read back from the first line of the details |
| PostBatches.SubmissionParameters | src/main/java/com/microsoft/azure/spark/tools/restapi/livy/batches/api/PostBatches.java:298-314 | a key is a submission parameter exactly when it is one of driverMemory, driverCores, executorMemory, executorCores, numExecutors, compared case-sensitively; "conf" is not one |
| PostBatches.Render | src/main/java/com/microsoft/azure/spark/tools/restapi/livy/batches/api/PostBatches.java:266-269 | a value renders as null exactly when it is null, and as a map's text exactly when it is a map |
| PostBatches.FlatJobConfig | src/main/java/com/microsoft/azure/spark/tools/restapi/livy/batches/api/PostBatches.java:255-274 | a missing job config gives no pairs; a "conf" entry that is null or not a map fails; otherwise the pairs are exactly the submission parameters with their rendered values and the "conf" map's entries with theirs |
| PostBatches.LastWins | src/main/java/com/microsoft/azure/spark/tools/restapi/livy/batches/api/PostBatches.java:281-287 | the map has exactly the keys of the pairs, and each key maps to the value of its last pair |
| PostBatches.LastWinsConcat | src/main/java/com/microsoft/azure/spark/tools/restapi/livy/batches/api/PostBatches.java:281-287 | pairs applied later override earlier ones; keys not mentioned later keep their earlier value |
| PostBatches.ApplyPairs | src/main/java/com/microsoft/azure/spark/tools/restapi/livy/batches/api/PostBatches.java:281-287 | the submission-parameter pairs go to the job config and the others to the Spark configuration, each key with its last value |
| PostBatches.ApplyFlattedJobConf | src/main/java/com/microsoft/azure/spark/tools/restapi/livy/batches/api/PostBatches.java:276-292 | the old config is cleared; the result holds exactly the submission parameters given (last value wins) and a "conf" map exactly when some other key was given, holding those keys |
| PostBatches.FlatAfterApply | src/main/java/com/microsoft/azure/spark/tools/restapi/livy/batches/api/PostBatches.java:255-292 | round trip: flattening the config `applyFlattedJobConf` built gives exactly the keys given, each with its last value |
| PostBatches.ParseIntegerSafety | src/main/java/com/microsoft/azure/spark/tools/restapi/livy/batches/api/PostBatches.java:237-253 | null, absent and map values give null; an Integer is itself; anything else is `Integer.parseInt` of its text, null when that fails |
| PostBatches.IntParameter | src/main/java/com/microsoft/azure/spark/tools/restapi/livy/batches/api/PostBatches.java:202-222 | the numeric getters give null for a missing, null or map value, the Integer for an Integer, and `Integer.parseInt` (null on failure) of the text of any other value |
| PostBatches.StringParameter | src/main/java/com/microsoft/azure/spark/tools/restapi/livy/batches/api/PostBatches.java:194-210 | the memory getters fail (ClassCastException) exactly for a non-null non-String value, and otherwise return the stored String |
| PostBatches.GettersAfterApply | src/main/java/com/microsoft/azure/spark/tools/restapi/livy/batches/api/PostBatches.java:194-222 | after `applyFlattedJobConf` the numeric getters parse the last value given for their key and the memory getters return it |
| PostBatches.GetConf | src/main/java/com/microsoft/azure/spark/tools/restapi/livy/batches/api/PostBatches.java:224-235 | fails for a non-String value in "conf"; otherwise null when "conf" is missing, not a map or empty, and else a copy with the same keys and values |
| PostBatches.GetConfAfterApply | src/main/java/com/microsoft/azure/spark/tools/restapi/livy/batches/api/PostBatches.java:224-292 | after `applyFlattedJobConf`, `getConf` is null exactly when every key given was a submission parameter, and otherwise holds exactly the other keys with their last values |
| BatchState.ValueOf | src/main/java/com/microsoft/azure/spark/tools/restapi/livy/batches/BatchState.java:6-16 | `valueOf` finds the constant whose identifier is the name, and otherwise fails with "No enum constant" + name |
| BatchState.NameInjective | src/main/java/com/microsoft/azure/spark/tools/restapi/livy/batches/BatchState.java:25-28 | two states with the same `toString` name are the same state |
| BatchState.ValueOfUpperName | src/main/java/com/microsoft/azure/spark/tools/restapi/livy/batches/BatchState.java:7-27 | round trip: `valueOf` of the upper-cased `toString` name gives back the state |
| BatchState.Ordinal | src/main/java/com/microsoft/azure/spark/tools/restapi/livy/batches/BatchState.java:6-16 | the ordinal is the state's position in declaration order |
| SparkSubmitResponse.IsAlive | src/main/java/com/microsoft/azure/spark/tools/restapi/SparkSubmitResponse.java:38-42 | a state is alive exactly when it is none of "error", "success", "dead" (case-sensitive) |
| SparkSubmitResponse.IsAliveOfState | src/main/java/com/microsoft/azure/spark/tools/restapi/SparkSubmitResponse.java:38-42 | of the batch states' names, exactly error, success and dead are not alive |
| SparkSubmitResponse.UpperCaseIsAlive | src/main/java/com/microsoft/azure/spark/tools/restapi/SparkSubmitResponse.java:38-42 | the comparison is case-sensitive: "DEAD", "ERROR", "SUCCESS" count as alive |
| YarnApp.IsFinished | src/main/java/com/microsoft/azure/spark/tools/restapi/yarn/rm/apps/appid/App.java:217-221 | finished exactly when the upper-cased state is FINISHED, FAILED or KILLED |
| YarnApp.LiveStatesNotFinished | src/main/java/com/microsoft/azure/spark/tools/restapi/yarn/rm/apps/appid/App.java:217-221 | of the eight Yarn states, NEW to RUNNING are not finished and FINISHED, FAILED, KILLED are |
| YarnApp.IsFinishedIgnoresCase | src/main/java/com/microsoft/azure/spark/tools/restapi/yarn/rm/apps/appid/App.java:218 | two states equal ignoring case are both finished or both not |
| YarnApp.ResourceRequests | src/main/java/com/microsoft/azure/spark/tools/restapi/yarn/rm/apps/appid/App.java:76-78 | the stored list, or the empty list when there is none |
| HttpErrorStatus.ReadStatusCodeOfText | src/main/java/com/microsoft/azure/spark/tools/http/status/HttpErrorStatus.java:55-57 | the number on the "Status Code: " line reads back as that line's integer, whatever follows |
| BatchState.ConstantNameInjective | src/main/java/com/microsoft/azure/spark/tools/restapi/livy/batches/BatchState.java:6-16 | no two constants share an identifier |
| BatchState.AllStatesListed | src/main/java/com/microsoft/azure/spark/tools/restapi/livy/batches/BatchState.java:6-16 | the list of states holds every constant, and no constant twice |
| MockHttpService.CompleteUrlFor | src/test/java/com/microsoft/azure/spark/tools/utils/MockHttpService.java:117-123 | the URL is the scheme's origin on localhost and the port, then the URI without leading '/', so exactly one '/' follows the port |
| MockHttpService.CompleteUrl | src/test/java/com/microsoft/azure/spark/tools/utils/MockHttpService.java:117-119 | the URL starts with the http origin on localhost and the port, then the URI with its leading '/'s stripped |
| MockHttpService.CompleteHttpsUrl | src/test/java/com/microsoft/azure/spark/tools/utils/MockHttpService.java:121-123 | the URL starts with the https origin on localhost and the HTTPS port, then the URI with its leading '/'s stripped |
| MockHttpService.StubPlain | src/test/java/com/microsoft/azure/spark/tools/utils/MockHttpService.java:68-74 | `stub` appends one stub, keeps the others, matches the action and the exact URL with no body pattern, and answers the status with no headers and the template rendered with the port |
| MockHttpService.StubHttps | src/test/java/com/microsoft/azure/spark/tools/utils/MockHttpService.java:76-82 | `stubHttps` appends one stub, keeps the others, matches the action and the URL path with no body pattern, and answers the status with no headers and the rendered template |
| MockHttpService.StripLeadingIdempotent | src/test/java/com/microsoft/azure/spark/tools/utils/MockHttpService.java:118 | stripping the leading '/'s a second time removes nothing |
| MockHttpService.StripLeadingSlashes | src/test/java/com/microsoft/azure/spark/tools/utils/MockHttpService.java:118 | any number of '/' in front of a text strip to what the text strips to |
| MockHttpService.LeadingSlashesIrrelevant | src/test/java/com/microsoft/azure/spark/tools/utils/MockHttpService.java:117-123 | both URLs are the same however many '/' the URI starts with |
| MockHttpService.SlashExamples | src/test/java/com/microsoft/azure/spark/tools/utils/MockHttpService.java:117-119 | "/foo", "//foo" and "foo" complete to the same URL |
| MockHttpService.CompleteUrlAppends | src/test/java/com/microsoft/azure/spark/tools/utils/MockHttpService.java:117-119 | a URI not starting with '/' is appended to the origin unchanged |
| MockHttpService.TemplateProperties | src/test/java/com/microsoft/azure/spark/tools/utils/MockHttpService.java:62-66 | the template properties hold exactly one key, "port" |
| MockHttpService.TemplatePortParses | src/test/java/com/microsoft/azure/spark/tools/utils/MockHttpService.java:62-66 | the "port" property reads back as the port |
| MockHttpService.PathOf | src/test/java/com/microsoft/azure/spark/tools/utils/MockHttpService.java:79 | the path of a URL is a prefix of it without '?' |
| MockHttpService.Register | src/test/java/com/microsoft/azure/spark/tools/utils/MockHttpService.java:68-115 | registering appends one stub and keeps the others; its body is the template rendered with the service's properties at registration |
| MockHttpService.Serve | src/test/java/com/microsoft/azure/spark/tools/utils/MockHttpService.java:68-106 | a request is answered by a registered stub that matches it, and by none exactly when no stub matches |
| MockHttpService.ServeSkipsLater | src/test/java/com/microsoft/azure/spark/tools/utils/MockHttpService.java:68-106 | stubs registered after, none of which match the request, do not change the answer |
| MockHttpService.RenderedAtRegistration | src/test/java/com/microsoft/azure/spark/tools/utils/MockHttpService.java:68-115 | a plain stub answers its URL with its status and the body rendered when it was registered, whatever non-matching stubs follow |
| MockHttpService.HttpsIgnoresQuery | src/test/java/com/microsoft/azure/spark/tools/utils/MockHttpService.java:76-82 | a path stub answers its path with any query string appended |
| LogInputStream.NewStream | src/main/java/com/microsoft/azure/spark/tools/processes/SparkJobLogInputStream.java:24-30 | a new stream has the given log type, no job, no log URL, offset 0 and nothing left to read |
| LogInputStream.AttachJob | src/main/java/com/microsoft/azure/spark/tools/processes/SparkJobLogInputStream.java:32-36 | attaching records the job, returns it, and changes nothing else |
| LogInputStream.FetchLog | src/main/java/com/microsoft/azure/spark/tools/processes/SparkJobLogInputStream.java:38-43 | `fetchLog` returns no slice, whatever offset and size are asked |
| LogInputStream.SignedByte | src/main/java/com/microsoft/azure/spark/tools/processes/SparkJobLogInputStream.java:59 | a Java byte widened to int lies in -128..127, is congruent to the byte modulo 256, and is negative exactly for bytes from 0x80 up |
| LogInputStream.Read | src/main/java/com/microsoft/azure/spark/tools/processes/SparkJobLogInputStream.java:53-60 | `read` fails with "Beyond the buffer end, needs a new log fetch" exactly when the buffer is used up, and otherwise returns the byte at the cursor sign-extended and moves the cursor by one |
| LogInputStream.ReadCorrected | src/main/java/com/microsoft/azure/spark/tools/processes/SparkJobLogInputStream.java:53-60 | the corrected read fails in the same cases and otherwise returns the byte at the cursor as a value in 0..255 |
| LogInputStream.ReadSignExtends | src/main/java/com/microsoft/azure/spark/tools/processes/SparkJobLogInputStream.java:59 | the two reads agree exactly on bytes below 0x80; from 0x80 up the written one answers 256 less, a negative number |
| LogInputStream.ReadFFIsEndMarker | src/main/java/com/microsoft/azure/spark/tools/processes/SparkJobLogInputStream.java:59 | a buffer holding 0xFF reads as -1, the end-of-stream value, where the corrected read gives 255 |
| LogInputStream.Available | src/main/java/com/microsoft/azure/spark/tools/processes/SparkJobLogInputStream.java:62-82 | with bytes left, their count and no change; with none left, a fetched slice replaces the buffer, rewinds the cursor and moves the offset to the slice's offset plus its `length()` in UTF-16 code units, and no slice answers 0; the answer is always what is left to read afterwards |
| Text.Utf16Length | src/main/java/com/microsoft/azure/spark/tools/processes/SparkJobLogInputStream.java:69 | `String.length()` counts UTF-16 code units: at least one and at most two per character, and exactly one per character exactly when every character lies in the Basic Multilingual Plane |
| LogInputStream.AvailableNow | src/main/java/com/microsoft/azure/spark/tools/processes/SparkJobLogInputStream.java:62-78 | with the stream's own `fetchLog`, a used-up stream answers 0 and stays as it is |
| LogInputStream.Drain | src/main/java/com/microsoft/azure/spark/tools/processes/SparkJobLogInputStream.java:53-82 | after `available` answers n, n corrected reads return the buffer's bytes from the cursor in order and the next read fails |
| LogInputStream.NothingEverProduced | src/main/java/com/microsoft/azure/spark/tools/processes/SparkJobLogInputStream.java:38-82 | from a used-up stream, any sequence of reads, availability checks and attachments yields no byte, answers only 0 and leaves the offset alone |
| LogInputStream.NewStreamIsSilent | src/main/java/com/microsoft/azure/spark/tools/processes/SparkJobLogInputStream.java:28-82 | a new stream never yields a byte |
| UserAgent.NonBlank | src/main/java/com/microsoft/azure/spark/tools/http/UserAgentEntity.java:40-50 | a blank (absent, empty or whitespace-only) version or comment is stored as absent, anything else as given |
| UserAgent.Create | src/main/java/com/microsoft/azure/spark/tools/http/UserAgentEntity.java:31-51 | fails with "Product can't be blank." exactly when the product is blank; otherwise keeps the product, and keeps version and comment exactly when they are not blank |
| UserAgent.ToString | src/main/java/com/microsoft/azure/spark/tools/http/UserAgentEntity.java:53-70 | the rendering starts with the product, and is exactly the product when there is neither version nor comment |
| UserAgent.DecomposeToString | src/main/java/com/microsoft/azure/spark/tools/http/UserAgentEntity.java:53-70 | reading the rendering back (product up to the first '/' or ' ', then "/" version, then " (" comment ")") gives back the entity, for products and versions without those separators |
| UserAgent.NewBuilder | src/main/java/com/microsoft/azure/spark/tools/http/UserAgentEntity.java:72-79 | a new builder has the default version "" and no comments |
| UserAgent.WithVersion | src/main/java/com/microsoft/azure/spark/tools/http/UserAgentEntity.java:87-91 | `version` replaces the version and leaves the rest |
| UserAgent.WithComment | src/main/java/com/microsoft/azure/spark/tools/http/UserAgentEntity.java:99-103 | `comment` appends the comment at the end and leaves the rest |
| UserAgent.WithKeyValue | src/main/java/com/microsoft/azure/spark/tools/http/UserAgentEntity.java:112-118 | fails with "key and value are not allowed to be blank." exactly when either is blank; otherwise appends trim(key) + ":" + trim(value) |
| UserAgent.Build | src/main/java/com/microsoft/azure/spark/tools/http/UserAgentEntity.java:120-122 | `build` is the constructor applied to the product, the version and the comments joined with "; " |
| UserAgent.ToStringProductOnly | src/main/java/com/microsoft/azure/spark/tools/http/UserAgentEntity.java:55-69 | with no version and no comment the rendering is the product exactly |
| UserAgent.DefaultVersionAbsent | src/main/java/com/microsoft/azure/spark/tools/http/UserAgentEntity.java:40-74 | the builder's default version "" yields no version |
| UserAgent.BuildComment | src/main/java/com/microsoft/azure/spark/tools/http/UserAgentEntity.java:120-122 | the built entity has no comment exactly when no comment was added or the only one is blank; otherwise the comment is the "; "-join in insertion order |
| UserAgent.KeyValueRendered | src/main/java/com/microsoft/azure/spark/tools/http/UserAgentEntity.java:112-122 | a single key/value comment renders as product + " (" + trim(key) + ":" + trim(value) + ")" |
| UserAgent.SingleCommentRendered | src/main/java/com/microsoft/azure/spark/tools/http/UserAgentEntity.java:62-67 | a single non-blank comment renders inside " (" and ")" after the product |
| AuthorizationHeader.AuthorizationHeaderOf | src/main/java/com/microsoft/azure/spark/tools/http/AuthorizationHeader.java:39-41 | every authorization header is named "Authorization" and carries the value unchanged |
| AuthorizationHeader.OAuthTokenHeader | src/main/java/com/microsoft/azure/spark/tools/http/AuthorizationHeader.java:10-19 | the value is "Bearer", one space, then the token verbatim |
| AuthorizationHeader.BasicAuthHeader | src/main/java/com/microsoft/azure/spark/tools/http/AuthorizationHeader.java:22-31 | the value is "Basic", one space, then the encoded text verbatim |
| AuthorizationHeader.HeaderCredentials | src/main/java/com/microsoft/azure/spark/tools/http/AuthorizationHeader.java:17-31 | splitting either header value at its first space gives back the scheme and exactly the token or encoded text |
| UriUtils.NormalizeWithSlashEnding | src/main/java/com/microsoft/azure/spark/tools/utils/UriUtils.java:10-23 | an opaque URI (no path) fails, as `getPath()` is null there |
| UriUtils.NormalizeTextWithSlashEnding | src/main/java/com/microsoft/azure/spark/tools/utils/UriUtils.java:25-27 | the String overload fails when `URI.create` rejects the text, and otherwise gives what the URI overload gives for the parsed URI |
| UriUtils.NormalizeAppendsSlash | src/main/java/com/microsoft/azure/spark/tools/utils/UriUtils.java:10-23 | for every well-formed hierarchical URI the result exists, its path is the old path when that ends in "/" and the old path + "/" otherwise (an empty path becomes "/"), and scheme, authority, query and fragment are kept |
| UriUtils.NormalizeIdempotent | src/main/java/com/microsoft/azure/spark/tools/utils/UriUtils.java:10-23 | normalising a normalised URI changes nothing |
| LivyCluster.GetLivyBatchUrl | src/main/java/com/microsoft/azure/spark/tools/clusters/LivyCluster.java:11-13 | an unparsable connection URL fails, as `URI.create` throws |
| LivyCluster.GetLivySessionUrl | src/main/java/com/microsoft/azure/spark/tools/clusters/LivyCluster.java:15-17 | an unparsable connection URL fails, as `URI.create` throws |
| LivyCluster.EndpointResolves | src/main/java/com/microsoft/azure/spark/tools/clusters/LivyCluster.java:11-17 | resolving a plain segment against a parsed base gives the base's scheme and authority with the segment merged onto the base path; the base's query and fragment are dropped; an opaque base gives the segment alone |
| LivyCluster.EndpointAppends | src/main/java/com/microsoft/azure/spark/tools/clusters/LivyCluster.java:11-17 | a connection URL ending in "/" with no query or fragment gives the URL followed by the segment (".../livy/" to ".../livy/batches") |
| LivyCluster.EndpointReplacesLastSegment | src/main/java/com/microsoft/azure/spark/tools/clusters/LivyCluster.java:11-17 | a base path "dir/last" has its last segment replaced by the segment (".../livy" to ".../batches") |
| LivyCluster.MergeAfterSlash | src/main/java/com/microsoft/azure/spark/tools/clusters/LivyCluster.java:11-17 | merging a segment onto a path ending in '/' appends it |
| LivyCluster.ReplaceLast | src/main/java/com/microsoft/azure/spark/tools/clusters/LivyCluster.java:11-17 | merging a segment onto "dir/last" gives "dir/segment" |
| LivyCluster.LivyEndpoint | src/main/java/com/microsoft/azure/spark/tools/clusters/LivyCluster.java:11-17 | resolving a segment against a connection URL fails whenever `URI.create` rejects the URL |
| WasbUri.MatchBlob | src/main/java/com/microsoft/azure/spark/tools/utils/WasbUri.java:74-84 | an input starting with neither "wasb" nor "http" (ignoring case) fails with the unsupported-scheme message; a match yields a container and an account that are non-empty and hold neither '/' nor '.' |
| WasbUri.SplitContainerGreedy | src/main/java/com/microsoft/azure/spark/tools/utils/WasbUri.java:16-19 | the container/account split takes the last '@' before the ".blob." infix, as the regex's backtracking does |
| WasbUri.BlobInfixIgnoringCase | src/main/java/com/microsoft/azure/spark/tools/utils/WasbUri.java:16-23 | the ".blob." infix test is exactly a case-insensitive comparison, as CASE_INSENSITIVE makes it |
| WasbUri.WasbLayoutHolds | src/main/java/com/microsoft/azure/spark/tools/utils/WasbUri.java:16-19 | a wasb match splits the text after "://" into container "@" account ".blob." suffix and the optional "/" path, in that order |
| WasbUri.HttpLayoutHolds | src/main/java/com/microsoft/azure/spark/tools/utils/WasbUri.java:20-23 | an http match splits the text after "://" into account ".blob." suffix "/" container and the optional "/" path; the suffix is non-empty and holds no '/' |
| WasbUri.MatchWasb | src/main/java/com/microsoft/azure/spark/tools/utils/WasbUri.java:16-19 | the wasb pattern only matches text starting with "wasb" ignoring case |
| WasbUri.MatchHttp | src/main/java/com/microsoft/azure/spark/tools/utils/WasbUri.java:20-23 | the http pattern only matches text starting with "http" ignoring case |
| WasbUri.IsTypeSelectsPattern | src/main/java/com/microsoft/azure/spark/tools/utils/WasbUri.java:101-103 | `isType` holds exactly when the prefix-selected pattern matches, so it agrees with the success of `parse`'s matching step |
| WasbUri.AbsolutePath | src/main/java/com/microsoft/azure/spark/tools/utils/WasbUri.java:91-93 | the absolute path starts with '/', is exactly "/" when no path was matched, and is otherwise "/" + the matched path cut at the first '?' or '#' |
| WasbUri.ParseAsWritten | src/main/java/com/microsoft/azure/spark/tools/utils/WasbUri.java:74-99 | `parse` as written succeeds only when the pattern matches and the whole input is a legal URI |
| WasbUri.ParseBlob | src/main/java/com/microsoft/azure/spark/tools/utils/WasbUri.java:74-99 | the corrected `parse` (absolute path from `AbsolutePath`, as in the first row of Findings; the as-written parse is `ParseAsWritten`): succeeds iff the pattern matches and the input is a legal URI; a match failure's message is the matcher's; on success the parts are the captured groups and the raw URI is the parsed input |
| WasbUri.ParseRaw | src/main/java/com/microsoft/azure/spark/tools/utils/WasbUri.java:85 | `URI.create` of the input succeeds exactly when the text parses, and gives that URI |
| WasbUri.GetUri | src/main/java/com/microsoft/azure/spark/tools/utils/WasbUri.java:39-42 | `getUri` succeeds exactly when the wasbs rendering is a legal URI |
| WasbUri.GetUrl | src/main/java/com/microsoft/azure/spark/tools/utils/WasbUri.java:44-51 | `getUrl` succeeds exactly when its formatted https text is a legal URI |
| WasbUri.UriRoundTrip | src/main/java/com/microsoft/azure/spark/tools/utils/WasbUri.java:39-42 | for a location with legal parts, `getUri` succeeds and parsing its text gives back the same container, account, suffix and absolute path |
| WasbUri.UriTextParses | src/main/java/com/microsoft/azure/spark/tools/utils/WasbUri.java:39-42 | the wasbs text of a legal location parses as scheme "wasbs", authority container@account.blob.suffix and the absolute path, with no query or fragment |
| WasbUri.MatchUriText | src/main/java/com/microsoft/azure/spark/tools/utils/WasbUri.java:16-19 | the wasbs text of a legal location matches the wasb pattern with exactly its own parts |
| WasbUri.AsWrittenLosesFirstSegment | src/main/java/com/microsoft/azure/spark/tools/utils/WasbUri.java:91-93 | as written, a matched path "/seg" gives an empty absolute path, because "//seg" is read as an authority; the corrected path is "//seg" |
| WasbUri.AsWrittenRejectsLoneSlash | src/main/java/com/microsoft/azure/spark/tools/utils/WasbUri.java:91-93 | as written, a matched path "/" makes the second `URI.create` fail; the corrected path is "//" |
| WasbUri.AsWrittenAgrees | src/main/java/com/microsoft/azure/spark/tools/utils/WasbUri.java:91-93 | for a missing path, or a path not starting with '/' that parses, the as-written and corrected absolute paths are equal |
| WasbUri.GetUrlSwapsContainer | src/main/java/com/microsoft/azure/spark/tools/utils/WasbUri.java:44-51 | as written, `getUrl` puts the container in the host name and the endpoint suffix as the first path segment |
| WasbUri.GetUrlCorrected | src/main/java/com/microsoft/azure/spark/tools/utils/WasbUri.java:44-51 | the corrected `getUrl` succeeds exactly when its https text (account, suffix, then container in the path) is a legal URI |
| WasbUri.UrlRoundTrip | src/main/java/com/microsoft/azure/spark/tools/utils/WasbUri.java:44-51 | the corrected URL of a legal location is https://account.blob.suffix/container + path, and parsing it gives back the same four parts |
| WasbUri.MatchUrlText | src/main/java/com/microsoft/azure/spark/tools/utils/WasbUri.java:20-23 | the corrected URL text matches the http pattern with exactly the location's parts |
| YarnLogCommon.ParseAmHostHttpAddressHost | src/main/java/com/microsoft/azure/spark/tools/job/YarnContainerLogFetcher.java:283-291 | a host is returned exactly when the address is present and matches "host:port" as a whole (a host without ':' and a decimal port), and it is the part before the ':' |
| YarnLogCommon.HostPortAt | src/main/java/com/microsoft/azure/spark/tools/job/YarnContainerLogFetcher.java:287-289 | an address matches "host:port" exactly when its first ':' is neither first nor last and only digits follow it |
| YarnLogCommon.ParseHostOf | src/main/java/com/microsoft/azure/spark/tools/job/YarnContainerLogFetcher.java:283-291 | a host without ':' followed by ':' and a decimal port parses back to that host |
| YarnLogCommon.ParseHostSamples | src/main/java/com/microsoft/azure/spark/tools/job/YarnContainerLogFetcher.java:262-266 | the documented samples "host.domain.com:8900" and "10.0.0.15:30060" give "host.domain.com" and "10.0.0.15" |
| YarnLogCommon.ParseHostRejects | src/main/java/com/microsoft/azure/spark/tools/job/YarnContainerLogFetcher.java:287-289 | a bare host, a host with an empty port and a port with an empty host give no host |
| YarnLogCommon.MatchLogType | src/main/java/com/microsoft/azure/spark/tools/job/YarnContainerLogFetcher.java:392-396 | a match of "Log Type:\\s+(\\S+)" is the text's non-blank tail after "Log Type:" and at least one blank |
| YarnLogCommon.MatchLogTypeOf | src/main/java/com/microsoft/azure/spark/tools/job/YarnContainerLogFetcher.java:65 | "Log Type:", blanks and a non-blank type match with that type |
| YarnLogCommon.LogTypeOf | src/main/java/com/microsoft/azure/spark/tools/job/YarnContainerLogFetcher.java:392-396 | the type found in a trimmed paragraph text is non-empty and holds no blank |
| YarnLogCommon.LogTypeOfLabel | src/main/java/com/microsoft/azure/spark/tools/job/YarnContainerLogFetcher.java:392-396 | "Log Type:", blanks and a printable type give that type |
| YarnLogCommon.MaxIdIndex | src/main/java/com/microsoft/azure/spark/tools/job/YarnContainerLogFetcher.java:140 | the attempt picked has the greatest id and every attempt before it has a smaller one |
| YarnLogCommon.CurrentAttempt | src/main/java/com/microsoft/azure/spark/tools/job/YarnContainerLogFetcher.java:136-142 | the current attempt is absent exactly when there is none, and otherwise is an attempt with the greatest id |
| YarnLogCommon.CurrentAttemptUnique | src/main/java/com/microsoft/azure/spark/tools/job/YarnSparkApplicationDriverLog.java:130-131 | for attempts with distinct ids, the current attempt does not depend on the order of the list |
| YarnLogCommon.PathOrRoot | src/main/java/com/microsoft/azure/spark/tools/job/YarnContainerLogFetcher.java:91 | a blank path becomes "/" and any other is kept |
| YarnLogCommon.PublicUrl | src/main/java/com/microsoft/azure/spark/tools/job/YarnContainerLogFetcher.java:102-106 | ORIGINAL is the internal URL itself; the other modes start with BASE + host and end with the path ("/" when blank), with nothing between for WITHOUT_PORT and "/port/" + port between for WITH_PORT |
| YarnLogCommon.PublicUrlShapes | src/main/java/com/microsoft/azure/spark/tools/job/YarnContainerLogFetcher.java:102-106 | both proxied URLs start with the base and end with the path, and differ only by "/port/<port>" after the host; the original mode gives the internal URL |
| YarnLogCommon.FirstValid | src/main/java/com/microsoft/azure/spark/tools/job/YarnContainerLogFetcher.java:194-210 | the mode found is the first whose URL is valid, or none is valid |
| YarnContainerLog.IsLogAggregationDone | src/main/java/com/microsoft/azure/spark/tools/job/YarnContainerLogFetcher.java:153-170 | aggregation is done exactly when a report exists and its status is SUCCEEDED, FAILED or TIME_OUT |
| YarnContainerLog.IsYarnAppStop | src/main/java/com/microsoft/azure/spark/tools/job/YarnContainerLogFetcher.java:235-248 | the application has stopped exactly when there is no report or its state is not RUNNING, SUBMITTED or ACCEPTED |
| YarnContainerLog.AggregationNotDone | src/main/java/com/microsoft/azure/spark/tools/job/YarnContainerLogFetcher.java:153-170 | no report, the four statuses listed as not done, and a lower-case "succeeded" are not done |
| YarnContainerLog.FinishedIsStopped | src/main/java/com/microsoft/azure/spark/tools/job/YarnContainerLogFetcher.java:239-248 | a finished application has stopped, but so has one still NEW or with a lower-case state |
| YarnContainerLog.SetFetched | src/main/java/com/microsoft/azure/spark/tools/job/YarnContainerLogFetcher.java:323-327 | the type's offset becomes the larger of the new one and the one recorded (0 when none), and the other types keep theirs |
| YarnContainerLog.RecordAllIsMax | src/main/java/com/microsoft/azure/spark/tools/job/YarnContainerLogFetcher.java:323-327 | after a run of records, a type is present exactly when it was or was recorded, and its offset is the maximum of what was there and every offset recorded for it |
| YarnContainerLog.StoppedPastRecordedNotFetchable | src/main/java/com/microsoft/azure/spark/tools/job/YarnContainerLogFetcher.java:329-333 | once the application has stopped, a recorded type is not fetchable from any offset at or past every offset recorded for it |
| YarnContainerLog.TakeLogs | src/main/java/com/microsoft/azure/spark/tools/job/YarnContainerLogFetcher.java:314-319 | the offset reached is recorded as start plus the log's `length()` in UTF-16 code units, and the log is emitted exactly when it is not empty |
| YarnContainerLog.FetchPage | src/main/java/com/microsoft/azure/spark/tools/job/YarnContainerLogFetcher.java:219-233 | a type that is not fetchable gives nothing and changes no offset; otherwise the page's log for the type is taken |
| YarnContainerLog.StoppedReadEndsAtReachedOffset | src/main/java/com/microsoft/azure/spark/tools/job/YarnContainerLogFetcher.java:316-333 | after a read of a stopped application, asking again from where the read ended or later is not fetchable |
| YarnContainerLog.YarnUiBaseEndsWithSlash | src/main/java/com/microsoft/azure/spark/tools/job/YarnContainerLogFetcher.java:92 | a base URL without query or fragment yields a BASE that ends with '/' |
| YarnContainerLog.YarnUiBase | src/main/java/com/microsoft/azure/spark/tools/job/YarnContainerLogFetcher.java:92 | BASE fails exactly when `normalizeWithSlashEnding` of the Yarn UI base URL fails, with its message |
| YarnContainerLog.Convert | src/main/java/com/microsoft/azure/spark/tools/job/YarnContainerLogFetcher.java:187-216 | a mode found earlier converts without probing; otherwise the first untried mode whose URL is valid is kept and the modes before it are used up, and when none is valid the call fails with "Can't find conversion mode of Yarn " + the node manager URL |
| YarnContainerLog.ConvertToPublicLogUri | src/main/java/com/microsoft/azure/spark/tools/job/YarnContainerLogFetcher.java:187-216 | the loop as written computes that conversion |
| YarnContainerLog.ProbeModes | src/main/java/com/microsoft/azure/spark/tools/job/YarnContainerLogFetcher.java:194-210 | the loop hands out modes until one whose URL is valid, stopping at the first valid mode's position |
| YarnContainerLog.ChosenIsFinal | src/main/java/com/microsoft/azure/spark/tools/job/YarnContainerLogFetcher.java:188-192 | once a mode is kept, later conversions use it and do not depend on what probes would answer |
| YarnContainerLog.RejectedNeverRetried | src/main/java/com/microsoft/azure/spark/tools/job/YarnContainerLogFetcher.java:194-210 | the untried modes only shrink from the front, and once all are rejected every later conversion fails |
| YarnContainerLog.InitialProbingOrder | src/main/java/com/microsoft/azure/spark/tools/job/YarnContainerLogFetcher.java:102-106 | from the start, WITHOUT_PORT is kept if valid, else WITH_PORT, else ORIGINAL |
| YarnContainerLog.ScanStep | src/main/java/com/microsoft/azure/spark/tools/job/YarnContainerLogFetcher.java:350-387 | a paragraph announcing a type drops that type's log and makes it current; a non-empty `<pre>` is stored under the current type, which is then cleared; an empty `<pre>` clears it; anything else changes nothing |
| YarnContainerLog.Scan | src/main/java/com/microsoft/azure/spark/tools/job/YarnContainerLogFetcher.java:350-387 | every type in the result was known before or announced on the page, and every log was there before or is a non-empty `<pre>` text of the page |
| YarnContainerLog.ParseLogsFromHtml | src/main/java/com/microsoft/azure/spark/tools/job/YarnContainerLogFetcher.java:335-390 | no log cell gives no logs; otherwise every type found is the default or announced on the page, with a non-empty `<pre>` text of the page as its log |
| YarnContainerLog.ScanConcat | src/main/java/com/microsoft/azure/spark/tools/job/YarnContainerLogFetcher.java:350-387 | scanning a page in two parts is scanning the parts one after the other |
| YarnContainerLog.ScanSections | src/main/java/com/microsoft/azure/spark/tools/job/YarnContainerLogFetcher.java:350-387 | a history-server page of sections, each a paragraph naming a printable type and a `<pre>` with a non-empty log, yields exactly those logs, a later section of a type replacing an earlier one |
| YarnContainerLog.RunningPage | src/main/java/com/microsoft/azure/spark/tools/job/YarnContainerLogFetcher.java:348-385 | a running application's page, one `<pre>` and no paragraph, yields its text under the default type |
| YarnDriverLog.Ordinal | src/main/java/com/microsoft/azure/spark/tools/job/YarnSparkApplicationDriverLog.java:54-58 | each mode has its declaration position among UNKNOWN, WITHOUT_PORT, WITH_PORT and ORIGINAL |
| YarnDriverLog.Next | src/main/java/com/microsoft/azure/spark/tools/job/YarnSparkApplicationDriverLog.java:60-69 | `next` gives the mode declared next, and none (the NoSuchElementException) exactly after ORIGINAL |
| YarnDriverLog.NextWalk | src/main/java/com/microsoft/azure/spark/tools/job/YarnSparkApplicationDriverLog.java:60-69 | from UNKNOWN, `next` walks WITHOUT_PORT, WITH_PORT, ORIGINAL and then stops |
| YarnDriverLog.DriverBase | src/main/java/com/microsoft/azure/spark/tools/job/YarnSparkApplicationDriverLog.java:206-207 | the Yarn UI base gets a '/' appended exactly when it does not end with one |
| YarnDriverLog.DriverBaseIdempotent | src/main/java/com/microsoft/azure/spark/tools/job/YarnSparkApplicationDriverLog.java:206-207 | adding the '/' twice is adding it once |
| YarnDriverLog.DriverConvert | src/main/java/com/microsoft/azure/spark/tools/job/YarnSparkApplicationDriverLog.java:203-222 | UNKNOWN converts to nothing and ORIGINAL to the internal URL itself |
| YarnDriverLog.DriverConvertShapes | src/main/java/com/microsoft/azure/spark/tools/job/YarnSparkApplicationDriverLog.java:212-216 | the proxied forms start with the base and end with the path, "/" when blank |
| YarnDriverLog.DriverConvertAgrees | src/main/java/com/microsoft/azure/spark/tools/job/YarnSparkApplicationDriverLog.java:203-222 | over a base ending with '/', the driver's conversion is the container fetcher's template for every mode |
| YarnDriverLog.Probe | src/main/java/com/microsoft/azure/spark/tools/job/YarnSparkApplicationDriverLog.java:198-254 | a known mode converts without probing; from UNKNOWN the modes are probed in order: the first URL that is not refused decides, keeping its mode and returning it when it responds below 300, and ending the conversion in the exception's message, mode still UNKNOWN, when its GET throws; when every URL is refused, nothing is returned and the mode stays UNKNOWN |
| YarnDriverLog.ProbeErrorContrast | src/main/java/com/microsoft/azure/spark/tools/job/YarnSparkApplicationDriverLog.java:198-235 | a probe GET that throws on the first mode ends the driver's conversion in that error, while the container fetcher's `onErrorReturn(false)` makes it drop the mode and probe WITH_PORT next, exactly as for a refusal (the readings `YarnLogCommon.Decisive` and `YarnLogCommon.ValidOrFalse` of the same answers) |
| YarnLogCommon.ReadingsCompared | src/main/java/com/microsoft/azure/spark/tools/job/YarnContainerLogFetcher.java:181-185 | a URL the container fetcher finds valid (`onErrorReturn(false)`, the reading `ValidOrFalse`) also decides the driver's probe (no `onErrorReturn`, the reading `Decisive`); the two readings differ exactly on the URLs whose GET throws, and the driver's probe goes on exactly on a refusal |
| YarnDriverLog.ConvertToPublicLogUri | src/main/java/com/microsoft/azure/spark/tools/job/YarnSparkApplicationDriverLog.java:224-254 | the loop as written, whose `filter` rethrows a failed probe GET, computes that probe |
| YarnDriverLog.FailedProbeRetries | src/main/java/com/microsoft/azure/spark/tools/job/YarnSparkApplicationDriverLog.java:224-254 | a probe that finds nothing or fails leaves the mode UNKNOWN, so the next URL is probed afresh and a URL that has come up since is kept |
| YarnDriverLog.KnownModeIsFinal | src/main/java/com/microsoft/azure/spark/tools/job/YarnSparkApplicationDriverLog.java:226-227 | a known mode stays and converts over the base with its '/' |
| YarnDriverLog.GetDriverLog | src/main/java/com/microsoft/azure/spark/tools/job/YarnSparkApplicationDriverLog.java:256-281 | a URL differing from the remembered one (ignoring case) is remembered and read from 0, otherwise the caller's offset is used; a read that throws ends the stream with its message, an empty log emits nothing, any other emits the log with the offset used |
| YarnDriverLog.AsWrittenNeverEmits | src/main/java/com/microsoft/azure/spark/tools/job/YarnSparkApplicationDriverLog.java:339-343 | as written, the page request is the literal "$baseUrl/" resolved against the reference and has no scheme, so for every plain log type, log URL and page content the read comes to "" and `getDriverLog` emits nothing |
| YarnDriverLog.AsWrittenRequest | src/main/java/com/microsoft/azure/spark/tools/job/YarnSparkApplicationDriverLog.java:339-340 | the as-written request resolves, and has no scheme |
| YarnDriverLog.ReadLogFetchesUnderLogUrl | src/main/java/com/microsoft/azure/spark/tools/job/YarnSparkApplicationDriverLog.java:339-343 | with the log URL in place of the literal, the read is exactly what `page` gives at "<log URL>/<type>?start=<start>" and its parameters, a failure included, for an absolute log URL with a host and no query or fragment |
| YarnDriverLog.CorrectedFirstRead | src/main/java/com/microsoft/azure/spark/tools/job/YarnSparkApplicationDriverLog.java:256-281 | the corrected first read of a log URL remembers it and emits the page's log under that URL with offset 0, nothing when the log is empty, and the read's error when the page scan throws past the `catch` |
| YarnDriverLog.RereadKeepsOffset | src/main/java/com/microsoft/azure/spark/tools/job/YarnSparkApplicationDriverLog.java:262-267 | reading the same URL again in any case keeps the first spelling and the caller's offset; a different URL starts from 0 |
| YarnDriverLog.PageStep | src/main/java/com/microsoft/azure/spark/tools/job/YarnSparkApplicationDriverLog.java:354-381 | a paragraph announcing a type makes it pending; a `<pre>` becomes the last text and, when a type is pending, is stored under it, empty or not |
| YarnDriverLog.ScanPage | src/main/java/com/microsoft/azure/spark/tools/job/YarnSparkApplicationDriverLog.java:354-381 | every text the loop ends with, last or stored under a type, was there at the start or is the text of one of the page's `<pre>` elements |
| YarnDriverLog.SelectLog | src/main/java/com/microsoft/azure/spark/tools/job/YarnSparkApplicationDriverLog.java:352-383 | the text read for a type is "" or the text of one of the page's `<pre>` elements |
| YarnDriverLog.ScanLast | src/main/java/com/microsoft/azure/spark/tools/job/YarnSparkApplicationDriverLog.java:368-373 | the loop's last text is the page's last `<pre>` text |
| YarnDriverLog.UnannouncedGivesLastPre | src/main/java/com/microsoft/azure/spark/tools/job/YarnSparkApplicationDriverLog.java:383 | a type the page never announces reads as the last `<pre>` text |
| YarnDriverLog.NoPreGivesEmpty | src/main/java/com/microsoft/azure/spark/tools/job/YarnSparkApplicationDriverLog.java:352-383 | a page with no `<pre>` and no announcement of the type reads as "" |
| YarnDriverLog.TypedSectionSelected | src/main/java/com/microsoft/azure/spark/tools/job/YarnSparkApplicationDriverLog.java:357-383 | a section naming the type, with no later announcement of it, is the text read for the type |
| YarnDriverLog.ScanConcat | src/main/java/com/microsoft/azure/spark/tools/job/YarnSparkApplicationDriverLog.java:354-381 | scanning a page in two parts is scanning the parts one after the other |
| YarnDriverLog.DriverHost | src/main/java/com/microsoft/azure/spark/tools/job/YarnSparkApplicationDriverLog.java:314-322 | the driver's host parser follows the same "host:port" rule |
| YarnDriverLog.IsAggregationDone | src/main/java/com/microsoft/azure/spark/tools/job/YarnSparkApplicationDriverLog.java:174-187 | aggregation is done exactly for SUCCEEDED, FAILED and TIME_OUT |
| YarnDriverLog.AggregationDoneAgrees | src/main/java/com/microsoft/azure/spark/tools/job/YarnSparkApplicationDriverLog.java:174-187 | the driver's test agrees with the container fetcher's for a known report |

## Left out

- Rx scheduling, sleeps, timeouts and thread interruption are not modelled. The retry and polling loops are modelled over the sequence of replies they receive. An interrupted sleep is one more kind of reply.
- The repeat-until loops of `getJobDoneObservable`, `awaitLogAggregationDone`, the Yarn `fetch` repetition and the retry of `getSparkJobDriverLogUrl` are left out. They are Rx operator chains around the decisions that the model does cover.
- HTTP transport, JSON (de)serialisation, HtmlUnit and Jsoup page parsing are left out. A log page arrives as its list of child elements. A probe arrives as what its GET comes to: a reply below 300, another reply, or an exception with its message. `unescapeHtml4` is the parameter `unescape`.
- The Groovy template engine of `MockHttpService` is the parameter `render`. WireMock's JSON body comparison is the parameter `jsonEqual`. Server start-up, recording and file mappings are left out.
- `String.getBytes` is the parameter `encode`, because the platform charset is not part of the code.
- Base64 encoding of the basic authorization header is left out, along with the platform decoding of its bytes. The Basic header takes the decoded text.
- The UTC clock and `UUID.randomUUID` of `Deployable` are parameters.
- The driver log reader's page is the parameter `page`: the log text the page at a URL yields; "" when the request fails with an HTTP status or an I/O error, which the `catch` at YarnSparkApplicationDriverLog.java:384 takes; and a failure for an exception it does not take (the NullPointerException of a page without a "navcell" element or without an element after it, at :345-346, or the ClassCastException at :343), which ends the log stream. The request is modelled with `java.net.URI`; opening a URL without a scheme reads as "", as the MalformedURLException is caught. See the last row of "## Findings".
- YarnDriverLog.AsWrittenNeverEmits: stated for log types of letters and digits (such as "stdout" and "stderr"). A type with other characters is still modelled by `ReadLogAsWritten`, and one that is not a legal URI reference fails the request.
- `java.net.URI` is modelled only for the forms the code builds. Left out are percent-decoding, dot-segment removal in `resolve`, IPv6 literals and server-authority validation.
- `URI.create` of the text produced by `StrSubstitutor` in the container fetcher is not modelled, nor is recursive variable substitution. The public URL is the substituted text.
- Case conversion and `equalsIgnoreCase` are modelled on ASCII letters only. `String.toUpperCase` with a non-ASCII locale is left out.
- Text.ParseInt32: accepts ASCII digits only, whereas `Integer.parseInt` also accepts the decimal digits of other Unicode scripts.
- WasbUri.MatchBlob: a failure carries the text given to `UnknownFormatConversionException`; the exception's `getMessage()` wraps it as "Conversion = '…'", which is not modelled.
- `getSubmissionLog` asks `getSparkJobApplicationIdObservable` whether an application id is allocated. A failure of that call is not modelled: Rx rethrows it unchecked, past the loop's `catch` clauses.
- HashMap iteration order is unspecified in the code. `PostBatches.FlatJobConfig` is therefore stated as a set of pairs, not an ordered list.
- `PostBatches` does not compute the text of a nested map's `toString`, whose entries come in hash order. The rendering keeps the map itself.
- The messages of `LaterInit`'s exceptions start with the cell's `Object.toString()`, which is left out. The two error kinds are modelled.
- A null state reaching `isDone` raises a NullPointerException in the code. The model takes the state as a string that is always present.
- The Azure cluster types are reduced to the fields the URL logic reads: name, region and endpoints.
- The parent class's default parameters in `AzureHttp` are left out. They are a parameter of `AzureHttp.DefaultParameters`.
- Logging calls are left out.

## Findings

| source | as written | input that shows it | evidently intended | confidence | as-written member | corrected member |
|---|---|---|---|---|---|---|
| src/main/java/com/microsoft/azure/spark/tools/utils/WasbUri.java:91-93 | the absolute path is `URI.create("/" + path).getPath()`, so a matched path that starts with '/' makes its first segment an authority | "wasbs://c@a.blob.x//seg" has the path "/seg"; its absolute path comes out "" | the matched path, with a leading '/', kept as it is | medium, not executed | WasbUri.AsWrittenLosesFirstSegment | WasbUri.AbsolutePath |
| src/main/java/com/microsoft/azure/spark/tools/utils/WasbUri.java:44-51 | `getUrl` formats the storage account, then the container, then the endpoint suffix into "https://%s.blob.%s/%s%s" | container "c", account "a", suffix "core.windows.net" gives host "a.blob.c" and path "/core.windows.net/..." | "https://a.blob.core.windows.net/c/...", which `parse` reads back as the same blob | high, not executed | WasbUri.GetUrlSwapsContainer | WasbUri.UrlRoundTrip |
| src/main/java/com/microsoft/azure/spark/tools/clusters/ArcadiaComputeDetail.java:79-90 | `parseFromLivyUrl` passes the workspace capture as `sparkCompute` and the compute capture as `workspace` (constructor at line 37) | any workspace-in-host Livy URL: the workspace "w" becomes the compute name | each name read from its own capture | high, not executed | ArcadiaCompute.ParseFromLivyUrlSwapsNames | ArcadiaCompute.ParseFromLivyUrlCorrectedOf |
| src/main/java/com/microsoft/azure/spark/tools/job/LivySparkBatch.java:271 | `killBatchJob` fails only for codes above 300 | code 300 is accepted as a successful kill; `createBatchJob` (line 244) rejects it | codes outside 200..299 rejected | low, not executed | LivySparkBatch.KillAccepts300 | LivySparkBatch.KillChecksCompared |
| src/main/java/com/microsoft/azure/spark/tools/processes/SparkJobLogInputStream.java:53-60 | `read` returns `buffer[bufferPos++]`, a sign-extended Java byte | the byte 0xFF reads as -1, the value `InputStream` reserves for the end of the stream | the byte as a value in 0..255 | high, not executed | LogInputStream.ReadFFIsEndMarker | LogInputStream.Drain |
| src/main/java/com/microsoft/azure/spark/tools/job/YarnSparkApplicationDriverLog.java:339-340 | the page request is `URI.create("$baseUrl/").resolve(...)`; Java does not interpolate "$baseUrl", so the request is a relative URI without scheme, the page cannot be opened, and the caught MalformedURLException makes every read "" | any log URL with type "stdout": `getDriverLog` never emits a log | `URI.create(baseUrl + "/")`, reading the page under the log URL | high, not executed | YarnDriverLog.AsWrittenNeverEmits | YarnDriverLog.ReadLogFetchesUnderLogUrl |

=== FILE: ambari_http.dfy ===
/** AmbariHttpObservable: an HTTP client for the Ambari REST API, which
    wants an "X-Requested-By: ambari" header on every request. The header
    group is computed once from the parent's and memoised; since the memo
    holds the group itself, `setContentType` (which updates the group that
    `getDefaultHeaderGroup` returns) changes the memoised group. */
module AmbariHttp {
  import opened Wrappers
  import opened Text
  import opened Headers
  import Lazy

  const XRequestedBy := "X-Requested-By"
  const AmbariValue := "ambari"
  const ContentType := "Content-Type"

  /** The marker header, matched ignoring case in name and value. */
  predicate IsAmbariMarker(h: NameValue) {
    EqualsIgnoreCase(h.name, XRequestedBy) && EqualsIgnoreCase(h.value, AmbariValue)
  }

  /** The group built on first use: the parent headers without any
      marker, then one marker. */
  function AmbariGroup(parent: seq<NameValue>): (r: seq<NameValue>)
    ensures |r| >= 1 && r[|r| - 1] == NameValue(XRequestedBy, AmbariValue)
    ensures forall i :: 0 <= i < |r| - 1 ==> !IsAmbariMarker(r[i])
    ensures forall h :: h in r[..|r| - 1] <==> h in parent && !IsAmbariMarker(h)
    ensures SubsequenceOf(r[..|r| - 1], parent)
  {
    var kept := Without(parent, IsAmbariMarker);
    WithoutSubsequence(parent, IsAmbariMarker);
    var r := kept + [NameValue(XRequestedBy, AmbariValue)];
    assert r[..|r| - 1] == kept;
    assert forall i :: 0 <= i < |r| - 1 ==> r[i] in kept;
    r
  }

  /** An X-Requested-By header with another value, and every header of
      another name, is kept. */
  lemma OthersKept(parent: seq<NameValue>, h: NameValue)
    requires h in parent
    requires !EqualsIgnoreCase(h.name, XRequestedBy) || !EqualsIgnoreCase(h.value, AmbariValue)
    ensures h in AmbariGroup(parent)
  {
    var r := AmbariGroup(parent);
    assert h in r[..|r| - 1];
  }

  /** The parent's default header group and the memoised Ambari group. */
  datatype AmbariHttp = AmbariHttp(parentGroup: seq<NameValue>, group: Option<seq<NameValue>>)

  /** `getDefaultHeaderGroup`: the memo, or the group computed now. */
  function DefaultHeaderGroup(o: AmbariHttp): (r: (AmbariHttp, seq<NameValue>))
    ensures r.0.group == Some(r.1) && r.0.parentGroup == o.parentGroup
    ensures o.group.Some? ==> r == (o, o.group.value)
    ensures o.group.None? ==> r.1 == AmbariGroup(o.parentGroup)
  {
    if o.group.Some? then (o, o.group.value)
    else
      var g := AmbariGroup(o.parentGroup);
      (o.(group := Some(g)), g)
  }

  /** The memo is the `Lazy.getOrEvaluate` it is built on. */
  lemma DefaultHeaderGroupIsLazy(o: AmbariHttp)
    ensures var r := DefaultHeaderGroup(o);
            Lazy.GetOrEvaluate(Lazy.Cell(false, o.group), Lazy.Returned(Some(AmbariGroup(o.parentGroup))))
              == Success((Lazy.Cell(false, r.0.group), Some(r.1)))
  {
  }

  /** `setContentType(type)`: `updateHeader` on the group returned by
      `getDefaultHeaderGroup`, which is the memoised one. */
  function SetContentType(o: AmbariHttp, contentType: string): (r: AmbariHttp)
    ensures r.parentGroup == o.parentGroup && r.group.Some?
    ensures NameValue(ContentType, contentType) in r.group.value
  {
    var (o1, g) := DefaultHeaderGroup(o);
    o1.(group := Some(UpdateHeader(g, NameValue(ContentType, contentType))))
  }

  /** The group is computed once: later calls return it, whatever the
      parent's group has become since, and a content-type update made in
      between is what they return. */
  lemma ComputedOnce(o: AmbariHttp, laterParent: seq<NameValue>, contentType: string)
    ensures var o1 := DefaultHeaderGroup(o).0;
            DefaultHeaderGroup(o1.(parentGroup := laterParent)).1 == DefaultHeaderGroup(o).1
    ensures var o2 := SetContentType(o, contentType);
            DefaultHeaderGroup(o2).1 == UpdateHeader(DefaultHeaderGroup(o).1, NameValue(ContentType, contentType))
  {
  }
}

=== FILE: arcadia_compute.dfy ===
/** ArcadiaComputeDetail: the two shapes of an Arcadia Livy URL.

    The workspace-in-hostname shape is
      `https?://<workspace>.spark.projectarcadia.net[:<port>]/versions/<api>/sparkcomputes/<compute>[/]`
    and the no-workspace shape is
      `https?://arcadia-spark-service-prod.<region><suffix>[:<port>]/versions/<api>/sparkcomputes/<compute>[/]`,
    both matched in full and ignoring case.  The two regular expressions are
    replaced by recognisers that make the choices the regular expression
    engine makes; each recogniser comes with a renderer, and the two are
    proved inverse to each other up to letter case. */
module ArcadiaCompute {
  import opened Wrappers
  import opened Text
  import opened Uri

  datatype LivyUrlType = NoWorkspace | WorkspaceInHostname | Unknown

  datatype ArcadiaComputeDetail = ArcadiaComputeDetail(
    sparkCompute: string,
    workspace: string,
    livyConnectionUrl: string)

  /** `/versions/(?<apiVersion>[^/]+)/sparkcomputes/(?<compute>[^/]+)/?`. */
  datatype Tail = Tail(apiVersion: string, compute: string, trailingSlash: bool)

  /** What a match of the workspace-in-hostname pattern determines. */
  datatype WorkspaceMatch = WorkspaceMatch(secure: bool, workspace: string, port: Option<string>, tail: Tail)

  /** What a match of the no-workspace pattern determines: `host` is the
      text `(?<region>[^/.]+)(?<suffix>[^/:]+)(:(?<port>[0-9]+))?` matched. */
  datatype NoWorkspaceMatch = NoWorkspaceMatch(secure: bool, host: string, tail: Tail)

  const HostSuffix := ".spark.projectarcadia.net"
  const ServiceHost := "arcadia-spark-service-prod."
  const Versions := "/versions/"
  const SparkComputes := "/sparkcomputes/"
  const BadUrl := "Bad Arcadia URL: "

  /** `[^/]+`. */
  predicate IsSegment(s: string) {
    |s| >= 1 && NoChar(s, '/')
  }

  /** `[^/.]+`. */
  predicate IsWorkspaceName(s: string) {
    |s| >= 1 && NoneIn(s, {'/', '.'})
  }

  /** `[0-9]+`. */
  predicate IsPort(s: string) {
    |s| >= 1 && AllDigits(s)
  }

  // ---------------------------------------------------------- rendering

  function SchemeText(secure: bool): string {
    if secure then "https://" else "http://"
  }

  function PortText(port: Option<string>): string {
    if port.Some? then ":" + port.value else ""
  }

  function SlashText(slash: bool): string {
    if slash then "/" else ""
  }

  function TailText(t: Tail): string {
    Versions + (t.apiVersion + (SparkComputes + (t.compute + SlashText(t.trailingSlash))))
  }

  function WorkspaceUrl(m: WorkspaceMatch): string {
    SchemeText(m.secure) + (m.workspace + (HostSuffix + (PortText(m.port) + TailText(m.tail))))
  }

  function NoWorkspaceUrl(m: NoWorkspaceMatch): string {
    SchemeText(m.secure) + (ServiceHost + (m.host + TailText(m.tail)))
  }

  predicate ValidTail(t: Tail) {
    IsSegment(t.apiVersion) && IsSegment(t.compute)
  }

  predicate ValidWorkspaceMatch(m: WorkspaceMatch) {
    IsWorkspaceName(m.workspace) && (m.port.Some? ==> IsPort(m.port.value)) && ValidTail(m.tail)
  }

  // ------------------------------------------------- the service host

  /** Region `h[..i]` and suffix `h[i..]` split the host as the pattern's
      `[^/.]+` and `[^/:]+` require. */
  ghost predicate RegionSuffixAt(h: string, i: int) {
    1 <= i < |h| && NoneIn(h[..i], {'/', '.'}) && NoneIn(h[i..], {'/', ':'})
  }

  ghost predicate IsRegionSuffix(h: string) {
    exists i :: RegionSuffixAt(h, i)
  }

  /** The text after the ':' at `p` is the port and the text before it
      splits into region and suffix. */
  ghost predicate PortSplitAt(h: string, p: int) {
    0 <= p < |h| && h[p] == ':' && IsPort(h[p + 1..]) && IsRegionSuffix(h[..p])
  }

  /** Region, suffix and optional port, as the regular expression reads
      them with backtracking. */
  ghost predicate ServiceHostSpec(h: string) {
    IsRegionSuffix(h) || exists p :: PortSplitAt(h, p)
  }

  ghost predicate ValidNoWorkspaceMatch(m: NoWorkspaceMatch) {
    NoChar(m.host, '/') && ServiceHostSpec(m.host) && ValidTail(m.tail)
  }

  /** A split exists exactly when some position lies at or after the last
      ':' (plus one), at or before the first '.', and inside the text. */
  predicate SplitsRegionSuffix(h: string) {
    var d := IndexOf(h, '.');
    var c := LastIndexOf(h, ':') + 1;
    var lo := if c < 1 then 1 else c;
    lo <= d && lo < |h|
  }

  /** A port can only follow the last ':', since digits hold none. */
  predicate IsServiceHost(h: string) {
    || SplitsRegionSuffix(h)
    || (var p := LastIndexOf(h, ':');
        p >= 0 && IsPort(h[p + 1..]) && SplitsRegionSuffix(h[..p]))
  }

  lemma SplitsRegionSuffixMeans(h: string)
    requires NoChar(h, '/')
    ensures SplitsRegionSuffix(h) <==> IsRegionSuffix(h)
  {
    var d := IndexOf(h, '.');
    var c := LastIndexOf(h, ':') + 1;
    var lo := if c < 1 then 1 else c;
    if SplitsRegionSuffix(h) {
      assert RegionSuffixAt(h, lo) by {
        forall j | 0 <= j < lo ensures h[..lo][j] !in {'/', '.'} {
          assert h[..lo][j] == h[..d][j];
        }
        forall j | 0 <= j < |h| - lo ensures h[lo..][j] !in {'/', ':'} {
          assert h[lo..][j] == h[lo + j];
        }
      }
    }
    if IsRegionSuffix(h) {
      var i :| RegionSuffixAt(h, i);
      RegionSuffixBounds(h, i);
    }
  }

  lemma RegionSuffixBounds(h: string, i: int)
    requires RegionSuffixAt(h, i)
    ensures LastIndexOf(h, ':') + 1 <= i <= IndexOf(h, '.')
  {
    assert forall j :: 0 <= j < i ==> h[j] == h[..i][j];
    assert forall j :: i <= j < |h| ==> h[j] == h[i..][j - i];
  }

  lemma ServiceHostDecides(h: string)
    requires NoChar(h, '/')
    ensures IsServiceHost(h) <==> ServiceHostSpec(h)
  {
    SplitsRegionSuffixMeans(h);
    var p := LastIndexOf(h, ':');
    if IsServiceHost(h) && !SplitsRegionSuffix(h) {
      PortSplitMeans(h, p);
      assert PortSplitAt(h, p);
    }
    if ServiceHostSpec(h) && !IsRegionSuffix(h) {
      var q :| PortSplitAt(h, q);
      PortAfterLastColon(h, q);
      PortSplitMeans(h, q);
    }
  }

  lemma PortSplitMeans(h: string, p: int)
    requires NoChar(h, '/') && 0 <= p < |h|
    ensures SplitsRegionSuffix(h[..p]) <==> IsRegionSuffix(h[..p])
  {
    assert NoChar(h[..p], '/') by {
      assert forall j :: 0 <= j < p ==> h[..p][j] == h[j];
    }
    SplitsRegionSuffixMeans(h[..p]);
  }

  /** The ':' before a run of digits is the last ':'. */
  lemma PortAfterLastColon(h: string, q: nat)
    requires q < |h| && h[q] == ':' && IsPort(h[q + 1..])
    ensures LastIndexOf(h, ':') == q
  {
    forall j | q < j < |h| ensures h[j] != ':' {
      assert h[j] == h[q + 1..][j - q - 1];
    }
    LastIndexOfAt(h, ':', q);
  }

  // ---------------------------------------------------------- matching

  /** Two pieces matched ignoring case make the whole. */
  lemma Glue(s: string, k: nat, a: string, b: string)
    requires k <= |s| && EqualsIgnoreCase(s[..k], a) && EqualsIgnoreCase(s[k..], b)
    ensures EqualsIgnoreCase(s, a + b)
  {
    assert s == s[..k] + s[k..];
    EqualsIgnoreCaseConcat(s[..k], s[k..], a, b);
  }

  /** Three pieces matched ignoring case make the whole. */
  lemma Glue3(s: string, i: nat, j: nat, a: string, b: string, c: string)
    requires i <= j <= |s|
    requires EqualsIgnoreCase(s[..i], a) && EqualsIgnoreCase(s[i..j], b) && EqualsIgnoreCase(s[j..], c)
    ensures EqualsIgnoreCase(s, a + (b + c))
  {
    assert s[i..] == s[i..j] + s[j..];
    EqualsIgnoreCaseConcat(s[i..j], s[j..], b, c);
    Glue(s, i, a, b + c);
  }

  /** A prefix found ignoring case at `k`. */
  lemma PrefixAt(s: string, k: nat, p: string)
    requires k <= |s| && StartsWithIgnoreCase(s[k..], p)
    ensures k + |p| <= |s| && EqualsIgnoreCase(s[k..k + |p|], p)
  {
    assert s[k..][..|p|] == s[k..k + |p|];
  }

  /** The workspace name, the host suffix and what follows it. */
  lemma HostGlue(rest: string, k: nat, pt: string)
    requires k <= |rest| && NoneIn(rest[..k], {'/', '.'})
    requires StartsWithIgnoreCase(rest[k..], HostSuffix) && EqualsIgnoreCase(rest[k + 25..], pt)
    ensures IsWorkspaceName(rest[..k]) || k == 0
    ensures EqualsIgnoreCase(rest, rest[..k] + (HostSuffix + pt))
  {
    PrefixAt(rest, k, HostSuffix);
    Glue3(rest, k, k + 25, rest[..k], HostSuffix, pt);
  }

  /** The ':', the port and what follows it. */
  lemma PortGlue(p: string, j: nat, tt: string)
    requires 1 <= j <= |p| && p[0] == ':' && EqualsIgnoreCase(p[j..], tt)
    ensures EqualsIgnoreCase(p, PortText(Some(p[1..j])) + tt)
  {
    assert p[..j] == PortText(Some(p[1..j]));
    Glue(p, j, PortText(Some(p[1..j])), tt);
  }

  /** `https?://` ignoring case: whether the 's' was there, and the rest. */
  function MatchScheme(s: string): (r: Option<(bool, string)>)
    ensures r.Some? ==> && |SchemeText(r.value.0)| <= |s|
                        && EqualsIgnoreCase(s[..|SchemeText(r.value.0)|], SchemeText(r.value.0))
                        && r.value.1 == s[|SchemeText(r.value.0)|..]
  {
    if StartsWithIgnoreCase(s, "https://") then Some((true, s[8..]))
    else if StartsWithIgnoreCase(s, "http://") then Some((false, s[7..]))
    else None
  }

  /** `/versions/` ignoring case, then the API version and the compute.
      What it accepts is a valid tail spelled in some letter case. */
  function MatchTail(x: string): (r: Option<Tail>)
    ensures r.Some? ==> ValidTail(r.value) && EqualsIgnoreCase(x, TailText(r.value))
  {
    if StartsWithIgnoreCase(x, Versions) then
      var u := x[10..];
      match MatchApi(u)
      case None => None
      case Some(t) =>
        Glue(x, 10, Versions, t.apiVersion + (SparkComputes + (t.compute + SlashText(t.trailingSlash))));
        Some(t)
    else None
  }

  /** `(?<apiVersion>[^/]+)/sparkcomputes/` and the compute after it. */
  function MatchApi(u: string): (r: Option<Tail>)
    ensures r.Some? ==> && ValidTail(r.value)
                        && EqualsIgnoreCase(u, r.value.apiVersion + (SparkComputes + (r.value.compute + SlashText(r.value.trailingSlash))))
  {
    var j := IndexOf(u, '/');
    if 1 <= j && StartsWithIgnoreCase(u[j..], SparkComputes) then
      match MatchCompute(u[j + 15..])
      case None => None
      case Some(c) =>
        PrefixAt(u, j, SparkComputes);
        Glue3(u, j, j + 15, u[..j], SparkComputes, c.0 + SlashText(c.1));
        Some(Tail(u[..j], c.0, c.1))
    else None
  }

  /** `(?<compute>[^/]+)/?` up to the end of the text. */
  function MatchCompute(c: string): (r: Option<(string, bool)>)
    ensures r.Some? ==> IsSegment(r.value.0) && c == r.value.0 + SlashText(r.value.1)
  {
    var m := IndexOf(c, '/');
    if m == 0 then None
    else if m == |c| then
      assert c[..m] == c;
      Some((c, false))
    else if m == |c| - 1 then
      assert c == c[..m] + "/";
      Some((c[..m], true))
    else None
  }

  /** `(:(?<port>[0-9]+))?` and then the tail. */
  function MatchPortTail(p: string): (r: Option<(Option<string>, Tail)>)
    ensures r.Some? ==> && (r.value.0.Some? ==> IsPort(r.value.0.value))
                        && ValidTail(r.value.1)
                        && EqualsIgnoreCase(p, PortText(r.value.0) + TailText(r.value.1))
  {
    if p != [] && p[0] == ':' then
      var j := IndexOf(p, '/');
      if IsPort(p[1..j]) then
        match MatchTail(p[j..])
        case None => None
        case Some(t) =>
          PortGlue(p, j, TailText(t));
          Some((Some(p[1..j]), t))
      else None
    else
      match MatchTail(p)
      case None => None
      case Some(t) => Some((None, t))
  }

  /** `LIVY_URL_WORKSPACE_IN_HOSTNAME_PATTERN.matcher(s).matches()`.  What
      it accepts is the rendering, in some letter case, of a valid match. */
  function MatchWorkspaceUrl(s: string): (r: Option<WorkspaceMatch>)
    ensures r.Some? ==> ValidWorkspaceMatch(r.value) && EqualsIgnoreCase(s, WorkspaceUrl(r.value))
  {
    match MatchScheme(s)
    case None => None
    case Some(sr) =>
      match MatchWorkspaceHost(sr.0, sr.1)
      case None => None
      case Some(m) =>
        Glue(s, |SchemeText(sr.0)|, SchemeText(sr.0), m.workspace + (HostSuffix + (PortText(m.port) + TailText(m.tail))));
        Some(m)
  }

  /** The workspace runs to the first '/' or '.', which must begin
      ".spark.projectarcadia.net". */
  function MatchWorkspaceHost(secure: bool, rest: string): (r: Option<WorkspaceMatch>)
    ensures r.Some? ==> && r.value.secure == secure && ValidWorkspaceMatch(r.value)
                        && EqualsIgnoreCase(rest, r.value.workspace + (HostSuffix + (PortText(r.value.port) + TailText(r.value.tail))))
  {
    var k := IndexOfAny(rest, {'/', '.'});
    NameBeforeDelimiter(rest);
    WorkspaceHostAt(secure, rest, k)
  }

  /** Nothing before the first '/' or '.' is either. */
  lemma NameBeforeDelimiter(rest: string)
    ensures NoneIn(rest[..IndexOfAny(rest, {'/', '.'})], {'/', '.'})
  {
    var k := IndexOfAny(rest, {'/', '.'});
    forall i | 0 <= i < k ensures rest[..k][i] !in {'/', '.'} {
      assert rest[..k][i] == rest[i];
    }
  }

  /** The workspace host with the name ending at `k`. */
  function WorkspaceHostAt(secure: bool, rest: string, k: nat): (r: Option<WorkspaceMatch>)
    requires k <= |rest| && NoneIn(rest[..k], {'/', '.'})
    ensures r.Some? ==> && r.value.secure == secure && ValidWorkspaceMatch(r.value)
                        && EqualsIgnoreCase(rest, r.value.workspace + (HostSuffix + (PortText(r.value.port) + TailText(r.value.tail))))
  {
    if 1 <= k && StartsWithIgnoreCase(rest[k..], HostSuffix) then
      match MatchPortTail(rest[k + 25..])
      case None => None
      case Some(pt) =>
        HostGlue(rest, k, PortText(pt.0) + TailText(pt.1));
        Some(WorkspaceMatch(secure, rest[..k], pt.0, pt.1))
    else None
  }

  /** `LIVY_URL_NO_WORKSPACE_IN_HOSTNAME_PATTERN.matcher(s).matches()`.
      What it accepts is the rendering, in some letter case, of a valid
      match. */
  function MatchNoWorkspaceUrl(s: string): (r: Option<NoWorkspaceMatch>)
    ensures r.Some? ==> ValidNoWorkspaceMatch(r.value) && EqualsIgnoreCase(s, NoWorkspaceUrl(r.value))
  {
    match MatchScheme(s)
    case None => None
    case Some(sr) =>
      var rest := sr.1;
      if StartsWithIgnoreCase(rest, ServiceHost) then
        match MatchServiceHost(sr.0, rest[27..])
        case None => None
        case Some(m) =>
          var ht := m.host + TailText(m.tail);
          Glue(rest, 27, ServiceHost, ht);
          Glue(s, |SchemeText(sr.0)|, SchemeText(sr.0), ServiceHost + ht);
          Some(m)
      else None
  }

  /** Region, suffix and port all lie before the first '/'. */
  function MatchServiceHost(secure: bool, h: string): (r: Option<NoWorkspaceMatch>)
    ensures r.Some? ==> && r.value.secure == secure && ValidNoWorkspaceMatch(r.value)
                        && EqualsIgnoreCase(h, r.value.host + TailText(r.value.tail))
  {
    var j := IndexOf(h, '/');
    if IsServiceHost(h[..j]) then
      match MatchTail(h[j..])
      case None => None
      case Some(t) =>
        ServiceHostDecides(h[..j]);
        Glue(h, j, h[..j], TailText(t));
        Some(NoWorkspaceMatch(secure, h[..j], t))
    else None
  }

  // ------------------------------------------- rendering, then matching

  /** `p + x` starts with `p` in any case, and `x` follows it. */
  lemma AfterPrefix(p: string, x: string)
    ensures StartsWithIgnoreCase(p + x, p) && (p + x)[|p|..] == x
  {
    StartsWithIgnoreCaseOf(p, x);
  }

  lemma MatchSchemeOf(secure: bool, rest: string)
    ensures MatchScheme(SchemeText(secure) + rest) == Some((secure, rest))
  {
    var s := SchemeText(secure) + rest;
    AfterPrefix(SchemeText(secure), rest);
    if !secure {
      assert !StartsWithIgnoreCase(s, "https://") by {
        if |s| >= 8 {
          assert ToLower(s[..8])[4] == ':' != ToLower("https://")[4];
        }
      }
    }
  }

  lemma MatchComputeOf(c: string, slash: bool)
    requires IsSegment(c)
    ensures MatchCompute(c + SlashText(slash)) == Some((c, slash))
  {
    var x := c + SlashText(slash);
    if slash {
      IndexOfJoin(c, '/', []);
      assert x == c + (['/'] + []);
      assert x[..|c|] == c;
    } else {
      assert x == c;
    }
  }

  lemma MatchApiOf(t: Tail)
    requires ValidTail(t)
    ensures MatchApi(t.apiVersion + (SparkComputes + (t.compute + SlashText(t.trailingSlash)))) == Some(t)
  {
    var cs := t.compute + SlashText(t.trailingSlash);
    var u := t.apiVersion + (SparkComputes + cs);
    var j := |t.apiVersion|;
    assert IndexOf(u, '/') == j by {
      assert u == t.apiVersion + (['/'] + ("sparkcomputes/" + cs));
      IndexOfJoin(t.apiVersion, '/', "sparkcomputes/" + cs);
    }
    assert u[j..] == SparkComputes + cs;
    AfterPrefix(SparkComputes, cs);
    assert u[j + 15..] == cs;
    assert u[..j] == t.apiVersion;
    MatchComputeOf(t.compute, t.trailingSlash);
  }

  lemma MatchTailOf(t: Tail)
    requires ValidTail(t)
    ensures MatchTail(TailText(t)) == Some(t)
  {
    var u := t.apiVersion + (SparkComputes + (t.compute + SlashText(t.trailingSlash)));
    AfterPrefix(Versions, u);
    MatchApiOf(t);
  }

  lemma MatchPortTailOf(port: Option<string>, t: Tail)
    requires port.Some? ==> IsPort(port.value)
    requires ValidTail(t)
    ensures MatchPortTail(PortText(port) + TailText(t)) == Some((port, t))
  {
    if port.Some? {
      MatchPortTailWith(port.value, t);
    } else {
      assert PortText(port) + TailText(t) == TailText(t);
      MatchPortTailWithout(t);
    }
  }

  lemma MatchPortTailWithout(t: Tail)
    requires ValidTail(t)
    ensures MatchPortTail(TailText(t)) == Some((None, t))
  {
    assert TailText(t)[0] == '/';
    MatchTailOf(t);
  }

  lemma MatchPortTailWith(d: string, t: Tail)
    requires IsPort(d) && ValidTail(t)
    ensures MatchPortTail(PortText(Some(d)) + TailText(t)) == Some((Some(d), t))
  {
    var p := PortText(Some(d)) + TailText(t);
    PortThenTail(d, TailText(t));
    var j := |d| + 1;
    var q := p[j..];
    assert MatchTail(q) == Some(t) by {
      MatchTailOf(t);
    }
  }

  lemma PortThenTail(d: string, tt: string)
    requires IsPort(d) && tt != [] && tt[0] == '/'
    ensures var p := PortText(Some(d)) + tt;
            var j := IndexOf(p, '/');
            p != [] && p[0] == ':' && j == |d| + 1 && p[1..j] == d && p[j..] == tt
  {
    var p := PortText(Some(d)) + tt;
    var pre := [':'] + d;
    assert NoChar(pre, '/') by {
      assert forall i :: 1 <= i < |pre| ==> pre[i] == d[i - 1];
    }
    assert p == pre + (['/'] + tt[1..]);
    IndexOfJoin(pre, '/', tt[1..]);
    assert p[1..|pre|] == d;
    assert p[|pre|..] == tt;
  }

  lemma MatchWorkspaceHostOf(m: WorkspaceMatch)
    requires ValidWorkspaceMatch(m)
    ensures MatchWorkspaceHost(m.secure, m.workspace + (HostSuffix + (PortText(m.port) + TailText(m.tail)))) == Some(m)
  {
    var pt := PortText(m.port) + TailText(m.tail);
    var rest := m.workspace + (HostSuffix + pt);
    var k := |m.workspace|;
    assert IndexOfAny(rest, {'/', '.'}) == k by {
      IndexOfAnyConcat(m.workspace, HostSuffix + pt, {'/', '.'});
      assert IndexOfAny(HostSuffix + pt, {'/', '.'}) == 0;
    }
    assert rest[k..] == HostSuffix + pt;
    AfterPrefix(HostSuffix, pt);
    assert rest[k + 25..] == pt;
    assert rest[..k] == m.workspace;
    MatchPortTailOf(m.port, m.tail);
  }

  lemma MatchWorkspaceUrlOf(m: WorkspaceMatch)
    requires ValidWorkspaceMatch(m)
    ensures MatchWorkspaceUrl(WorkspaceUrl(m)) == Some(m)
  {
    MatchSchemeOf(m.secure, m.workspace + (HostSuffix + (PortText(m.port) + TailText(m.tail))));
    MatchWorkspaceHostOf(m);
  }

  lemma MatchServiceHostOf(m: NoWorkspaceMatch)
    requires ValidNoWorkspaceMatch(m)
    ensures MatchServiceHost(m.secure, m.host + TailText(m.tail)) == Some(m)
  {
    var tt := TailText(m.tail);
    var h := m.host + tt;
    assert h == m.host + (['/'] + tt[1..]);
    IndexOfJoin(m.host, '/', tt[1..]);
    var j := |m.host|;
    assert h[..j] == m.host;
    assert h[j..] == tt;
    ServiceHostDecides(m.host);
    MatchTailOf(m.tail);
  }

  lemma MatchNoWorkspaceUrlOf(m: NoWorkspaceMatch)
    requires ValidNoWorkspaceMatch(m)
    ensures MatchNoWorkspaceUrl(NoWorkspaceUrl(m)) == Some(m)
  {
    var h := m.host + TailText(m.tail);
    MatchSchemeOf(m.secure, ServiceHost + h);
    AfterPrefix(ServiceHost, h);
    MatchServiceHostOf(m);
  }

  // ------------------------------------------------------ case variants

  /** Two tails that differ at most in letter case. */
  predicate TailLike(a: Tail, b: Tail) {
    && EqualsIgnoreCase(a.apiVersion, b.apiVersion)
    && EqualsIgnoreCase(a.compute, b.compute)
    && a.trailingSlash == b.trailingSlash
  }

  /** Two workspace matches that differ at most in letter case (a port is
      digits, which have one spelling). */
  predicate WorkspaceLike(a: WorkspaceMatch, b: WorkspaceMatch) {
    a.secure == b.secure && EqualsIgnoreCase(a.workspace, b.workspace) && a.port == b.port && TailLike(a.tail, b.tail)
  }

  predicate NoWorkspaceLike(a: NoWorkspaceMatch, b: NoWorkspaceMatch) {
    a.secure == b.secure && EqualsIgnoreCase(a.host, b.host) && TailLike(a.tail, b.tail)
  }

  /** The recognisers take the same decisions on two spellings of a text,
      and capture the same pieces up to letter case: every character they
      search for is a non-letter and every literal is compared ignoring
      case. */
  lemma MatchSchemeCase(x: string, y: string)
    requires EqualsIgnoreCase(x, y)
    ensures MatchScheme(x).Some? <==> MatchScheme(y).Some?
    ensures MatchScheme(x).Some? ==> && MatchScheme(x).value.0 == MatchScheme(y).value.0
                                     && EqualsIgnoreCase(MatchScheme(x).value.1, MatchScheme(y).value.1)
  {
    EqualsIgnoreCaseSameLength(x, y);
    StartsWithIgnoringCase(x, y, "https://");
    StartsWithIgnoringCase(x, y, "http://");
    if |x| >= 8 {
      EqualsIgnoreCaseSlice(x, y, 8, |x|);
    }
    if |x| >= 7 {
      EqualsIgnoreCaseSlice(x, y, 7, |x|);
    }
  }

  lemma MatchComputeCase(x: string, y: string)
    requires EqualsIgnoreCase(x, y)
    ensures MatchCompute(x).Some? <==> MatchCompute(y).Some?
    ensures MatchCompute(x).Some? ==> && MatchCompute(x).value.1 == MatchCompute(y).value.1
                                      && EqualsIgnoreCase(MatchCompute(x).value.0, MatchCompute(y).value.0)
  {
    EqualsIgnoreCaseSameLength(x, y);
    IndexOfIgnoringCase(x, y, '/');
    EqualsIgnoreCaseSlice(x, y, 0, IndexOf(x, '/'));
  }

  lemma MatchApiCase(x: string, y: string)
    requires EqualsIgnoreCase(x, y)
    ensures MatchApi(x).Some? <==> MatchApi(y).Some?
    ensures MatchApi(x).Some? ==> TailLike(MatchApi(x).value, MatchApi(y).value)
  {
    IndexOfIgnoringCase(x, y, '/');
    var j := IndexOf(x, '/');
    EqualsIgnoreCaseSlice(x, y, 0, j);
    EqualsIgnoreCaseSlice(x, y, j, |x|);
    StartsWithIgnoringCase(x[j..], y[j..], SparkComputes);
    if j + 15 <= |x| {
      EqualsIgnoreCaseSlice(x, y, j + 15, |x|);
      MatchComputeCase(x[j + 15..], y[j + 15..]);
    }
  }

  lemma MatchTailCase(x: string, y: string)
    requires EqualsIgnoreCase(x, y)
    ensures MatchTail(x).Some? <==> MatchTail(y).Some?
    ensures MatchTail(x).Some? ==> TailLike(MatchTail(x).value, MatchTail(y).value)
  {
    StartsWithIgnoringCase(x, y, Versions);
    if |x| >= 10 {
      EqualsIgnoreCaseSlice(x, y, 10, |x|);
      MatchApiCase(x[10..], y[10..]);
    }
  }

  lemma MatchPortTailCase(x: string, y: string)
    requires EqualsIgnoreCase(x, y)
    ensures MatchPortTail(x).Some? <==> MatchPortTail(y).Some?
    ensures MatchPortTail(x).Some? ==> && MatchPortTail(x).value.0 == MatchPortTail(y).value.0
                                       && TailLike(MatchPortTail(x).value.1, MatchPortTail(y).value.1)
  {
    EqualsIgnoreCaseSameLength(x, y);
    if x != [] {
      EqualsIgnoreCaseAt(x, y, 0);
      CaseFreeAgree(x[0], y[0], ':');
    }
    if x != [] && x[0] == ':' {
      IndexOfIgnoringCase(x, y, '/');
      var j := IndexOf(x, '/');
      EqualsIgnoreCaseSlice(x, y, 1, j);
      DigitsIgnoringCase(x[1..j], y[1..j]);
      EqualsIgnoreCaseSlice(x, y, j, |x|);
      MatchTailCase(x[j..], y[j..]);
    } else {
      MatchTailCase(x, y);
    }
  }

  lemma MatchWorkspaceHostCase(secure: bool, x: string, y: string)
    requires EqualsIgnoreCase(x, y)
    ensures MatchWorkspaceHost(secure, x).Some? <==> MatchWorkspaceHost(secure, y).Some?
    ensures MatchWorkspaceHost(secure, x).Some? ==>
              WorkspaceLike(MatchWorkspaceHost(secure, x).value, MatchWorkspaceHost(secure, y).value)
  {
    assert CaseFree('/') && CaseFree('.');
    IndexOfAnyIgnoringCase(x, y, {'/', '.'});
    var k := IndexOfAny(x, {'/', '.'});
    EqualsIgnoreCaseSlice(x, y, 0, k);
    EqualsIgnoreCaseSlice(x, y, k, |x|);
    StartsWithIgnoringCase(x[k..], y[k..], HostSuffix);
    NameBeforeDelimiter(x);
    NameBeforeDelimiter(y);
    assert MatchWorkspaceHost(secure, x) == WorkspaceHostAt(secure, x, k);
    assert MatchWorkspaceHost(secure, y) == WorkspaceHostAt(secure, y, k);
    WorkspaceHostUnfold(secure, x, k);
    WorkspaceHostUnfold(secure, y, k);
    if k + 25 <= |x| {
      EqualsIgnoreCaseSlice(x, y, k + 25, |x|);
      MatchPortTailCase(x[k + 25..], y[k + 25..]);
    }
  }

  /** The workspace host: the name up to `k`, the suffix, then the port
      and the tail. */
  lemma WorkspaceHostUnfold(secure: bool, rest: string, k: nat)
    requires k <= |rest| && NoneIn(rest[..k], {'/', '.'})
    ensures WorkspaceHostAt(secure, rest, k) ==
              if 1 <= k && StartsWithIgnoreCase(rest[k..], HostSuffix) && MatchPortTail(rest[k + 25..]).Some?
              then Some(WorkspaceMatch(secure, rest[..k], MatchPortTail(rest[k + 25..]).value.0,
                                       MatchPortTail(rest[k + 25..]).value.1))
              else None
  {
  }

  /** A workspace URL is a scheme, then the workspace host. */
  lemma WorkspaceUrlUnfold(s: string)
    requires MatchScheme(s).Some?
    ensures MatchWorkspaceUrl(s) == MatchWorkspaceHost(MatchScheme(s).value.0, MatchScheme(s).value.1)
  {
  }

  /** A no-workspace URL is a scheme, the service host prefix, then the
      region, suffix and port. */
  lemma NoWorkspaceUrlUnfold(s: string)
    requires MatchScheme(s).Some?
    ensures var rest := MatchScheme(s).value.1;
            MatchNoWorkspaceUrl(s) ==
              if StartsWithIgnoreCase(rest, ServiceHost) then MatchServiceHost(MatchScheme(s).value.0, rest[27..]) else None
  {
  }

  lemma MatchWorkspaceUrlCase(x: string, y: string)
    requires EqualsIgnoreCase(x, y)
    ensures MatchWorkspaceUrl(x).Some? <==> MatchWorkspaceUrl(y).Some?
    ensures MatchWorkspaceUrl(x).Some? ==> WorkspaceLike(MatchWorkspaceUrl(x).value, MatchWorkspaceUrl(y).value)
  {
    MatchSchemeCase(x, y);
    if MatchScheme(x).Some? {
      var a, b := MatchScheme(x).value, MatchScheme(y).value;
      MatchWorkspaceHostCase(a.0, a.1, b.1);
      WorkspaceUrlUnfold(x);
      WorkspaceUrlUnfold(y);
    }
  }

  lemma SplitsRegionSuffixCase(x: string, y: string)
    requires EqualsIgnoreCase(x, y)
    ensures SplitsRegionSuffix(x) <==> SplitsRegionSuffix(y)
  {
    EqualsIgnoreCaseSameLength(x, y);
    IndexOfIgnoringCase(x, y, '.');
    LastIndexOfIgnoringCase(x, y, ':');
  }

  lemma IsServiceHostCase(x: string, y: string)
    requires EqualsIgnoreCase(x, y)
    ensures IsServiceHost(x) <==> IsServiceHost(y)
  {
    SplitsRegionSuffixCase(x, y);
    LastIndexOfIgnoringCase(x, y, ':');
    var p := LastIndexOf(x, ':');
    if p >= 0 {
      EqualsIgnoreCaseSlice(x, y, 0, p);
      EqualsIgnoreCaseSlice(x, y, p + 1, |x|);
      DigitsIgnoringCase(x[p + 1..], y[p + 1..]);
      SplitsRegionSuffixCase(x[..p], y[..p]);
    }
  }

  lemma MatchServiceHostCase(secure: bool, x: string, y: string)
    requires EqualsIgnoreCase(x, y)
    ensures MatchServiceHost(secure, x).Some? <==> MatchServiceHost(secure, y).Some?
    ensures MatchServiceHost(secure, x).Some? ==>
              NoWorkspaceLike(MatchServiceHost(secure, x).value, MatchServiceHost(secure, y).value)
  {
    IndexOfIgnoringCase(x, y, '/');
    var j := IndexOf(x, '/');
    EqualsIgnoreCaseSlice(x, y, 0, j);
    EqualsIgnoreCaseSlice(x, y, j, |x|);
    IsServiceHostCase(x[..j], y[..j]);
    MatchTailCase(x[j..], y[j..]);
  }

  lemma MatchNoWorkspaceUrlCase(x: string, y: string)
    requires EqualsIgnoreCase(x, y)
    ensures MatchNoWorkspaceUrl(x).Some? <==> MatchNoWorkspaceUrl(y).Some?
    ensures MatchNoWorkspaceUrl(x).Some? ==> NoWorkspaceLike(MatchNoWorkspaceUrl(x).value, MatchNoWorkspaceUrl(y).value)
  {
    MatchSchemeCase(x, y);
    if MatchScheme(x).Some? {
      var a, b := MatchScheme(x).value, MatchScheme(y).value;
      StartsWithIgnoringCase(a.1, b.1, ServiceHost);
      if |a.1| >= 27 {
        EqualsIgnoreCaseSlice(a.1, b.1, 27, |a.1|);
        MatchServiceHostCase(a.0, a.1[27..], b.1[27..]);
      }
      NoWorkspaceUrlUnfold(x);
      NoWorkspaceUrlUnfold(y);
    }
  }

  /** Every spelling of a valid workspace URL, in any mix of letter case,
      is accepted, and the captures are the given ones spelled as in the
      URL. */
  lemma MatchWorkspaceUrlIgnoringCase(s: string, m: WorkspaceMatch)
    requires ValidWorkspaceMatch(m) && EqualsIgnoreCase(s, WorkspaceUrl(m))
    ensures MatchWorkspaceUrl(s).Some? && WorkspaceLike(MatchWorkspaceUrl(s).value, m)
  {
    MatchWorkspaceUrlOf(m);
    MatchWorkspaceUrlCase(WorkspaceUrl(m), s);
  }

  /** The same for the no-workspace shape. */
  lemma MatchNoWorkspaceUrlIgnoringCase(s: string, n: NoWorkspaceMatch)
    requires ValidNoWorkspaceMatch(n) && EqualsIgnoreCase(s, NoWorkspaceUrl(n))
    ensures MatchNoWorkspaceUrl(s).Some? && NoWorkspaceLike(MatchNoWorkspaceUrl(s).value, n)
  {
    MatchNoWorkspaceUrlOf(n);
    MatchNoWorkspaceUrlCase(NoWorkspaceUrl(n), s);
  }

  /** The workspace pattern accepts exactly the spellings, in any letter
      case, of the renderings of valid matches. */
  lemma WorkspaceUrlAccepted(s: string)
    ensures MatchWorkspaceUrl(s).Some? <==> exists m :: ValidWorkspaceMatch(m) && EqualsIgnoreCase(s, WorkspaceUrl(m))
  {
    if MatchWorkspaceUrl(s).Some? {
      var m := MatchWorkspaceUrl(s).value;
      assert ValidWorkspaceMatch(m) && EqualsIgnoreCase(s, WorkspaceUrl(m));
    }
    if exists m :: ValidWorkspaceMatch(m) && EqualsIgnoreCase(s, WorkspaceUrl(m)) {
      var m :| ValidWorkspaceMatch(m) && EqualsIgnoreCase(s, WorkspaceUrl(m));
      MatchWorkspaceUrlIgnoringCase(s, m);
    }
  }

  /** The no-workspace pattern accepts exactly the spellings, in any letter
      case, of the renderings of valid matches. */
  lemma NoWorkspaceUrlAccepted(s: string)
    ensures MatchNoWorkspaceUrl(s).Some? <==> exists n :: ValidNoWorkspaceMatch(n) && EqualsIgnoreCase(s, NoWorkspaceUrl(n))
  {
    if MatchNoWorkspaceUrl(s).Some? {
      var n := MatchNoWorkspaceUrl(s).value;
      assert ValidNoWorkspaceMatch(n) && EqualsIgnoreCase(s, NoWorkspaceUrl(n));
    }
    if exists n :: ValidNoWorkspaceMatch(n) && EqualsIgnoreCase(s, NoWorkspaceUrl(n)) {
      var n :| ValidNoWorkspaceMatch(n) && EqualsIgnoreCase(s, NoWorkspaceUrl(n));
      MatchNoWorkspaceUrlIgnoringCase(s, n);
    }
  }

  // ---------------------------------------------------------- the class

  /** `probeLivyUrlType`: the no-workspace pattern is tried first, so a
      URL the one-argument factory accepts probes as WORKSPACE_IN_HOSTNAME
      only when the no-workspace pattern rejects it. */
  function ProbeLivyUrlType(url: string): (r: LivyUrlType)
    ensures r == NoWorkspace <==> MatchNoWorkspaceUrl(url).Some?
    ensures r == WorkspaceInHostname <==> MatchNoWorkspaceUrl(url).None? && ParseFromLivyUrl(url).Success?
    ensures r == Unknown <==> MatchNoWorkspaceUrl(url).None? && ParseFromLivyUrl(url).Failure?
  {
    if MatchNoWorkspaceUrl(url).Some? then NoWorkspace
    else if MatchWorkspaceUrl(url).Some? then WorkspaceInHostname
    else Unknown
  }

  /** `parseFromLivyUrl(url)` as written: the workspace capture goes to the
      constructor's first parameter, `sparkCompute`, and the compute capture
      to its second, `workspace`. */
  function ParseFromLivyUrl(url: string): (r: Result<ArcadiaComputeDetail, string>)
    ensures r.Failure? <==> MatchWorkspaceUrl(url).None?
    ensures r.Failure? ==> r.error == BadUrl + url
    ensures r.Success? ==> var m := MatchWorkspaceUrl(url).value;
              r.value == ArcadiaComputeDetail(m.workspace, m.tail.compute, url)
  {
    match MatchWorkspaceUrl(url)
    case None => Failure(BadUrl + url)
    case Some(m) => Success(ArcadiaComputeDetail(m.workspace, m.tail.compute, url))
  }

  /** The evident intent: the compute capture is the Spark compute and the
      workspace capture the workspace. */
  function ParseFromLivyUrlCorrected(url: string): (r: Result<ArcadiaComputeDetail, string>)
    ensures r.Failure? <==> MatchWorkspaceUrl(url).None?
    ensures r.Failure? ==> r.error == BadUrl + url
  {
    match MatchWorkspaceUrl(url)
    case None => Failure(BadUrl + url)
    case Some(m) => Success(ArcadiaComputeDetail(m.tail.compute, m.workspace, url))
  }

  /** `parseFromLivyUrl(urlWithoutWorkspace, workspace)`. */
  function ParseFromLivyUrlWithWorkspace(url: string, workspace: string): (r: Result<ArcadiaComputeDetail, string>)
    ensures r.Failure? <==> MatchNoWorkspaceUrl(url).None?
    ensures r.Failure? ==> r.error == BadUrl + url
    ensures r.Success? ==> r.value == ArcadiaComputeDetail(MatchNoWorkspaceUrl(url).value.tail.compute, workspace, url)
  {
    match MatchNoWorkspaceUrl(url)
    case None => Failure(BadUrl + url)
    case Some(m) => Success(ArcadiaComputeDetail(m.tail.compute, workspace, url))
  }


  // ---------------------------------------------------- facts on the class

  /** The as-written constructor call: for a valid workspace URL the
      workspace name lands in `sparkCompute` and the compute name in
      `workspace`. */
  lemma ParseFromLivyUrlSwapsNames(m: WorkspaceMatch)
    requires ValidWorkspaceMatch(m)
    ensures ParseFromLivyUrl(WorkspaceUrl(m)) ==
              Success(ArcadiaComputeDetail(m.workspace, m.tail.compute, WorkspaceUrl(m)))
  {
    MatchWorkspaceUrlOf(m);
  }

  /** The corrected parse reads each name from its own capture. */
  lemma ParseFromLivyUrlCorrectedOf(m: WorkspaceMatch)
    requires ValidWorkspaceMatch(m)
    ensures ParseFromLivyUrlCorrected(WorkspaceUrl(m)) ==
              Success(ArcadiaComputeDetail(m.tail.compute, m.workspace, WorkspaceUrl(m)))
  {
    MatchWorkspaceUrlOf(m);
  }

  /** A valid no-workspace URL yields its compute, the given workspace and
      the URL itself. */
  lemma ParseFromLivyUrlWithWorkspaceOf(m: NoWorkspaceMatch, workspace: string)
    requires ValidNoWorkspaceMatch(m)
    ensures ParseFromLivyUrlWithWorkspace(NoWorkspaceUrl(m), workspace) ==
              Success(ArcadiaComputeDetail(m.tail.compute, workspace, NoWorkspaceUrl(m)))
  {
    MatchNoWorkspaceUrlOf(m);
  }

  /** The probe names the parser that accepts the URL, the no-workspace
      one winning when both would. */
  lemma ProbeAgreesWithParsers(url: string, workspace: string)
    ensures ProbeLivyUrlType(url) == NoWorkspace <==> ParseFromLivyUrlWithWorkspace(url, workspace).Success?
    ensures ProbeLivyUrlType(url) == WorkspaceInHostname <==>
              ParseFromLivyUrl(url).Success? && ParseFromLivyUrlWithWorkspace(url, workspace).Failure?
    ensures ProbeLivyUrlType(url) == Unknown <==>
              ParseFromLivyUrl(url).Failure? && ParseFromLivyUrlWithWorkspace(url, workspace).Failure?
  {
  }

  /** Every rendering of a valid match, in any letter case, is
      recognised. */
  lemma ProbeOfRenderings(m: WorkspaceMatch, n: NoWorkspaceMatch, s: string, t: string)
    requires ValidWorkspaceMatch(m) && ValidNoWorkspaceMatch(n)
    requires EqualsIgnoreCase(s, WorkspaceUrl(m)) && EqualsIgnoreCase(t, NoWorkspaceUrl(n))
    ensures ProbeLivyUrlType(t) == NoWorkspace
    ensures ProbeLivyUrlType(s) != Unknown
  {
    MatchNoWorkspaceUrlIgnoringCase(t, n);
    MatchWorkspaceUrlIgnoringCase(s, m);
  }

  /** The corrected parse of any spelling of a valid workspace URL gives
      each name from its own capture, spelled as in the URL. */
  lemma ParseFromLivyUrlCorrectedIgnoringCase(s: string, m: WorkspaceMatch)
    requires ValidWorkspaceMatch(m) && EqualsIgnoreCase(s, WorkspaceUrl(m))
    ensures ParseFromLivyUrlCorrected(s).Success?
    ensures var d := ParseFromLivyUrlCorrected(s).value;
            && EqualsIgnoreCase(d.sparkCompute, m.tail.compute)
            && EqualsIgnoreCase(d.workspace, m.workspace)
            && d.livyConnectionUrl == s
  {
    MatchWorkspaceUrlIgnoringCase(s, m);
  }

  /** A URL of both shapes: the workspace "arcadia-spark-service-prod", or
      the region "s" with suffix "park.projectarcadia.net".  The
      workspace parser accepts it, yet the probe says NoWorkspace. */
  lemma ProbePrefersNoWorkspace(secure: bool, t: Tail)
    requires ValidTail(t)
    ensures var url := WorkspaceUrl(WorkspaceMatch(secure, "arcadia-spark-service-prod", None, t));
            && url == NoWorkspaceUrl(NoWorkspaceMatch(secure, "spark.projectarcadia.net", t))
            && ParseFromLivyUrl(url).Success?
            && ProbeLivyUrlType(url) == NoWorkspace
  {
    var m := WorkspaceMatch(secure, "arcadia-spark-service-prod", None, t);
    var n := NoWorkspaceMatch(secure, "spark.projectarcadia.net", t);
    OverlapValid(secure, t);
    OverlapSameText(secure, t);
    ProbeOfRenderings(m, n, WorkspaceUrl(m), NoWorkspaceUrl(n));
    MatchWorkspaceUrlOf(m);
  }

  lemma OverlapValid(secure: bool, t: Tail)
    requires ValidTail(t)
    ensures ValidWorkspaceMatch(WorkspaceMatch(secure, "arcadia-spark-service-prod", None, t))
    ensures ValidNoWorkspaceMatch(NoWorkspaceMatch(secure, "spark.projectarcadia.net", t))
  {
    ServiceHostIsWorkspaceName();
    SparkHostSplits();
  }

  lemma SparkHostSplits()
    ensures RegionSuffixAt("spark.projectarcadia.net", 1)
  {
    var h := "spark.projectarcadia.net";
    assert forall i :: 0 <= i < 24 ==> h[i] !in {'/', ':'};
  }

  lemma ServiceHostIsWorkspaceName()
    ensures IsWorkspaceName("arcadia-spark-service-prod")
  {
    assert forall i :: 0 <= i < 26 ==> "arcadia-spark-service-prod"[i] !in {'/', '.'};
  }

  lemma OverlapSameText(secure: bool, t: Tail)
    ensures WorkspaceUrl(WorkspaceMatch(secure, "arcadia-spark-service-prod", None, t))
         == NoWorkspaceUrl(NoWorkspaceMatch(secure, "spark.projectarcadia.net", t))
  {
    var tt := TailText(t);
    assert PortText(None) + tt == tt;
    assert "arcadia-spark-service-prod" + "." == ServiceHost;
    assert "." + "spark.projectarcadia.net" == HostSuffix;
    ConcatAssoc("arcadia-spark-service-prod", ".", "spark.projectarcadia.net" + tt);
    ConcatAssoc(".", "spark.projectarcadia.net", tt);
  }
}

=== FILE: authorization_header.dfy ===
/** AuthorizationHeader: an `Authorization` request header whose value is
    a scheme, one space and the credentials: "Bearer" and an access token
    (section 2.1 of RFC 6750) or "Basic" and the Base64 text of
    "user:password" (section 2 of RFC 7617). The Base64 encoding and the
    platform decoding of its bytes into a string are not modelled: the
    Basic header takes the decoded text. */
module AuthorizationHeader {
  import opened Wrappers
  import opened Text
  import opened Headers

  const Authorization := "Authorization"
  const BearerScheme := "Bearer"
  const BasicScheme := "Basic"

  /** The constructor `AuthorizationHeader(value)`. */
  function AuthorizationHeaderOf(value: string): (h: NameValue)
    ensures h.name == Authorization && h.value == value
  {
    NameValue(Authorization, value)
  }

  /** `OAuthTokenHeader(token)`: "%s %s" of the scheme and the token. */
  function OAuthTokenHeader(token: string): (h: NameValue)
    ensures h.name == Authorization
    ensures |h.value| == |BearerScheme| + 1 + |token|
    ensures h.value[..|BearerScheme|] == BearerScheme && h.value[|BearerScheme|] == ' '
    ensures h.value[|BearerScheme| + 1..] == token
  {
    AuthorizationHeaderOf(BearerScheme + " " + token)
  }

  /** `BasicAuthHeader(encodedAuth)`, with the bytes given as their text. */
  function BasicAuthHeader(encodedText: string): (h: NameValue)
    ensures h.name == Authorization
    ensures |h.value| == |BasicScheme| + 1 + |encodedText|
    ensures h.value[..|BasicScheme|] == BasicScheme && h.value[|BasicScheme|] == ' '
    ensures h.value[|BasicScheme| + 1..] == encodedText
  {
    AuthorizationHeaderOf(BasicScheme + " " + encodedText)
  }

  /** How a server reads the value back: the scheme runs to the first space
      and the credentials are everything after it. */
  function Credentials(value: string): Option<(string, string)> {
    var k := IndexOf(value, ' ');
    if k < |value| then Some((value[..k], value[k + 1..])) else None
  }

  /** Both constructors embed their argument verbatim: reading the value
      back yields the scheme and exactly the token or text passed in, even
      when it holds spaces or is empty. */
  lemma CredentialsOf(scheme: string, credentials: string)
    requires scheme == BearerScheme || scheme == BasicScheme
    ensures var v := scheme + " " + credentials;
            Credentials(v) == Some((scheme, credentials))
  {
    var v := scheme + " " + credentials;
    assert forall i :: 0 <= i < |scheme| ==> v[i] == scheme[i];
    assert v[|scheme|] == ' ';
    assert v[..|scheme|] == scheme && v[|scheme| + 1..] == credentials;
  }

  /** The round trip for the two header kinds. */
  lemma HeaderCredentials(token: string)
    ensures Credentials(OAuthTokenHeader(token).value) == Some((BearerScheme, token))
    ensures Credentials(BasicAuthHeader(token).value) == Some((BasicScheme, token))
  {
    CredentialsOf(BearerScheme, token);
    CredentialsOf(BasicScheme, token);
  }
}

=== FILE: azure_http.dfy ===
/** AzureHttpObservable: an OAuth client that adds an "api-version" query
    parameter to every request when it was built with a non-blank API
    version. */
module AzureHttp {
  import opened Wrappers
  import opened Text
  import opened Headers

  const ApiVersionName := "api-version"

  /** `ApiVersionParam(value)`. */
  function ApiVersionParam(value: string): (p: NameValue)
    ensures p.name == ApiVersionName && p.value == value
  {
    NameValue(ApiVersionName, value)
  }

  /** The constructor's `azureDefaultParameters`: one api-version parameter
      when the version is not blank, none otherwise. */
  function AzureDefaultParameters(apiVersion: Option<string>): (r: seq<NameValue>)
    ensures |r| <= 1
    ensures r == [] <==> IsBlank(apiVersion)
    ensures r != [] ==> r[0] == ApiVersionParam(apiVersion.value)
  {
    if IsBlank(apiVersion) then [] else [ApiVersionParam(apiVersion.value)]
  }

  /** `getDefaultParameters`: the parent parameters (the OAuth client adds
      none of its own) merged under the Azure ones. */
  function DefaultParameters(parent: seq<NameValue>, apiVersion: Option<string>): (r: seq<NameValue>)
    ensures IsBlank(apiVersion) ==> r == parent
    ensures !IsBlank(apiVersion) ==>
              && |r| >= 1
              && r[|r| - 1] == ApiVersionParam(apiVersion.value)
              && (forall i :: 0 <= i < |r| - 1 ==> !EqualsIgnoreCase(r[i].name, ApiVersionName))
              && (forall p :: p in r[..|r| - 1] <==> p in parent && !EqualsIgnoreCase(p.name, ApiVersionName))
              && SubsequenceOf(r[..|r| - 1], parent)
              && (|r| == |parent| + 1 <==> forall p :: p in parent ==> !EqualsIgnoreCase(p.name, ApiVersionName))
  {
    var defaults := AzureDefaultParameters(apiVersion);
    if defaults == [] then
      WithoutNothing(parent, (h: NameValue) => NamedIn(h.name, defaults));
      assert ReplaceDefaults(parent, defaults) == parent + [];
      ReplaceDefaults(parent, defaults)
    else
      ReplaceSingle(parent, defaults[0]);
      assert defaults == [defaults[0]];
      ReplaceDefaults(parent, defaults)
  }

  /** Exactly one api-version parameter survives the merge when a version
      is set: counting the parameters so named gives one. */
  lemma OneApiVersion(parent: seq<NameValue>, apiVersion: string)
    requires !IsBlank(Some(apiVersion))
    ensures var r := DefaultParameters(parent, Some(apiVersion));
            forall i, j ::
              (0 <= i < |r| && 0 <= j < |r| && EqualsIgnoreCase(r[i].name, ApiVersionName) && EqualsIgnoreCase(r[j].name, ApiVersionName))
              ==> i == j
  {
  }
}

=== FILE: batch_state.dfy ===
/** BatchState: the states Livy reports for a batch. Each constant carries
    the lower-case snake name Livy uses on the wire (`toString`); the
    constant's own name is the upper-case form, which `valueOf` matches. */
module BatchState {
  import Wrappers
  import opened Text

  datatype BatchState =
    | NotStarted
    | Starting
    | Recovering
    | Idle
    | Running
    | Busy
    | ShuttingDown
    | Error
    | Dead
    | Success

  /** The declared constants, in declaration order. */
  const AllStates: seq<BatchState> :=
    [NotStarted, Starting, Recovering, Idle, Running, Busy, ShuttingDown, Error, Dead, Success]

  /** `toString`. */
  function Name(s: BatchState): string {
    match s
    case NotStarted => "not_started"
    case Starting => "starting"
    case Recovering => "recovering"
    case Idle => "idle"
    case Running => "running"
    case Busy => "busy"
    case ShuttingDown => "shutting_down"
    case Error => "error"
    case Dead => "dead"
    case Success => "success"
  }

  /** `name()`: the identifier of the constant, which in the source is
      the upper-case form of the wire name. */
  function ConstantName(s: BatchState): string {
    ToUpper(Name(s))
  }

  const NoConstant := "No enum constant com.microsoft.azure.spark.tools.restapi.livy.batches.BatchState."

  /** `BatchState.valueOf(name)`: an exact, case-sensitive match of a
      constant's identifier; IllegalArgumentException otherwise. */
  function ValueOf(name: string): (r: Wrappers.Result<BatchState, string>)
    ensures forall s :: ConstantName(s) == name ==> r == Wrappers.Success(s)
    ensures r.Success? ==> ConstantName(r.value) == name
    ensures r.Failure? ==> r.error == NoConstant + name
  {
    ConstantNameInjective();
    if exists s :: ConstantName(s) == name then
      var s :| ConstantName(s) == name;
      Wrappers.Success(s)
    else
      Wrappers.Failure(NoConstant + name)
  }

  /** The list of states holds every constant, each exactly once. */
  lemma AllStatesListed()
    ensures forall s :: s in AllStates
    ensures forall i, j :: 0 <= i < j < |AllStates| ==> AllStates[i] != AllStates[j]
  {
    forall s ensures s in AllStates {
      assert AllStates[Ordinal(s)] == s;
    }
    forall i | 0 <= i < |AllStates| ensures Ordinal(AllStates[i]) == i {
    }
  }

  /** Distinct constants have distinct identifiers: the wire names of equal
      length differ in their first letter. */
  lemma ConstantNameInjective()
    ensures forall a, b :: ConstantName(a) == ConstantName(b) ==> a == b
  {
    forall a, b | ConstantName(a) == ConstantName(b) ensures a == b {
      assert |Name(a)| == |Name(b)|;
      assert UpperChar(Name(a)[0]) == UpperChar(Name(b)[0]);
    }
  }

  /** `ordinal()`: the position of the constant in the declaration. */
  function Ordinal(s: BatchState): (k: nat)
    ensures k < |AllStates| && AllStates[k] == s
  {
    match s
    case NotStarted => 0
    case Starting => 1
    case Recovering => 2
    case Idle => 3
    case Running => 4
    case Busy => 5
    case ShuttingDown => 6
    case Error => 7
    case Dead => 8
    case Success => 9
  }

  /** Distinct states have distinct names. */
  lemma NameInjective(a: BatchState, b: BatchState)
    ensures Name(a) == Name(b) ==> a == b
  {
  }

  /** The upper-cased name is the constant's identifier, so `valueOf` of it
      finds the state again. */
  lemma ValueOfUpperName(s: BatchState)
    ensures ValueOf(ToUpper(Name(s))) == Wrappers.Success(s)
  {
  }
}

=== FILE: deployable.dfy ===
/** `Deployable.getRelatedDestParentPath`: the folder an artifact is
    uploaded to, "<folder>/<yyyy>/<MM>/<dd>/<uuid>/". The UTC clock and the
    random UUID are parameters. */
module Deployable {
  import opened Text

  /** `getDestinationFolderName`'s default. */
  const DefaultFolder := "SparkSubmission"

  /** Calendar.MONTH counts months from 0; the path counts them from 1. */
  function PathMonth(calendarMonth: nat): (m: nat)
    ensures calendarMonth < 12 ==> 1 <= m <= 12
  {
    calendarMonth + 1
  }

  /** The five fields of the path, in order. */
  function DestFields(folder: string, year: nat, calendarMonth: nat, day: nat, uuid: string): seq<string> {
    [folder, ZeroPad(year, 4), ZeroPad(PathMonth(calendarMonth), 2), ZeroPad(day, 2), uuid]
  }

  /** `String.format("%s/%04d/%02d/%02d/%s/", folder, year, month, day, uuid)`
      with month = Calendar.MONTH + 1: the fields, each followed by '/'. */
  function RelatedDestParentPath(folder: string, year: nat, calendarMonth: nat, day: nat, uuid: string): (r: string)
    ensures EndsWith(r, "/")
  {
    Join(DestFields(folder, year, calendarMonth, day, uuid), "/") + "/"
  }

  /** The path starts with the folder and ends with the UUID, each
      followed by '/'. */
  lemma DestPathShape(folder: string, year: nat, calendarMonth: nat, day: nat, uuid: string)
    ensures var r := RelatedDestParentPath(folder, year, calendarMonth, day, uuid);
            StartsWith(r, folder + "/") && EndsWith(r, uuid + "/")
  {
    var xs := DestFields(folder, year, calendarMonth, day, uuid);
    var r := RelatedDestParentPath(folder, year, calendarMonth, day, uuid);
    var j := Join(xs[1..], "/");
    assert Join(xs, "/") == folder + "/" + j;
    assert r == folder + "/" + (j + "/");
    assert r[..|folder + "/"|] == folder + "/";
    JoinEndsWithLast(xs, "/");
    assert r[|r| - |uuid + "/"|..] == uuid + "/";
  }

  /** A join ends with its last element. */
  lemma {:induction false} JoinEndsWithLast(xs: seq<string>, sep: string)
    requires xs != []
    ensures EndsWith(Join(xs, sep), xs[|xs| - 1])
    decreases |xs|
  {
    if |xs| >= 2 {
      JoinEndsWithLast(xs[1..], sep);
      var j := Join(xs[1..], sep);
      var last := xs[|xs| - 1];
      assert xs[1..][|xs[1..]| - 1] == last;
      assert (xs[0] + sep + j)[|xs[0] + sep + j| - |last|..] == j[|j| - |last|..];
    }
  }

  // ------------------------------------------------ reading it back

  /** The parts of `s` between occurrences of `c` (String.split without
      dropping trailing empty parts). */
  function SplitOn(s: string, c: char): (r: seq<string>)
    ensures |r| >= 1
    ensures forall i :: 0 <= i < |r| ==> NoChar(r[i], c)
    decreases |s|
  {
    var k := IndexOf(s, c);
    if k == |s| then [s] else [s[..k]] + SplitOn(s[k + 1..], c)
  }

  /** Splitting, then joining with the same character, gives back the
      text. */
  lemma {:induction false} SplitOnJoin(s: string, c: char)
    ensures Join(SplitOn(s, c), [c]) == s
    decreases |s|
  {
    var k := IndexOf(s, c);
    if k < |s| {
      var rest := s[k + 1..];
      var parts := SplitOn(rest, c);
      SplitOnJoin(rest, c);
      var all := [s[..k]] + parts;
      assert SplitOn(s, c) == all;
      assert all[0] == s[..k] && all[1..] == parts;
      assert Join(all, [c]) == s[..k] + [c] + rest;
      assert s == s[..k] + [c] + rest;
    }
  }

  /** A segment without `c`, then `c`, splits off that segment. */
  lemma SplitOnCons(a: string, c: char, rest: string)
    requires NoChar(a, c)
    ensures SplitOn(a + [c] + rest, c) == [a] + SplitOn(rest, c)
  {
    IndexOfJoin(a, c, rest);
    var s := a + [c] + rest;
    assert s == a + ([c] + rest);
    assert s[..|a|] == a && s[|a| + 1..] == rest;
  }

  /** Digits are never a path separator. */
  lemma DigitsHaveNoSlash(d: string)
    requires AllDigits(d)
    ensures NoChar(d, '/')
  {
  }

  /** Fields without `c`, each followed by `c`, split back into the
      fields and the empty part after the last `c`. */
  lemma {:induction false} SplitOnJoined(xs: seq<string>, c: char)
    requires xs != [] && forall i :: 0 <= i < |xs| ==> NoChar(xs[i], c)
    ensures SplitOn(Join(xs, [c]) + [c], c) == xs + [""]
    decreases |xs|
  {
    var x := xs[0];
    if |xs| == 1 {
      SplitOnCons(x, c, "");
      assert Join(xs, [c]) + [c] == x + [c] + "";
      assert SplitOn("", c) == [""];
    } else {
      var tail := xs[1..];
      var j := Join(tail, [c]);
      assert forall i :: 0 <= i < |tail| ==> NoChar(tail[i], c) by {
        forall i | 0 <= i < |tail| ensures NoChar(tail[i], c) {
          assert tail[i] == xs[i + 1];
        }
      }
      SplitOnJoined(tail, c);
      JoinedStep(x, j, [c]);
      assert Join(xs, [c]) == x + [c] + j;
      SplitOnCons(x, c, j + [c]);
      assert [x] + (tail + [""]) == xs + [""];
    }
  }

  /** Re-bracketing one joined field and the trailing separator. */
  lemma JoinedStep(x: string, j: string, sep: string)
    ensures x + sep + j + sep == x + sep + (j + sep)
  {
  }

  /** For a folder and a UUID that hold no '/', the path splits on '/'
      into exactly the folder, the three date fields (whose values are the
      year, the month counted from 1 and the day) and the UUID, followed
      by the empty part after the final '/'. */
  lemma DestPathRoundTrip(folder: string, year: nat, calendarMonth: nat, day: nat, uuid: string)
    requires NoChar(folder, '/') && NoChar(uuid, '/')
    ensures var parts := SplitOn(RelatedDestParentPath(folder, year, calendarMonth, day, uuid), '/');
            && |parts| == 6 && parts[0] == folder && parts[4] == uuid && parts[5] == ""
            && AllDigits(parts[1]) && DigitsValue(parts[1]) == year
            && AllDigits(parts[2]) && DigitsValue(parts[2]) == calendarMonth + 1
            && AllDigits(parts[3]) && DigitsValue(parts[3]) == day
  {
    var xs := DestFields(folder, year, calendarMonth, day, uuid);
    DigitsHaveNoSlash(xs[1]);
    DigitsHaveNoSlash(xs[2]);
    DigitsHaveNoSlash(xs[3]);
    assert forall i :: 0 <= i < |xs| ==> NoChar(xs[i], '/');
    SplitOnJoined(xs, '/');
  }

  // --------------------------------------------------------- widths

  function Pow10(w: nat): nat {
    if w == 0 then 1 else 10 * Pow10(w - 1)
  }

  /** A value below 10^w has at most w digits. */
  lemma {:induction false} NatToStringShort(n: nat, w: nat)
    requires w >= 1 && n < Pow10(w)
    ensures |NatToString(n)| <= w
  {
    if n >= 10 {
      assert Pow10(1) == 10;
      assert w >= 2;
      NatToStringShort(n / 10, w - 1);
    }
  }

  /** Every date field of a year below 10000 and a calendar date has
      exactly its field width, leading zeros included, so the path's
      length is fixed by the folder and the UUID. */
  lemma DateFieldWidths(folder: string, year: nat, calendarMonth: nat, day: nat, uuid: string)
    requires year < 10000 && calendarMonth < 12 && day < 100
    ensures |ZeroPad(year, 4)| == 4 && |ZeroPad(PathMonth(calendarMonth), 2)| == 2 && |ZeroPad(day, 2)| == 2
    ensures |RelatedDestParentPath(folder, year, calendarMonth, day, uuid)| == |folder| + |uuid| + 13
  {
    assert Pow10(2) == 100 && Pow10(4) == 10000;
    NatToStringShort(year, 4);
    NatToStringShort(PathMonth(calendarMonth), 2);
    NatToStringShort(day, 2);
    var y, m, d := ZeroPad(year, 4), ZeroPad(PathMonth(calendarMonth), 2), ZeroPad(day, 2);
    JoinFive(folder, y, m, d, uuid, "/");
  }

  /** Five fields joined: each but the last followed by the separator. */
  lemma JoinFive(a: string, b: string, c: string, d: string, e: string, sep: string)
    ensures Join([a, b, c, d, e], sep) == a + sep + (b + sep + (c + sep + (d + sep + e)))
  {
    var xs := [a, b, c, d, e];
    assert [d, e][1..] == [e];
    assert Join([d, e], sep) == d + sep + e;
    assert [c, d, e][1..] == [d, e];
    assert Join([c, d, e], sep) == c + sep + Join([d, e], sep);
    assert [b, c, d, e][1..] == [c, d, e];
    assert Join([b, c, d, e], sep) == b + sep + Join([c, d, e], sep);
    assert xs[1..] == [b, c, d, e];
  }

  lemma Digits2019()
    ensures ZeroPad(2019, 4) == "2019"
  {
    assert NatToString(2019) == NatToString(201) + "9";
    assert NatToString(201) == "201";
  }

  lemma DigitsJanuary20()
    ensures ZeroPad(PathMonth(0), 2) == "01" && ZeroPad(20, 2) == "20"
  {
    assert NatToString(1) == "1" && NatToString(20) == "20";
  }

  /** The example the interface documents: 20 January 2019. */
  lemma DocumentedExample(uuid: string)
    ensures RelatedDestParentPath(DefaultFolder, 2019, 0, 20, uuid) == "SparkSubmission/2019/01/20/" + uuid + "/"
  {
    Digits2019();
    DigitsJanuary20();
    JoinFive(DefaultFolder, "2019", "01", "20", uuid, "/");
  }
}

=== FILE: hdi_cluster.dfy ===
/** HdiClusterDetail: the endpoint URLs of an HDInsight cluster and the
    gating of its gateway credentials.  The Azure `Cluster` object is reduced
    to what these members read: its name, region name and connectivity
    endpoints, plus the gateway configuration map. */
module HdiCluster {
  import opened Wrappers
  import opened Text
  import opened Uri
  import LivyCluster

  datatype Endpoint = Endpoint(name: string, location: string)

  datatype HdiCluster = HdiCluster(
    name: string,
    regionName: string,
    endpoints: seq<Endpoint>,
    gatewayConf: map<string, string>)

  const EnabledKey := "restAuthCredential.isEnabled"
  const UserNameKey := "restAuthCredential.username"
  const PasswordKey := "restAuthCredential.password"

  const NoHttpsEndpoint := "Can't find HTTPS connection entity from HDInsight cluster properties"

  predicate IsHttps(e: Endpoint) {
    EqualsIgnoreCase(e.name, "HTTPS")
  }

  /** The position of the first endpoint named HTTPS in any case. */
  function FirstHttps(eps: seq<Endpoint>): (r: Option<nat>)
    ensures r.Some? ==> r.value < |eps| && IsHttps(eps[r.value])
    ensures r.Some? ==> forall j :: 0 <= j < r.value ==> !IsHttps(eps[j])
    ensures r.None? ==> forall j :: 0 <= j < |eps| ==> !IsHttps(eps[j])
  {
    if eps == [] then None
    else if IsHttps(eps[0]) then Some(0)
    else match FirstHttps(eps[1..])
      case None => None
      case Some(k) => Some(k + 1)
  }

  /** `getConnectionUrl`: the lower-cased name of the first HTTPS endpoint,
      "://", and its location; IllegalArgumentException when there is none. */
  function GetConnectionUrl(c: HdiCluster): (r: Result<string, string>)
    ensures r.Failure? <==> forall j :: 0 <= j < |c.endpoints| ==> !IsHttps(c.endpoints[j])
    ensures r.Failure? ==> r.error == NoHttpsEndpoint
    ensures r.Success? ==> FirstHttps(c.endpoints).Some?
                           && r.value == "https://" + c.endpoints[FirstHttps(c.endpoints).value].location
  {
    match FirstHttps(c.endpoints)
    case None => Failure(NoHttpsEndpoint)
    case Some(k) =>
      var e := c.endpoints[k];
      LowerHttps(e.name);
      Success(ToLower(e.name) + "://" + e.location)
  }

  /** A name equal to "HTTPS" ignoring case lower-cases to "https". */
  lemma LowerHttps(name: string)
    requires EqualsIgnoreCase(name, "HTTPS")
    ensures ToLower(name) == "https"
  {
    assert ToLower("HTTPS") == "https";
  }

  function GetYarnUIBaseUrl(c: HdiCluster): (r: Result<string, string>)
    ensures r.Success? <==> GetConnectionUrl(c).Success?
    ensures r.Success? ==> r.value == GetConnectionUrl(c).value + "/yarnui/"
  {
    var conn :- GetConnectionUrl(c);
    Success(conn + "/yarnui/")
  }

  function GetLivyConnectionUrl(c: HdiCluster): (r: Result<string, string>)
    ensures r.Success? <==> GetConnectionUrl(c).Success?
    ensures r.Success? ==> r.value == GetConnectionUrl(c).value + "/livy/"
  {
    var conn :- GetConnectionUrl(c);
    Success(conn + "/livy/")
  }

  function GetYarnNMConnectionUrl(c: HdiCluster): (r: Result<string, string>)
    ensures r.Success? <==> GetConnectionUrl(c).Success?
    ensures r.Success? ==> r.value == GetConnectionUrl(c).value + "/yarnui/ws/v1/clusters/apps/"
  {
    var base :- GetYarnUIBaseUrl(c);
    NodeManagerPath(GetConnectionUrl(c).value);
    Success(base + "ws/v1/clusters/apps/")
  }

  lemma NodeManagerPath(conn: string)
    ensures conn + "/yarnui/" + "ws/v1/clusters/apps/" == conn + "/yarnui/ws/v1/clusters/apps/"
  {
    assert "/yarnui/" + "ws/v1/clusters/apps/" == "/yarnui/ws/v1/clusters/apps/";
    ConcatAssoc(conn, "/yarnui/", "ws/v1/clusters/apps/");
  }

  function GetTitle(c: HdiCluster): (r: string)
    ensures |r| == |c.name| + 2 + |c.regionName|
    ensures r[..|c.name|] == c.name && r[|c.name|..|c.name| + 2] == " @"
    ensures r[|c.name| + 2..] == c.regionName
  {
    c.name + " @" + c.regionName
  }

  /** Set once by the constructor: the enabling key is present and reads
      "true" in any case. */
  predicate GatewayCredentialEnabled(conf: map<string, string>) {
    EnabledKey in conf && EqualsIgnoreCase(conf[EnabledKey], "true")
  }

  function Lookup(conf: map<string, string>, key: string): (r: Option<string>)
    ensures r.Some? <==> key in conf
    ensures r.Some? ==> r.value == conf[key]
  {
    if key in conf then Some(conf[key]) else None
  }

  /** `getHttpUserName`: the configured user name while credentials are
      enabled, otherwise null. */
  function GetHttpUserName(c: HdiCluster): (r: Option<string>)
    ensures !GatewayCredentialEnabled(c.gatewayConf) ==> r.None?
    ensures GatewayCredentialEnabled(c.gatewayConf) ==> r == Lookup(c.gatewayConf, UserNameKey)
  {
    if GatewayCredentialEnabled(c.gatewayConf) then Lookup(c.gatewayConf, UserNameKey) else None
  }

  function GetHttpPassword(c: HdiCluster): (r: Option<string>)
    ensures !GatewayCredentialEnabled(c.gatewayConf) ==> r.None?
    ensures GatewayCredentialEnabled(c.gatewayConf) ==> r == Lookup(c.gatewayConf, PasswordKey)
  {
    if GatewayCredentialEnabled(c.gatewayConf) then Lookup(c.gatewayConf, PasswordKey) else None
  }

  /** Credentials are exposed exactly when the enabling key reads "true":
      a value such as "TRUE" enables them, "yes" or a missing key does not. */
  lemma CredentialsGated(c: HdiCluster)
    ensures GetHttpUserName(c).Some? ==> EnabledKey in c.gatewayConf
                                         && ToLower(c.gatewayConf[EnabledKey]) == "true"
    ensures (EnabledKey in c.gatewayConf && ToLower(c.gatewayConf[EnabledKey]) == "true"
             && UserNameKey in c.gatewayConf) ==> GetHttpUserName(c) == Some(c.gatewayConf[UserNameKey])
  {
    assert ToLower("true") == "true";
  }

  /** For an HTTPS endpoint whose location is a plain host name, the Livy
      connection URL is "https://" + location + "/livy/", and the batch and
      session URLs are that URL followed by "batches" and "sessions". */
  lemma LivyUrls(c: HdiCluster, k: nat)
    requires k < |c.endpoints| && IsHttps(c.endpoints[k])
    requires forall j :: 0 <= j < k ==> !IsHttps(c.endpoints[j])
    requires IsHostName(c.endpoints[k].location)
    ensures GetLivyConnectionUrl(c) == Success("https://" + c.endpoints[k].location + "/livy/")
    ensures var livy := GetLivyConnectionUrl(c).value;
            && LivyCluster.GetLivyBatchUrl(livy) == Success(livy + "batches")
            && LivyCluster.GetLivySessionUrl(livy) == Success(livy + "sessions")
  {
    var loc := c.endpoints[k].location;
    FirstHttpsUnique(c.endpoints, k);
    var livy := GetLivyConnectionUrl(c).value;
    assert livy == "https://" + loc + "/livy/";
    PlainSegments();
    HostLivyEndpoint(loc, livy, "batches");
    HostLivyEndpoint(loc, livy, "sessions");
  }

  lemma PlainSegments()
    ensures LivyCluster.IsSegment("batches") && LivyCluster.IsSegment("sessions")
  {
    assert forall i :: 0 <= i < 7 ==> IsAlpha("batches"[i]);
    assert forall i :: 0 <= i < 8 ==> IsAlpha("sessions"[i]);
  }

  lemma HostLivyEndpoint(loc: string, livy: string, seg: string)
    requires IsHostName(loc) && LivyCluster.IsSegment(seg)
    requires livy == "https://" + loc + "/livy/"
    ensures LivyCluster.LivyEndpoint(livy, seg) == Success(livy + seg)
  {
    HostLivyParse(loc, livy);
    assert EndsWith(livy, "/") by {
      assert livy[|livy| - 1] == '/';
    }
    LivyCluster.EndpointAppends(livy, seg);
  }

  lemma HostLivyParse(loc: string, livy: string)
    requires IsHostName(loc) && livy == "https://" + loc + "/livy/"
    ensures Parse(livy) == Success(Hierarchical(Some("https"), Some(loc), "/livy/", None, None))
  {
    var u := Hierarchical(Some("https"), Some(loc), "/livy/", None, None);
    assert Render(u) == livy;
    HostUriWellFormed(loc);
    ParseRender(u);
  }

  lemma {:induction false} FirstHttpsUnique(eps: seq<Endpoint>, k: nat)
    requires k < |eps| && IsHttps(eps[k])
    requires forall j :: 0 <= j < k ==> !IsHttps(eps[j])
    ensures FirstHttps(eps) == Some(k)
  {
    if k > 0 {
      assert !IsHttps(eps[0]);
      assert eps[1..][k - 1] == eps[k];
      FirstHttpsUnique(eps[1..], k - 1);
    }
  }

  lemma HostUriWellFormed(loc: string)
    requires IsHostName(loc)
    ensures WellFormed(Hierarchical(Some("https"), Some(loc), "/livy/", None, None))
  {
    assert ValidScheme("https");
    assert Legal(loc) by {
      forall i | 0 <= i < |loc| ensures LegalAt(loc, i) {
        assert IsAlphaNum(loc[i]) || loc[i] == '-' || loc[i] == '.';
      }
    }
    assert NoneIn(loc, {'/', '?', '#'}) by {
      forall i | 0 <= i < |loc| ensures loc[i] !in {'/', '?', '#'} {
        assert IsAlphaNum(loc[i]) || loc[i] == '-' || loc[i] == '.';
      }
    }
    assert Legal("/livy/") by {
      forall i | 0 <= i < 6 ensures LegalAt("/livy/", i) {
      }
    }
  }
}

=== FILE: headers.dfy ===
/** Name/value pairs as the HTTP layer keeps them: a request header
    (`org.apache.http.Header`) and a query parameter (`NameValuePair`) are
    both a name and a value, and the merges of the client classes are list
    filters over them. */
module Headers {
  import opened Text

  datatype NameValue = NameValue(name: string, value: string)

  /** `a` can be obtained from `b` by deleting elements: the order of what
      is left is the order in `b`. */
  ghost predicate SubsequenceOf<T>(a: seq<T>, b: seq<T>)
    decreases |b|
  {
    if b == [] then a == []
    else (a != [] && a[0] == b[0] && SubsequenceOf(a[1..], b[1..])) || SubsequenceOf(a, b[1..])
  }

  /** The elements of `hs` that `drop` rejects are removed; the rest keep
      their order. */
  function Without<T(!new)>(hs: seq<T>, drop: T -> bool): (r: seq<T>)
    ensures forall h :: h in r <==> h in hs && !drop(h)
    ensures |r| == |hs| <==> forall h :: h in hs ==> !drop(h)
    ensures |r| <= |hs|
  {
    if hs == [] then []
    else
      var rest := Without(hs[1..], drop);
      assert forall h :: h in hs[1..] ==> h in hs;
      if drop(hs[0]) then rest else [hs[0]] + rest
  }

  /** What is kept stays in its original order. */
  lemma {:induction false} WithoutSubsequence<T(!new)>(hs: seq<T>, drop: T -> bool)
    ensures SubsequenceOf(Without(hs, drop), hs)
  {
    if hs != [] {
      WithoutSubsequence(hs[1..], drop);
    }
  }

  /** Nothing is removed when `drop` rejects no element. */
  lemma {:induction false} WithoutNothing<T(!new)>(hs: seq<T>, drop: T -> bool)
    requires forall h :: h in hs ==> !drop(h)
    ensures Without(hs, drop) == hs
  {
    if hs != [] {
      assert forall h :: h in hs[1..] ==> h in hs;
      WithoutNothing(hs[1..], drop);
      assert [hs[0]] + hs[1..] == hs;
    }
  }

  /** Filtering a concatenation filters each part. */
  lemma {:induction false} WithoutConcat<T(!new)>(a: seq<T>, b: seq<T>, drop: T -> bool)
    ensures Without(a + b, drop) == Without(a, drop) + Without(b, drop)
  {
    if a != [] {
      assert (a + b)[1..] == a[1..] + b;
      WithoutConcat(a[1..], b, drop);
    } else {
      assert a + b == b;
    }
  }

  /** Some element of `hs` has the name `name`, ignoring case. */
  predicate NamedIn(name: string, hs: seq<NameValue>) {
    exists i :: 0 <= i < |hs| && EqualsIgnoreCase(name, hs[i].name)
  }

  /** The merge of `OAuthTokenHttpObservable.getDefaultHeaders` and
      `AzureHttpObservable.getDefaultParameters`: the parent defaults whose
      name matches (ignoring case) no overriding name, then the overrides. */
  function ReplaceDefaults(parent: seq<NameValue>, overrides: seq<NameValue>): (r: seq<NameValue>)
    ensures |r| >= |overrides| && r[|r| - |overrides|..] == overrides
    ensures forall h :: h in r[..|r| - |overrides|] <==> h in parent && !NamedIn(h.name, overrides)
    ensures SubsequenceOf(r[..|r| - |overrides|], parent)
    ensures |r| == |parent| + |overrides| <==> forall h :: h in parent ==> !NamedIn(h.name, overrides)
  {
    var kept := Without(parent, (h: NameValue) => NamedIn(h.name, overrides));
    WithoutSubsequence(parent, (h: NameValue) => NamedIn(h.name, overrides));
    assert (kept + overrides)[..|kept|] == kept;
    kept + overrides
  }

  /** A single override matches exactly the names equal to its own. */
  lemma NamedInSingle(name: string, o: NameValue)
    ensures NamedIn(name, [o]) <==> EqualsIgnoreCase(name, o.name)
  {
    if EqualsIgnoreCase(name, o.name) {
      assert [o][0] == o;
    }
  }

  /** Overriding with a single pair: it comes last, no other pair has its
      name, and the rest are the parent's pairs of other names, in order. */
  lemma ReplaceSingle(parent: seq<NameValue>, o: NameValue)
    ensures var r := ReplaceDefaults(parent, [o]);
            && |r| >= 1 && r[|r| - 1] == o
            && (forall i :: 0 <= i < |r| - 1 ==> !EqualsIgnoreCase(r[i].name, o.name))
            && (forall h :: h in r[..|r| - 1] <==> h in parent && !EqualsIgnoreCase(h.name, o.name))
            && SubsequenceOf(r[..|r| - 1], parent)
            && (|r| == |parent| + 1 <==> forall h :: h in parent ==> !EqualsIgnoreCase(h.name, o.name))
  {
    var r := ReplaceDefaults(parent, [o]);
    forall h: NameValue | true
      ensures NamedIn(h.name, [o]) <==> EqualsIgnoreCase(h.name, o.name)
    {
      NamedInSingle(h.name, o);
    }
    assert forall i :: 0 <= i < |r| - 1 ==> r[i] in r[..|r| - 1];
  }

  /** The first index of a header named `name` (ignoring case), or `|hs|`. */
  function IndexNamed(hs: seq<NameValue>, name: string): (k: nat)
    ensures k <= |hs|
    ensures forall i :: 0 <= i < k ==> !EqualsIgnoreCase(hs[i].name, name)
    ensures k < |hs| ==> EqualsIgnoreCase(hs[k].name, name)
  {
    if hs == [] then 0
    else if EqualsIgnoreCase(hs[0].name, name) then 0
    else 1 + IndexNamed(hs[1..], name)
  }

  /** `HeaderGroup.updateHeader` of HttpCore: the first header with the same
      name (ignoring case) is replaced in place; with none, the header is
      appended. */
  function UpdateHeader(hs: seq<NameValue>, h: NameValue): (r: seq<NameValue>)
    ensures h in r
    ensures (forall i :: 0 <= i < |hs| ==> !EqualsIgnoreCase(hs[i].name, h.name)) ==> r == hs + [h]
    ensures forall i :: 0 <= i < |hs| && EqualsIgnoreCase(hs[i].name, h.name) ==>
              |r| == |hs| && r[IndexNamed(hs, h.name)] == h
    ensures forall i :: 0 <= i < |r| && i != IndexNamed(hs, h.name) ==> i < |hs| && r[i] == hs[i]
  {
    var k := IndexNamed(hs, h.name);
    if k < |hs| then
      assert hs[k := h][k] == h;
      hs[k := h]
    else
      assert (hs + [h])[|hs|] == h;
      hs + [h]
  }
}

=== FILE: http_error_status.dfy ===
/** HttpErrorStatus and its subclasses: the exception built from an HTTP
    response with an error status. Six codes have a class of their own
    (the client errors of section 6.5 of RFC 7231 and section 3.1 of RFC
    7235, and the server error of section 6.6 of RFC 7231); every other
    code is "unclassified". The response entity is opaque (`E`); reading
    it into the message is I/O and the message is a parameter. */
module HttpErrorStatus {
  import opened Wrappers
  import opened Text
  import opened Headers

  datatype ErrorClass =
    | BadRequest
    | Unauthorized
    | Forbidden
    | NotFound
    | MethodNotAllowed
    | InternalServerError
    | Unclassified

  /** The header array of the response may be null, and so may each entry. */
  datatype ErrorStatus<E> = ErrorStatus(
    errorClass: ErrorClass,
    statusCode: int,
    message: string,
    headers: Option<seq<Option<NameValue>>>,
    entity: Option<E>)

  /** The code each classified subclass passes to its parent constructor. */
  function FixedCode(c: ErrorClass): (code: Option<int>)
    ensures code.None? <==> c == Unclassified
  {
    match c
    case BadRequest => Some(400)
    case Unauthorized => Some(401)
    case Forbidden => Some(403)
    case NotFound => Some(404)
    case MethodNotAllowed => Some(405)
    case InternalServerError => Some(500)
    case Unclassified => None
  }

  predicate IsClientError(c: ErrorClass) {
    c in {BadRequest, Unauthorized, Forbidden, NotFound, MethodNotAllowed}
  }

  /** `EntityUtils.toString(null)` rejects the missing entity with this
      IllegalArgumentException message (httpcore's `Args.notNull`). */
  const NullEntityMessage := "Entity may not be null"

  /** `classifyHttpError`, on the parts of the response it reads. The
      entity is read into the message before the code is looked at, so a
      response without an entity (a 304, the reply to a HEAD) fails with
      the IllegalArgumentException instead of giving a status. */
  function ClassifyHttpError<E>(statusCode: int, message: string, headers: Option<seq<Option<NameValue>>>, entity: Option<E>)
    : (r: Result<ErrorStatus<E>, string>)
    ensures r.Failure? <==> entity.None?
    ensures r.Failure? ==> r.error == NullEntityMessage
    ensures r.Success? ==> r.value.statusCode == statusCode
    ensures r.Success? ==> r.value.message == message && r.value.headers == headers && r.value.entity == entity
    ensures r.Success? ==> (r.value.errorClass == Unclassified <==> statusCode !in {400, 401, 403, 404, 405, 500})
    ensures r.Success? && r.value.errorClass != Unclassified ==> FixedCode(r.value.errorClass) == Some(statusCode)
  {
    if entity.None? then Failure(NullEntityMessage)
    else
      var c :=
        if statusCode == 400 then BadRequest
        else if statusCode == 401 then Unauthorized
        else if statusCode == 403 then Forbidden
        else if statusCode == 404 then NotFound
        else if statusCode == 405 then MethodNotAllowed
        else if statusCode == 500 then InternalServerError
        else Unclassified;
      Success(ErrorStatus(c, statusCode, message, headers, entity))
  }

  /** Each classified subclass is what its own code classifies to, and the
      client errors carry 4xx codes, the server error a 5xx one. */
  lemma ClassOfFixedCode<E>(c: ErrorClass, message: string, headers: Option<seq<Option<NameValue>>>, entity: E)
    requires c != Unclassified
    ensures ClassifyHttpError(FixedCode(c).value, message, headers, Some(entity)) ==
              Success(ErrorStatus(c, FixedCode(c).value, message, headers, Some(entity)))
    ensures IsClientError(c) ==> 400 <= FixedCode(c).value < 500
    ensures !IsClientError(c) ==> 500 <= FixedCode(c).value < 600
  {
  }

  function HeaderLine(h: NameValue): string {
    h.name + ": " + h.value
  }

  /** The `flatMap` over the header array: null entries give no line. */
  function HeaderLines(hs: seq<Option<NameValue>>): (r: seq<string>)
    ensures |r| <= |hs|
    ensures (forall i :: 0 <= i < |hs| ==> hs[i].Some?) ==>
              |r| == |hs| && forall i :: 0 <= i < |hs| ==> r[i] == HeaderLine(hs[i].value)
  {
    if hs == [] then []
    else
      var rest := HeaderLines(hs[1..]);
      if hs[0].None? then rest else [HeaderLine(hs[0].value)] + rest
  }

  /** Null entries are skipped: dropping them changes no line. */
  lemma {:induction false} NullHeadersSkipped(hs: seq<Option<NameValue>>)
    ensures HeaderLines(hs) == HeaderLines(Without(hs, (h: Option<NameValue>) => h.None?))
  {
    if hs != [] {
      NullHeadersSkipped(hs[1..]);
    }
  }

  const StatusCodeLabel := "Status Code: "
  const HeadersLabel := "Headers:\n"
  const MessageLabel := "Error message: "

  /** `getErrorDetails`. */
  function ErrorDetails<E>(s: ErrorStatus<E>): (r: string)
    ensures |r| >= |StatusCodeLabel| + |IntToString(s.statusCode)| + 1
    ensures r[..|StatusCodeLabel| + |IntToString(s.statusCode)| + 1] == StatusCodeLabel + IntToString(s.statusCode) + "\n"
    ensures |r| >= |MessageLabel| + |s.message| && r[|r| - |MessageLabel| - |s.message|..] == MessageLabel + s.message
    ensures var p := |StatusCodeLabel| + |IntToString(s.statusCode)| + 1;
            s.headers.Some? ==> |r| >= p + |HeadersLabel| && r[p..p + |HeadersLabel|] == HeadersLabel
    ensures s.headers.None? ==> |r| == |StatusCodeLabel| + |IntToString(s.statusCode)| + 1 + |MessageLabel| + |s.message|
  {
    var head := StatusCodeLabel + IntToString(s.statusCode) + "\n";
    var middle := if s.headers.Some? then HeadersLabel + Join(HeaderLines(s.headers.value), "\n") + "\n" else "";
    var tail := MessageLabel + s.message;
    assert (head + middle + tail)[..|head|] == head;
    assert (head + middle + tail)[|head + middle|..] == tail;
    assert s.headers.Some? ==> (head + middle + tail)[|head|..|head| + |HeadersLabel|] == HeadersLabel;
    head + middle + tail
  }

  /** A reader for the first line of the details: the code between
      "Status Code: " and the first line break. */
  function ReadStatusCode(details: string): Option<int> {
    if |details| < |StatusCodeLabel| || details[..|StatusCodeLabel|] != StatusCodeLabel then None
    else
      var rest := details[|StatusCodeLabel|..];
      var k := IndexOf(rest, '\n');
      if k == |rest| then None else ParseInt32(rest[..k])
  }

  /** The details start with the status code, which reads back. */
  lemma ReadStatusCodeOf<E>(s: ErrorStatus<E>)
    requires IsInt32(s.statusCode)
    ensures ReadStatusCode(ErrorDetails(s)) == Some(s.statusCode)
  {
    var d := ErrorDetails(s);
    var n := IntToString(s.statusCode);
    var p := |StatusCodeLabel| + |n| + 1;
    assert d == (StatusCodeLabel + n + "\n") + d[p..];
    IntToStringOneLine(s.statusCode);
    ReadStatusCodeOfText(n, d[p..]);
    ParseInt32OfIntToString(s.statusCode);
  }

  lemma IntToStringOneLine(i: int)
    ensures NoChar(IntToString(i), '\n')
  {
    var n := IntToString(i);
    if i < 0 {
      assert forall k :: 1 <= k < |n| ==> n[k] == NatToString(-i)[k - 1];
    }
  }

  lemma ReadStatusCodeOfText(n: string, tail: string)
    requires NoChar(n, '\n')
    ensures ReadStatusCode((StatusCodeLabel + n + "\n") + tail) == ParseInt32(n)
  {
    var d := (StatusCodeLabel + n + "\n") + tail;
    var rest := d[|StatusCodeLabel|..];
    assert d[..|StatusCodeLabel|] == StatusCodeLabel;
    assert rest == n + ("\n" + tail);
    assert IndexOf(rest, '\n') == |n| by {
      assert forall i :: 0 <= i < |n| ==> rest[i] == n[i];
      assert rest[|n|] == '\n';
    }
    assert rest[..|n|] == n;
  }
}

=== FILE: later_init.dfy ===
/** LaterInit<T>: a write-once cell over an Rx `BehaviorSubject`. The subject
    counts as initialised as soon as it has received one `onNext`, null
    included, so the state is "empty" or "set to a value that may be null".
    The exceptions' messages start with `Object.toString()` of the cell,
    which is not modelled; the error kinds are. */
module LaterInit {
  import opened Wrappers

  datatype LaterInitError = AlreadyInitialized | NotInitialized

  /** `delegation`: None while empty, Some(v) once set (v None for null). */
  datatype Cell<T> = Cell(delegation: Option<Option<T>>)

  function Empty<T>(): (c: Cell<T>)
    ensures !IsInitialized(c) && GetWithNull(c) == None
  {
    Cell(None)
  }

  predicate IsInitialized<T>(c: Cell<T>) {
    c.delegation.Some?
  }

  /** `set(value)`. */
  function Set<T>(c: Cell<T>, value: Option<T>): (r: Result<Cell<T>, LaterInitError>)
    ensures r.Failure? <==> IsInitialized(c)
    ensures r.Failure? ==> r.error == AlreadyInitialized
    ensures r.Success? ==> IsInitialized(r.value) && GetWithNull(r.value) == value
  {
    if IsInitialized(c) then Failure(AlreadyInitialized) else Success(Cell(Some(value)))
  }

  /** `setIfNull(value)`: `set`, with its InitializedException swallowed. */
  function SetIfNull<T>(c: Cell<T>, value: Option<T>): (r: Cell<T>)
    ensures IsInitialized(r)
    ensures IsInitialized(c) ==> r == c
    ensures !IsInitialized(c) ==> GetWithNull(r) == value
  {
    match Set(c, value)
    case Success(d) => d
    case Failure(_) => c
  }

  /** `getWithNull()`: the subject's current value, null when empty. */
  function GetWithNull<T>(c: Cell<T>): Option<T> {
    if c.delegation.Some? then c.delegation.value else None
  }

  /** `get()`. */
  function Get<T>(c: Cell<T>): (r: Result<Option<T>, LaterInitError>)
    ensures r.Failure? <==> !IsInitialized(c)
    ensures r.Failure? ==> r.error == NotInitialized
    ensures r.Success? ==> r.value == GetWithNull(c)
  {
    if !IsInitialized(c) then Failure(NotInitialized) else Success(GetWithNull(c))
  }

  /** `observable()` as a query: the first non-null value the subject
      holds, or None while the observable is still pending. */
  function Observed<T>(c: Cell<T>): (r: Option<T>)
    ensures r.Some? <==> IsInitialized(c) && GetWithNull(c).Some?
    ensures r.Some? ==> r == GetWithNull(c)
  {
    if IsInitialized(c) then GetWithNull(c) else None
  }

  datatype Op<T> = SetOp(v: Option<T>) | SetIfNullOp(v: Option<T>)

  /** Apply a sequence of writes, a failing `set` leaving the cell as it
      was; the result also says whether any `set` failed. */
  function Apply<T>(c: Cell<T>, ops: seq<Op<T>>): (r: (Cell<T>, bool))
    decreases |ops|
  {
    if ops == [] then (c, false)
    else
      var next := match ops[0]
        case SetOp(v) => (match Set(c, v) case Success(d) => (d, false) case Failure(_) => (c, true))
        case SetIfNullOp(v) => (SetIfNull(c, v), false);
      var rest := Apply(next.0, ops[1..]);
      (rest.0, next.1 || rest.1)
  }

  /** Once initialised the cell never changes again, and every further
      `set` fails. */
  lemma {:induction false} InitialisedIsFinal<T>(c: Cell<T>, ops: seq<Op<T>>)
    requires IsInitialized(c)
    ensures Apply(c, ops).0 == c
    ensures Apply(c, ops).1 <==> exists i :: 0 <= i < |ops| && ops[i].SetOp?
  {
    if ops != [] {
      InitialisedIsFinal(c, ops[1..]);
      if ops[0].SetIfNullOp? && exists i :: 1 <= i < |ops| && ops[i].SetOp? {
        var i :| 1 <= i < |ops| && ops[i].SetOp?;
        assert ops[1..][i - 1].SetOp?;
      }
      if exists i :: 0 <= i < |ops[1..]| && ops[1..][i].SetOp? {
        var i :| 0 <= i < |ops[1..]| && ops[1..][i].SetOp?;
        assert ops[i + 1].SetOp?;
      }
    }
  }

  /** The first write to an empty cell decides its value for good: later
      writes change nothing. */
  lemma FirstWriteWins<T>(v: Option<T>, ops: seq<Op<T>>, viaSetIfNull: bool)
    ensures var first := if viaSetIfNull then SetIfNullOp(v) else SetOp(v);
            var r := Apply(Empty(), [first] + ops);
            Get(r.0) == Success(v) && Observed(r.0) == v
  {
    var first := if viaSetIfNull then SetIfNullOp(v) else SetOp(v);
    assert ([first] + ops)[1..] == ops;
    InitialisedIsFinal(Cell(Some(v)), ops);
  }
}

=== FILE: lazy.dfy ===
/** Lazy<T>: a cell filled on first use, either by the supplier it was
    built with (`get`) or by the evaluation handed to `getOrEvaluate`. A
    supplier or an evaluation is represented by its outcome for the call at
    hand: the value it returns (None for null) or the exception it throws.
    The double-checked locking is modelled sequentially. */
module Lazy {
  import opened Wrappers

  datatype Eval<T> = Returned(v: Option<T>) | Threw(cause: string)

  datatype LazyError =
    | NotInitialized(message: string)
    | AlreadyInitialized(message: string)
    | Thrown(cause: string)

  const NoSupplierMessage := "The supplier method is not set, call getOrEvaluate()."
  const HasSupplierMessage := "The supplier method has been set, call get()."

  datatype Cell<T> = Cell(hasSupplier: bool, value: Option<T>)

  /** The outcome of one call: the cell afterwards and the value returned. */
  type Outcome<T> = Result<(Cell<T>, Option<T>), LazyError>

  /** Evaluate `e` into an empty cell: a thrown exception propagates and
      leaves the cell as it was; a returned value (also null) is stored. */
  function Store<T>(c: Cell<T>, e: Eval<T>): Outcome<T> {
    match e
    case Threw(cause) => Failure(Thrown(cause))
    case Returned(v) => Success((c.(value := v), v))
  }

  /** `get()`. */
  function Get<T>(c: Cell<T>, supplied: Eval<T>): (r: Outcome<T>)
    ensures c.value.Some? ==> r == Success((c, c.value))
    ensures c.value.None? && !c.hasSupplier ==> r == Failure(NotInitialized(NoSupplierMessage))
    ensures c.value.None? && c.hasSupplier && supplied.Returned? ==>
              r == Success((c.(value := supplied.v), supplied.v))
    ensures c.value.None? && c.hasSupplier && supplied.Threw? ==> r == Failure(Thrown(supplied.cause))
    ensures r.Success? ==> r.value.0.hasSupplier == c.hasSupplier && r.value.0.value == r.value.1
    ensures r.Failure? ==> c.value.None?
  {
    if c.value.Some? then Success((c, c.value))
    else if !c.hasSupplier then Failure(NotInitialized(NoSupplierMessage))
    else Store(c, supplied)
  }

  /** `getOrEvaluate(evaluate)`. */
  function GetOrEvaluate<T>(c: Cell<T>, evaluated: Eval<T>): (r: Outcome<T>)
    ensures c.value.Some? ==> r == Success((c, c.value))
    ensures c.value.None? && c.hasSupplier ==> r == Failure(AlreadyInitialized(HasSupplierMessage))
    ensures c.value.None? && !c.hasSupplier && evaluated.Returned? ==>
              r == Success((c.(value := evaluated.v), evaluated.v))
    ensures c.value.None? && !c.hasSupplier && evaluated.Threw? ==> r == Failure(Thrown(evaluated.cause))
    ensures r.Success? ==> r.value.0.hasSupplier == c.hasSupplier && r.value.0.value == r.value.1
    ensures r.Failure? ==> c.value.None?
  {
    if c.value.Some? then Success((c, c.value))
    else if c.hasSupplier then Failure(AlreadyInitialized(HasSupplierMessage))
    else Store(c, evaluated)
  }

  /** The argument of a call is consulted only while nothing is cached and
      only by the method that matches how the cell was built. */
  predicate Consults<T>(c: Cell<T>, viaGet: bool) {
    c.value.None? && c.hasSupplier == viaGet
  }

  /** Two calls that differ only in the outcome of their argument agree
      whenever the argument is not consulted. */
  lemma NotConsultedIgnored<T>(c: Cell<T>, e1: Eval<T>, e2: Eval<T>)
    ensures !Consults(c, true) ==> Get(c, e1) == Get(c, e2)
    ensures !Consults(c, false) ==> GetOrEvaluate(c, e1) == GetOrEvaluate(c, e2)
  {
  }

  /** A run of `getOrEvaluate` calls, a failed call leaving the cell as it
      was (the exception reaches the caller). */
  function RunGetOrEvaluate<T>(c: Cell<T>, evals: seq<Eval<T>>): (r: (Cell<T>, seq<Outcome<T>>))
    ensures |r.1| == |evals|
    decreases |evals|
  {
    if evals == [] then (c, [])
    else
      var o := GetOrEvaluate(c, evals[0]);
      var next := if o.Success? then o.value.0 else c;
      var rest := RunGetOrEvaluate(next, evals[1..]);
      (rest.0, [o] + rest.1)
  }

  /** The evaluation is consulted until it first returns a non-null value;
      from then on every call returns that value and the cell keeps it. */
  lemma {:induction false} RunCaches<T>(c: Cell<T>, evals: seq<Eval<T>>, k: nat, v: T)
    requires !c.hasSupplier && c.value.None?
    requires k < |evals| && evals[k] == Returned(Some(v))
    requires forall i :: 0 <= i < k ==> !evals[i].Returned? || evals[i].v.None?
    ensures RunGetOrEvaluate(c, evals).0.value == Some(v)
    ensures forall i :: k <= i < |evals| ==> RunGetOrEvaluate(c, evals).1[i] == Success((Cell(false, Some(v)), Some(v)))
  {
    var o := GetOrEvaluate(c, evals[0]);
    var next := if o.Success? then o.value.0 else c;
    if k == 0 {
      assert next == Cell(false, Some(v));
      CachedRun(next, evals[1..]);
    } else {
      assert next == Cell(false, None);
      RunCaches(next, evals[1..], k - 1, v);
    }
  }

  /** A cell that holds a value returns it to every later call. */
  lemma {:induction false} CachedRun<T>(c: Cell<T>, evals: seq<Eval<T>>)
    requires c.value.Some?
    ensures RunGetOrEvaluate(c, evals).0 == c
    ensures forall i :: 0 <= i < |evals| ==> RunGetOrEvaluate(c, evals).1[i] == Success((c, c.value))
  {
    if evals != [] {
      CachedRun(c, evals[1..]);
    }
  }
}

=== FILE: livy_cluster.dfy ===
/** LivyCluster: the batch and session endpoints of a Livy server, found
    by resolving a relative reference against the connection URL. */
module LivyCluster {
  import opened Wrappers
  import opened Text
  import opened Uri

  /** `URI.create(connectionUrl).resolve(segment).toString()`. */
  function LivyEndpoint(connectionUrl: string, segment: string): (r: Result<string, string>)
    ensures Parse(connectionUrl).Failure? ==> r.Failure?
  {
    var base :- Parse(connectionUrl);
    EndpointOf(base, segment)
  }

  /** `base.resolve(segment).toString()` for an already parsed base. */
  function EndpointOf(base: Uri, segment: string): Result<string, string> {
    var resolved :- ResolveText(base, segment);
    Success(Render(resolved))
  }

  function GetLivyBatchUrl(connectionUrl: string): (r: Result<string, string>)
    ensures Parse(connectionUrl).Failure? ==> r.Failure?
  {
    LivyEndpoint(connectionUrl, "batches")
  }

  function GetLivySessionUrl(connectionUrl: string): (r: Result<string, string>)
    ensures Parse(connectionUrl).Failure? ==> r.Failure?
  {
    LivyEndpoint(connectionUrl, "sessions")
  }

  /** A single relative path segment such as "batches": letters and digits. */
  predicate IsSegment(s: string) {
    |s| >= 1 && forall i :: 0 <= i < |s| ==> IsAlphaNum(s[i])
  }

  /** A plain segment reads as a relative URI whose path is the segment. */
  lemma SegmentParse(seg: string)
    requires IsSegment(seg)
    ensures Parse(seg) == Success(Hierarchical(None, None, seg, None, None))
  {
    var u := Hierarchical(None, None, seg, None, None);
    assert Legal(seg) by {
      forall i | 0 <= i < |seg| ensures LegalAt(seg, i) {
        assert IsAlphaNum(seg[i]);
      }
    }
    assert NoneIn(seg, {'?', '#'}) by {
      forall i | 0 <= i < |seg| ensures seg[i] !in {'?', '#'} {
        assert IsAlphaNum(seg[i]);
      }
    }
    assert !(|seg| >= 2 && seg[..2] == "//") by {
      assert IsAlphaNum(seg[0]);
    }
    assert NoSchemeColon(seg) by {
      var k := IndexOfAny(seg, SchemeStops);
      if k < |seg| {
        assert IsAlphaNum(seg[k]);
      }
    }
    assert WellFormed(u);
    ParseRender(u);
    assert Render(u) == seg;
  }

  /** Resolving a plain segment against a hierarchical connection URL keeps
      the scheme and the (non-empty) authority, merges the paths, and drops
      the connection URL's query and fragment.  Against an opaque URL the
      segment comes back alone. */
  lemma EndpointResolves(connectionUrl: string, seg: string)
    requires IsSegment(seg)
    requires Parse(connectionUrl).Success?
    ensures var b := Parse(connectionUrl).value;
            LivyEndpoint(connectionUrl, seg) ==
              if b.Opaque? then Success(seg)
              else Success(SchemePart(b.scheme) + AuthorityPart(GetAuthority(b)) + MergePath(b.path, seg))
  {
    var b := Parse(connectionUrl).value;
    EndpointOfParsed(connectionUrl, b, seg);
    BaseResolves(b, seg);
  }

  lemma BaseResolves(b: Uri, seg: string)
    requires IsSegment(seg)
    ensures EndpointOf(b, seg) ==
              if b.Opaque? then Success(seg)
              else Success(SchemePart(b.scheme) + AuthorityPart(GetAuthority(b)) + MergePath(b.path, seg))
  {
    SegmentParse(seg);
    var child := Hierarchical(None, None, seg, None, None);
    assert ResolveText(b, seg) == Success(Resolve(b, child));
    assert GetAuthority(child) == None;
    if b.Hierarchical? {
      var m := MergePath(b.path, seg);
      assert Resolve(b, child) == Hierarchical(b.scheme, GetAuthority(b), m, None, None);
      assert Render(Hierarchical(b.scheme, GetAuthority(b), m, None, None))
          == SchemePart(b.scheme) + AuthorityPart(GetAuthority(b)) + m;
    } else {
      assert Resolve(b, child) == child;
      assert Render(child) == seg;
    }
  }

  /** The case the SDK relies on: a connection URL ending in '/' (such as
      ".../livy/") with no query, no fragment and no empty authority gets
      the segment appended, so ".../livy/" becomes ".../livy/batches". */
  lemma EndpointAppends(connectionUrl: string, seg: string)
    requires IsSegment(seg)
    requires Parse(connectionUrl).Success?
    requires var b := Parse(connectionUrl).value;
             b.Hierarchical? && b.query.None? && b.fragment.None? && b.authority != Some("")
    requires EndsWith(connectionUrl, "/")
    ensures LivyEndpoint(connectionUrl, seg) == Success(connectionUrl + seg)
  {
    var b := Parse(connectionUrl).value;
    assert Render(b) == connectionUrl && WellFormed(b) by {
      RenderParse(connectionUrl);
    }
    EndpointOfParsed(connectionUrl, b, seg);
    BaseAppends(b, connectionUrl, seg);
  }

  lemma BaseAppends(b: Uri, text: string, seg: string)
    requires IsSegment(seg) && WellFormed(b) && Render(b) == text
    requires b.Hierarchical? && b.query.None? && b.fragment.None? && b.authority != Some("")
    requires EndsWith(text, "/")
    ensures EndpointOf(b, seg) == Success(text + seg)
  {
    SlashPathMerges(b, text, seg);
    assert GetAuthority(b) == b.authority;
    BaseResolves(b, seg);
  }

  /** Merging a segment into the path of a URL that prints ending in '/'
      appends it to the printed text. */
  lemma SlashPathMerges(b: Uri, text: string, seg: string)
    requires WellFormed(b) && Render(b) == text && EndsWith(text, "/")
    requires b.Hierarchical? && b.query.None? && b.fragment.None? && b.authority != Some("")
    ensures SchemePart(b.scheme) + AuthorityPart(b.authority) + MergePath(b.path, seg) == text + seg
  {
    var prefix := SchemePart(b.scheme) + AuthorityPart(b.authority);
    PathEndsWithSlash(b, text);
    MergeAfterSlash(b.path, seg);
    ConcatAssoc(prefix, b.path, seg);
  }

  /** A URL that prints ending in '/' has a path ending in '/'. */
  lemma PathEndsWithSlash(b: Uri, text: string)
    requires WellFormed(b) && Render(b) == text && EndsWith(text, "/")
    requires b.Hierarchical? && b.query.None? && b.fragment.None? && b.authority != Some("")
    ensures text == SchemePart(b.scheme) + AuthorityPart(b.authority) + b.path
    ensures b.path != [] && b.path[|b.path| - 1] == '/'
  {
    var prefix := SchemePart(b.scheme) + AuthorityPart(b.authority);
    assert text == prefix + b.path;
    PrefixNoTrailingSlash(b);
    assert text[|text| - 1] == '/';
  }

  /** Scheme and authority never end in '/'. */
  lemma PrefixNoTrailingSlash(b: Uri)
    requires WellFormed(b) && b.Hierarchical? && b.authority != Some("")
    ensures var prefix := SchemePart(b.scheme) + AuthorityPart(b.authority);
            prefix == [] || prefix[|prefix| - 1] != '/'
  {
    if b.authority.Some? {
      var a := b.authority.value;
      assert a[|a| - 1] !in {'/', '?', '#'};
    }
  }

  lemma MergeAfterSlash(path: string, seg: string)
    requires path != [] && path[|path| - 1] == '/'
    ensures MergePath(path, seg) == path + seg
  {
    assert LastIndexOf(path, '/') == |path| - 1;
    assert path[..|path|] == path;
  }

  /** A connection URL without a trailing '/' has its last path segment
      replaced: ".../livy" becomes ".../batches". */
  lemma EndpointReplacesLastSegment(connectionUrl: string, b: Uri, dir: string, last: string, seg: string)
    requires IsSegment(seg) && IsSegment(last)
    requires Parse(connectionUrl) == Success(b)
    requires b.Hierarchical? && b.path == dir + "/" + last
    ensures LivyEndpoint(connectionUrl, seg) ==
              Success(SchemePart(b.scheme) + AuthorityPart(GetAuthority(b)) + (dir + "/" + seg))
  {
    EndpointOfParsed(connectionUrl, b, seg);
    BaseReplacesLastSegment(b, dir, last, seg);
  }

  lemma EndpointOfParsed(connectionUrl: string, b: Uri, seg: string)
    requires Parse(connectionUrl) == Success(b)
    ensures LivyEndpoint(connectionUrl, seg) == EndpointOf(b, seg)
  {
  }

  lemma BaseReplacesLastSegment(b: Uri, dir: string, last: string, seg: string)
    requires IsSegment(seg) && IsSegment(last)
    requires b.Hierarchical? && b.path == dir + "/" + last
    ensures EndpointOf(b, seg) == Success(SchemePart(b.scheme) + AuthorityPart(GetAuthority(b)) + (dir + "/" + seg))
  {
    var prefix := SchemePart(b.scheme) + AuthorityPart(GetAuthority(b));
    assert EndpointOf(b, seg) == Success(prefix + MergePath(b.path, seg)) by {
      BaseResolves(b, seg);
    }
    assert MergePath(b.path, seg) == dir + "/" + seg by {
      ReplaceLast(dir, last, seg);
    }
  }

  lemma ReplaceLast(dir: string, last: string, seg: string)
    requires IsSegment(last)
    ensures MergePath(dir + "/" + last, seg) == dir + "/" + seg
  {
    var p := dir + "/" + last;
    forall i | |dir| < i < |p| ensures p[i] != '/' {
      assert p[i] == last[i - |dir| - 1];
      assert IsAlphaNum(last[i - |dir| - 1]);
    }
    LastIndexOfCharacterised(p, '/', |dir|);
    assert p[..|dir| + 1] == dir + "/";
  }

  lemma LastIndexOfCharacterised(s: string, c: char, k: nat)
    requires k < |s| && s[k] == c
    requires forall i :: k < i < |s| ==> s[i] != c
    ensures LastIndexOf(s, c) == k
  {
  }
}

=== FILE: livy_spark_batch.dfy ===
/** LivySparkBatch: the decisions a Livy batch job takes on the replies of
    the Livy REST service. Every HTTP exchange is an input: the status code
    and text of the reply together with the JSON parse of its body (None
    when the body does not parse), or an IOException from the transport.
    Sleeping between attempts is an input too: whether it was interrupted. */
module LivySparkBatch {
  import opened Wrappers
  import opened Text
  import opened Headers
  import BS = BatchState
  import SparkSubmitResponse

  // ------------------------------------------------------- state checks

  /** `isDone(state)`: the state, upper-cased, must name a BatchState
      (`valueOf` throws otherwise); Livy's final states are done. */
  function IsDone(state: string): (r: Result<bool, string>)
    ensures r.Failure? <==> BS.ValueOf(ToUpper(state)).Failure?
    ensures r.Failure? ==> r.error == BS.ValueOf(ToUpper(state)).error
    ensures r.Success? ==> (r.value <==> BS.ValueOf(ToUpper(state)).value in DoneStates)
  {
    Classify(BS.ValueOf(ToUpper(state)), (s: BS.BatchState) => s.ShuttingDown? || s.Error? || s.Dead? || s.Success?)
  }

  /** `isRunning(state)`. */
  function IsRunning(state: string): (r: Result<bool, string>)
    ensures r.Failure? <==> BS.ValueOf(ToUpper(state)).Failure?
    ensures r.Failure? ==> r.error == BS.ValueOf(ToUpper(state)).error
    ensures r.Success? ==> (r.value <==> BS.ValueOf(ToUpper(state)).value == BS.Running)
  {
    Classify(BS.ValueOf(ToUpper(state)), (s: BS.BatchState) => s == BS.Running)
  }

  /** `isSuccess(state)`. */
  function IsSuccess(state: string): (r: Result<bool, string>)
    ensures r.Failure? <==> BS.ValueOf(ToUpper(state)).Failure?
    ensures r.Failure? ==> r.error == BS.ValueOf(ToUpper(state)).error
    ensures r.Success? ==> (r.value <==> BS.ValueOf(ToUpper(state)).value == BS.Success)
  {
    Classify(BS.ValueOf(ToUpper(state)), (s: BS.BatchState) => s == BS.Success)
  }

  /** A test of the looked-up state; a failed lookup propagates. */
  function Classify(v: Result<BS.BatchState, string>, test: BS.BatchState -> bool): Result<bool, string> {
    var s :- v;
    Success(test(s))
  }

  /** The four states after which a batch does not change any more. */
  const DoneStates: set<BS.BatchState> := {BS.ShuttingDown, BS.Error, BS.Dead, BS.Success}

  /** A state string names the state whose name it equals, ignoring case. */
  lemma ValueOfState(state: string, s: BS.BatchState)
    requires EqualsIgnoreCase(state, BS.Name(s))
    ensures BS.ValueOf(ToUpper(state)) == Success(s)
  {
    EqualsIgnoreCaseUpper(state, BS.Name(s));
    BS.ValueOfUpperName(s);
  }

  lemma ChecksOfValue(state: string, s: BS.BatchState)
    requires BS.ValueOf(ToUpper(state)) == Success(s)
    ensures IsDone(state) == Success(s in DoneStates)
    ensures IsRunning(state) == Success(s == BS.Running)
    ensures IsSuccess(state) == Success(s == BS.Success)
  {
  }

  /** A state string is recognised exactly when it equals the name of some
      state, ignoring case; the checks then classify that state. */
  lemma StateChecksOf(state: string, s: BS.BatchState)
    requires EqualsIgnoreCase(state, BS.Name(s))
    ensures IsDone(state) == Success(s in DoneStates)
    ensures IsRunning(state) == Success(s == BS.Running)
    ensures IsSuccess(state) == Success(s == BS.Success)
  {
    ValueOfState(state, s);
    ChecksOfValue(state, s);
  }

  /** A string that names no state, ignoring case, makes every check fail
      with `valueOf`'s message. */
  lemma UnknownStateFails(state: string)
    requires forall s :: !EqualsIgnoreCase(state, BS.Name(s))
    ensures IsDone(state) == Failure(BS.NoConstant + ToUpper(state))
    ensures IsRunning(state) == Failure(BS.NoConstant + ToUpper(state))
    ensures IsSuccess(state) == Failure(BS.NoConstant + ToUpper(state))
  {
    forall s ensures BS.ConstantName(s) != ToUpper(state) {
      EqualsIgnoreCaseUpper(state, BS.Name(s));
    }
  }

  /** A successful run is a finished one, and a running batch is not
      finished; this holds for every string the checks accept. */
  lemma ChecksConsistent(state: string)
    ensures IsSuccess(state) == Success(true) ==> IsDone(state) == Success(true)
    ensures IsRunning(state) == Success(true) ==> IsDone(state) == Success(false)
    ensures IsDone(state).Success? <==> IsRunning(state).Success?
    ensures IsDone(state).Success? <==> IsSuccess(state).Success?
  {
  }

  /** For every state but ShuttingDown, a live batch (`isAlive`) is exactly
      one that is not done. */
  lemma AliveIffNotDone(s: BS.BatchState)
    requires s != BS.ShuttingDown
    ensures SparkSubmitResponse.IsAlive(BS.Name(s)) <==> IsDone(BS.Name(s)) == Success(false)
  {
    BS.ValueOfUpperName(s);
    ChecksOfValue(BS.Name(s), s);
  }

  // ------------------------------------------------------ awaitStarted

  datatype StartDecision =
    | KeepWaiting
    | Started(state: string)
    | FailedToStart(message: string)
    | BadState(message: string)

  const FailedToStartPrefix := "The Spark job failed to start due to "

  /** What `awaitStarted` makes of one status: a state neither done nor
      running waits for the next poll; a done state other than success fails
      with the log lines joined by newlines; a running or successful state
      is emitted as given. A state that names no BatchState fails in the
      checks. */
  function StartDecisionOf(state: string, log: seq<string>): (d: StartDecision)
    ensures d.BadState? <==> IsDone(state).Failure?
    ensures d.FailedToStart? <==> IsDone(state) == Success(true) && IsSuccess(state) == Success(false)
    ensures d.FailedToStart? ==> d.message == FailedToStartPrefix + Join(log, "\n")
    ensures d.Started? ==> d.state == state
  {
    match (IsDone(state), IsRunning(state), IsSuccess(state))
    case (Success(done), Success(running), Success(success)) =>
      if !done && !running then KeepWaiting
      else if done && !success then FailedToStart(FailedToStartPrefix + Join(log, "\n"))
      else Started(state)
    case (Failure(e), _, _) => BadState(e)
    case (_, Failure(e), _) => BadState(e)
    case (_, _, Failure(e)) => BadState(e)
  }

  /** The decision on each known state: waiting for the six states before
      the end except running, started for running and success, and a
      failure to start for shutting down, error and dead. */
  lemma StartDecisionOfState(state: string, s: BS.BatchState, log: seq<string>)
    requires EqualsIgnoreCase(state, BS.Name(s))
    ensures StartDecisionOf(state, log) == KeepWaiting <==> s !in DoneStates && s != BS.Running
    ensures StartDecisionOf(state, log) == Started(state) <==> s == BS.Running || s == BS.Success
    ensures StartDecisionOf(state, log).FailedToStart? <==> s in {BS.ShuttingDown, BS.Error, BS.Dead}
  {
    ValueOfState(state, s);
    DecisionOfValue(state, s, log);
  }

  lemma DecisionOfValue(state: string, s: BS.BatchState, log: seq<string>)
    requires BS.ValueOf(ToUpper(state)) == Success(s)
    ensures StartDecisionOf(state, log) == KeepWaiting <==> s !in DoneStates && s != BS.Running
    ensures StartDecisionOf(state, log) == Started(state) <==> s == BS.Running || s == BS.Success
    ensures StartDecisionOf(state, log).FailedToStart? <==> s in {BS.ShuttingDown, BS.Error, BS.Dead}
  {
    ChecksOfValue(state, s);
  }

  // ------------------------------------------------------------ replies

  /** A reply of the Livy service and the JSON parse of its message. */
  datatype Reply<T> = Reply(code: int, message: string, content: string, body: Option<T>)

  predicate IsSuccessCode(code: int) {
    200 <= code < 300
  }

  /** The parts of PostBatchesResponse the job reads. */
  datatype BatchReply = BatchReply(id: int, state: string, appId: Option<string>)

  const BadResponsePrefix := "Bad spark job response: "

  /** `createBatchJob`: a 2xx reply must parse and yields the batch id;
      every other code fails with the code, content and message. */
  function CreateBatchJob(reply: Reply<BatchReply>): (r: Result<int, string>)
    ensures r.Success? <==> IsSuccessCode(reply.code) && reply.body.Some?
    ensures r.Success? ==> r.value == reply.body.value.id
    ensures IsSuccessCode(reply.code) && reply.body.None? ==> r == Failure(BadResponsePrefix + reply.message)
    ensures !IsSuccessCode(reply.code) ==>
              r == Failure("Failed to submit Spark batch job. error code: " + IntToString(reply.code)
                           + ", type: " + reply.content + ", reason: " + reply.message + ".")
  {
    if 200 <= reply.code && reply.code < 300 then
      match reply.body
      case Some(b) => Success(b.id)
      case None => Failure(BadResponsePrefix + reply.message)
    else
      Failure("Failed to submit Spark batch job. error code: " + IntToString(reply.code)
              + ", type: " + reply.content + ", reason: " + reply.message + ".")
  }

  function KillFailure(code: int, content: string): string {
    "Failed to stop spark job. error code: " + IntToString(code) + ", reason: " + content + "."
  }

  /** `killBatchJob` as written: only a code above 300 is an error. */
  function KillBatchJob(code: int, content: string): (r: Result<(), string>)
    ensures r.Failure? <==> code > 300
    ensures r.Failure? ==> r.error == KillFailure(code, content)
  {
    if code > 300 then Failure(KillFailure(code, content)) else Success(())
  }

  /** The kill check accepts the 3xx code 300 (Multiple Choices), which no
      other reply check of the job accepts. */
  lemma KillAccepts300(content: string)
    ensures KillBatchJob(300, content).Success?
    ensures !IsSuccessCode(300) && CreateBatchJob(Reply(300, "", content, None)).Failure?
  {
  }

  /** The kill check as the other checks of the job make it: a code outside
      200..299 is an error. */
  function KillBatchJobCorrected(code: int, content: string): (r: Result<(), string>)
    ensures r.Failure? <==> !IsSuccessCode(code)
    ensures r.Failure? ==> r.error == KillFailure(code, content)
  {
    if 200 <= code < 300 then Success(()) else Failure(KillFailure(code, content))
  }

  /** The two kill checks agree on every code but 300 and the codes below
      200, and the corrected one accepts exactly what `createBatchJob`
      accepts. */
  lemma KillChecksCompared(code: int, content: string, message: string, b: BatchReply)
    ensures 200 <= code && code != 300 ==> KillBatchJob(code, content) == KillBatchJobCorrected(code, content)
    ensures KillBatchJobCorrected(code, content).Success? <==> CreateBatchJob(Reply(code, message, content, Some(b))).Success?
  {
  }

  // ------------------------------------------------------------ retries

  /** One call of a retried request: the reply, or an IOException. */
  datatype Call<T> = Replied(reply: Reply<T>) | IoFailed(cause: string)

  /** One round of a retry loop: the call and whether the sleep after it
      (taken only when the call gave nothing usable) was interrupted. */
  datatype Attempt<T> = Attempt(call: Call<T>, sleepInterrupted: bool)

  const InterruptedMessage := "Interrupted in retry attempting"

  /** The number of rounds of a `do … while (++retries < retriesMax)` loop. */
  function Rounds(retriesMax: int): (n: nat)
    ensures n >= 1 && n >= retriesMax
    ensures retriesMax >= 1 ==> n == retriesMax
  {
    if retriesMax < 1 then 1 else retriesMax
  }

  /** The value a round yields: a 2xx reply whose body parses and from
      which `extract` reads a value. A non-2xx reply, a body that does not
      parse (its UnknownServiceException is an IOException) and a transport
      failure yield nothing. */
  function Usable<T, U>(a: Attempt<T>, extract: T -> Option<U>): Option<U> {
    match a.call
    case Replied(reply) =>
      if IsSuccessCode(reply.code) && reply.body.Some? then extract(reply.body.value) else None
    case IoFailed(_) => None
  }

  /** A round ends the loop: it yields a value or its sleep is interrupted. */
  predicate Decides<T, U>(a: Attempt<T>, extract: T -> Option<U>) {
    Usable(a, extract).Some? || a.sleepInterrupted
  }

  /** No round before `k` ends the loop. */
  predicate Undecided<T, U>(attempts: seq<Attempt<T>>, extract: T -> Option<U>, k: nat)
    requires k <= |attempts|
  {
    forall j :: 0 <= j < k ==> !Decides(attempts[j], extract)
  }

  lemma UndecidedStep<T, U>(attempts: seq<Attempt<T>>, extract: T -> Option<U>, k: nat)
    requires k < |attempts| && Undecided(attempts, extract, k) && !Decides(attempts[k], extract)
    ensures Undecided(attempts, extract, k + 1)
  {
  }

  /** The first of the first `n` rounds that ends the loop, or `n`. */
  function FirstDecisive<T, U>(attempts: seq<Attempt<T>>, extract: T -> Option<U>, n: nat): (k: nat)
    requires n <= |attempts|
    ensures k <= n && Undecided(attempts, extract, k)
    ensures k < n ==> Decides(attempts[k], extract)
  {
    if n == 0 then 0
    else
      var k := FirstDecisive(attempts, extract, n - 1);
      if k < n - 1 then k
      else if Decides(attempts[n - 1], extract) then n - 1
      else n
  }

  /** The message of an exhausted retry loop. */
  function Exhausted(prefix: string, retries: int): string {
    prefix + IntToString(retries) + " retries"
  }

  /** The outcome of a retry loop, read off the first round that ends it:
      its value, or the interruption; with no such round among the
      `Rounds(retriesMax)` rounds, the exhaustion message counting one retry
      fewer than rounds. */
  function RetryOutcome<T, U>(attempts: seq<Attempt<T>>, retriesMax: int, extract: T -> Option<U>, prefix: string): Result<U, string>
    requires |attempts| >= Rounds(retriesMax)
  {
    var n := Rounds(retriesMax);
    var k := FirstDecisive(attempts, extract, n);
    if k == n then Failure(Exhausted(prefix, n - 1))
    else if Usable(attempts[k], extract).Some? then Success(Usable(attempts[k], extract).value)
    else Failure(InterruptedMessage)
  }

  /** The outcome case by case: the first usable round wins unless an
      interrupted sleep comes first; with neither, the loop is exhausted. */
  lemma RetryOutcomeCases<T, U>(attempts: seq<Attempt<T>>, retriesMax: int, extract: T -> Option<U>, prefix: string, k: nat)
    requires |attempts| >= Rounds(retriesMax)
    requires k < Rounds(retriesMax) && Undecided(attempts, extract, k)
    ensures Usable(attempts[k], extract).Some? ==>
              RetryOutcome(attempts, retriesMax, extract, prefix) == Success(Usable(attempts[k], extract).value)
    ensures Usable(attempts[k], extract).None? && attempts[k].sleepInterrupted ==>
              RetryOutcome(attempts, retriesMax, extract, prefix) == Failure(InterruptedMessage)
  {
    var f := FirstDecisive(attempts, extract, Rounds(retriesMax));
    if Decides(attempts[k], extract) {
      assert f == k;
    }
  }

  /** With no round ending the loop, every retried request fails with the
      exhaustion message. */
  lemma RetryExhausted<T, U>(attempts: seq<Attempt<T>>, retriesMax: int, extract: T -> Option<U>, prefix: string)
    requires |attempts| >= Rounds(retriesMax)
    requires Undecided(attempts, extract, Rounds(retriesMax))
    ensures RetryOutcome(attempts, retriesMax, extract, prefix)
            == Failure(Exhausted(prefix, Rounds(retriesMax) - 1))
  {
    var n := Rounds(retriesMax);
    var f := FirstDecisive(attempts, extract, n);
    assert f == n;
  }

  /** The retry loop shared by `getState`, `getSparkJobApplicationId` and
      `isActive`, as the loop it is written as. */
  method Retry<T, U>(attempts: seq<Attempt<T>>, retriesMax: int, extract: T -> Option<U>, prefix: string)
    returns (r: Result<U, string>)
    requires |attempts| >= Rounds(retriesMax)
    ensures r == RetryOutcome(attempts, retriesMax, extract, prefix)
  {
    var retries := 0;
    while true
      invariant 0 <= retries < Rounds(retriesMax)
      invariant Undecided(attempts, extract, retries)
      decreases Rounds(retriesMax) - retries
    {
      var v := Usable(attempts[retries], extract);
      if v.Some? {
        RetryOutcomeCases(attempts, retriesMax, extract, prefix, retries);
        return Success(v.value);
      }
      if attempts[retries].sleepInterrupted {
        RetryOutcomeCases(attempts, retriesMax, extract, prefix, retries);
        return Failure(InterruptedMessage);
      }
      UndecidedStep(attempts, extract, retries);
      retries := retries + 1;
      if !(retries < retriesMax) {
        break;
      }
    }
    assert retries == Rounds(retriesMax);
    RetryExhausted(attempts, retriesMax, extract, prefix);
    retries := retries - 1;
    return Failure(Exhausted(prefix, retries));
  }

  const StatePrefix := "Failed to get job state: Unknown service error after "
  const AppIdPrefix := "Failed to get job Application ID: Unknown service error after "
  const ActivityPrefix := "Failed to detect job activity: Unknown service error after "

  function StateOf(b: BatchReply): Option<string> {
    Some(b.state)
  }

  function ActivityOf(b: BatchReply): Option<bool> {
    Some(SparkSubmitResponse.IsAlive(b.state))
  }

  function AppIdOf(b: BatchReply): Option<string> {
    b.appId
  }

  /** `getState()`: every parsed 2xx reply is usable. */
  method GetState(attempts: seq<Attempt<BatchReply>>, retriesMax: int) returns (r: Result<string, string>)
    requires |attempts| >= Rounds(retriesMax)
    ensures r == RetryOutcome(attempts, retriesMax, StateOf, StatePrefix)
  {
    r := Retry(attempts, retriesMax, StateOf, StatePrefix);
  }

  /** `getSparkJobApplicationId(…)`: a parsed 2xx reply without an
      application id is retried like a failed one. */
  method GetSparkJobApplicationId(attempts: seq<Attempt<BatchReply>>, retriesMax: int) returns (r: Result<string, string>)
    requires |attempts| >= Rounds(retriesMax)
    ensures r == RetryOutcome(attempts, retriesMax, AppIdOf, AppIdPrefix)
  {
    r := Retry(attempts, retriesMax, AppIdOf, AppIdPrefix);
  }

  /** `isActive()`: the `isAlive` of the first parsed 2xx reply. */
  method IsActive(attempts: seq<Attempt<BatchReply>>, retriesMax: int) returns (r: Result<bool, string>)
    requires |attempts| >= Rounds(retriesMax)
    ensures r == RetryOutcome(attempts, retriesMax, ActivityOf, ActivityPrefix)
  {
    r := Retry(attempts, retriesMax, ActivityOf, ActivityPrefix);
  }

  /** A reply without an application id never ends the application id
      loop, though it ends the state loop. */
  lemma MissingAppIdRetried(reply: Reply<BatchReply>, interrupted: bool)
    requires IsSuccessCode(reply.code) && reply.body.Some? && reply.body.value.appId.None?
    ensures !Decides(Attempt(Replied(reply), interrupted), AppIdOf) <==> !interrupted
    ensures Decides(Attempt(Replied(reply), interrupted), StateOf)
  {
  }

  // ---------------------------------------------------- submission log

  /** The header lines Livy sends even when nothing follows them. */
  const IgnoredEmptyLines: set<string> := {"stdout:", "stderr:", "yarn diagnostics:"}

  predicate IgnoredLine(line: string) {
    ToLower(Trim(line)) in IgnoredEmptyLines
  }

  /** The lines of one log page that reach the subscriber. */
  function ForwardedLines(lines: seq<string>): (r: seq<string>)
    ensures forall l :: l in r <==> l in lines && !IgnoredLine(l)
    ensures SubsequenceOf(r, lines)
  {
    WithoutSubsequence(lines, IgnoredLine);
    Without(lines, IgnoredLine)
  }

  /** One page of `/batches/{id}/log?from=…&size=128`, with the state and
      application-id lookups the loop makes when the page is empty. */
  datatype LogPage = LogPage(lines: seq<string>, state: string, appIdAllocated: bool)

  /** One round of the loop: a page served, or a round that ends the
      stream. A reply body that does not parse as a log response raises
      the UnknownServiceException "Bad spark log response: <body>"; the
      request, or the state lookup after an empty page, can raise an
      IOException; both are IOExceptions, whose message is emitted as an
      Error. The sleep after an empty page can be interrupted, which ends
      the stream without a message. */
  datatype LogRound =
    | Served(page: LogPage)
    | BadBody(body: string)
    | IoFailure(message: string)
    | Interrupted

  const BadLogResponse := "Bad spark log response: "

  /** The lines a round delivers. */
  function RoundLines(p: LogRound): seq<string> {
    if p.Served? then p.page.lines else []
  }

  /** The `(Error, message)` a round emits as the last item, if any. */
  function RoundError(p: LogRound): Option<string> {
    match p
    case BadBody(body) => Some(BadLogResponse + body)
    case IoFailure(message) => Some(message)
    case _ => None
  }

  /** The loop goes on after a page with lines, and after an empty page
      only while the batch is starting without an application id. */
  predicate KeepsPolling(p: LogRound) {
    p.Served? && (|p.page.lines| != 0 || (p.page.state == "starting" && !p.page.appIdAllocated))
  }

  function AllLines(rounds: seq<LogRound>): seq<string> {
    if rounds == [] then [] else RoundLines(rounds[0]) + AllLines(rounds[1..])
  }

  /** The polling loop of `getSubmissionLog` over the rounds it goes
      through from offset `start`, each page's lines passed through
      `forward`: the lines forwarded, the offset of the next request, the
      number of rounds taken and the error message the stream ends with. */
  function Poll(start: int, rounds: seq<LogRound>, forward: seq<string> -> seq<string>)
    : (r: (seq<string>, int, nat, Option<string>))
    ensures r.2 <= |rounds|
    ensures r.3.Some? ==> 1 <= r.2 && r.3 == RoundError(rounds[r.2 - 1])
    decreases |rounds|
  {
    if rounds == [] then ([], start, 0, None)
    else
      var p := rounds[0];
      if !p.Served? then ([], start, 1, RoundError(p))
      else
        var next := start + |p.page.lines|;
        if !KeepsPolling(p) then (forward(p.page.lines), next, 1, None)
        else
          var rest := Poll(next, rounds[1..], forward);
          assert rest.3.Some? ==> rounds[1..][rest.2 - 1] == rounds[rest.2];
          (forward(p.page.lines) + rest.0, rest.1, 1 + rest.2, rest.3)
  }

  /** What the subscriber receives, in order. */
  datatype LogMessage = LogLine(line: string) | ErrorLine(message: string)

  /** The forwarded lines as Log messages, then the Error message if the
      stream ends with one; `onCompleted` follows in every case. */
  function Emitted(lines: seq<string>, error: Option<string>): (ms: seq<LogMessage>)
    ensures |ms| == |lines| + (if error.Some? then 1 else 0)
    ensures forall i :: 0 <= i < |lines| ==> ms[i] == LogLine(lines[i])
    ensures error.Some? ==> ms[|lines|] == ErrorLine(error.value)
  {
    seq(|lines|, i requires 0 <= i < |lines| => LogLine(lines[i])) + (if error.Some? then [ErrorLine(error.value)] else [])
  }

  /** `getSubmissionLog`: the loop with the bare-header filter. */
  function SubmissionLog(start: int, rounds: seq<LogRound>): (r: (seq<string>, int, nat, Option<string>))
    ensures r.2 <= |rounds|
    ensures r.3.Some? ==> 1 <= r.2 && r.3 == RoundError(rounds[r.2 - 1])
  {
    Poll(start, rounds, ForwardedLines)
  }

  /** The messages `getSubmissionLog` emits. */
  function SubmissionMessages(start: int, rounds: seq<LogRound>): seq<LogMessage> {
    var r := SubmissionLog(start, rounds);
    Emitted(r.0, r.3)
  }

  /** A line filter works line by line: it maps no lines to none and a
      concatenation to the concatenation of its parts. */
  ghost predicate LineByLine(forward: seq<string> -> seq<string>) {
    && forward([]) == []
    && forall a, b :: forward(Joined(a, b)) == forward(a) + forward(b)
  }

  /** The lines of two pages, one after the other. */
  function Joined(a: seq<string>, b: seq<string>): (r: seq<string>)
    ensures |r| == |a| + |b|
  {
    a + b
  }

  /** The lines of the first `n` rounds, the first round's lines first. */
  lemma AllLinesPrefix(rounds: seq<LogRound>, n: nat)
    requires 1 <= n <= |rounds|
    ensures AllLines(rounds[..n]) == RoundLines(rounds[0]) + AllLines(rounds[1..][..n - 1])
  {
    assert rounds[..n][1..] == rounds[1..][..n - 1];
  }

  /** The lines of two runs of rounds, one after the other. */
  lemma {:induction false} AllLinesConcat(a: seq<LogRound>, b: seq<LogRound>)
    ensures AllLines(a + b) == AllLines(a) + AllLines(b)
    decreases |a|
  {
    if a != [] {
      assert (a + b)[1..] == a[1..] + b;
      AllLinesConcat(a[1..], b);
    } else {
      assert a + b == b;
    }
  }

  /** The loop takes rounds up to and including the first one that does
      not keep it polling, and ends with that round's error message, if
      it has one. */
  lemma {:induction false} PollStops(start: int, rounds: seq<LogRound>, forward: seq<string> -> seq<string>)
    ensures var r := Poll(start, rounds, forward);
            var n := r.2;
            && n <= |rounds|
            && (rounds != [] ==> n >= 1)
            && (forall i :: 0 <= i < n - 1 ==> KeepsPolling(rounds[i]))
            && (n < |rounds| ==> !KeepsPolling(rounds[n - 1]))
            && r.3 == (if n >= 1 then RoundError(rounds[n - 1]) else None)
    decreases |rounds|
  {
    if rounds != [] && KeepsPolling(rounds[0]) {
      PollStops(start + |RoundLines(rounds[0])|, rounds[1..], forward);
      var n := Poll(start, rounds, forward).2;
      forall i | 1 <= i < n - 1 ensures KeepsPolling(rounds[i]) {
        assert rounds[i] == rounds[1..][i - 1];
      }
      if n >= 2 {
        assert rounds[1..][n - 2] == rounds[n - 1];
      }
    }
  }

  /** The offset of the next request advances by every line received. */
  lemma {:induction false} PollOffset(start: int, rounds: seq<LogRound>, forward: seq<string> -> seq<string>)
    ensures var r := Poll(start, rounds, forward);
            r.2 <= |rounds| && r.1 == start + |AllLines(rounds[..r.2])|
    decreases |rounds|
  {
    if rounds != [] {
      var r := Poll(start, rounds, forward);
      if KeepsPolling(rounds[0]) {
        PollOffset(start + |RoundLines(rounds[0])|, rounds[1..], forward);
      }
      AllLinesPrefix(rounds, r.2);
      if r.2 == 1 {
        assert rounds[1..][..0] == [];
      }
    }
  }

  /** What is forwarded is a line-by-line filter applied to every received
      line, in the order received. */
  lemma {:induction false} PollForwarded(start: int, rounds: seq<LogRound>, forward: seq<string> -> seq<string>)
    requires LineByLine(forward)
    ensures var r := Poll(start, rounds, forward);
            r.2 <= |rounds| && r.0 == forward(AllLines(rounds[..r.2]))
    decreases |rounds|
  {
    if rounds != [] {
      var p := rounds[0];
      var r := Poll(start, rounds, forward);
      if !KeepsPolling(p) {
        assert r.2 == 1;
        assert rounds[..1] == [p] && [p][1..] == [];
        assert AllLines(rounds[..1]) == RoundLines(p);
      } else {
        var next := start + |RoundLines(p)|;
        var rest := Poll(next, rounds[1..], forward);
        PollForwarded(next, rounds[1..], forward);
        assert r == (forward(p.page.lines) + rest.0, rest.1, 1 + rest.2, rest.3);
        AllLinesPrefix(rounds, r.2);
        assert forward(Joined(RoundLines(p), AllLines(rounds[1..][..rest.2])))
               == forward(RoundLines(p)) + forward(AllLines(rounds[1..][..rest.2]));
      }
    }
  }

  /** The bare-header filter works line by line. */
  lemma ForwardedLinesLineByLine()
    ensures LineByLine(ForwardedLines)
  {
    forall a, b ensures ForwardedLines(Joined(a, b)) == ForwardedLines(a) + ForwardedLines(b) {
      WithoutConcat(a, b, IgnoredLine);
    }
  }

  /** The submission log takes rounds until the first one that does not
      keep it polling; the offset advances by every line received, dropped
      or not; only the lines that are not bare headers reach the
      subscriber, followed by the error message of the round that ended
      the stream, if it has one. */
  lemma SubmissionLogCounts(start: int, rounds: seq<LogRound>)
    ensures var r := SubmissionLog(start, rounds);
            && r.2 <= |rounds|
            && r.1 == start + |AllLines(rounds[..r.2])|
            && r.0 == ForwardedLines(AllLines(rounds[..r.2]))
            && (forall i :: 0 <= i < r.2 - 1 ==> KeepsPolling(rounds[i]))
            && (r.2 < |rounds| ==> r.2 >= 1 && !KeepsPolling(rounds[r.2 - 1]))
            && SubmissionMessages(start, rounds)
               == Emitted(r.0, if r.2 >= 1 then RoundError(rounds[r.2 - 1]) else None)
  {
    PollStops(start, rounds, ForwardedLines);
    PollOffset(start, rounds, ForwardedLines);
    ForwardedLinesLineByLine();
    PollForwarded(start, rounds, ForwardedLines);
  }

  /** A round that fails ends the stream: after pages that keep the loop
      polling, a bad reply body or an IOException emits the lines so far
      and then its Error message, an interrupted sleep emits the lines so
      far and nothing more, and no later round is taken. */
  lemma FailureEndsStream(start: int, pages: seq<LogRound>, failure: LogRound, later: seq<LogRound>)
    requires forall i :: 0 <= i < |pages| ==> KeepsPolling(pages[i])
    requires !failure.Served?
    ensures var r := SubmissionLog(start, pages + [failure] + later);
            && r.2 == |pages| + 1
            && r.1 == start + |AllLines(pages)|
            && SubmissionMessages(start, pages + [failure] + later)
               == Emitted(ForwardedLines(AllLines(pages)), RoundError(failure))
  {
    var rounds := pages + [failure] + later;
    var k := |pages|;
    assert rounds[k] == failure;
    assert forall i :: 0 <= i < k ==> rounds[i] == pages[i];
    PollStopsAt(start, rounds, ForwardedLines, k);
    var r := SubmissionLog(start, rounds);
    assert r.2 == k + 1;
    assert rounds[..k + 1] == pages + [failure];
    LinesThroughFailure(pages, failure);
    assert AllLines(rounds[..r.2]) == AllLines(pages);
    assert r.3 == RoundError(failure);
    PollOffset(start, rounds, ForwardedLines);
    SubmissionForwarded(start, rounds);
  }

  /** The submission log forwards the received lines less the bare
      headers. */
  lemma SubmissionForwarded(start: int, rounds: seq<LogRound>)
    ensures var r := SubmissionLog(start, rounds);
            r.0 == ForwardedLines(AllLines(rounds[..r.2]))
  {
    ForwardedLinesLineByLine();
    PollForwarded(start, rounds, ForwardedLines);
  }

  /** The loop stops at the first round that does not keep it polling,
      with that round's error message. */
  lemma PollStopsAt(start: int, rounds: seq<LogRound>, forward: seq<string> -> seq<string>, k: nat)
    requires k < |rounds| && !KeepsPolling(rounds[k])
    requires forall i :: 0 <= i < k ==> KeepsPolling(rounds[i])
    ensures Poll(start, rounds, forward).2 == k + 1
    ensures Poll(start, rounds, forward).3 == RoundError(rounds[k])
  {
    PollStops(start, rounds, forward);
  }

  /** A failed round contributes no lines. */
  lemma LinesThroughFailure(pages: seq<LogRound>, failure: LogRound)
    requires !failure.Served?
    ensures AllLines(pages + [failure]) == AllLines(pages)
  {
    AllLinesConcat(pages, [failure]);
    assert [failure][1..] == [];
  }
}

=== FILE: log_input_stream.dfy ===
/** `SparkJobLogInputStream`: an InputStream over a job's log, refilled a
    slice at a time. The stream's state is a value here; `fetchLog`, the
    charset of `String.getBytes` and the attached job are parameters. */
module LogInputStream {
  import opened Wrappers
  import opened Text

  /** The stream's fields: `buffer` holds the raw bytes of the last slice
      and `pos` is the read cursor into it. */
  datatype Stream<J> = Stream(logType: string, job: Option<J>, logUrl: Option<string>,
                              offset: int, buffer: seq<bv8>, pos: nat)

  /** The constructor: an empty buffer at offset 0, no job attached. */
  function NewStream<J>(logType: string): (s: Stream<J>)
    ensures s.logType == logType && s.job.None? && s.logUrl.None?
    ensures s.offset == 0 && Exhausted(s)
  {
    Stream(logType, None, None, 0, [], 0)
  }

  /** Every byte of the buffer has been read. */
  predicate Exhausted<J>(s: Stream<J>) {
    s.pos >= |s.buffer|
  }

  /** `attachJob`: records the job and hands it back. */
  function AttachJob<J>(s: Stream<J>, job: J): (r: (Stream<J>, J))
    ensures r.1 == job && r.0.job == Some(job)
    ensures r.0.(job := s.job) == s
  {
    (s.(job := Some(job)), job)
  }

  /** `fetchLog`: at present it never returns a slice, whatever is asked. */
  function FetchLog(logOffset: int, fetchSize: int): (r: Option<(string, int)>)
    ensures r.None?
  {
    None
  }

  const BeyondBufferEnd := "Beyond the buffer end, needs a new log fetch"

  /** A Java `byte` widened to `int`: sign-extended. */
  function SignedByte(b: bv8): (v: int)
    ensures -128 <= v < 128
    ensures (v + 256) % 256 == b as int
    ensures v < 0 <==> b >= 0x80
  {
    if b < 0x80 then b as int else b as int - 256
  }

  /** `read()` as written: the IOException past the end of the buffer, and
      otherwise the byte at the cursor, sign-extended, with the cursor
      moved on by one. */
  function Read<J>(s: Stream<J>): (r: Result<(Stream<J>, int), string>)
    ensures r.Failure? <==> Exhausted(s)
    ensures r.Failure? ==> r.error == BeyondBufferEnd
    ensures r.Success? ==> r.value.0 == s.(pos := s.pos + 1)
    ensures r.Success? ==> -128 <= r.value.1 < 128 && (r.value.1 + 256) % 256 == s.buffer[s.pos] as int
  {
    if s.pos >= |s.buffer| then Failure(BeyondBufferEnd)
    else Success((s.(pos := s.pos + 1), SignedByte(s.buffer[s.pos])))
  }

  /** `read()` as the InputStream contract asks: the byte as a value in
      0..255, so that -1 is left to mean the end of the stream. */
  function ReadCorrected<J>(s: Stream<J>): (r: Result<(Stream<J>, int), string>)
    ensures r.Failure? <==> Exhausted(s)
    ensures r.Failure? ==> r.error == BeyondBufferEnd
    ensures r.Success? ==> r.value.0 == s.(pos := s.pos + 1)
    ensures r.Success? ==> 0 <= r.value.1 < 256 && r.value.1 == s.buffer[s.pos] as int
  {
    if s.pos >= |s.buffer| then Failure(BeyondBufferEnd)
    else Success((s.(pos := s.pos + 1), s.buffer[s.pos] as int))
  }

  /** The two reads agree exactly on the bytes below 0x80; every byte from
      0x80 up reads as a negative number, and 0xFF as -1, the value
      InputStream reserves for the end of the stream. */
  lemma ReadSignExtends<J>(s: Stream<J>)
    requires !Exhausted(s)
    ensures Read(s).value.0 == ReadCorrected(s).value.0
    ensures s.buffer[s.pos] < 0x80 <==> Read(s).value.1 == ReadCorrected(s).value.1
    ensures s.buffer[s.pos] >= 0x80 ==> Read(s).value.1 == ReadCorrected(s).value.1 - 256 < 0
  {
  }

  /** A slice holding the byte 0xFF: `read` answers -1. */
  lemma ReadFFIsEndMarker<J>(logType: string)
    ensures var s := NewStream<J>(logType).(buffer := [0xFF]);
            Read(s).value.1 == -1 && ReadCorrected(s).value.1 == 255
  {
  }

  /** `available()` given what `fetchLog(offset, -1)` returned and the
      charset encoding of `getBytes`. With bytes left, their count and no
      change; with none left, a slice replaces the buffer, rewinds the
      cursor and moves the offset past the slice (by its `length()`, in
      UTF-16 code units), and no slice (after a pause) answers 0 and
      changes nothing. */
  function Available<J>(s: Stream<J>, fetched: Option<(string, int)>, encode: string -> seq<bv8>)
    : (r: (Stream<J>, int))
    ensures !Exhausted(s) ==> r == (s, |s.buffer| - s.pos)
    ensures Exhausted(s) && fetched.None? ==> r == (s, 0)
    ensures Exhausted(s) && fetched.Some? ==>
              var (slice, sliceOffset) := fetched.value;
              r.0 == s.(buffer := encode(slice), pos := 0, offset := sliceOffset + Utf16Length(slice))
              && r.1 == |encode(slice)|
    ensures r.1 == (if Exhausted(r.0) then 0 else |r.0.buffer| - r.0.pos)
    ensures r.0.logType == s.logType && r.0.job == s.job && r.0.logUrl == s.logUrl
  {
    if s.pos >= |s.buffer| then
      match fetched
      case Some((slice, sliceOffset)) =>
        var bytes := encode(slice);
        (s.(buffer := bytes, pos := 0, offset := sliceOffset + Utf16Length(slice)), |bytes|)
      case None => (s, 0)
    else (s, |s.buffer| - s.pos)
  }

  /** `available()` with the stream's own `fetchLog`. */
  function AvailableNow<J>(s: Stream<J>, encode: string -> seq<bv8>): (r: (Stream<J>, int))
    ensures Exhausted(s) ==> r == (s, 0)
  {
    Available(s, FetchLog(s.offset, -1), encode)
  }

  /** After `available()` answers n, exactly n reads succeed and return
      the buffer's bytes from the cursor on, in order, and the next one
      fails. */
  method Drain<J>(s: Stream<J>) returns (bytes: seq<int>, last: Stream<J>)
    ensures |bytes| == |s.buffer| - s.pos || (Exhausted(s) && bytes == [])
    ensures forall i :: 0 <= i < |bytes| ==> bytes[i] == s.buffer[s.pos + i] as int
    ensures last == s.(pos := if Exhausted(s) then s.pos else |s.buffer|)
    ensures ReadCorrected(last).Failure?
  {
    bytes := [];
    last := s;
    var r := ReadCorrected(last);
    while r.Success?
      invariant last == s.(pos := last.pos) && s.pos <= last.pos
      invariant !Exhausted(s) ==> last.pos <= |s.buffer| && |bytes| == last.pos - s.pos
      invariant Exhausted(s) ==> bytes == [] && last == s
      invariant forall i :: 0 <= i < |bytes| ==> bytes[i] == s.buffer[s.pos + i] as int
      invariant r == ReadCorrected(last)
      decreases |last.buffer| - last.pos
    {
      bytes := bytes + [r.value.1];
      last := r.value.0;
      r := ReadCorrected(last);
    }
  }

  /** What the stream's users can do. */
  datatype Op<J> = ReadOp | AvailableOp | AttachOp(job: J)

  /** Runs the operations from `s` with the stream's own `fetchLog`,
      collecting the values `read` returned and the answers of
      `available`. */
  function Run<J>(s: Stream<J>, ops: seq<Op<J>>, encode: string -> seq<bv8>): (r: (Stream<J>, seq<int>, seq<int>))
    decreases |ops|
  {
    if ops == [] then (s, [], [])
    else
      match ops[0]
      case ReadOp =>
        (match Read(s)
         case Success((next, b)) =>
           var rest := Run(next, ops[1..], encode);
           (rest.0, [b] + rest.1, rest.2)
         case Failure(_) => Run(s, ops[1..], encode))
      case AvailableOp =>
        var (next, n) := AvailableNow(s, encode);
        var rest := Run(next, ops[1..], encode);
        (rest.0, rest.1, [n] + rest.2)
      case AttachOp(job) => Run(AttachJob(s, job).0, ops[1..], encode)
  }

  /** Since `fetchLog` never returns a slice, a stream whose buffer is
      used up stays that way: no `read` ever succeeds and `available`
      always answers 0. */
  lemma {:induction false} NothingEverProduced<J>(s: Stream<J>, ops: seq<Op<J>>, encode: string -> seq<bv8>)
    requires Exhausted(s)
    ensures Run(s, ops, encode).1 == []
    ensures forall i :: 0 <= i < |Run(s, ops, encode).2| ==> Run(s, ops, encode).2[i] == 0
    ensures Exhausted(Run(s, ops, encode).0) && Run(s, ops, encode).0.offset == s.offset
    decreases |ops|
  {
    if ops != [] {
      match ops[0]
      case ReadOp => NothingEverProduced(s, ops[1..], encode);
      case AvailableOp => NothingEverProduced(s, ops[1..], encode);
      case AttachOp(job) => NothingEverProduced(AttachJob(s, job).0, ops[1..], encode);
    }
  }

  /** In particular a new stream never yields a byte. */
  lemma NewStreamIsSilent<J>(logType: string, ops: seq<Op<J>>, encode: string -> seq<bv8>)
    ensures Run(NewStream<J>(logType), ops, encode).1 == []
  {
    NothingEverProduced(NewStream<J>(logType), ops, encode);
  }
}

=== FILE: mock_http_service.dfy ===
/** `MockHttpService`, the tests' stand-in for the Livy and Yarn servers:
    the URLs it hands to the code under test, the properties its response
    templates see, and its stubs, whose bodies are rendered when they are
    registered. The WireMock server is reduced to a list of stubs; the
    Groovy template engine is the parameter `render`. */
module MockHttpService {
  import opened Wrappers
  import opened Text

  // ---------------------------------------------------------- URLs

  /** The scheme, "localhost" and the port, ending in '/'. */
  function Origin(scheme: string, port: int): string {
    scheme + "://localhost:" + IntToString(port) + "/"
  }

  /** `completeUrl` and `completeHttpsUrl`: the origin, then the URI with
      every leading '/' dropped, so that exactly one separates them. */
  function CompleteUrlFor(scheme: string, port: int, absoluteUri: string): (r: string)
    ensures StartsWith(r, Origin(scheme, port))
    ensures r[|Origin(scheme, port)|..] == StripLeading(absoluteUri, '/')
    ensures |r| == |Origin(scheme, port)| || r[|Origin(scheme, port)|] != '/'
  {
    var head := Origin(scheme, port);
    var r := head + StripLeading(absoluteUri, '/');
    assert r[..|head|] == head && r[|head|..] == StripLeading(absoluteUri, '/');
    r
  }

  function CompleteUrl(port: int, absoluteUri: string): (r: string)
    ensures StartsWith(r, Origin("http", port))
    ensures r[|Origin("http", port)|..] == StripLeading(absoluteUri, '/')
  {
    CompleteUrlFor("http", port, absoluteUri)
  }

  function CompleteHttpsUrl(httpsPort: int, absoluteUri: string): (r: string)
    ensures StartsWith(r, Origin("https", httpsPort))
    ensures r[|Origin("https", httpsPort)|..] == StripLeading(absoluteUri, '/')
  {
    CompleteUrlFor("https", httpsPort, absoluteUri)
  }

  /** Stripping once more removes nothing. */
  lemma {:induction false} StripLeadingIdempotent(s: string, c: char)
    ensures StripLeading(StripLeading(s, c), c) == StripLeading(s, c)
    decreases |s|
  {
    if s != [] && s[0] == c {
      StripLeadingIdempotent(s[1..], c);
    }
  }

  /** Leading '/'s strip to the same text, however many there are. */
  lemma {:induction false} StripLeadingSlashes(k: nat, s: string)
    ensures StripLeading(Repeat('/', k) + s, '/') == StripLeading(s, '/')
    decreases k
  {
    if k > 0 {
      var t := Repeat('/', k) + s;
      assert t[0] == '/';
      assert t[1..] == Repeat('/', k - 1) + s;
      StripLeadingSlashes(k - 1, s);
    } else {
      assert Repeat('/', k) + s == s;
    }
  }

  /** Any number of leading '/' makes no difference to either URL. */
  lemma LeadingSlashesIrrelevant(port: int, httpsPort: int, k: nat, uri: string)
    ensures CompleteUrl(port, Repeat('/', k) + uri) == CompleteUrl(port, uri)
    ensures CompleteHttpsUrl(httpsPort, Repeat('/', k) + uri) == CompleteHttpsUrl(httpsPort, uri)
  {
    StripLeadingSlashes(k, uri);
  }

  /** "/foo", "//foo" and "foo" complete to the same URL. */
  lemma SlashExamples(port: int)
    ensures CompleteUrl(port, "/foo") == CompleteUrl(port, "//foo") == CompleteUrl(port, "foo")
  {
    var foo: string := "foo";
    assert StripLeading(foo, '/') == foo;
    assert "/foo"[1..] == foo;
    assert StripLeading("/foo", '/') == foo;
    assert "//foo"[1..] == "/foo";
    assert StripLeading("//foo", '/') == foo;
  }

  /** A URI without a leading '/' is appended unchanged. */
  lemma CompleteUrlAppends(port: int, uri: string)
    requires uri == [] || uri[0] != '/'
    ensures CompleteUrl(port, uri) == Origin("http", port) + uri
  {
  }

  // ----------------------------------------------------- templates

  /** `getTemplateProperties`: one property, "port", the decimal HTTP
      port. */
  function TemplateProperties(port: int): (r: map<string, string>)
    ensures r.Keys == {"port"}
  {
    map["port" := IntToString(port)]
  }

  /** The "port" property reads back as the port. */
  lemma TemplatePortParses(port: int)
    requires IsInt32(port)
    ensures ParseInt32(TemplateProperties(port)["port"]) == Some(port)
  {
    ParseInt32OfIntToString(port);
  }

  // --------------------------------------------------------- stubs

  /** How a stub matches the URL: `urlEqualTo` compares the whole URL,
      `urlPathEqualTo` the part before any '?'. */
  datatype UrlMatch = UrlEqualTo(url: string) | UrlPathEqualTo(path: string)

  /** A registered stub: the rendered body is stored, not the template. */
  datatype Stub = Stub(action: string, url: UrlMatch, requestJson: Option<string>,
                       status: int, headers: seq<(string, string)>, body: string)

  datatype Request = Request(action: string, url: string, body: string)

  /** The path part of a request URL. */
  function PathOf(url: string): (p: string)
    ensures StartsWith(url, p) && NoChar(p, '?')
  {
    url[..IndexOf(url, '?')]
  }

  /** The four registration methods: each renders its response with the
      service's template properties once, now, and stores the result. */
  function Register(stubs: seq<Stub>, action: string, url: UrlMatch, requestJson: Option<string>,
                    status: int, headers: seq<(string, string)>, response: string,
                    render: (string, map<string, string>) -> string, port: int): (r: seq<Stub>)
    ensures |r| == |stubs| + 1 && r[..|stubs|] == stubs
    ensures r[|stubs|].body == render(response, TemplateProperties(port))
  {
    stubs + [Stub(action, url, requestJson, status, headers, render(response, TemplateProperties(port)))]
  }

  /** `stub`: exact URL, no headers, any request body. */
  function StubPlain(stubs: seq<Stub>, action: string, uri: string, status: int, response: string,
                     render: (string, map<string, string>) -> string, port: int): (r: seq<Stub>)
    ensures |r| == |stubs| + 1 && r[..|stubs|] == stubs
    ensures var st := r[|stubs|];
            && st.action == action && st.url == UrlEqualTo(uri) && st.requestJson.None?
            && st.status == status && st.headers == [] && st.body == render(response, TemplateProperties(port))
  {
    Register(stubs, action, UrlEqualTo(uri), None, status, [], response, render, port)
  }

  /** `stubHttps`: path only. */
  function StubHttps(stubs: seq<Stub>, action: string, path: string, status: int, response: string,
                     render: (string, map<string, string>) -> string, port: int): (r: seq<Stub>)
    ensures |r| == |stubs| + 1 && r[..|stubs|] == stubs
    ensures var st := r[|stubs|];
            && st.action == action && st.url == UrlPathEqualTo(path) && st.requestJson.None?
            && st.status == status && st.headers == [] && st.body == render(response, TemplateProperties(port))
  {
    Register(stubs, action, UrlPathEqualTo(path), None, status, [], response, render, port)
  }

  predicate Matches(s: Stub, req: Request, jsonEqual: (string, string) -> bool) {
    && s.action == req.action
    && (match s.url
        case UrlEqualTo(u) => req.url == u
        case UrlPathEqualTo(p) => PathOf(req.url) == p)
    && (s.requestJson.Some? ==> jsonEqual(req.body, s.requestJson.value))
  }

  /** The stub that answers: the most recently registered one that
      matches; None for WireMock's 404. */
  function Serve(stubs: seq<Stub>, req: Request, jsonEqual: (string, string) -> bool): (r: Option<Stub>)
    ensures r.Some? ==> r.value in stubs && Matches(r.value, req, jsonEqual)
    ensures r.None? <==> forall i :: 0 <= i < |stubs| ==> !Matches(stubs[i], req, jsonEqual)
    decreases |stubs|
  {
    if stubs == [] then None
    else if Matches(stubs[|stubs| - 1], req, jsonEqual) then Some(stubs[|stubs| - 1])
    else
      var r := Serve(stubs[..|stubs| - 1], req, jsonEqual);
      assert forall i :: 0 <= i < |stubs| - 1 ==> stubs[..|stubs| - 1][i] == stubs[i];
      r
  }

  /** A stub answers with the body rendered at registration: whatever is
      registered later with other URLs, and however it is rendered, does
      not change it. */
  lemma RenderedAtRegistration(stubs: seq<Stub>, action: string, uri: string, status: int, response: string,
                               render: (string, map<string, string>) -> string, port: int,
                               later: seq<Stub>, jsonEqual: (string, string) -> bool)
    requires forall i :: 0 <= i < |later| ==> !Matches(later[i], Request(action, uri, ""), jsonEqual)
    ensures var all := StubPlain(stubs, action, uri, status, response, render, port) + later;
            var r := Serve(all, Request(action, uri, ""), jsonEqual);
            r.Some? && r.value.status == status && r.value.body == render(response, TemplateProperties(port))
  {
    var first := StubPlain(stubs, action, uri, status, response, render, port);
    ServeSkipsLater(first, later, Request(action, uri, ""), jsonEqual);
  }

  /** Stubs after the last match are passed over. */
  lemma {:induction false} ServeSkipsLater(stubs: seq<Stub>, later: seq<Stub>, req: Request,
                                          jsonEqual: (string, string) -> bool)
    requires forall i :: 0 <= i < |later| ==> !Matches(later[i], req, jsonEqual)
    ensures Serve(stubs + later, req, jsonEqual) == Serve(stubs, req, jsonEqual)
    decreases |later|
  {
    if later == [] {
      assert stubs + later == stubs;
    } else {
      var all := stubs + later;
      var init := later[..|later| - 1];
      assert all[|all| - 1] == later[|later| - 1];
      assert all[..|all| - 1] == stubs + init;
      assert forall i :: 0 <= i < |init| ==> init[i] == later[i];
      ServeSkipsLater(stubs, init, req, jsonEqual);
    }
  }

  /** `stubHttps` matches on the path, so any query string reaches it. */
  lemma HttpsIgnoresQuery(stubs: seq<Stub>, action: string, path: string, query: string, status: int,
                          response: string, render: (string, map<string, string>) -> string, port: int,
                          jsonEqual: (string, string) -> bool)
    requires NoChar(path, '?')
    ensures var r := Serve(StubHttps(stubs, action, path, status, response, render, port),
                           Request(action, path + "?" + query, ""), jsonEqual);
            r.Some? && r.value.body == render(response, TemplateProperties(port))
  {
    IndexOfJoin(path, '?', query);
    var url := path + "?" + query;
    assert url == path + (['?'] + query);
    assert url[..|path|] == path;
  }
}

=== FILE: oauth_token_http.dfy ===
/** OAuthTokenHttpObservable: an HTTP client whose default headers carry an
    OAuth bearer token. The header list is fetched once and memoised; the
    parent's default headers are merged under it. A token fetcher is
    represented by its outcome for the call at hand: the token, or the
    message of the IOException it throws. */
module OAuthTokenHttp {
  import opened Wrappers
  import opened Text
  import opened Headers
  import opened AuthorizationHeader
  import Lazy

  /** The parent's default headers and the memo of the OAuth header list
      (the `Lazy` built without a supplier; None while nothing is cached). */
  datatype OAuthHttp = OAuthHttp(parentDefaults: seq<NameValue>, oauthHeaders: Option<seq<NameValue>>)

  /** What the memo can hold: the one Authorization header. */
  predicate Valid(o: OAuthHttp) {
    o.oauthHeaders.Some? ==> |o.oauthHeaders.value| == 1 && o.oauthHeaders.value[0].name == Authorization
  }

  function NewOAuthHttp(parentDefaults: seq<NameValue>): (o: OAuthHttp)
    ensures Valid(o) && o.oauthHeaders.None? && o.parentDefaults == parentDefaults
  {
    OAuthHttp(parentDefaults, None)
  }

  /** The fetcher of the String constructor: it always returns its token. */
  function ConstantFetcher(token: string): (r: Result<string, string>)
    ensures r.Success? && r.value == token
  {
    Success(token)
  }

  /** `getOAuthDefaultHeaders`: the memoised list, or else one
      `OAuthTokenHeader` of a freshly fetched token. An IOException of the
      fetcher reaches the caller and nothing is cached (the caller keeps
      the state it had). */
  function OAuthDefaultHeaders(o: OAuthHttp, fetched: Result<string, string>): (r: Result<(OAuthHttp, seq<NameValue>), string>)
    requires Valid(o)
    ensures r.Failure? <==> o.oauthHeaders.None? && fetched.Failure?
    ensures r.Failure? ==> r.error == fetched.error
    ensures r.Success? ==> && Valid(r.value.0)
                           && r.value.0.oauthHeaders == Some(r.value.1)
                           && r.value.0.parentDefaults == o.parentDefaults
    ensures o.oauthHeaders.Some? ==> r == Success((o, o.oauthHeaders.value))
    ensures o.oauthHeaders.None? && fetched.Success? ==> r.Success? && r.value.1 == [OAuthTokenHeader(fetched.value)]
  {
    if o.oauthHeaders.Some? then Success((o, o.oauthHeaders.value))
    else match fetched
      case Failure(e) => Failure(e)
      case Success(token) =>
        var hs := [OAuthTokenHeader(token)];
        Success((o.(oauthHeaders := Some(hs)), hs))
  }

  /** The memo behaves as the `Lazy.getOrEvaluate` it is built on, the
      IOException being unwrapped from the RuntimeException around it. */
  lemma OAuthDefaultHeadersIsLazy(o: OAuthHttp, fetched: Result<string, string>)
    requires Valid(o)
    ensures var e := if fetched.Success? then Lazy.Returned(Some([OAuthTokenHeader(fetched.value)]))
                     else Lazy.Threw(fetched.error);
            var l := Lazy.GetOrEvaluate(Lazy.Cell(false, o.oauthHeaders), e);
            var r := OAuthDefaultHeaders(o, fetched);
            && (r.Failure? <==> l.Failure?)
            && (r.Failure? ==> l.error == Lazy.Thrown(r.error))
            && (r.Success? ==> l.value == (Lazy.Cell(false, r.value.0.oauthHeaders), Some(r.value.1)))
  {
  }

  /** Once a list is cached the fetcher is not consulted again: any two
      outcomes of it give the same headers. */
  lemma CachedIgnoresFetcher(o: OAuthHttp, f1: Result<string, string>, f2: Result<string, string>)
    requires Valid(o)
    requires OAuthDefaultHeaders(o, f1).Success?
    ensures var o1 := OAuthDefaultHeaders(o, f1).value.0;
            OAuthDefaultHeaders(o1, f2) == Success((o1, OAuthDefaultHeaders(o, f1).value.1))
  {
  }

  /** `getDefaultHeaders`: the parent defaults without any header named
      like an OAuth header (ignoring case), then the OAuth headers. */
  function DefaultHeaders(o: OAuthHttp, fetched: Result<string, string>): (r: Result<(OAuthHttp, seq<NameValue>), string>)
    requires Valid(o)
    ensures r.Failure? <==> o.oauthHeaders.None? && fetched.Failure?
    ensures r.Failure? ==> r.error == fetched.error
    ensures r.Success? ==> Valid(r.value.0) && r.value.0.parentDefaults == o.parentDefaults
    ensures r.Success? ==>
              var hs := r.value.1;
              && |hs| >= 1
              && hs[|hs| - 1].name == Authorization
              && (forall i :: 0 <= i < |hs| - 1 ==> !EqualsIgnoreCase(hs[i].name, Authorization))
              && (forall h :: h in hs[..|hs| - 1] <==> h in o.parentDefaults && !EqualsIgnoreCase(h.name, Authorization))
              && SubsequenceOf(hs[..|hs| - 1], o.parentDefaults)
    ensures o.oauthHeaders.None? && fetched.Success? ==>
              r.Success? && r.value.1[|r.value.1| - 1] == OAuthTokenHeader(fetched.value)
  {
    match OAuthDefaultHeaders(o, fetched)
    case Failure(e) => Failure(e)
    case Success((o1, oauth)) =>
      var hs := ReplaceDefaults(o.parentDefaults, oauth);
      assert oauth == [oauth[0]];
      ReplaceSingle(o.parentDefaults, oauth[0]);
      Success((o1, hs))
  }
}

=== FILE: post_batches.dfy ===
/** PostBatches: the body of a Livy batch submission. Its `jobConfig` is a
    two-level map: the five submission parameters at the top, and every
    other Spark setting inside the map stored under "conf". The model keeps
    the job configuration and the operations on it; the JSON binding and
    the other request fields are not modelled. */
module PostBatches {
  import opened Wrappers
  import opened Text

  /** A value of the configuration map: null, a String, an Integer, a nested
      map, or another object given by the text its `toString` yields. */
  datatype Value =
    | Null
    | Str(s: string)
    | Int(i: int)
    | Conf(entries: map<string, Value>)
    | Other(text: string)

  type JobConfig = map<string, Value>

  const DriverMemory := "driverMemory"
  const DriverCores := "driverCores"
  const ExecutorMemory := "executorMemory"
  const ExecutorCores := "executorCores"
  const NumExecutors := "numExecutors"
  const ConfKey := "conf"

  const ParameterList := [DriverMemory, DriverCores, ExecutorMemory, ExecutorCores, NumExecutors]

  /** `isSubmissionParameter`: one of the five names, compared exactly. */
  predicate IsSubmissionParameter(key: string) {
    key in ParameterList
  }

  lemma SubmissionParameters(key: string)
    ensures IsSubmissionParameter(key) <==>
              key in {"driverMemory", "driverCores", "executorMemory", "executorCores", "numExecutors"}
    ensures !IsSubmissionParameter(ConfKey) && !IsSubmissionParameter("DriverMemory")
  {
  }

  // ------------------------------------------------------------ flatten

  /** `value.toString()`: null stays null; a map's text (its entries in
      hash order) is not computed, the rendering keeps the map itself. */
  datatype Rendered = NullText | Text(s: string) | MapText(entries: map<string, Value>)

  function Render(v: Value): (r: Rendered)
    ensures r.NullText? <==> v.Null?
    ensures r.MapText? <==> v.Conf?
  {
    match v
    case Null => NullText
    case Str(s) => Text(s)
    case Int(i) => Text(IntToString(i))
    case Conf(m) => MapText(m)
    case Other(t) => Text(t)
  }

  type Flat = set<(string, Rendered)>

  /** `flatJobConfig`: a pair for each submission parameter and one for each
      entry of the "conf" map; other top-level keys are dropped. The list's
      order is the HashMap's iteration order, so the model returns the set
      of its pairs. `new SparkConfigures(value)` throws when "conf" holds
      null (NullPointerException) or a non-map (ClassCastException). */
  function FlatJobConfig(jobConfig: Option<JobConfig>): (r: Result<Flat, string>)
    ensures r.Failure? <==> jobConfig.Some? && ConfKey in jobConfig.value && !jobConfig.value[ConfKey].Conf?
    ensures jobConfig.None? ==> r == Success({})
    ensures r.Success? && jobConfig.Some? ==>
              forall k, t :: (k, t) in r.value <==>
                || (k in jobConfig.value && IsSubmissionParameter(k) && t == Render(jobConfig.value[k]))
                || (ConfKey in jobConfig.value && k in jobConfig.value[ConfKey].entries
                    && t == Render(jobConfig.value[ConfKey].entries[k]))
  {
    if jobConfig.None? then Success({})
    else
      var jc := jobConfig.value;
      var top := set k | k in jc && IsSubmissionParameter(k) :: (k, Render(jc[k]));
      if ConfKey !in jc then Success(top)
      else match jc[ConfKey]
        case Conf(m) => Success(top + set k | k in m :: (k, Render(m[k])))
        case Null => Failure("NullPointerException")
        case _ => Failure("ClassCastException")
  }

  // -------------------------------------------------------------- apply

  type Pair = (string, Option<string>)

  /** The map a list of pairs describes when a later pair overrides an
      earlier one with the same key. */
  function LastWins(xs: seq<Pair>): (m: map<string, Option<string>>)
    ensures forall k :: k in m <==> exists i :: 0 <= i < |xs| && xs[i].0 == k
    ensures forall i :: 0 <= i < |xs| && (forall j :: i < j < |xs| ==> xs[j].0 != xs[i].0) ==> m[xs[i].0] == xs[i].1
    decreases |xs|
  {
    if xs == [] then map[]
    else
      var init := xs[..|xs| - 1];
      var m := LastWins(init);
      assert forall i :: 0 <= i < |init| ==> init[i] == xs[i];
      LastWinsStep(xs, m);
      m[xs[|xs| - 1].0 := xs[|xs| - 1].1]
  }

  /** One more pair: it overrides its key and leaves the others. */
  lemma LastWinsStep(xs: seq<Pair>, m: map<string, Option<string>>)
    requires xs != []
    requires forall k :: k in m <==> exists i :: 0 <= i < |xs| - 1 && xs[i].0 == k
    requires forall i :: 0 <= i < |xs| - 1 && (forall j :: i < j < |xs| - 1 ==> xs[j].0 != xs[i].0) ==> m[xs[i].0] == xs[i].1
    ensures var m' := m[xs[|xs| - 1].0 := xs[|xs| - 1].1];
            && (forall k :: k in m' <==> exists i :: 0 <= i < |xs| && xs[i].0 == k)
            && (forall i :: 0 <= i < |xs| && (forall j :: i < j < |xs| ==> xs[j].0 != xs[i].0) ==> m'[xs[i].0] == xs[i].1)
  {
    var n := |xs| - 1;
    var m' := m[xs[n].0 := xs[n].1];
    forall i | 0 <= i < |xs| && (forall j :: i < j < |xs| ==> xs[j].0 != xs[i].0)
      ensures m'[xs[i].0] == xs[i].1
    {
      if i < n {
        assert xs[n].0 != xs[i].0;
      }
    }
  }

  /** A later list overrides an earlier one key by key; keys it does not
      name keep the earlier list's value. This is how new settings are
      merged into a flattened configuration. */
  lemma {:induction false} LastWinsConcat(xs: seq<Pair>, ys: seq<Pair>)
    ensures forall k :: k in LastWins(ys) ==> k in LastWins(xs + ys) && LastWins(xs + ys)[k] == LastWins(ys)[k]
    ensures forall k :: k !in LastWins(ys) ==>
              (k in LastWins(xs + ys) <==> k in LastWins(xs)) && (k in LastWins(xs) ==> LastWins(xs + ys)[k] == LastWins(xs)[k])
    decreases |ys|
  {
    if ys == [] {
      assert xs + ys == xs;
    } else {
      var init := ys[..|ys| - 1];
      assert (xs + ys)[..|xs + ys| - 1] == xs + init;
      LastWinsConcat(xs, init);
    }
  }

  /** The value `applyFlattedJobConf` stores for a pair's String. */
  function Lift(v: Option<string>): Value {
    if v.Some? then Str(v.value) else Null
  }

  /** The loop of `applyFlattedJobConf`: submission parameters go to the
      job configuration, every other pair to the Spark configuration. */
  function ApplyPairs(xs: seq<Pair>): (r: (JobConfig, map<string, Value>))
    ensures forall k :: k in r.0 <==> IsSubmissionParameter(k) && k in LastWins(xs)
    ensures forall k :: k in r.0 ==> r.0[k] == Lift(LastWins(xs)[k])
    ensures forall k :: k in r.1 <==> !IsSubmissionParameter(k) && k in LastWins(xs)
    ensures forall k :: k in r.1 ==> r.1[k] == Lift(LastWins(xs)[k])
    decreases |xs|
  {
    if xs == [] then (map[], map[])
    else
      var prev := ApplyPairs(xs[..|xs| - 1]);
      var (k, v) := xs[|xs| - 1];
      if IsSubmissionParameter(k) then (prev.0[k := Lift(v)], prev.1) else (prev.0, prev.1[k := Lift(v)])
  }

  /** `applyFlattedJobConf`: the previous configuration is discarded; the
      Spark configuration is stored under "conf" only when it is not
      empty. */
  function ApplyFlattedJobConf(xs: seq<Pair>): (r: JobConfig)
    ensures forall k :: k in r && k != ConfKey ==> IsSubmissionParameter(k) && k in LastWins(xs) && r[k] == Lift(LastWins(xs)[k])
    ensures forall k :: IsSubmissionParameter(k) && k in LastWins(xs) ==> k in r
    ensures ConfKey in r <==> exists k :: k in LastWins(xs) && !IsSubmissionParameter(k)
    ensures ConfKey in r ==>
              && r[ConfKey].Conf?
              && (forall k :: k in r[ConfKey].entries <==> k in LastWins(xs) && !IsSubmissionParameter(k))
              && (forall k :: k in r[ConfKey].entries ==> r[ConfKey].entries[k] == Lift(LastWins(xs)[k]))
  {
    var (top, spark) := ApplyPairs(xs);
    if |spark| == 0 then
      assert forall k :: k !in spark;
      top
    else
      var k :| k in spark;
      top[ConfKey := Conf(spark)]
  }

  function RenderOpt(v: Option<string>): Rendered {
    if v.Some? then Text(v.value) else NullText
  }

  /** The round trip: flattening what `applyFlattedJobConf(xs)` stored gives
      back the pairs of xs, a later pair overriding an earlier one. */
  lemma FlatAfterApply(xs: seq<Pair>)
    ensures var r := FlatJobConfig(Some(ApplyFlattedJobConf(xs)));
            && r.Success?
            && forall k, t :: (k, t) in r.value <==> k in LastWins(xs) && t == RenderOpt(LastWins(xs)[k])
  {
    var jc := ApplyFlattedJobConf(xs);
    var m := LastWins(xs);
    forall k, t
      ensures (k, t) in FlatJobConfig(Some(jc)).value <==> k in m && t == RenderOpt(m[k])
    {
      FlatPairOfShape(jc, m, k, t);
    }
  }

  /** One pair of the round trip, for a configuration of the shape
      `applyFlattedJobConf` stores. */
  lemma FlatPairOfShape(jc: JobConfig, m: map<string, Option<string>>, k: string, t: Rendered)
    requires forall k :: k in jc && k != ConfKey ==> IsSubmissionParameter(k) && k in m && jc[k] == Lift(m[k])
    requires forall k :: IsSubmissionParameter(k) && k in m ==> k in jc
    requires ConfKey in jc <==> exists k :: k in m && !IsSubmissionParameter(k)
    requires ConfKey in jc ==>
              && jc[ConfKey].Conf?
              && (forall k :: k in jc[ConfKey].entries <==> k in m && !IsSubmissionParameter(k))
              && (forall k :: k in jc[ConfKey].entries ==> jc[ConfKey].entries[k] == Lift(m[k]))
    ensures FlatJobConfig(Some(jc)).Success?
    ensures (k, t) in FlatJobConfig(Some(jc)).value <==> k in m && t == RenderOpt(m[k])
  {
    assert Render(Lift(if k in m then m[k] else None)) == RenderOpt(if k in m then m[k] else None);
    if k in m && !IsSubmissionParameter(k) {
      assert ConfKey in jc;
    }
  }

  // ----------------------------------------------------------- getters

  /** `parseIntegerSafety`: an Integer as it is, anything else through
      `Integer.parseInt(toString())`, null when absent or unparseable. A
      map's text starts with '{' and never parses. */
  function ParseIntegerSafety(v: Option<Value>): (r: Option<int>)
    ensures v.None? || v == Some(Null) || (v.Some? && v.value.Conf?) ==> r.None?
    ensures v.Some? && v.value.Int? ==> r == Some(v.value.i)
    ensures v.Some? && (v.value.Str? || v.value.Other?) ==> r == ParseInt32(if v.value.Str? then v.value.s else v.value.text)
  {
    match v
    case None => None
    case Some(Null) => None
    case Some(Int(i)) => Some(i)
    case Some(Str(s)) => ParseInt32(s)
    case Some(Other(t)) => ParseInt32(t)
    case Some(Conf(_)) => None
  }

  function Lookup(jc: JobConfig, key: string): Option<Value> {
    if key in jc then Some(jc[key]) else None
  }

  /** `getDriverCores`, `getExecutorCores`, `getNumExecutors`. */
  function IntParameter(jc: JobConfig, key: string): (r: Option<int>)
    requires key in {DriverCores, ExecutorCores, NumExecutors}
    ensures key !in jc || jc[key].Null? || jc[key].Conf? ==> r.None?
    ensures key in jc && jc[key].Int? ==> r == Some(jc[key].i)
    ensures key in jc && jc[key].Str? ==> r == ParseInt32(jc[key].s)
    ensures key in jc && jc[key].Other? ==> r == ParseInt32(jc[key].text)
  {
    ParseIntegerSafety(Lookup(jc, key))
  }

  /** `getDriverMemory`, `getExecutorMemory`: a cast to String, which
      throws ClassCastException for any other non-null value. */
  function StringParameter(jc: JobConfig, key: string): (r: Result<Option<string>, string>)
    requires key in {DriverMemory, ExecutorMemory}
    ensures r.Failure? <==> key in jc && !jc[key].Null? && !jc[key].Str?
    ensures r.Success? && r.value.Some? ==> key in jc && jc[key] == Str(r.value.value)
  {
    match Lookup(jc, key)
    case None => Success(None)
    case Some(Null) => Success(None)
    case Some(Str(s)) => Success(Some(s))
    case Some(_) => Failure("ClassCastException")
  }

  /** After `applyFlattedJobConf` the numeric getters parse the last value
      given for their key, and the memory getters return it. */
  lemma GettersAfterApply(xs: seq<Pair>, key: string)
    requires key in {DriverCores, ExecutorCores, NumExecutors, DriverMemory, ExecutorMemory}
    ensures var jc := ApplyFlattedJobConf(xs);
            var m := LastWins(xs);
            && (key in {DriverCores, ExecutorCores, NumExecutors} ==>
                  IntParameter(jc, key) == (if key in m && m[key].Some? then ParseInt32(m[key].value) else None))
            && (key in {DriverMemory, ExecutorMemory} ==>
                  StringParameter(jc, key) == Success(if key in m then m[key] else None))
  {
    var jc := ApplyFlattedJobConf(xs);
    assert IsSubmissionParameter(key);
  }

  /** `getConf`: a copy of the "conf" map with String keys and values, null
      when it is missing, not a map, or empty; a non-String value throws
      ClassCastException from the cast. */
  function GetConf(jc: JobConfig): (r: Result<Option<map<string, Option<string>>>, string>)
    ensures r.Failure? <==> ConfKey in jc && jc[ConfKey].Conf? &&
                            exists k :: k in jc[ConfKey].entries && !jc[ConfKey].entries[k].Null? && !jc[ConfKey].entries[k].Str?
    ensures r.Success? && r.value.Some? ==>
              && ConfKey in jc && jc[ConfKey].Conf?
              && r.value.value.Keys == jc[ConfKey].entries.Keys
              && (forall k :: k in r.value.value ==> Lift(r.value.value[k]) == jc[ConfKey].entries[k])
    ensures r.Success? && r.value.None? ==> ConfKey !in jc || !jc[ConfKey].Conf? || jc[ConfKey].entries == map[]
  {
    if ConfKey !in jc || !jc[ConfKey].Conf? then Success(None)
    else
      var m := jc[ConfKey].entries;
      if exists k :: k in m && !m[k].Null? && !m[k].Str? then Failure("ClassCastException")
      else if |m| == 0 then Success(None)
      else
        var k0 :| k0 in m;
        Success(Some(map k | k in m :: if m[k].Str? then Some(m[k].s) else None))
  }

  /** After `applyFlattedJobConf` the Spark settings come back from
      `getConf`: null when every pair was a submission parameter. */
  lemma GetConfAfterApply(xs: seq<Pair>)
    ensures var r := GetConf(ApplyFlattedJobConf(xs));
            var m := LastWins(xs);
            && r.Success?
            && (r.value.None? <==> forall k :: k in m ==> IsSubmissionParameter(k))
            && (r.value.Some? ==> forall k :: k in r.value.value <==> k in m && !IsSubmissionParameter(k))
            && (r.value.Some? ==> forall k :: k in r.value.value ==> r.value.value[k] == m[k])
  {
    GetConfOfShape(ApplyFlattedJobConf(xs), LastWins(xs));
  }

  lemma GetConfOfShape(jc: JobConfig, m: map<string, Option<string>>)
    requires ConfKey in jc <==> exists k :: k in m && !IsSubmissionParameter(k)
    requires ConfKey in jc ==>
              && jc[ConfKey].Conf?
              && (forall k :: k in jc[ConfKey].entries <==> k in m && !IsSubmissionParameter(k))
              && (forall k :: k in jc[ConfKey].entries ==> jc[ConfKey].entries[k] == Lift(m[k]))
    ensures var r := GetConf(jc);
            && r.Success?
            && (r.value.None? <==> forall k :: k in m ==> IsSubmissionParameter(k))
            && (r.value.Some? ==> forall k :: k in r.value.value <==> k in m && !IsSubmissionParameter(k))
            && (r.value.Some? ==> forall k :: k in r.value.value ==> r.value.value[k] == m[k])
  {
    if ConfKey in jc {
      var e := jc[ConfKey].entries;
      assert forall k :: k in e ==> e[k].Null? || e[k].Str?;
      var k :| k in m && !IsSubmissionParameter(k);
      assert k in e;
      assert forall v :: Lift(v).Str? ==> v == Some(Lift(v).s);
      assert forall v :: Lift(v).Null? ==> v == None;
    }
  }
}

=== FILE: spark_submit_response.dfy ===
/** SparkSubmitResponse: the Livy batch description; its `isAlive` compares
    the state string case-sensitively against three of Livy's final states. */
module SparkSubmitResponse {
  import opened BatchState

  const FinalNames: set<string> := {"error", "success", "dead"}

  /** `isAlive()` on a non-null state. */
  function IsAlive(state: string): (r: bool)
    ensures r <==> state !in FinalNames
  {
    state != "error" && state != "success" && state != "dead"
  }

  /** On the wire names of the batch states, `isAlive` is false exactly for
      Error, Success and Dead: ShuttingDown, which the job loop treats as
      done, still counts as alive. */
  lemma IsAliveOfState(s: BatchState)
    ensures IsAlive(Name(s)) <==> s != Error && s != Success && s != Dead
  {
  }

  /** The comparison is case-sensitive: upper-case final names are alive. */
  lemma UpperCaseIsAlive()
    ensures IsAlive("DEAD") && IsAlive("ERROR") && IsAlive("SUCCESS")
    ensures !IsAlive("dead") && IsAlive("starting") && IsAlive("shutting_down")
  {
  }
}

=== FILE: text.dfy ===
/** Character and string helpers standing for the pieces of java.lang.String,
    java.util.regex and commons-lang3 StringUtils that the SDK relies on.
    Case conversion covers the ASCII letters only, which is exactly what a
    `Pattern.CASE_INSENSITIVE` regular expression does. */
module Text {
  import opened Wrappers

  // ---------------------------------------------------------------- case

  function LowerChar(c: char): char {
    if 'A' <= c <= 'Z' then (c as int + 32) as char else c
  }

  function UpperChar(c: char): char {
    if 'a' <= c <= 'z' then (c as int - 32) as char else c
  }

  function ToLower(s: string): (r: string)
    ensures |r| == |s|
    ensures forall i :: 0 <= i < |s| ==> r[i] == LowerChar(s[i])
  {
    seq(|s|, i requires 0 <= i < |s| => LowerChar(s[i]))
  }

  function ToUpper(s: string): (r: string)
    ensures |r| == |s|
    ensures forall i :: 0 <= i < |s| ==> r[i] == UpperChar(s[i])
  {
    seq(|s|, i requires 0 <= i < |s| => UpperChar(s[i]))
  }

  /** StringUtils.equalsIgnoreCase on two non-null strings. */
  predicate EqualsIgnoreCase(a: string, b: string) {
    ToLower(a) == ToLower(b)
  }

  /** StringUtils.startsWithIgnoreCase on non-null arguments. */
  predicate StartsWithIgnoreCase(s: string, prefix: string) {
    |prefix| <= |s| && EqualsIgnoreCase(s[..|prefix|], prefix)
  }

  lemma EqualsIgnoreCaseSameLength(a: string, b: string)
    requires EqualsIgnoreCase(a, b)
    ensures |a| == |b|
  {
    assert |ToLower(a)| == |ToLower(b)|;
  }

  /** Two characters agree ignoring case whichever way both are folded. */
  lemma FoldCharAgree(x: char, y: char)
    ensures LowerChar(x) == LowerChar(y) <==> UpperChar(x) == UpperChar(y)
  {
  }

  /** Comparing lower-cased and comparing upper-cased strings agree. */
  lemma EqualsIgnoreCaseUpper(a: string, b: string)
    ensures EqualsIgnoreCase(a, b) <==> ToUpper(a) == ToUpper(b)
  {
    if |a| == |b| {
      forall i | 0 <= i < |a| ensures LowerChar(a[i]) == LowerChar(b[i]) <==> UpperChar(a[i]) == UpperChar(b[i]) {
        FoldCharAgree(a[i], b[i]);
      }
      if ToUpper(a) == ToUpper(b) {
        assert forall i :: 0 <= i < |a| ==> ToUpper(a)[i] == ToUpper(b)[i];
        assert ToLower(a) == ToLower(b);
      }
      if EqualsIgnoreCase(a, b) {
        assert forall i :: 0 <= i < |a| ==> ToLower(a)[i] == ToLower(b)[i];
        assert ToUpper(a) == ToUpper(b);
      }
    } else {
      assert |ToLower(a)| != |ToLower(b)| && |ToUpper(a)| != |ToUpper(b)|;
    }
  }

  lemma UpperIdempotent(s: string)
    ensures ToUpper(ToUpper(s)) == ToUpper(s)
  {
  }

  // ---------------------------------------------------------- whitespace

  /** java.lang.Character.isWhitespace. */
  predicate IsWhitespace(c: char) {
    || c == ' ' || c == '\t' || c == '\n' || c == '\U{000B}' || c == '\U{000C}' || c == '\r'
    || ('\U{001C}' <= c <= '\U{001F}')
    || c == '\U{1680}' || ('\U{2000}' <= c <= '\U{2006}') || ('\U{2008}' <= c <= '\U{200A}')
    || c == '\U{2028}' || c == '\U{2029}' || c == '\U{205F}' || c == '\U{3000}'
  }

  /** StringUtils.isBlank: null, empty or whitespace only. */
  predicate IsBlank(s: Option<string>) {
    s.None? || forall i :: 0 <= i < |s.value| ==> IsWhitespace(s.value[i])
  }

  /** The regular-expression class `\s` (ASCII white space). */
  predicate IsRegexSpace(c: char) {
    c == ' ' || c == '\t' || c == '\n' || c == '\U{000B}' || c == '\U{000C}' || c == '\r'
  }

  /** Characters a regular-expression `.` refuses: the line terminators. */
  predicate IsLineTerminator(c: char) {
    c == '\n' || c == '\r' || c == '\U{0085}' || c == '\U{2028}' || c == '\U{2029}'
  }

  /** String.trim removes every leading and trailing character up to U+0020. */
  function TrimStart(s: string): (r: string)
    ensures |r| <= |s| && r == s[|s| - |r|..]
    ensures forall i :: 0 <= i < |s| - |r| ==> s[i] <= ' '
    ensures r == [] || r[0] > ' '
  {
    if s == [] || s[0] > ' ' then s else TrimStart(s[1..])
  }

  function TrimEnd(s: string): (r: string)
    ensures |r| <= |s| && r == s[..|r|]
    ensures forall i :: |r| <= i < |s| ==> s[i] <= ' '
    ensures r == [] || r[|r| - 1] > ' '
  {
    if s == [] || s[|s| - 1] > ' ' then s else TrimEnd(s[..|s| - 1])
  }

  function Trim(s: string): (r: string)
    ensures r == [] || (r[0] > ' ' && r[|r| - 1] > ' ')
    ensures |r| <= |s|
  {
    TrimEnd(TrimStart(s))
  }

  /** StringUtils.stripStart(s, c) for a one-character strip set. */
  function StripLeading(s: string, c: char): (r: string)
    ensures |r| <= |s| && r == s[|s| - |r|..]
    ensures forall i :: 0 <= i < |s| - |r| ==> s[i] == c
    ensures r == [] || r[0] != c
  {
    if s != [] && s[0] == c then StripLeading(s[1..], c) else s
  }

  // ------------------------------------------------------------- search

  predicate NoChar(s: string, c: char) {
    forall i :: 0 <= i < |s| ==> s[i] != c
  }

  /** Index of the first occurrence of `c`, or |s| when there is none. */
  function IndexOf(s: string, c: char): (k: nat)
    ensures k <= |s|
    ensures NoChar(s[..k], c)
    ensures k < |s| ==> s[k] == c
  {
    if s == [] then 0 else if s[0] == c then 0 else 1 + IndexOf(s[1..], c)
  }

  /** Index of the first character in `cs`, or |s| when there is none. */
  function IndexOfAny(s: string, cs: set<char>): (k: nat)
    ensures k <= |s|
    ensures forall i :: 0 <= i < k ==> s[i] !in cs
    ensures k < |s| ==> s[k] in cs
  {
    if s == [] then 0 else if s[0] in cs then 0 else 1 + IndexOfAny(s[1..], cs)
  }

  /** String.lastIndexOf(c): -1 when there is none. */
  function LastIndexOf(s: string, c: char): (k: int)
    ensures -1 <= k < |s|
    ensures k >= 0 ==> s[k] == c
    ensures forall i :: k < i < |s| ==> s[i] != c
  {
    if s == [] then -1 else if s[|s| - 1] == c then |s| - 1 else LastIndexOf(s[..|s| - 1], c)
  }

  predicate EndsWith(s: string, suffix: string) {
    |suffix| <= |s| && s[|s| - |suffix|..] == suffix
  }

  predicate StartsWith(s: string, prefix: string) {
    |prefix| <= |s| && s[..|prefix|] == prefix
  }

  /** A prefix of a prefix is a prefix. */
  lemma StartsWithTransitive(s: string, a: string, b: string)
    requires StartsWith(s, a) && StartsWith(a, b)
    ensures StartsWith(s, b)
  {
    assert s[..|b|] == s[..|a|][..|b|];
  }

  /** The three parts of a concatenation can be read back from it. */
  lemma ThreeParts(a: string, b: string, c: string)
    ensures var s := a + b + c;
            && StartsWith(s, a) && EndsWith(s, c)
            && s[|a|..|s| - |c|] == b
  {
    var s := a + b + c;
    assert s[..|a|] == a;
    assert s[|s| - |c|..] == c;
    assert s[|a|..|s| - |c|] == b;
  }

  // ------------------------------------------------------------ decimal

  predicate IsDigit(c: char) {
    '0' <= c <= '9'
  }

  predicate AllDigits(s: string) {
    forall i :: 0 <= i < |s| ==> IsDigit(s[i])
  }

  function DigitChar(d: nat): (c: char)
    requires d < 10
    ensures IsDigit(c) && c as int - '0' as int == d
  {
    ('0' as int + d) as char
  }

  /** The value of a string of decimal digits. */
  function DigitsValue(s: string): nat
    requires AllDigits(s)
  {
    if s == [] then 0 else 10 * DigitsValue(s[..|s| - 1]) + (s[|s| - 1] as int - '0' as int)
  }

  /** Integer.toString of a non-negative value: no leading zero. */
  function NatToString(n: nat): (r: string)
    ensures |r| >= 1 && AllDigits(r)
    ensures r[0] == '0' ==> n == 0 && r == "0"
  {
    if n < 10 then [DigitChar(n)] else NatToString(n / 10) + [DigitChar(n % 10)]
  }

  lemma {:induction false} NatToStringValue(n: nat)
    ensures DigitsValue(NatToString(n)) == n
  {
    if n >= 10 {
      var r := NatToString(n);
      assert r[..|r| - 1] == NatToString(n / 10);
      NatToStringValue(n / 10);
    }
  }

  /** Integer.toString / String.valueOf of an int. */
  function IntToString(i: int): (r: string)
    ensures |r| >= 1
    ensures i >= 0 ==> r == NatToString(i)
    ensures i < 0 ==> r == "-" + NatToString(-i)
  {
    if i < 0 then "-" + NatToString(-i) else NatToString(i)
  }

  function Repeat(c: char, n: nat): (r: string)
    ensures |r| == n && forall i :: 0 <= i < n ==> r[i] == c
  {
    seq(n, _ => c)
  }

  /** `String.format("%0<width>d", n)` for a non-negative n. */
  function ZeroPad(n: nat, width: nat): (r: string)
    ensures AllDigits(r)
    ensures |r| == if |NatToString(n)| < width then width else |NatToString(n)|
    ensures DigitsValue(r) == n
  {
    var d := NatToString(n);
    var r := Repeat('0', if |d| < width then width - |d| else 0) + d;
    ZeroPadValue(if |d| < width then width - |d| else 0, d);
    NatToStringValue(n);
    r
  }

  lemma {:induction false} ZeroPadValue(k: nat, d: string)
    requires AllDigits(d)
    ensures AllDigits(Repeat('0', k) + d)
    ensures DigitsValue(Repeat('0', k) + d) == DigitsValue(d)
    decreases |d|, k
  {
    var s := Repeat('0', k) + d;
    if d == [] {
      if k > 0 {
        assert s[..|s| - 1] == Repeat('0', k - 1) + d;
        ZeroPadValue(k - 1, d);
      }
    } else {
      assert s[..|s| - 1] == Repeat('0', k) + d[..|d| - 1];
      ZeroPadValue(k, d[..|d| - 1]);
    }
  }

  /** The Java `int` range. */
  predicate IsInt32(i: int) {
    -0x8000_0000 <= i < 0x8000_0000
  }

  /** Integer.parseInt(s, 10) on ASCII digits: an optional sign, at least one
      digit, and a value inside the int range; None where Java throws. */
  function ParseInt32(s: string): (r: Option<int>)
    ensures r.Some? ==> IsInt32(r.value)
    ensures r.Some? ==> |s| >= 1
  {
    if s == [] then None
    else
      var neg := s[0] == '-';
      var digits := if s[0] == '-' || s[0] == '+' then s[1..] else s;
      if digits == [] || !AllDigits(digits) then None
      else
        var v: int := if neg then 0 - (DigitsValue(digits) as int) else DigitsValue(digits);
        if IsInt32(v) then Some(v) else None
  }

  lemma ParseInt32OfIntToString(i: int)
    requires IsInt32(i)
    ensures ParseInt32(IntToString(i)) == Some(i)
  {
    var s := IntToString(i);
    if i < 0 {
      var d := NatToString(-i);
      assert s == "-" + d;
      assert s[0] == '-' && s[1..] == d;
      NatToStringValue(-i);
      assert DigitsValue(d) == -i;
    } else {
      var d := NatToString(i);
      assert s == d;
      assert IsDigit(d[0]);
      NatToStringValue(i);
    }
  }

  // --------------------------------------------------------------- join

  /** String.join(sep, xs). */
  function Join(xs: seq<string>, sep: string): (r: string)
    ensures xs == [] ==> r == ""
    ensures |xs| == 1 ==> r == xs[0]
  {
    if xs == [] then "" else if |xs| == 1 then xs[0] else xs[0] + sep + Join(xs[1..], sep)
  }

  // ------------------------------------------------------------- UTF-16

  /** String.length(): the number of UTF-16 code units, in which a
      character beyond the Basic Multilingual Plane takes two. */
  function Utf16Length(s: string): (n: nat)
    ensures |s| <= n <= 2 * |s|
    ensures n == |s| <==> forall i :: 0 <= i < |s| ==> InBmp(s[i])
    decreases |s|
  {
    if s == [] then 0 else (if InBmp(s[0]) then 1 else 2) + Utf16Length(s[1..])
  }

  /** One UTF-16 code unit holds the character. */
  predicate InBmp(c: char) {
    c as int < 0x1_0000
  }

  // ------------------------------------------------- facts on the helpers

  lemma ToLowerConcat(a: string, b: string)
    ensures ToLower(a + b) == ToLower(a) + ToLower(b)
  {
  }

  /** Comparing piecewise ignoring case compares the whole. */
  lemma EqualsIgnoreCaseConcat(a: string, b: string, c: string, d: string)
    requires EqualsIgnoreCase(a, c) && EqualsIgnoreCase(b, d)
    ensures EqualsIgnoreCase(a + b, c + d)
  {
    ToLowerConcat(a, b);
    ToLowerConcat(c, d);
  }

  lemma StartsWithIgnoreCaseOf(p: string, x: string)
    ensures StartsWithIgnoreCase(p + x, p)
  {
    assert (p + x)[..|p|] == p;
  }

  /** The first `c` of a + [c] + b is the one after a, when a has none. */
  lemma {:induction false} IndexOfJoin(a: string, c: char, b: string)
    requires NoChar(a, c)
    ensures IndexOf(a + ([c] + b), c) == |a|
  {
    var s := a + ([c] + b);
    if a != [] {
      assert s[0] == a[0] && s[1..] == a[1..] + ([c] + b);
      IndexOfJoin(a[1..], c, b);
    }
  }

  lemma LastIndexOfAt(s: string, c: char, k: nat)
    requires k < |s| && s[k] == c
    requires forall i :: k < i < |s| ==> s[i] != c
    ensures LastIndexOf(s, c) == k
  {
  }

  // ------------------------------------------------------- case variants

  /** Case folding leaves `c` alone both ways: it is no ASCII letter. */
  predicate CaseFree(c: char) {
    LowerChar(c) == c && UpperChar(c) == c
  }

  /** Where two characters agree ignoring case, one is a given non-letter
      exactly when the other is. */
  lemma CaseFreeAgree(x: char, y: char, c: char)
    requires LowerChar(x) == LowerChar(y) && CaseFree(c)
    ensures x == c <==> y == c
  {
  }

  /** Texts equal ignoring case agree letter by letter. */
  lemma EqualsIgnoreCaseAt(a: string, b: string, i: int)
    requires EqualsIgnoreCase(a, b) && 0 <= i < |a|
    ensures |a| == |b| && LowerChar(a[i]) == LowerChar(b[i])
  {
    EqualsIgnoreCaseSameLength(a, b);
    assert ToLower(a)[i] == ToLower(b)[i];
  }

  /** Texts equal ignoring case have slices equal ignoring case. */
  lemma EqualsIgnoreCaseSlice(a: string, b: string, i: int, j: int)
    requires EqualsIgnoreCase(a, b) && 0 <= i <= j <= |a|
    ensures |a| == |b|
    ensures EqualsIgnoreCase(a[i..j], b[i..j]) && EqualsIgnoreCase(a[i..], b[i..]) && EqualsIgnoreCase(a[..j], b[..j])
  {
    EqualsIgnoreCaseSameLength(a, b);
    forall k | i <= k < |a| ensures LowerChar(a[k]) == LowerChar(b[k]) {
      EqualsIgnoreCaseAt(a, b, k);
    }
    forall k | 0 <= k < j ensures LowerChar(a[k]) == LowerChar(b[k]) {
      EqualsIgnoreCaseAt(a, b, k);
    }
    assert ToLower(a[i..j]) == ToLower(b[i..j]);
    assert ToLower(a[i..]) == ToLower(b[i..]);
    assert ToLower(a[..j]) == ToLower(b[..j]);
  }

  /** Searching for a non-letter finds it at the same place in every
      spelling. */
  lemma IndexOfIgnoringCase(a: string, b: string, c: char)
    requires EqualsIgnoreCase(a, b) && CaseFree(c)
    ensures IndexOf(a, c) == IndexOf(b, c)
  {
    EqualsIgnoreCaseSameLength(a, b);
    var j, k := IndexOf(a, c), IndexOf(b, c);
    if j < k {
      assert b[..k][j] == b[j];
      EqualsIgnoreCaseAt(a, b, j);
      CaseFreeAgree(a[j], b[j], c);
    } else if k < j {
      assert a[..j][k] == a[k];
      EqualsIgnoreCaseAt(a, b, k);
      CaseFreeAgree(a[k], b[k], c);
    }
  }

  lemma IndexOfAnyIgnoringCase(a: string, b: string, cs: set<char>)
    requires EqualsIgnoreCase(a, b) && forall c :: c in cs ==> CaseFree(c)
    ensures IndexOfAny(a, cs) == IndexOfAny(b, cs)
  {
    EqualsIgnoreCaseSameLength(a, b);
    var j, k := IndexOfAny(a, cs), IndexOfAny(b, cs);
    if j < k {
      EqualsIgnoreCaseAt(a, b, j);
      CaseFreeAgree(a[j], b[j], a[j]);
    } else if k < j {
      EqualsIgnoreCaseAt(a, b, k);
      CaseFreeAgree(b[k], a[k], b[k]);
    }
  }

  lemma LastIndexOfIgnoringCase(a: string, b: string, c: char)
    requires EqualsIgnoreCase(a, b) && CaseFree(c)
    ensures LastIndexOf(a, c) == LastIndexOf(b, c)
  {
    EqualsIgnoreCaseSameLength(a, b);
    var j, k := LastIndexOf(a, c), LastIndexOf(b, c);
    if j < k {
      EqualsIgnoreCaseAt(a, b, k);
      CaseFreeAgree(a[k], b[k], c);
    } else if k < j {
      EqualsIgnoreCaseAt(a, b, j);
      CaseFreeAgree(a[j], b[j], c);
    }
  }

  /** Whether a prefix is there, ignoring case, does not depend on the
      spelling. */
  lemma StartsWithIgnoringCase(a: string, b: string, p: string)
    requires EqualsIgnoreCase(a, b)
    ensures StartsWithIgnoreCase(a, p) <==> StartsWithIgnoreCase(b, p)
  {
    EqualsIgnoreCaseSameLength(a, b);
    if |p| <= |a| {
      EqualsIgnoreCaseSlice(a, b, 0, |p|);
    }
  }

  /** Digits have one spelling only. */
  lemma DigitsIgnoringCase(a: string, b: string)
    requires EqualsIgnoreCase(a, b)
    ensures AllDigits(a) <==> AllDigits(b)
    ensures AllDigits(a) ==> a == b
  {
    EqualsIgnoreCaseSameLength(a, b);
    forall i | 0 <= i < |a| ensures IsDigit(a[i]) || IsDigit(b[i]) ==> a[i] == b[i] {
      EqualsIgnoreCaseAt(a, b, i);
      if IsDigit(a[i]) {
        CaseFreeAgree(a[i], b[i], a[i]);
      } else if IsDigit(b[i]) {
        CaseFreeAgree(b[i], a[i], b[i]);
      }
    }
  }
}

=== FILE: uri.dfy ===
/** The part of java.net.URI (JDK 8) the SDK depends on: `URI.create`,
    `toString`, the component getters and `resolve`.  A URI is either
    hierarchical (optional scheme, optional authority, path, optional query)
    or opaque (scheme and scheme-specific part); both may carry a fragment.

    The raw component strings are kept: escapes are validated but not
    decoded.  A hierarchical URI written with an empty authority ("//" right
    before the path, query or fragment) keeps `Some("")` so that `Render`
    gives back the exact input text; `GetAuthority` reports such an
    authority as absent, as the JDK does. */
module Uri {
  import opened Wrappers
  import opened Text

  datatype Uri =
    | Hierarchical(scheme: Option<string>, authority: Option<string>, path: string,
                   query: Option<string>, fragment: Option<string>)
    | Opaque(schemeName: string, ssp: string, fragment: Option<string>)

  // ------------------------------------------------------------ characters

  predicate IsAlpha(c: char) {
    'a' <= c <= 'z' || 'A' <= c <= 'Z'
  }

  predicate IsAlphaNum(c: char) {
    IsAlpha(c) || IsDigit(c)
  }

  predicate IsHex(c: char) {
    IsDigit(c) || 'a' <= c <= 'f' || 'A' <= c <= 'F'
  }

  /** Characters no URI component accepts: controls, space characters, the
      ASCII delimiters outside the URI alphabet, and the IPv6 brackets. */
  predicate IsIllegal(c: char) {
    || c <= ' '
    || ('\U{007F}' <= c <= '\U{00A0}')
    || c == '"' || c == '<' || c == '>' || c == '\\' || c == '^' || c == '`'
    || c == '{' || c == '|' || c == '}' || c == '[' || c == ']'
    || c == '\U{1680}' || ('\U{2000}' <= c <= '\U{200A}')
    || c == '\U{2028}' || c == '\U{2029}' || c == '\U{202F}' || c == '\U{205F}' || c == '\U{3000}'
  }

  /** Every character is allowed and every '%' starts an escape pair. */
  predicate Legal(s: string) {
    forall i :: 0 <= i < |s| ==> LegalAt(s, i)
  }

  predicate LegalAt(s: string, i: nat)
    requires i < |s|
  {
    !IsIllegal(s[i]) && (s[i] == '%' ==> i + 2 < |s| && IsHex(s[i + 1]) && IsHex(s[i + 2]))
  }

  predicate IsSchemeChar(c: char) {
    IsAlphaNum(c) || c == '+' || c == '-' || c == '.'
  }

  predicate ValidScheme(s: string) {
    |s| >= 1 && IsAlpha(s[0]) && forall i :: 1 <= i < |s| ==> IsSchemeChar(s[i])
  }

  predicate NoneIn(s: string, cs: set<char>) {
    forall i :: 0 <= i < |s| ==> s[i] !in cs
  }

  /** The characters that end the search for a scheme's ':'. */
  const SchemeStops: set<char> := {':', '/', '?'}

  // ------------------------------------------------------------ splitting

  /** Split at the first `c`: the text before it and, if `c` occurs, the
      text after it. */
  function SplitFirst(s: string, c: char): (r: (string, Option<string>))
    ensures NoChar(r.0, c)
    ensures r.1.None? ==> r.0 == s
    ensures r.1.Some? ==> s == r.0 + [c] + r.1.value
  {
    var k := IndexOf(s, c);
    if k < |s| then
      assert s == s[..k] + [c] + s[k + 1..];
      (s[..k], Some(s[k + 1..]))
    else
      (s, None)
  }

  // ------------------------------------------------------------ parsing

  /** `URI.create(s)`: the parsed URI, or the reason the JDK rejects `s`. */
  function Parse(s: string): (r: Result<Uri, string>)
    ensures r.Success? ==> Legal(s)
  {
    if !Legal(s) then Failure("Illegal character in URI")
    else
      var split := SplitFirst(s, '#');
      if split.1.Some? && !NoChar(split.1.value, '#') then Failure("Illegal character in fragment")
      else ParseBody(split.0, split.1)
  }

  /** Everything before the fragment: a scheme, if the first of ':', '/'
      and '?' is a ':', then the scheme-specific part. */
  function ParseBody(body: string, fragment: Option<string>): Result<Uri, string> {
    var k := IndexOfAny(body, SchemeStops);
    if k < |body| && body[k] == ':' then ParseAbsolute(body[..k], body[k + 1..], fragment)
    else ParseHierarchical(None, body, fragment)
  }

  function ParseAbsolute(scheme: string, ssp: string, fragment: Option<string>): Result<Uri, string> {
    if scheme == [] then Failure("Expected scheme name")
    else if !ValidScheme(scheme) then Failure("Illegal character in scheme name")
    else if ssp == [] then Failure("Expected scheme-specific part")
    else if ssp[0] == '/' then ParseHierarchical(Some(scheme), ssp, fragment)
    else Success(Opaque(scheme, ssp, fragment))
  }

  function ParseHierarchical(scheme: Option<string>, part: string, fragment: Option<string>): Result<Uri, string> {
    if |part| >= 2 && part[..2] == "//" then
      if part[2..] == [] && fragment.None? then Failure("Expected authority")
      else ParseNetPath(scheme, part[2..], fragment)
    else
      var split := SplitFirst(part, '?');
      Success(Hierarchical(scheme, None, split.0, split.1, fragment))
  }

  /** What follows "//": the authority runs up to the first '/' or '?'. */
  function ParseNetPath(scheme: Option<string>, rest: string, fragment: Option<string>): Result<Uri, string> {
    var k := IndexOfAny(rest, {'/', '?'});
    var split := SplitFirst(rest[k..], '?');
    Success(Hierarchical(scheme, Some(rest[..k]), split.0, split.1, fragment))
  }

  // ------------------------------------------------------------ rendering

  function SchemePart(scheme: Option<string>): string {
    if scheme.Some? then scheme.value + ":" else ""
  }

  function AuthorityPart(authority: Option<string>): string {
    if authority.Some? then "//" + authority.value else ""
  }

  function QueryPart(query: Option<string>): string {
    if query.Some? then "?" + query.value else ""
  }

  function FragmentPart(fragment: Option<string>): string {
    if fragment.Some? then "#" + fragment.value else ""
  }

  /** `URI.toString`. */
  function Render(u: Uri): string {
    match u
    case Opaque(scheme, ssp, fragment) => scheme + ":" + ssp + FragmentPart(fragment)
    case Hierarchical(scheme, authority, path, query, fragment) =>
      SchemePart(scheme) + AuthorityPart(authority) + path + QueryPart(query) + FragmentPart(fragment)
  }

  // ------------------------------------------------------------ getters

  /** `getAuthority`: an empty authority reads as absent. */
  function GetAuthority(u: Uri): (r: Option<string>)
    ensures r.Some? ==> r.value != [] && u.Hierarchical? && u.authority == r
  {
    if u.Hierarchical? && u.authority.Some? && u.authority.value != [] then u.authority else None
  }

  /** `getPath`: absent for an opaque URI. */
  function GetPath(u: Uri): (r: Option<string>)
    ensures r.Some? <==> u.Hierarchical?
  {
    if u.Hierarchical? then Some(u.path) else None
  }

  function GetScheme(u: Uri): Option<string> {
    if u.Opaque? then Some(u.schemeName) else u.scheme
  }

  /** A host name: letters, digits, '-' and '.'. */
  predicate IsHostName(h: string) {
    |h| >= 1 && forall i :: 0 <= i < |h| ==> IsAlphaNum(h[i]) || h[i] == '-' || h[i] == '.'
  }

  /** A server-based authority `[userinfo@]host[:port]`: its host and port
      (-1 when none is written), or None when the authority is only a
      registry name. */
  function ServerAuthority(a: string): (r: Option<(string, int)>)
    ensures r.Some? ==> IsHostName(r.value.0) && NoChar(r.value.0, ':')
    ensures r.Some? ==> -1 <= r.value.1 < 0x8000_0000
  {
    var userOrHost, afterAt := SplitFirst(a, '@').0, SplitFirst(a, '@').1;
    var hostPort := if afterAt.Some? then afterAt.value else userOrHost;
    var host, port := SplitFirst(hostPort, ':').0, SplitFirst(hostPort, ':').1;
    if !IsHostName(host) then None
    else if port.None? || port.value == [] then Some((host, -1))
    else if AllDigits(port.value) && DigitsValue(port.value) < 0x8000_0000 then Some((host, DigitsValue(port.value) as int))
    else None
  }

  /** `getHost`. */
  function GetHost(u: Uri): (r: Option<string>)
    ensures r.Some? ==> GetAuthority(u).Some? && IsHostName(r.value)
  {
    match GetAuthority(u)
    case None => None
    case Some(a) => if ServerAuthority(a).Some? then Some(ServerAuthority(a).value.0) else None
  }

  /** `getPort`: -1 when undefined. */
  function GetPort(u: Uri): (r: int)
    ensures r >= -1
    ensures r != -1 ==> GetHost(u).Some?
  {
    match GetAuthority(u)
    case None => -1
    case Some(a) => if ServerAuthority(a).Some? then ServerAuthority(a).value.1 else -1
  }

  // ------------------------------------------------------------ resolution

  /** The merge step of reference resolution: everything of the base path
      up to and including its last '/', followed by the reference path. */
  function MergePath(basePath: string, refPath: string): (r: string)
    ensures LastIndexOf(basePath, '/') < 0 ==> r == refPath
    ensures LastIndexOf(basePath, '/') >= 0 ==>
              r == basePath[..LastIndexOf(basePath, '/') + 1] + refPath
  {
    var i := LastIndexOf(basePath, '/');
    (if i >= 0 then basePath[..i + 1] else "") + refPath
  }

  /** `base.resolve(child)` as the JDK 8 implements section 5.2 of RFC 2396,
      without the final removal of "." and ".." segments. */
  function Resolve(base: Uri, child: Uri): (r: Uri)
  {
    if child.Opaque? || base.Opaque? then child
    else if child.scheme.None? && GetAuthority(child).None? && child.path == []
         && child.fragment.Some? && child.query.None? then
      if base.fragment.Some? && child.fragment == base.fragment then base
      else Hierarchical(base.scheme, GetAuthority(base), base.path, base.query, child.fragment)
    else if child.scheme.Some? then child
    else if GetAuthority(child).Some? then
      Hierarchical(base.scheme, GetAuthority(child), child.path, child.query, child.fragment)
    else if child.path != [] && child.path[0] == '/' then
      Hierarchical(base.scheme, GetAuthority(base), child.path, child.query, child.fragment)
    else
      Hierarchical(base.scheme, GetAuthority(base), MergePath(base.path, child.path), child.query, child.fragment)
  }

  /** Text that starts with '/' reads as a hierarchical URI without a
      scheme. */
  lemma SlashParsesHierarchical(s: string)
    requires |s| >= 1 && s[0] == '/' && Parse(s).Success?
    ensures Parse(s).value.Hierarchical? && Parse(s).value.scheme.None?
  {
    var body := SplitFirst(s, '#').0;
    assert body == s[..IndexOf(s, '#')];
    assert body[0] == '/';
    assert IndexOfAny(body, SchemeStops) == 0;
  }

  /** `base.resolve(String)`: parse the reference, then resolve it. */
  function ResolveText(base: Uri, reference: string): Result<Uri, string> {
    var child :- Parse(reference);
    Success(Resolve(base, child))
  }

  // ------------------------------------------------------------ round trips

  /** A URI the JDK would print and read back unchanged: every component
      uses legal characters, no component holds the delimiter that ends it,
      and the path cannot be mistaken for a scheme or an authority. */
  predicate WellFormed(u: Uri) {
    match u
    case Opaque(scheme, ssp, fragment) =>
      ValidScheme(scheme) && ssp != [] && ssp[0] != '/' && Legal(ssp) && NoChar(ssp, '#')
      && FragmentOk(fragment)
    case Hierarchical(scheme, authority, path, query, fragment) =>
      && (scheme.Some? ==> ValidScheme(scheme.value))
      && (authority.Some? ==>
            && Legal(authority.value) && NoneIn(authority.value, {'/', '?', '#'})
            && (path == [] || path[0] == '/')
            && (authority.value == [] ==> path != [] || query.Some? || fragment.Some?))
      && (authority.None? ==>
            && !(|path| >= 2 && path[..2] == "//")
            && (scheme.Some? ==> path != [] && path[0] == '/')
            && (scheme.None? ==> NoSchemeColon(path)))
      && Legal(path) && NoneIn(path, {'?', '#'})
      && (query.Some? ==> Legal(query.value) && NoChar(query.value, '#'))
      && FragmentOk(fragment)
  }

  predicate FragmentOk(fragment: Option<string>) {
    fragment.Some? ==> Legal(fragment.value) && NoChar(fragment.value, '#')
  }

  /** A relative path whose first segment holds no ':'. */
  predicate NoSchemeColon(path: string) {
    var k := IndexOfAny(path, SchemeStops);
    k == |path| || path[k] != ':'
  }

  /** What `URI.create` accepts prints back as the very same text. */
  lemma RenderParse(s: string)
    requires Parse(s).Success?
    ensures Render(Parse(s).value) == s
    ensures WellFormed(Parse(s).value)
  {
    var body, fragment := SplitFirst(s, '#').0, SplitFirst(s, '#').1;
    assert Parse(s) == ParseBody(body, fragment);
    FragmentCut(s);
    assert Legal(body) && FragmentOk(fragment) by {
      if fragment.Some? {
        LegalPrefix(s, |body|);
        LegalSuffix(s, |body| + 1);
        assert s[|body| + 1..] == fragment.value;
      }
    }
    BodyRenderParse(body, fragment);
  }

  lemma BodyRenderParse(body: string, fragment: Option<string>)
    requires Legal(body) && NoChar(body, '#') && FragmentOk(fragment)
    requires ParseBody(body, fragment).Success?
    ensures Render(ParseBody(body, fragment).value) == body + FragmentPart(fragment)
    ensures WellFormed(ParseBody(body, fragment).value)
  {
    var k := IndexOfAny(body, SchemeStops);
    if k < |body| && body[k] == ':' {
      var scheme, ssp := body[..k], body[k + 1..];
      assert body == scheme + ":" + ssp by {
        CutAt(body, k);
      }
      assert Legal(ssp) && NoChar(ssp, '#') by {
        LegalSuffix(body, k + 1);
        forall i | 0 <= i < |ssp| ensures ssp[i] != '#' {
          assert ssp[i] == body[k + 1 + i];
        }
      }
      if ssp[0] == '/' {
        HierarchicalRenderParse(Some(scheme), ssp, fragment);
      }
    } else {
      HierarchicalRenderParse(None, body, fragment);
      assert SchemePart(None) + body == body;
    }
  }

  lemma HierarchicalRenderParse(scheme: Option<string>, part: string, fragment: Option<string>)
    requires Legal(part) && NoChar(part, '#') && FragmentOk(fragment)
    requires scheme.Some? ==> ValidScheme(scheme.value) && part != [] && part[0] == '/'
    requires scheme.None? ==> NoSchemeColon(part)
    requires ParseHierarchical(scheme, part, fragment).Success?
    ensures Render(ParseHierarchical(scheme, part, fragment).value) == SchemePart(scheme) + part + FragmentPart(fragment)
    ensures WellFormed(ParseHierarchical(scheme, part, fragment).value)
  {
    if |part| >= 2 && part[..2] == "//" {
      AuthorityRenderParse(scheme, part, fragment);
    } else {
      PathRenderParse(scheme, part, fragment);
    }
  }

  lemma AuthorityRenderParse(scheme: Option<string>, part: string, fragment: Option<string>)
    requires Legal(part) && NoChar(part, '#') && FragmentOk(fragment)
    requires scheme.Some? ==> ValidScheme(scheme.value)
    requires |part| >= 2 && part[..2] == "//"
    requires part[2..] != [] || fragment.Some?
    ensures ParseHierarchical(scheme, part, fragment).Success?
    ensures Render(ParseHierarchical(scheme, part, fragment).value) == SchemePart(scheme) + part + FragmentPart(fragment)
    ensures WellFormed(ParseHierarchical(scheme, part, fragment).value)
  {
    var rest := part[2..];
    assert Legal(rest) && NoChar(rest, '#') by {
      LegalSuffix(part, 2);
      forall i | 0 <= i < |rest| ensures rest[i] != '#' {
        assert rest[i] == part[i + 2];
      }
    }
    NetPathRenderParse(scheme, rest, fragment);
    assert part == "//" + rest by {
      assert part == part[..2] + rest;
    }
  }

  lemma NetPathRenderParse(scheme: Option<string>, rest: string, fragment: Option<string>)
    requires Legal(rest) && NoChar(rest, '#') && FragmentOk(fragment)
    requires scheme.Some? ==> ValidScheme(scheme.value)
    requires rest != [] || fragment.Some?
    ensures Render(ParseNetPath(scheme, rest, fragment).value) == SchemePart(scheme) + ("//" + rest) + FragmentPart(fragment)
    ensures WellFormed(ParseNetPath(scheme, rest, fragment).value)
  {
    NetPathRender(scheme, rest, fragment);
    NetPathFacts(rest);
  }

  lemma NetPathRender(scheme: Option<string>, rest: string, fragment: Option<string>)
    ensures Render(ParseNetPath(scheme, rest, fragment).value) == SchemePart(scheme) + ("//" + rest) + FragmentPart(fragment)
  {
    var k := IndexOfAny(rest, {'/', '?'});
    var tail := rest[k..];
    var u := ParseNetPath(scheme, rest, fragment).value;
    QueryCut(tail);
    assert rest == rest[..k] + tail;
    ConcatAssoc("//", rest[..k], tail);
    RenderHierarchical(u, "//" + rest);
  }

  /** The pieces `ParseNetPath` cuts out of legal, fragment-free text. */
  lemma NetPathFacts(rest: string)
    requires Legal(rest) && NoChar(rest, '#')
    ensures var k := IndexOfAny(rest, {'/', '?'});
            var split := SplitFirst(rest[k..], '?');
            && Legal(rest[..k]) && NoneIn(rest[..k], {'/', '?', '#'})
            && Legal(split.0) && NoneIn(split.0, {'?', '#'})
            && (split.0 == [] || split.0[0] == '/')
            && (split.1.Some? ==> Legal(split.1.value) && NoChar(split.1.value, '#'))
            && (rest[..k] == [] ==> split.0 != [] || split.1.Some? || rest == [])
  {
    var k := IndexOfAny(rest, {'/', '?'});
    var tail := rest[k..];
    LegalPrefix(rest, k);
    LegalSuffix(rest, k);
    SplitLegal(tail, '?');
    assert NoChar(tail, '#') by {
      forall i | 0 <= i < |tail| ensures tail[i] != '#' {
        assert tail[i] == rest[i + k];
      }
    }
    NoCharSlices(tail, '#');
    var path := SplitFirst(tail, '?').0;
    if path != [] {
      assert path[0] == tail[0];
    }
  }

  lemma PathRenderParse(scheme: Option<string>, part: string, fragment: Option<string>)
    requires Legal(part) && NoChar(part, '#') && FragmentOk(fragment)
    requires scheme.Some? ==> ValidScheme(scheme.value) && part != [] && part[0] == '/'
    requires scheme.None? ==> NoSchemeColon(part)
    requires !(|part| >= 2 && part[..2] == "//")
    ensures ParseHierarchical(scheme, part, fragment).Success?
    ensures Render(ParseHierarchical(scheme, part, fragment).value) == SchemePart(scheme) + part + FragmentPart(fragment)
    ensures WellFormed(ParseHierarchical(scheme, part, fragment).value)
  {
    var path, query := SplitFirst(part, '?').0, SplitFirst(part, '?').1;
    var u := Hierarchical(scheme, None, path, query, fragment);
    assert ParseHierarchical(scheme, part, fragment) == Success(u);
    assert Legal(path) && (query.Some? ==> Legal(query.value)) by {
      SplitLegal(part, '?');
    }
    assert NoneIn(path, {'?', '#'}) && (query.Some? ==> NoChar(query.value, '#')) by {
      NoCharSlices(part, '#');
    }
    assert path == part[..|path|];
    assert scheme.None? ==> NoSchemeColon(path) by {
      if scheme.None? {
        IndexOfAnyPrefix(part, |path|, SchemeStops);
      }
    }
    assert scheme.Some? ==> path != [] && path[0] == '/';
    assert !(|path| >= 2 && path[..2] == "//") by {
      if |path| >= 2 {
        assert path[..2] == part[..2];
      }
    }
    assert Render(u) == SchemePart(scheme) + part + FragmentPart(fragment) by {
      QueryCut(part);
      RenderHierarchical(u, part);
    }
  }

  /** Every well-formed URI prints to text that `URI.create` reads back as
      the same URI. */
  lemma ParseRender(u: Uri)
    requires WellFormed(u)
    ensures Parse(Render(u)) == Success(u)
  {
    match u
    case Opaque(scheme, ssp, fragment) =>
      OpaqueParseRender(scheme, ssp, fragment);
    case Hierarchical(_, _, _, _, _) =>
      HierarchicalRoundTrip(u);
  }

  lemma HierarchicalRoundTrip(u: Uri)
    requires WellFormed(u) && u.Hierarchical?
    ensures Parse(Render(u)) == Success(u)
  {
    var part := AuthorityPart(u.authority) + (u.path + QueryPart(u.query));
    var body := SchemePart(u.scheme) + part;
    assert Parse(Render(u)) == ParseBody(body, u.fragment) by {
      RenderCut(u, part, body);
    }
    BodyParses(u, part, body);
  }

  /** The printed URI splits at its first '#' into body and fragment. */
  lemma RenderCut(u: Uri, part: string, body: string)
    requires WellFormed(u) && u.Hierarchical?
    requires part == AuthorityPart(u.authority) + (u.path + QueryPart(u.query))
    requires body == SchemePart(u.scheme) + part
    ensures Parse(Render(u)) == ParseBody(body, u.fragment)
  {
    RenderHierarchical(u, part);
    assert Legal(Render(u)) by {
      RenderLegal(u, part, body);
    }
    assert NoChar(body, '#') by {
      if u.scheme.Some? {
        SchemeStopsFree(u.scheme.value);
      }
      HierarchicalPartNoHash(u.authority, u.path, u.query);
    }
    ParseCut(Render(u), body, u.fragment);
  }

  /** The body before the fragment reads back as the URI's other parts. */
  lemma BodyParses(u: Uri, part: string, body: string)
    requires WellFormed(u) && u.Hierarchical?
    requires part == AuthorityPart(u.authority) + (u.path + QueryPart(u.query))
    requires body == SchemePart(u.scheme) + part
    ensures ParseBody(body, u.fragment) == Success(u)
  {
    assert ParseHierarchical(u.scheme, part, u.fragment) == Success(u) by {
      HierarchicalParseRender(u.scheme, u.authority, u.path, u.query, u.fragment);
    }
    if u.scheme.Some? {
      SchemedBodyParses(u, part, body);
    } else {
      assert body == part;
      RelativeBody(u.authority, u.path, u.query);
    }
  }

  lemma SchemedBodyParses(u: Uri, part: string, body: string)
    requires WellFormed(u) && u.Hierarchical? && u.scheme.Some?
    requires part == AuthorityPart(u.authority) + (u.path + QueryPart(u.query))
    requires body == SchemePart(u.scheme) + part
    ensures ParseBody(body, u.fragment) == ParseHierarchical(u.scheme, part, u.fragment)
  {
    var scheme := u.scheme.value;
    SchemedBody(scheme, part);
    assert part != [] && part[0] == '/' by {
      PartStartsWithSlash(u, part);
    }
  }


  /** With a scheme, what follows the ':' starts with '/'. */
  lemma PartStartsWithSlash(u: Uri, part: string)
    requires WellFormed(u) && u.Hierarchical? && u.scheme.Some?
    requires part == AuthorityPart(u.authority) + (u.path + QueryPart(u.query))
    ensures part != [] && part[0] == '/'
  {
    if u.authority.None? {
      assert part[0] == u.path[0];
    }
  }

  lemma RenderLegal(u: Uri, part: string, body: string)
    requires WellFormed(u) && u.Hierarchical?
    requires part == AuthorityPart(u.authority) + (u.path + QueryPart(u.query))
    requires body == SchemePart(u.scheme) + part
    ensures Legal(body + FragmentPart(u.fragment))
  {
    if u.scheme.Some? {
      SchemeLegal(u.scheme.value);
      LegalConcat(u.scheme.value, ":");
    }
    HierarchicalPartLegal(u.authority, u.path, u.query);
    LegalConcat(SchemePart(u.scheme), part);
    FragmentLegal(u.fragment);
    LegalConcat(body, FragmentPart(u.fragment));
  }

  lemma OpaqueParseRender(scheme: string, ssp: string, fragment: Option<string>)
    requires WellFormed(Opaque(scheme, ssp, fragment))
    ensures Parse(Render(Opaque(scheme, ssp, fragment))) == Success(Opaque(scheme, ssp, fragment))
  {
    var body := scheme + ":" + ssp;
    assert Legal(body + FragmentPart(fragment)) by {
      SchemeLegal(scheme);
      LegalConcat(scheme, ":");
      LegalConcat(scheme + ":", ssp);
      FragmentLegal(fragment);
      LegalConcat(body, FragmentPart(fragment));
    }
    assert NoChar(body, '#') by {
      SchemeStopsFree(scheme);
    }
    ParseCut(body + FragmentPart(fragment), body, fragment);
    SchemedBody(scheme, ssp);
  }

  /** `Parse` on text whose first '#' starts the fragment. */
  lemma ParseCut(s: string, body: string, fragment: Option<string>)
    requires Legal(s) && s == body + FragmentPart(fragment)
    requires NoChar(body, '#') && FragmentOk(fragment)
    ensures Parse(s) == ParseBody(body, fragment)
  {
    SplitFragmentOf(body, fragment);
  }

  /** After a valid scheme, the first scheme stop is the scheme's ':'. */
  lemma SchemedBody(scheme: string, rest: string)
    requires ValidScheme(scheme)
    ensures IndexOfAny(scheme + ":" + rest, SchemeStops) == |scheme|
    ensures (scheme + ":" + rest)[..|scheme|] == scheme
    ensures (scheme + ":" + rest)[|scheme| + 1..] == rest
  {
    SchemeStopsFree(scheme);
    IndexOfAnyConcat(scheme, ":" + rest, SchemeStops);
    assert scheme + ":" + rest == scheme + (":" + rest);
  }

  /** A well-formed relative reference has no scheme-like prefix. */
  lemma RelativeBody(authority: Option<string>, path: string, query: Option<string>)
    requires authority.Some? ==> path == [] || path[0] == '/'
    requires authority.None? ==> NoSchemeColon(path)
    requires NoChar(path, '?')
    ensures var part := AuthorityPart(authority) + (path + QueryPart(query));
            var k := IndexOfAny(part, SchemeStops);
            !(k < |part| && part[k] == ':')
  {
    var part := AuthorityPart(authority) + (path + QueryPart(query));
    if authority.Some? {
      assert part[0] == '/';
    } else {
      assert part == path + QueryPart(query);
      IndexOfAnyConcat(path, QueryPart(query), SchemeStops);
      var ip := IndexOfAny(path, SchemeStops);
      if ip < |path| {
        assert part[ip] == path[ip];
      } else if query.Some? {
        assert QueryPart(query)[0] == '?';
        assert IndexOfAny(QueryPart(query), SchemeStops) == 0;
        assert part[|path|] == '?';
      }
    }
  }

  /** The hierarchical part of a well-formed URI reads back as its
      authority, path and query. */
  lemma HierarchicalParseRender(scheme: Option<string>, authority: Option<string>, path: string,
                                query: Option<string>, fragment: Option<string>)
    requires WellFormed(Hierarchical(scheme, authority, path, query, fragment))
    ensures ParseHierarchical(scheme, AuthorityPart(authority) + (path + QueryPart(query)), fragment)
            == Success(Hierarchical(scheme, authority, path, query, fragment))
  {
    if authority.Some? {
      AuthorityParseRender(scheme, authority.value, path, query, fragment);
    } else {
      assert AuthorityPart(authority) + (path + QueryPart(query)) == path + QueryPart(query);
      PathParseRender(scheme, path, query, fragment);
    }
  }

  lemma PathParseRender(scheme: Option<string>, path: string, query: Option<string>, fragment: Option<string>)
    requires WellFormed(Hierarchical(scheme, None, path, query, fragment))
    ensures ParseHierarchical(scheme, path + QueryPart(query), fragment)
            == Success(Hierarchical(scheme, None, path, query, fragment))
  {
    var tail := path + QueryPart(query);
    SplitQueryOf(path, query);
    assert !(|tail| >= 2 && tail[..2] == "//") by {
      if |path| >= 2 {
        assert tail[..2] == path[..2];
      } else if |tail| >= 2 {
        assert tail[|path|] == '?';
        assert tail[..2][|path|] == '?';
      }
    }
  }

  lemma AuthorityParseRender(scheme: Option<string>, a: string, path: string,
                             query: Option<string>, fragment: Option<string>)
    requires WellFormed(Hierarchical(scheme, Some(a), path, query, fragment))
    ensures ParseHierarchical(scheme, "//" + a + (path + QueryPart(query)), fragment)
            == Success(Hierarchical(scheme, Some(a), path, query, fragment))
  {
    var tail := path + QueryPart(query);
    var rest := a + tail;
    var part := "//" + a + tail;
    SplitQueryOf(path, query);
    assert part == "//" + rest;
    assert part[..2] == "//" && part[2..] == rest;
    assert IndexOfAny(rest, {'/', '?'}) == |a| by {
      IndexOfAnyConcat(a, tail, {'/', '?'});
      if tail != [] {
        assert tail[0] in {'/', '?'};
      }
    }
    assert rest[..|a|] == a && rest[|a|..] == tail;
  }

  // ------------------------------------------------------------ slicing facts

  lemma LegalSuffix(s: string, k: nat)
    requires Legal(s) && k <= |s|
    ensures Legal(s[k..])
  {
    var t := s[k..];
    forall i | 0 <= i < |t| ensures LegalAt(t, i) {
      assert LegalAt(s, k + i);
      assert t[i] == s[k + i];
      if i + 2 < |t| {
        assert t[i + 1] == s[k + i + 1] && t[i + 2] == s[k + i + 2];
      }
    }
  }

  /** A prefix cut right before a non-hex character stays legal: no escape
      pair can straddle the cut. */
  lemma LegalPrefix(s: string, k: nat)
    requires Legal(s) && k <= |s|
    requires k == |s| || !IsHex(s[k])
    ensures Legal(s[..k])
  {
    var t := s[..k];
    forall i | 0 <= i < |t| ensures LegalAt(t, i) {
      assert LegalAt(s, i);
      if t[i] == '%' {
        assert i + 2 < |s| && IsHex(s[i + 1]) && IsHex(s[i + 2]);
        assert i + 1 != k && i + 2 != k;
      }
    }
  }

  lemma LegalConcat(a: string, b: string)
    requires Legal(a) && Legal(b)
    ensures Legal(a + b)
  {
    var s := a + b;
    forall i | 0 <= i < |s| ensures LegalAt(s, i) {
      if i < |a| {
        assert LegalAt(a, i);
      } else {
        assert LegalAt(b, i - |a|);
        assert s[i] == b[i - |a|];
        if i + 2 < |s| {
          assert s[i + 1] == b[i - |a| + 1] && s[i + 2] == b[i - |a| + 2];
        }
      }
    }
  }

  lemma SchemeLegal(scheme: string)
    requires ValidScheme(scheme)
    ensures Legal(scheme)
  {
    forall i | 0 <= i < |scheme| ensures LegalAt(scheme, i) {
    }
  }

  lemma SchemeStopsFree(scheme: string)
    requires ValidScheme(scheme)
    ensures NoneIn(scheme, SchemeStops) && NoChar(scheme, '#')
  {
  }

  lemma FragmentLegal(fragment: Option<string>)
    requires FragmentOk(fragment)
    ensures Legal(FragmentPart(fragment))
  {
    if fragment.Some? {
      LegalConcat("#", fragment.value);
    }
  }

  lemma HierarchicalPartLegal(authority: Option<string>, path: string, query: Option<string>)
    requires authority.Some? ==> Legal(authority.value)
    requires Legal(path)
    requires query.Some? ==> Legal(query.value)
    ensures Legal(AuthorityPart(authority) + (path + QueryPart(query)))
  {
    if authority.Some? {
      LegalConcat("//", authority.value);
    }
    if query.Some? {
      LegalConcat("?", query.value);
    }
    LegalConcat(path, QueryPart(query));
    LegalConcat(AuthorityPart(authority), path + QueryPart(query));
  }

  lemma HierarchicalPartNoHash(authority: Option<string>, path: string, query: Option<string>)
    requires authority.Some? ==> NoneIn(authority.value, {'/', '?', '#'})
    requires NoneIn(path, {'?', '#'})
    requires query.Some? ==> NoChar(query.value, '#')
    ensures NoChar(AuthorityPart(authority) + (path + QueryPart(query)), '#')
  {
    var part := AuthorityPart(authority) + (path + QueryPart(query));
    forall i | 0 <= i < |part| ensures part[i] != '#' {
      var n := |AuthorityPart(authority)|;
      if i >= n + |path| + 1 {
        assert part[i] == query.value[i - n - |path| - 1];
      } else if i >= n && i < n + |path| {
        assert part[i] == path[i - n];
      } else if 2 <= i < n {
        assert part[i] == authority.value[i - 2];
      }
    }
  }

  lemma SplitFragmentOf(body: string, fragment: Option<string>)
    requires NoChar(body, '#')
    ensures SplitFirst(body + FragmentPart(fragment), '#') == (body, fragment)
  {
    if fragment.Some? {
      assert FragmentPart(fragment) == ['#'] + fragment.value;
      SplitFirstAt(body, '#', fragment.value, body + FragmentPart(fragment));
    } else {
      assert body + FragmentPart(fragment) == body;
      SplitFirstNone(body, '#');
    }
  }

  lemma SplitQueryOf(path: string, query: Option<string>)
    requires NoChar(path, '?')
    ensures SplitFirst(path + QueryPart(query), '?') == (path, query)
  {
    if query.Some? {
      assert QueryPart(query) == ['?'] + query.value;
      SplitFirstAt(path, '?', query.value, path + QueryPart(query));
    } else {
      assert path + QueryPart(query) == path;
      SplitFirstNone(path, '?');
    }
  }

  /** Splitting at the first `c` undoes putting a `c`-free text before it. */
  lemma SplitFirstAt(a: string, c: char, b: string, s: string)
    requires NoChar(a, c) && s == a + ([c] + b)
    ensures SplitFirst(s, c) == (a, Some(b))
  {
    var k := IndexOf(s, c);
    assert s[|a|] == c;
    assert s[..k] == a && s[k + 1..] == b;
  }

  lemma SplitFirstNone(s: string, c: char)
    requires NoChar(s, c)
    ensures SplitFirst(s, c) == (s, None)
  {
  }

  /** Searching a concatenation: a hit in the first part, or else the
      first part's length plus the search of the second. */
  lemma IndexOfAnyConcat(a: string, b: string, cs: set<char>)
    ensures IndexOfAny(a + b, cs) ==
            if IndexOfAny(a, cs) < |a| then IndexOfAny(a, cs) else |a| + IndexOfAny(b, cs)
  {
    var s := a + b;
    var k, ka, kb := IndexOfAny(s, cs), IndexOfAny(a, cs), IndexOfAny(b, cs);
    if ka < |a| {
      assert s[ka] in cs;
    } else {
      assert forall i :: 0 <= i < |a| ==> s[i] == a[i];
      assert forall i :: 0 <= i < |b| ==> s[|a| + i] == b[i];
    }
  }

  /** Both halves of a legal split at a non-hex character are legal. */
  lemma SplitLegal(s: string, c: char)
    requires Legal(s) && !IsHex(c)
    ensures Legal(SplitFirst(s, c).0)
    ensures SplitFirst(s, c).1.Some? ==> Legal(SplitFirst(s, c).1.value)
  {
    var a, b := SplitFirst(s, c).0, SplitFirst(s, c).1;
    if b.Some? {
      LegalPrefix(s, |a|);
      assert s[..|a|] == a;
      LegalSuffix(s, |a| + 1);
      assert s[|a| + 1..] == b.value;
    }
  }

  lemma NoCharSlices(s: string, c: char)
    requires NoChar(s, c)
    ensures NoChar(SplitFirst(s, '?').0, c)
    ensures SplitFirst(s, '?').1.Some? ==> NoChar(SplitFirst(s, '?').1.value, c)
  {
    var a, b := SplitFirst(s, '?').0, SplitFirst(s, '?').1;
    if b.Some? {
      forall i | 0 <= i < |b.value| ensures b.value[i] != c {
        assert b.value[i] == s[|a| + 1 + i];
      }
    }
  }

  /** Searching a prefix finds what the whole search found, when that lies
      inside the prefix, and nothing otherwise. */
  lemma IndexOfAnyPrefix(s: string, j: nat, cs: set<char>)
    requires j <= |s|
    ensures IndexOfAny(s[..j], cs) == if IndexOfAny(s, cs) < j then IndexOfAny(s, cs) else j
  {
    var k, kp := IndexOfAny(s, cs), IndexOfAny(s[..j], cs);
    if kp < j {
      assert s[kp] in cs;
    }
    if k < j {
      assert s[..j][k] in cs;
    }
  }

  lemma RenderHierarchical(u: Uri, part: string)
    requires u.Hierarchical?
    requires AuthorityPart(u.authority) + (u.path + QueryPart(u.query)) == part
    ensures Render(u) == SchemePart(u.scheme) + part + FragmentPart(u.fragment)
  {
  }

  lemma ConcatAssoc(a: string, b: string, c: string)
    ensures (a + b) + c == a + (b + c)
  {
  }

  lemma QueryCut(s: string)
    ensures s == SplitFirst(s, '?').0 + QueryPart(SplitFirst(s, '?').1)
  {
  }

  lemma FragmentCut(s: string)
    ensures s == SplitFirst(s, '#').0 + FragmentPart(SplitFirst(s, '#').1)
  {
  }

  lemma CutAt(s: string, k: nat)
    requires k < |s|
    ensures s == s[..k] + [s[k]] + s[k + 1..]
  {
  }
}

=== FILE: uri_utils.dfy ===
/** UriUtils.normalizeWithSlashEnding: make a URI's path end with '/'. */
module UriUtils {
  import opened Wrappers
  import opened Text
  import opened Uri

  /** The URI overload.  A path already ending in '/' keeps the very same
      URI; otherwise the JDK's five-argument constructor rebuilds the URI
      from scheme, authority, path + "/", query and fragment, which means
      printing those components and parsing the text again.  An opaque URI
      has no path, and the call fails with a NullPointerException. */
  function NormalizeWithSlashEnding(src: Uri): (r: Result<Uri, string>)
    ensures src.Opaque? ==> r.Failure?
  {
    match src
    case Opaque(_, _, _) => Failure("NullPointerException")
    case Hierarchical(scheme, _, path, query, fragment) =>
      if EndsWith(path, "/") then Success(src)
      else if scheme.Some? && path + "/" != [] && (path + "/")[0] != '/' then
        Failure("IllegalArgumentException: Relative path in absolute URI")
      else
        var rebuilt := Hierarchical(scheme, GetAuthority(src), path + "/", query, fragment);
        match Parse(Render(rebuilt))
        case Success(u) => Success(u)
        case Failure(e) => Failure("IllegalArgumentException: " + e)
  }

  /** The String overload: `URI.create` first; its IllegalArgumentException
      passes through. */
  function NormalizeTextWithSlashEnding(src: string): (r: Result<Uri, string>)
    ensures Parse(src).Failure? ==> r.Failure?
    ensures Parse(src).Success? ==> r == NormalizeWithSlashEnding(Parse(src).value)
  {
    var u :- Parse(src);
    NormalizeWithSlashEnding(u)
  }

  /** The one shape the rebuild reads differently: after an empty authority
      ("//" with nothing before the path) a path that itself starts with
      "//" is printed without the empty authority and so reads back with
      its first segment as the authority. */
  predicate DoubleSlashAfterEmptyAuthority(u: Uri) {
    u.Hierarchical? && u.authority == Some("") && |u.path| >= 2 && u.path[..2] == "//"
  }

  /** For every URI `URI.create` accepts (outside the shape above) the
      result exists, its path is the old path with '/' appended exactly when
      it did not end in one, and scheme, authority, query and fragment are
      kept. */
  lemma NormalizeAppendsSlash(u: Uri)
    requires WellFormed(u) && u.Hierarchical?
    requires !DoubleSlashAfterEmptyAuthority(u)
    ensures NormalizeWithSlashEnding(u).Success?
    ensures var n := NormalizeWithSlashEnding(u).value;
            && n.Hierarchical?
            && n.path == (if EndsWith(u.path, "/") then u.path else u.path + "/")
            && EndsWith(n.path, "/")
            && n.scheme == u.scheme && GetAuthority(n) == GetAuthority(u)
            && n.query == u.query && n.fragment == u.fragment
            && WellFormed(n)
  {
    if !EndsWith(u.path, "/") {
      var rebuilt := Hierarchical(u.scheme, GetAuthority(u), u.path + "/", u.query, u.fragment);
      RebuiltWellFormed(u);
      ParseRender(rebuilt);
    }
  }

  lemma RebuiltWellFormed(u: Uri)
    requires WellFormed(u) && u.Hierarchical? && !EndsWith(u.path, "/")
    requires !DoubleSlashAfterEmptyAuthority(u)
    ensures WellFormed(Hierarchical(u.scheme, GetAuthority(u), u.path + "/", u.query, u.fragment))
  {
    var p := u.path + "/";
    assert Legal(p) by {
      assert Legal("/") by {
        assert LegalAt("/", 0);
      }
      LegalConcat(u.path, "/");
    }
    assert NoneIn(p, {'?', '#'});
    if u.path != [] {
      assert p[0] == u.path[0];
    }
    if GetAuthority(u).None? {
      if |u.path| >= 2 {
        assert p[..2] == u.path[..2];
      }
      if u.scheme.None? {
        if u.authority.Some? {
          assert p[0] == '/';
          assert IndexOfAny(p, SchemeStops) == 0;
        } else {
          IndexOfAnyConcat(u.path, "/", SchemeStops);
          assert IndexOfAny("/", SchemeStops) == 0;
          if IndexOfAny(u.path, SchemeStops) < |u.path| {
            assert p[IndexOfAny(u.path, SchemeStops)] == u.path[IndexOfAny(u.path, SchemeStops)];
          }
        }
      }
    }
  }

  /** Normalising twice gives the same URI as normalising once. */
  lemma NormalizeIdempotent(u: Uri)
    requires WellFormed(u) && u.Hierarchical?
    requires !DoubleSlashAfterEmptyAuthority(u)
    ensures NormalizeWithSlashEnding(u).Success?
    ensures NormalizeWithSlashEnding(NormalizeWithSlashEnding(u).value) == NormalizeWithSlashEnding(u)
  {
    NormalizeAppendsSlash(u);
  }
}

=== FILE: user_agent.dfy ===
/** UserAgentEntity: the `product/version (comment)` value of a User-Agent
    header (section 5.5.3 of RFC 7231) and the Builder that assembles it.
    Java's null becomes None. */
module UserAgent {
  import opened Wrappers
  import opened Text
  import opened Uri

  datatype UserAgentEntity = UserAgentEntity(product: string, version: Option<string>, comment: Option<string>)

  const BlankProduct := "Product can't be blank."
  const BlankKeyValue := "key and value are not allowed to be blank."

  /** What the constructor keeps: a non-blank product, and a version and
      comment that are either absent or non-blank. */
  predicate Valid(e: UserAgentEntity) {
    && !IsBlank(Some(e.product))
    && (e.version.Some? ==> !IsBlank(e.version))
    && (e.comment.Some? ==> !IsBlank(e.comment))
  }

  /** A blank optional value is stored as absent. */
  function NonBlank(s: Option<string>): (r: Option<string>)
    ensures r.None? <==> IsBlank(s)
    ensures r.Some? ==> r == s
  {
    if IsBlank(s) then None else s
  }

  /** The constructor `UserAgentEntity(product, version, comment)`. */
  function Create(product: Option<string>, version: Option<string>, comment: Option<string>): (r: Result<UserAgentEntity, string>)
    ensures r.Failure? <==> IsBlank(product)
    ensures r.Failure? ==> r.error == BlankProduct
    ensures r.Success? ==> && Valid(r.value)
                           && r.value.product == product.value
                           && (r.value.version.None? <==> IsBlank(version))
                           && (r.value.version.Some? ==> r.value.version == version)
                           && (r.value.comment.None? <==> IsBlank(comment))
                           && (r.value.comment.Some? ==> r.value.comment == comment)
  {
    if IsBlank(product) then Failure(BlankProduct)
    else Success(UserAgentEntity(product.value, NonBlank(version), NonBlank(comment)))
  }

  function VersionText(version: Option<string>): string {
    if version.Some? then "/" + version.value else ""
  }

  function CommentText(comment: Option<string>): string {
    if comment.Some? then " (" + comment.value + ")" else ""
  }

  /** `toString`: the product, then "/" and the version when there is one,
      then " (", the comment and ")" when there is one. */
  function ToString(e: UserAgentEntity): (r: string)
    ensures |r| >= |e.product| && r[..|e.product|] == e.product
    ensures e.version.None? && e.comment.None? ==> r == e.product
  {
    e.product + (VersionText(e.version) + CommentText(e.comment))
  }

  // ------------------------------------------------------- reading back

  /** The product and version are tokens as far as the layout needs: the
      product holds no '/' or space, the version no space. */
  predicate Readable(e: UserAgentEntity) {
    && NoneIn(e.product, {'/', ' '})
    && (e.version.Some? ==> NoChar(e.version.value, ' '))
  }

  /** A reader for the header value: the product runs to the first '/' or
      space, a version follows a '/' and runs to the next space, and a
      comment is what " (" and a final ")" enclose. */
  function Decompose(s: string): UserAgentEntity {
    var p := IndexOfAny(s, {'/', ' '});
    var vr := ReadVersion(s[p..]);
    UserAgentEntity(s[..p], vr.0, ReadComment(vr.1))
  }

  /** The version, when the text starts with '/', and the text after it. */
  function ReadVersion(s: string): (Option<string>, string) {
    if s != [] && s[0] == '/' then
      var v := s[1..];
      var q := IndexOf(v, ' ');
      (Some(v[..q]), v[q..])
    else (None, s)
  }

  function ReadComment(s: string): Option<string> {
    if |s| >= 3 && s[0] == ' ' && s[1] == '(' && s[|s| - 1] == ')' then Some(s[2..|s| - 1]) else None
  }

  // ------------------------------------------------------------ builder

  /** `UserAgentEntity.Builder`: the version starts as "" and the comments
      as an empty list. */
  datatype Builder = Builder(product: Option<string>, version: Option<string>, comments: seq<string>)

  function NewBuilder(product: Option<string>): (b: Builder)
    ensures b.version == Some("") && b.comments == []
  {
    Builder(product, Some(""), [])
  }

  function WithVersion(b: Builder, ver: Option<string>): (r: Builder)
    ensures r.version == ver && r.product == b.product && r.comments == b.comments
  {
    b.(version := ver)
  }

  function WithComment(b: Builder, comment: string): (r: Builder)
    ensures r.comments == b.comments + [comment]
    ensures r.product == b.product && r.version == b.version
  {
    b.(comments := b.comments + [comment])
  }

  /** `comment(key, value)`: both must be non-blank; the pair is stored as
      the trimmed key, ':' and the trimmed value. */
  function WithKeyValue(b: Builder, key: Option<string>, value: Option<string>): (r: Result<Builder, string>)
    ensures r.Failure? <==> IsBlank(key) || IsBlank(value)
    ensures r.Failure? ==> r.error == BlankKeyValue
    ensures r.Success? ==> r.value == WithComment(b, Trim(key.value) + ":" + Trim(value.value))
  {
    if IsBlank(key) || IsBlank(value) then Failure(BlankKeyValue)
    else Success(WithComment(b, Trim(key.value) + ":" + Trim(value.value)))
  }

  /** `build`: the comments joined with "; ". */
  function Build(b: Builder): (r: Result<UserAgentEntity, string>)
    ensures r == Create(b.product, b.version, Some(Join(b.comments, "; ")))
  {
    Create(b.product, b.version, Some(Join(b.comments, "; ")))
  }

  // -------------------------------------------------------------- facts

  /** Decompose reads back what ToString wrote. */
  lemma DecomposeToString(e: UserAgentEntity)
    requires Valid(e) && Readable(e)
    ensures Decompose(ToString(e)) == e
  {
    var tail := VersionText(e.version) + CommentText(e.comment);
    var s := e.product + tail;
    assert IndexOfAny(s, {'/', ' '}) == |e.product| by {
      IndexOfAnyAfter(e.product, tail, {'/', ' '});
    }
    assert s[..|e.product|] == e.product && s[|e.product|..] == tail;
    ReadVersionOf(e.version, CommentText(e.comment));
    ReadCommentOf(e.comment);
  }

  /** The first '/' or space of `a + b` is the first of `b` when `a` has
      none and `b` starts with one (or is empty). */
  lemma IndexOfAnyAfter(a: string, b: string, cs: set<char>)
    requires NoneIn(a, cs) && (b == [] || b[0] in cs)
    ensures IndexOfAny(a + b, cs) == |a|
  {
    assert forall i :: 0 <= i < |a| ==> (a + b)[i] == a[i];
    if b != [] {
      assert (a + b)[|a|] == b[0];
    }
  }

  lemma ReadVersionOf(version: Option<string>, rest: string)
    requires version.Some? ==> NoChar(version.value, ' ')
    requires rest == [] || rest[0] == ' '
    ensures ReadVersion(VersionText(version) + rest) == (version, rest)
  {
    if version.Some? {
      ReadVersionSome(version.value, rest);
    } else {
      assert VersionText(version) + rest == rest;
    }
  }

  lemma ReadVersionSome(v: string, rest: string)
    requires NoChar(v, ' ')
    requires rest == [] || rest[0] == ' '
    ensures ReadVersion("/" + v + rest) == (Some(v), rest)
  {
    var s := "/" + v + rest;
    var w := v + rest;
    assert s[1..] == w;
    assert IndexOf(w, ' ') == |v| by {
      assert forall i :: 0 <= i < |v| ==> w[i] == v[i];
      if rest != [] {
        assert w[|v|] == ' ';
      }
    }
    assert w[..|v|] == v && w[|v|..] == rest;
  }

  lemma ReadCommentOf(comment: Option<string>)
    requires comment.Some? ==> comment.value != []
    ensures ReadComment(CommentText(comment)) == comment
  {
    if comment.Some? {
      var t := CommentText(comment);
      assert t == " (" + comment.value + ")";
      assert t[2..|t| - 1] == comment.value;
    }
  }

  /** With neither version nor comment the value is the product alone. */
  lemma ToStringProductOnly(product: string)
    requires !IsBlank(Some(product))
    ensures Create(Some(product), None, None).Success?
    ensures ToString(Create(Some(product), None, None).value) == product
  {
  }

  /** The Builder's default version "" adds no "/version". */
  lemma DefaultVersionAbsent(product: Option<string>, comments: seq<string>)
    requires !IsBlank(product)
    ensures var r := Build(Builder(product, Some(""), comments));
            r.Success? && r.value.version.None?
  {
  }

  /** Joining with "; " puts a ';' right after the first comment. */
  lemma JoinSeparator(xs: seq<string>)
    requires |xs| >= 2
    ensures |Join(xs, "; ")| > |xs[0]| && Join(xs, "; ")[|xs[0]|] == ';'
  {
    assert Join(xs, "; ") == xs[0] + "; " + Join(xs[1..], "; ");
  }

  /** The built entity has no comment exactly when no comment was added or
      the only one added is blank; otherwise its comment is the join. */
  lemma BuildComment(b: Builder)
    requires !IsBlank(b.product)
    ensures Build(b).Success?
    ensures Build(b).value.comment.None? <==>
              b.comments == [] || (|b.comments| == 1 && IsBlank(Some(b.comments[0])))
    ensures Build(b).value.comment.Some? ==> Build(b).value.comment.value == Join(b.comments, "; ")
  {
    var j := Join(b.comments, "; ");
    if |b.comments| >= 2 {
      JoinSeparator(b.comments);
      assert !IsWhitespace(j[|b.comments[0]|]);
    }
  }

  /** A key/value comment is stored trimmed and rendered inside the
      parentheses when it is the only comment. */
  lemma KeyValueRendered(product: string, key: string, value: string)
    requires !IsBlank(Some(product)) && !IsBlank(Some(key)) && !IsBlank(Some(value))
    ensures var b := WithKeyValue(NewBuilder(Some(product)), Some(key), Some(value));
            && b.Success?
            && Build(b.value).Success?
            && ToString(Build(b.value).value) == product + " (" + (Trim(key) + ":" + Trim(value)) + ")"
  {
    var c := Trim(key) + ":" + Trim(value);
    var b := WithKeyValue(NewBuilder(Some(product)), Some(key), Some(value)).value;
    assert b == Builder(Some(product), Some(""), [c]);
    KeyValueNotBlank(Trim(key), Trim(value));
    SingleCommentRendered(product, c);
  }

  lemma SingleCommentRendered(product: string, c: string)
    requires !IsBlank(Some(product)) && !IsBlank(Some(c))
    ensures var r := Build(Builder(Some(product), Some(""), [c]));
            r.Success? && ToString(r.value) == product + " (" + c + ")"
  {
    assert Join([c], "; ") == c;
    assert ToString(UserAgentEntity(product, None, Some(c))) == product + ("" + (" (" + c + ")"));
  }

  /** A stored key/value comment is never blank: it holds a ':'. */
  lemma KeyValueNotBlank(a: string, b: string)
    ensures !IsBlank(Some(a + ":" + b))
  {
    var c := a + ":" + b;
    assert c[|a|] == ':';
  }
}

=== FILE: wasb_uri.dfy ===
/** WasbUri: Azure blob storage locations written either as
    `wasb[s]://<container>@<account>.blob.<suffix>[/<path>]` or as
    `http[s]://<account>.blob.<suffix>/<container>[/<path>]`.

    The two case-insensitive regular expressions of the source are replaced
    by hand-written recognisers that make the same choices the regular
    expression engine makes: a greedy `[^/.]+` container ends at the last
    '@' that leaves a non-empty account, the endpoint suffix `[^/]+` runs to
    the first '/' (swallowing any ":port"), and the path after that '/' is
    matched by `.*`, so it may not hold a line terminator. */
module WasbUri {
  import opened Wrappers
  import opened Text
  import opened Uri

  /** The groups a successful match captures. */
  datatype Parts = Parts(container: string, storageAccount: string, endpointSuffix: string, path: Option<string>)

  datatype WasbUri = WasbUri(
    rawUri: Uri,
    container: string,
    storageAccount: string,
    endpointSuffix: string,
    absolutePath: string)

  const BlobInfix := ".blob."

  /** The text `[^/.]+` matches. */
  predicate IsLabel(s: string) {
    |s| >= 1 && NoneIn(s, {'/', '.'})
  }

  predicate NoLineTerminator(s: string) {
    forall i :: 0 <= i < |s| ==> !IsLineTerminator(s[i])
  }

  /** The optional `(/(?<path>.*))?` group as text. */
  function PathPart(path: Option<string>): string {
    if path.Some? then "/" + path.value else ""
  }

  // ------------------------------------------------------------ matching

  /** The largest position in [1, hi) holding '@'. */
  function LastAtBelow(x: string, hi: nat): (r: Option<nat>)
    requires hi <= |x|
    ensures r.Some? ==> 1 <= r.value < hi && x[r.value] == '@'
    ensures r.Some? ==> forall j :: r.value < j < hi ==> x[j] != '@'
    ensures r.None? ==> forall j :: 1 <= j < hi ==> x[j] != '@'
  {
    if hi <= 1 then None
    else if x[hi - 1] == '@' then Some(hi - 1)
    else LastAtBelow(x, hi - 1)
  }

  /** `(?<container>[^/.]+)@(?<storageAccount>[^/.]+)` over a run free of '/'
      and '.': the greedy container stops at the last '@' that leaves at
      least one character for the account. */
  function SplitContainer(x: string): (r: Option<(string, string)>)
    ensures r.Some? ==> x == r.value.0 + "@" + r.value.1
    ensures r.Some? ==> |r.value.0| >= 1 && |r.value.1| >= 1
  {
    if |x| < 3 then None
    else
      match LastAtBelow(x, |x| - 1)
      case None => None
      case Some(i) =>
        assert x == x[..i] + "@" + x[i + 1..];
        Some((x[..i], x[i + 1..]))
  }

  /** The split is the greedy one: the account holds no '@' but possibly
      its last character, and without a split no '@' could have served. */
  lemma SplitContainerGreedy(x: string)
    ensures var r := SplitContainer(x);
            && (r.Some? ==> forall j :: |r.value.0| < j < |x| - 1 ==> x[j] != '@')
            && (r.None? ==> forall j :: 1 <= j < |x| - 1 ==> x[j] != '@')
  {
  }

  /** `(?<endpointSuffix>[^/]+)(:(?<port>[0-9]+))?(/(?<path>.*))?$`. */
  function MatchSuffixPath(after: string): (r: Option<(string, Option<string>)>)
    ensures r.Some? ==> |r.value.0| >= 1 && NoChar(r.value.0, '/')
    ensures r.Some? ==> after == r.value.0 + PathPart(r.value.1)
    ensures r.Some? && r.value.1.Some? ==> NoLineTerminator(r.value.1.value)
  {
    var m := IndexOf(after, '/');
    if m == 0 then None
    else if m == |after| then Some((after, None))
    else if NoLineTerminator(after[m + 1..]) then
      assert after == after[..m] + "/" + after[m + 1..];
      Some((after[..m], Some(after[m + 1..])))
    else None
  }

  /** How the captured groups of the wasb form lie in the text after the
      scheme: container, '@', account, ".blob." in any case, suffix, path. */
  predicate WasbLayout(rest: string, p: Parts) {
    var n := |p.container| + 1 + |p.storageAccount|;
    && n + 6 <= |rest|
    && rest[..n] == p.container + "@" + p.storageAccount
    && IsBlobInfix(rest[n..n + 6])
    && rest[n + 6..] == p.endpointSuffix + PathPart(p.path)
  }

  /** ".blob." in any case, written out character by character. */
  predicate IsBlobInfix(t: string) {
    && |t| == 6 && t[0] == '.' && LowerChar(t[1]) == 'b' && LowerChar(t[2]) == 'l'
    && LowerChar(t[3]) == 'o' && LowerChar(t[4]) == 'b' && t[5] == '.'
  }

  /** The spelled-out test is the case-insensitive comparison. */
  lemma BlobInfixIgnoringCase(t: string)
    ensures IsBlobInfix(t) <==> EqualsIgnoreCase(t, BlobInfix)
  {
    if EqualsIgnoreCase(t, BlobInfix) {
      EqualsIgnoreCaseSameLength(t, BlobInfix);
      assert forall i :: 0 <= i < 6 ==> ToLower(t)[i] == ToLower(BlobInfix)[i];
    }
    if IsBlobInfix(t) {
      assert forall i :: 0 <= i < 6 ==> ToLower(t)[i] == ToLower(BlobInfix)[i];
    }
  }

  /** Where `[^/.]+\.blob\.` at the start of the text ends its first
      group: the first '/' or '.', provided ".blob." in any case starts
      there. */
  function BlobAt(rest: string): (r: Option<nat>)
    ensures r.Some? ==> r.value + 6 <= |rest|
  {
    var k := IndexOfAny(rest, {'/', '.'});
    if k + 6 <= |rest| && IsBlobInfix(rest[k..k + 6]) then Some(k) else None
  }

  lemma BlobAtFacts(rest: string)
    ensures var r := BlobAt(rest);
            r.Some? ==> && r.value == IndexOfAny(rest, {'/', '.'}) && r.value + 6 <= |rest|
                        && IsBlobInfix(rest[r.value..r.value + 6])
                        && NoneIn(rest[..r.value], {'/', '.'})
  {
  }

  /** The wasb pattern after its "wasb://" or "wasbs://" prefix. */
  function MatchWasbRest(rest: string): (r: Option<Parts>)
    ensures r.Some? ==> IsLabel(r.value.container) && IsLabel(r.value.storageAccount)
  {
    match BlobAt(rest)
    case None => None
    case Some(k) =>
      BlobAtFacts(rest);
      WasbGroupLabels(rest[..k], rest[k + 6..]);
      WasbGroups(rest[..k], rest[k + 6..])
  }

  lemma WasbGroupLabels(head: string, after: string)
    requires NoneIn(head, {'/', '.'})
    ensures var r := WasbGroups(head, after);
            r.Some? ==> IsLabel(r.value.container) && IsLabel(r.value.storageAccount)
  {
    var r := WasbGroups(head, after);
    if r.Some? {
      LabelHalves(head, r.value.container, r.value.storageAccount);
    }
  }

  /** What the wasb pattern matched lies in the text as its groups say. */
  lemma WasbLayoutHolds(rest: string)
    ensures MatchWasbRest(rest).Some? ==> WasbLayout(rest, MatchWasbRest(rest).value)
  {
    if BlobAt(rest).Some? {
      var k := BlobAt(rest).value;
      BlobAtFacts(rest);
      WasbRestUnfold(rest, k);
      var head, after := rest[..k], rest[k + 6..];
      var r := WasbGroups(head, after);
      if r.Some? {
        WasbLayoutOf(rest, k, r.value);
      }
    }
  }

  lemma WasbLayoutOf(rest: string, k: nat, p: Parts)
    requires k + 6 <= |rest| && IsBlobInfix(rest[k..k + 6])
    requires rest[..k] == p.container + "@" + p.storageAccount
    requires rest[k + 6..] == p.endpointSuffix + PathPart(p.path)
    ensures WasbLayout(rest, p)
  {
    assert |rest[..k]| == k;
  }

  /** The groups of the wasb form, given the run before ".blob." and the
      text after it. */
  function WasbGroups(head: string, after: string): (r: Option<Parts>)
    ensures r.Some? ==> head == r.value.container + "@" + r.value.storageAccount
    ensures r.Some? ==> |r.value.container| >= 1 && |r.value.storageAccount| >= 1
    ensures r.Some? ==> after == r.value.endpointSuffix + PathPart(r.value.path)
  {
    match SplitContainer(head)
    case None => None
    case Some(ca) =>
      match MatchSuffixPath(after)
      case None => None
      case Some(sp) => Some(Parts(ca.0, ca.1, sp.0, sp.1))
  }

  lemma LabelHalves(x: string, a: string, b: string)
    requires NoneIn(x, {'/', '.'}) && x == a + "@" + b
    ensures NoneIn(a, {'/', '.'}) && NoneIn(b, {'/', '.'})
  {
    forall i | 0 <= i < |a| ensures a[i] !in {'/', '.'} {
      assert a[i] == x[i];
    }
    forall i | 0 <= i < |b| ensures b[i] !in {'/', '.'} {
      assert b[i] == x[|a| + 1 + i];
    }
  }

  /** How the captured groups of the http form lie in the text after the
      scheme: account, ".blob." in any case, suffix, '/', container, path. */
  predicate HttpLayout(rest: string, p: Parts) {
    var n := |p.storageAccount|;
    && n + 6 <= |rest|
    && rest[..n] == p.storageAccount
    && IsBlobInfix(rest[n..n + 6])
    && rest[n + 6..] == p.endpointSuffix + "/" + p.container + PathPart(p.path)
  }

  /** `(?<container>[^/.]+)(:(?<port>[0-9]+))?(/(?<path>.*))?$`: the
      container (which swallows any ":port") runs to the first '/' or '.',
      and only a '/' or the end may follow it. */
  function MatchContainerPath(tail: string): (r: Option<(string, Option<string>)>)
    ensures r.Some? ==> IsLabel(r.value.0)
    ensures r.Some? ==> tail == r.value.0 + PathPart(r.value.1)
    ensures r.Some? && r.value.1.Some? ==> NoLineTerminator(r.value.1.value)
  {
    var c := IndexOfAny(tail, {'/', '.'});
    if c == 0 then None
    else if c == |tail| then Some((tail, None))
    else if tail[c] == '/' && NoLineTerminator(tail[c + 1..]) then
      assert tail == tail[..c] + "/" + tail[c + 1..];
      Some((tail[..c], Some(tail[c + 1..])))
    else None
  }

  /** `(?<endpointSuffix>[^/]+)/` followed by the container and path. */
  function MatchSuffixContainer(after: string): (r: Option<(string, string, Option<string>)>)
    ensures r.Some? ==> |r.value.0| >= 1 && NoChar(r.value.0, '/') && IsLabel(r.value.1)
    ensures r.Some? ==> after == r.value.0 + "/" + r.value.1 + PathPart(r.value.2)
    ensures r.Some? && r.value.2.Some? ==> NoLineTerminator(r.value.2.value)
  {
    var m := IndexOf(after, '/');
    if m == 0 || m == |after| then None
    else
      match MatchContainerPath(after[m + 1..])
      case None => None
      case Some(cp) =>
        CutAt(after, m);
        ConcatAssoc(after[..m] + "/", cp.0, PathPart(cp.1));
        Some((after[..m], cp.0, cp.1))
  }

  /** The http pattern after its "http://" or "https://" prefix. */
  function MatchHttpRest(rest: string): (r: Option<Parts>)
    ensures r.Some? ==> IsLabel(r.value.container) && IsLabel(r.value.storageAccount)
  {
    match BlobAt(rest)
    case None => None
    case Some(k) =>
      if k == 0 then None
      else HttpGroups(rest[..k], rest[k + 6..])
  }

  /** What the http pattern matched lies in the text as its groups say;
      the suffix holds no '/' and the path no line terminator. */
  lemma HttpLayoutHolds(rest: string)
    ensures var r := MatchHttpRest(rest);
            r.Some? ==> && HttpLayout(rest, r.value)
                        && |r.value.endpointSuffix| >= 1 && NoChar(r.value.endpointSuffix, '/')
                        && (r.value.path.Some? ==> NoLineTerminator(r.value.path.value))
  {
    if BlobAt(rest).Some? && BlobAt(rest).value >= 1 {
      var k := BlobAt(rest).value;
      BlobAtFacts(rest);
      HttpRestUnfold(rest, k);
      var account, after := rest[..k], rest[k + 6..];
      var r := HttpGroups(account, after);
      if r.Some? {
        HttpLayoutOf(rest, k, r.value);
      }
    }
  }

  lemma HttpLayoutOf(rest: string, k: nat, p: Parts)
    requires k + 6 <= |rest| && IsBlobInfix(rest[k..k + 6])
    requires rest[..k] == p.storageAccount
    requires rest[k + 6..] == p.endpointSuffix + "/" + p.container + PathPart(p.path)
    ensures HttpLayout(rest, p)
  {
    assert |rest[..k]| == k;
  }

  /** The groups of the http form, given the account and the text after
      ".blob.". */
  function HttpGroups(account: string, after: string): (r: Option<Parts>)
    ensures r.Some? ==> IsLabel(r.value.container) && r.value.storageAccount == account
    ensures r.Some? ==> |r.value.endpointSuffix| >= 1 && NoChar(r.value.endpointSuffix, '/')
    ensures r.Some? && r.value.path.Some? ==> NoLineTerminator(r.value.path.value)
    ensures r.Some? ==> after == r.value.endpointSuffix + "/" + r.value.container + PathPart(r.value.path)
  {
    match MatchSuffixContainer(after)
    case None => None
    case Some(scp) => Some(Parts(scp.1, account, scp.0, scp.2))
  }

  /** `WASB_URI_PATTERN.matcher(s).matches()`: "wasb" with an optional "s",
      then "://", in any case. */
  function MatchWasb(s: string): (r: Option<Parts>)
    ensures r.Some? ==> StartsWithIgnoreCase(s, "wasb")
  {
    if StartsWithIgnoreCase(s, "wasbs://") then
      PrefixIgnoreCase(s, "wasbs://", "wasb");
      MatchWasbRest(s[8..])
    else if StartsWithIgnoreCase(s, "wasb://") then
      PrefixIgnoreCase(s, "wasb://", "wasb");
      MatchWasbRest(s[7..])
    else None
  }

  /** `HTTP_URI_PATTERN.matcher(s).matches()`. */
  function MatchHttp(s: string): (r: Option<Parts>)
    ensures r.Some? ==> StartsWithIgnoreCase(s, "http")
  {
    if StartsWithIgnoreCase(s, "https://") then
      PrefixIgnoreCase(s, "https://", "http");
      MatchHttpRest(s[8..])
    else if StartsWithIgnoreCase(s, "http://") then
      PrefixIgnoreCase(s, "http://", "http");
      MatchHttpRest(s[7..])
    else None
  }

  lemma PrefixIgnoreCase(s: string, long: string, short: string)
    requires StartsWithIgnoreCase(s, long) && |short| <= |long| && long[..|short|] == short
    ensures StartsWithIgnoreCase(s, short)
  {
    var ls, ll := ToLower(s[..|long|]), ToLower(long);
    assert ToLower(s[..|short|]) == ls[..|short|];
    assert ToLower(short) == ll[..|short|];
  }

  /** `isType`: the text matches either pattern in full. */
  predicate IsType(s: string) {
    MatchWasb(s).Some? || MatchHttp(s).Some?
  }

  // ------------------------------------------------------------ parsing

  const UnsupportedScheme := "Unsupported Azure blob URI Scheme: "
  const Unmatched := "Unmatched Azure blob URI: "

  /** The scheme test on a case-insensitive "wasb" or "http" prefix picks the
      pattern; the match must then succeed. */
  function MatchBlob(s: string): (r: Result<Parts, string>)
    ensures !StartsWithIgnoreCase(s, "wasb") && !StartsWithIgnoreCase(s, "http")
            ==> r == Failure(UnsupportedScheme + s)
    ensures r.Success? ==> IsLabel(r.value.container) && IsLabel(r.value.storageAccount)
  {
    if StartsWithIgnoreCase(s, "wasb") then
      match MatchWasb(s)
      case Some(p) => Success(p)
      case None => Failure(Unmatched + s)
    else if StartsWithIgnoreCase(s, "http") then
      match MatchHttp(s)
      case Some(p) => Success(p)
      case None => Failure(Unmatched + s)
    else Failure(UnsupportedScheme + s)
  }

  /** `URI.create("/" + path).getPath()` on the matched path, the source's
      way of computing the absolute path. */
  function AbsolutePathAsWritten(path: Option<string>): (r: Result<string, string>)
  {
    var text := "/" + (if path.Some? then path.value else "");
    match Parse(text)
    case Failure(e) => Failure("IllegalArgumentException: " + e)
    case Success(u) =>
      SlashParsesHierarchical(text);
      Success(u.path)
  }

  /** The absolute path the source evidently means: the path component of
      "/" + path, that is "/" + path up to the first '?' or '#', without
      mistaking a leading "//" for an authority. */
  function AbsolutePath(path: Option<string>): (r: string)
    ensures |r| >= 1 && r[0] == '/'
    ensures NoneIn(r, {'?', '#'})
    ensures path.None? ==> r == "/"
    ensures path.Some? ==> |r| <= |path.value| + 1 && r[1..] == path.value[..|r| - 1]
    ensures path.Some? && |r| - 1 < |path.value| ==> path.value[|r| - 1] in {'?', '#'}
  {
    var t := "/" + (if path.Some? then path.value else "");
    t[..IndexOfAny(t, {'?', '#'})]
  }

  /** `WasbUri.parse` as written: match, then `URI.create` on the input, then
      the absolute path through a second `URI.create`. */
  function ParseAsWritten(s: string): (r: Result<WasbUri, string>)
    ensures r.Success? ==> MatchBlob(s).Success? && Parse(s).Success?
  {
    var parts :- MatchBlob(s);
    var raw :- ParseRaw(s);
    var abs :- AbsolutePathAsWritten(parts.path);
    Success(WasbUri(raw, parts.container, parts.storageAccount, parts.endpointSuffix, abs))
  }

  /** `WasbUri.parse` with the absolute path taken as "/" + path. */
  function ParseBlob(s: string): (r: Result<WasbUri, string>)
    ensures r.Success? <==> MatchBlob(s).Success? && Parse(s).Success?
    ensures r.Failure? && MatchBlob(s).Failure? ==> r.error == MatchBlob(s).error
    ensures r.Success? ==> var p := MatchBlob(s).value;
              && r.value.rawUri == Parse(s).value
              && r.value.container == p.container && r.value.storageAccount == p.storageAccount
              && r.value.endpointSuffix == p.endpointSuffix
              && r.value.absolutePath == AbsolutePath(p.path)
  {
    var parts :- MatchBlob(s);
    var raw :- ParseRaw(s);
    Success(WasbUri(raw, parts.container, parts.storageAccount, parts.endpointSuffix, AbsolutePath(parts.path)))
  }

  /** `URI.create(s)`, whose failure is an IllegalArgumentException. */
  function ParseRaw(s: string): (r: Result<Uri, string>)
    ensures r.Success? <==> Parse(s).Success?
    ensures r.Success? ==> r.value == Parse(s).value
  {
    match Parse(s)
    case Success(u) => Success(u)
    case Failure(e) => Failure("IllegalArgumentException: " + e)
  }

  // ------------------------------------------------------------ rendering

  /** The text of `getUri`: always the wasbs form. */
  function UriText(w: WasbUri): string {
    "wasbs://" + (w.container + "@" + w.storageAccount + BlobInfix + w.endpointSuffix) + w.absolutePath
  }

  /** `getUri`. */
  function GetUri(w: WasbUri): (r: Result<Uri, string>)
    ensures r.Success? <==> Parse(UriText(w)).Success?
  {
    ParseRaw(UriText(w))
  }

  /** The text of `getUrl` as written: the format arguments are account,
      container, suffix, path, so the container lands in the host name and
      the suffix becomes the first path segment. */
  function UrlText(w: WasbUri): string {
    "https://" + (w.storageAccount + BlobInfix + w.container) + ("/" + w.endpointSuffix + w.absolutePath)
  }

  /** `getUrl`: an "https" URI always has a URL protocol handler, so only
      `URI.create` can fail. */
  function GetUrl(w: WasbUri): (r: Result<Uri, string>)
    ensures r.Success? <==> Parse(UrlText(w)).Success?
  {
    ParseRaw(UrlText(w))
  }

  /** The text `getUrl` evidently means: the http form of the location,
      account.blob.suffix as host and the container as first segment. */
  function UrlTextCorrected(w: WasbUri): string {
    "https://" + (w.storageAccount + BlobInfix + w.endpointSuffix) + ("/" + w.container + w.absolutePath)
  }

  function GetUrlCorrected(w: WasbUri): (r: Result<Uri, string>)
    ensures r.Success? <==> Parse(UrlTextCorrected(w)).Success?
  {
    ParseRaw(UrlTextCorrected(w))
  }

  // ------------------------------------------------------------ properties

  /** `isType` holds exactly when the pattern the scheme test selects
      matches, so `parse` can then fail only inside `URI.create`. */
  lemma IsTypeSelectsPattern(s: string)
    ensures IsType(s) <==> MatchBlob(s).Success?
  {
    assert StartsWithIgnoreCase(s, "wasb") ==> LowerChar(s[0]) == 'w' by {
      if StartsWithIgnoreCase(s, "wasb") {
        FirstLower(s, "wasb");
      }
    }
    assert MatchHttp(s).Some? ==> LowerChar(s[0]) == 'h' by {
      if MatchHttp(s).Some? {
        FirstLower(s, "http");
      }
    }
  }

  lemma FirstLower(s: string, prefix: string)
    requires StartsWithIgnoreCase(s, prefix) && |prefix| >= 1
    ensures LowerChar(s[0]) == LowerChar(prefix[0])
  {
    assert ToLower(s[..|prefix|])[0] == ToLower(prefix)[0];
  }

  /** The components of a blob location `getUri` prints back as one that
      `parse` reads unchanged: non-empty container and account without '/'
      or '.', an account without '@', a suffix without '/', an absolute path,
      and nothing `URI.create` would refuse or split off as query or
      fragment. */
  predicate Canonical(w: WasbUri) {
    && IsLabel(w.container) && IsLabel(w.storageAccount) && NoChar(w.storageAccount, '@')
    && |w.endpointSuffix| >= 1 && NoChar(w.endpointSuffix, '/')
    && |w.absolutePath| >= 1 && w.absolutePath[0] == '/'
    && Legal(w.container) && Legal(w.storageAccount) && Legal(w.endpointSuffix) && Legal(w.absolutePath)
    && NoneIn(w.container, {'?', '#'}) && NoneIn(w.storageAccount, {'?', '#'})
    && NoneIn(w.endpointSuffix, {'?', '#'}) && NoneIn(w.absolutePath, {'?', '#'})
  }

  function Authority(w: WasbUri): string {
    w.container + "@" + w.storageAccount + BlobInfix + w.endpointSuffix
  }

  /** Round trip: parsing the text of `getUri` gives back the container,
      account, suffix and absolute path, and `getUri` itself succeeds. */
  lemma UriRoundTrip(w: WasbUri)
    requires Canonical(w)
    ensures GetUri(w).Success?
    ensures ParseBlob(UriText(w)).Success?
    ensures var v := ParseBlob(UriText(w)).value;
            && v.container == w.container && v.storageAccount == w.storageAccount
            && v.endpointSuffix == w.endpointSuffix && v.absolutePath == w.absolutePath
  {
    var t := UriText(w);
    var abs := w.absolutePath;
    var p := Parts(w.container, w.storageAccount, w.endpointSuffix, Some(abs[1..]));
    assert Parse(t).Success? by {
      UriTextParses(w);
    }
    assert MatchBlob(t) == Success(p) by {
      MatchUriText(w);
    }
    assert AbsolutePath(p.path) == abs by {
      AbsoluteKept(abs);
    }
    ParseBlobOf(t, p);
  }

  /** `parse` once the match and `URI.create` are known to succeed. */
  lemma ParseBlobOf(t: string, p: Parts)
    requires MatchBlob(t) == Success(p) && Parse(t).Success?
    ensures ParseBlob(t) == Success(WasbUri(Parse(t).value, p.container, p.storageAccount,
                                            p.endpointSuffix, AbsolutePath(p.path)))
  {
  }

  /** An absolute path without query or fragment is its own absolute path. */
  lemma AbsoluteKept(abs: string)
    requires |abs| >= 1 && abs[0] == '/' && NoneIn(abs, {'?', '#'})
    ensures AbsolutePath(Some(abs[1..])) == abs
  {
    assert "/" + abs[1..] == abs;
    assert IndexOfAny(abs, {'?', '#'}) == |abs|;
    assert abs[..|abs|] == abs;
  }

  /** `getUri` of a canonical location is the hierarchical URI with scheme
      "wasbs", authority container@account.blob.suffix, and the absolute
      path. */
  lemma UriTextParses(w: WasbUri)
    requires Canonical(w)
    ensures Parse(UriText(w)) == Success(Hierarchical(Some("wasbs"), Some(Authority(w)), w.absolutePath, None, None))
  {
    AuthorityLegal(w);
    assert ValidScheme("wasbs");
    ServerParses("wasbs", Authority(w), w.absolutePath, UriText(w));
  }

  lemma AuthorityLegal(w: WasbUri)
    requires Canonical(w)
    ensures Legal(Authority(w)) && NoneIn(Authority(w), {'/', '?', '#'})
  {
    var c, a, x := w.container, w.storageAccount, w.endpointSuffix;
    assert Legal("@") by { assert LegalAt("@", 0); }
    assert Legal(BlobInfix) by {
      forall i | 0 <= i < 6 ensures LegalAt(BlobInfix, i) { }
    }
    LegalConcat(c, "@");
    LegalConcat(c + "@", a);
    LegalConcat(c + "@" + a, BlobInfix);
    LegalConcat(c + "@" + a + BlobInfix, x);
    var t := Authority(w);
    forall i | 0 <= i < |t| ensures t[i] !in {'/', '?', '#'} {
      if i < |c| {
        assert t[i] == c[i];
      } else if i == |c| {
        assert t[i] == '@';
      } else if i < |c| + 1 + |a| {
        assert t[i] == a[i - |c| - 1];
      } else if i < |c| + 7 + |a| {
        assert t[i] == BlobInfix[i - |c| - 1 - |a|];
      } else {
        assert t[i] == x[i - |c| - 7 - |a|];
      }
    }
  }

  /** The text of `getUri` for a canonical location selects and matches the
      wasb pattern with exactly the location's components. */
  lemma MatchUriText(w: WasbUri)
    requires Canonical(w)
    ensures MatchBlob(UriText(w)) ==
            Success(Parts(w.container, w.storageAccount, w.endpointSuffix, Some(w.absolutePath[1..])))
  {
    var rest := Authority(w) + w.absolutePath;
    assert MatchWasbRest(rest) == Some(Parts(w.container, w.storageAccount, w.endpointSuffix, Some(w.absolutePath[1..]))) by {
      MatchWasbRestOf(w.container, w.storageAccount, w.endpointSuffix, w.absolutePath, rest);
    }
    BlobWasbs(UriText(w), rest);
  }

  /** Text starting with "wasbs://" goes to the wasb pattern. */
  lemma BlobWasbs(t: string, rest: string)
    requires t == "wasbs://" + rest
    ensures MatchWasbRest(rest).Some? ==> MatchBlob(t) == Success(MatchWasbRest(rest).value)
  {
    assert t[..8] == "wasbs://" && t[8..] == rest;
    assert t[..4] == "wasb";
    StartsExactly(t, "wasbs://");
    StartsExactly(t, "wasb");
  }

  /** Text starting with "https://" goes to the http pattern. */
  lemma BlobHttps(t: string, rest: string)
    requires t == "https://" + rest
    ensures MatchHttpRest(rest).Some? ==> MatchBlob(t) == Success(MatchHttpRest(rest).value)
  {
    assert t[..8] == "https://" && t[8..] == rest;
    assert t[..4] == "http";
    StartsExactly(t, "https://");
    StartsExactly(t, "http");
    StartsOtherwise(t, "wasb");
  }

  lemma StartsExactly(s: string, prefix: string)
    requires |prefix| <= |s| && s[..|prefix|] == prefix
    ensures StartsWithIgnoreCase(s, prefix)
  {
  }

  lemma StartsOtherwise(s: string, prefix: string)
    requires |prefix| >= 1 && |s| >= 1 && LowerChar(s[0]) != LowerChar(prefix[0])
    ensures !StartsWithIgnoreCase(s, prefix)
  {
    if |prefix| <= |s| {
      assert ToLower(s[..|prefix|])[0] != ToLower(prefix)[0];
    }
  }

  lemma MatchWasbRestOf(c: string, a: string, x: string, abs: string, rest: string)
    requires IsLabel(c) && IsLabel(a) && NoChar(a, '@')
    requires |x| >= 1 && NoChar(x, '/')
    requires |abs| >= 1 && abs[0] == '/' && Legal(abs)
    requires rest == c + "@" + a + BlobInfix + x + abs
    ensures MatchWasbRest(rest) == Some(Parts(c, a, x, Some(abs[1..])))
  {
    var n := |c| + 1 + |a|;
    assert BlobAt(rest) == Some(n) by {
      WasbRestShape(c, a, x, abs, rest);
      BlobAtOf(rest, n);
    }
    assert rest[..n] == c + "@" + a && rest[n + 6..] == x + abs by {
      WasbRestShape(c, a, x, abs, rest);
    }
    assert WasbGroups(rest[..n], rest[n + 6..]) == Some(Parts(c, a, x, Some(abs[1..]))) by {
      WasbGroupsOf(c, a, x, abs, rest[..n], rest[n + 6..]);
    }
    WasbRestUnfold(rest, n);
  }

  lemma WasbRestUnfold(rest: string, k: nat)
    requires BlobAt(rest) == Some(k)
    ensures MatchWasbRest(rest) == WasbGroups(rest[..k], rest[k + 6..])
  {
  }

  lemma BlobAtOf(rest: string, k: nat)
    requires IndexOfAny(rest, {'/', '.'}) == k && k + 6 <= |rest| && rest[k..k + 6] == BlobInfix
    ensures BlobAt(rest) == Some(k)
  {
    var t := rest[k..k + 6];
    assert t == ".blob.";
    assert IsBlobInfix(t);
  }

  lemma HttpRestUnfold(rest: string, k: nat)
    requires BlobAt(rest) == Some(k) && k >= 1
    ensures MatchHttpRest(rest) == HttpGroups(rest[..k], rest[k + 6..])
  {
  }
  lemma WasbGroupsOf(c: string, a: string, x: string, abs: string, head: string, after: string)
    requires IsLabel(c) && IsLabel(a) && NoChar(a, '@')
    requires |x| >= 1 && NoChar(x, '/')
    requires |abs| >= 1 && abs[0] == '/' && Legal(abs)
    requires head == c + "@" + a && after == x + abs
    ensures WasbGroups(head, after) == Some(Parts(c, a, x, Some(abs[1..])))
  {
    SplitContainerOf(c, a, head);
    MatchSuffixPathOf(x, abs, after);
  }

  lemma WasbRestShape(c: string, a: string, x: string, abs: string, rest: string)
    requires IsLabel(c) && IsLabel(a)
    requires rest == c + "@" + a + BlobInfix + x + abs
    ensures var n := |c| + 1 + |a|;
            && IndexOfAny(rest, {'/', '.'}) == n && n + 6 <= |rest|
            && rest[n..n + 6] == BlobInfix && rest[..n] == c + "@" + a && rest[n + 6..] == x + abs
  {
    var head, tail := c + "@" + a, x + abs;
    assert rest == head + BlobInfix + tail by {
      ConcatAssoc(head + BlobInfix, x, abs);
    }
    CutThree(head, BlobInfix, tail, rest);
    assert NoneIn(head, {'/', '.'}) by {
      LabelsJoined(c, a, head);
    }
    StopAfter(head, BlobInfix, tail, rest);
  }

  /** The three parts of a concatenation, read back by position. */
  lemma CutThree(p: string, m: string, q: string, s: string)
    requires s == p + m + q
    ensures s[..|p|] == p && s[|p|..|p| + |m|] == m && s[|p| + |m|..] == q
  {
  }

  lemma LabelsJoined(c: string, a: string, head: string)
    requires IsLabel(c) && IsLabel(a) && head == c + "@" + a
    ensures NoneIn(head, {'/', '.'})
  {
    forall i | 0 <= i < |head| ensures head[i] !in {'/', '.'} {
      if i < |c| {
        assert head[i] == c[i];
      } else if i > |c| {
        assert head[i] == a[i - |c| - 1];
      }
    }
  }

  /** A run free of '/' and '.' followed by ".blob." ends at that '.'. */
  lemma StopAfter(head: string, m: string, tail: string, rest: string)
    requires NoneIn(head, {'/', '.'}) && m == BlobInfix
    requires rest == head + m + tail
    ensures IndexOfAny(rest, {'/', '.'}) == |head|
  {
    forall i | 0 <= i < |head| ensures rest[i] !in {'/', '.'} {
      assert rest[i] == head[i];
    }
    assert rest[|head|] == m[0] == '.';
    IndexOfAnyAt(rest, {'/', '.'}, |head|);
  }

  lemma IndexOfAnyAt(s: string, cs: set<char>, k: nat)
    requires k < |s| && s[k] in cs
    requires forall i :: 0 <= i < k ==> s[i] !in cs
    ensures IndexOfAny(s, cs) == k
  {
  }

  lemma SplitContainerOf(c: string, a: string, x: string)
    requires |c| >= 1 && |a| >= 1 && NoChar(a, '@')
    requires x == c + "@" + a
    ensures SplitContainer(x) == Some((c, a))
  {
    forall j | |c| < j < |x| - 1 ensures x[j] != '@' {
      assert x[j] == a[j - |c| - 1];
    }
    LastAtBelowOf(x, |x| - 1, |c|);
    assert x[..|c|] == c && x[|c| + 1..] == a;
  }

  lemma {:induction false} LastAtBelowOf(x: string, hi: nat, i: nat)
    requires 1 <= i < hi <= |x| && x[i] == '@'
    requires forall j :: i < j < hi ==> x[j] != '@'
    ensures LastAtBelow(x, hi) == Some(i)
    decreases hi
  {
    if hi - 1 != i {
      LastAtBelowOf(x, hi - 1, i);
    }
  }

  lemma MatchSuffixPathOf(x: string, abs: string, after: string)
    requires |x| >= 1 && NoChar(x, '/')
    requires |abs| >= 1 && abs[0] == '/' && Legal(abs)
    requires after == x + abs
    ensures MatchSuffixPath(after) == Some((x, Some(abs[1..])))
  {
    assert IndexOf(after, '/') == |x| by {
      assert after[|x|] == '/';
      assert forall i :: 0 <= i < |x| ==> after[i] == x[i];
      IndexOfAt(after, '/', |x|);
    }
    assert after[..|x|] == x && after[|x| + 1..] == abs[1..];
    LegalNoLineTerminator(abs[1..]) by {
      LegalSuffix(abs, 1);
    }
  }

  lemma IndexOfAt(s: string, c: char, k: nat)
    requires k < |s| && s[k] == c
    requires NoChar(s[..k], c)
    ensures IndexOf(s, c) == k
  {
    forall j | 0 <= j < k ensures s[j] != c {
      assert s[..k][j] == s[j];
    }
  }

  lemma LegalNoLineTerminator(s: string)
    requires Legal(s)
    ensures NoLineTerminator(s)
  {
    forall i | 0 <= i < |s| ensures !IsLineTerminator(s[i]) {
      assert LegalAt(s, i);
    }
  }

  // ------------------------------------------------------------ the absolute path

  /** As written, a matched path that itself starts with '/' (the input
      "wasbs://c@a.blob.x//seg") makes `URI.create("//seg")` read "seg" as an
      authority, so the absolute path comes out empty; the corrected path
      keeps "//seg". */
  lemma AsWrittenLosesFirstSegment(seg: string)
    requires |seg| >= 1 && Legal(seg) && NoneIn(seg, {'/', '?', '#'})
    ensures AbsolutePathAsWritten(Some("/" + seg)) == Success("")
    ensures AbsolutePath(Some("/" + seg)) == "//" + seg
  {
    var u := Hierarchical(None, Some(seg), "", None, None);
    assert Parse(Render(u)) == Success(u) by {
      ParseRender(u);
    }
    assert Render(u) == "/" + ("/" + seg);
    var t := "/" + ("/" + seg);
    assert IndexOfAny(t, {'?', '#'}) == |t|;
    assert t[..|t|] == t;
  }

  /** As written, a matched path of exactly "/" (an input ending in "//")
      makes `URI.create("//")` throw; the corrected path is "//". */
  lemma AsWrittenRejectsLoneSlash()
    ensures AbsolutePathAsWritten(Some("/")).Failure?
    ensures AbsolutePath(Some("/")) == "//"
  {
    var t := "/" + "/";
    assert t == "//";
    assert Legal(t) by {
      assert LegalAt(t, 0) && LegalAt(t, 1);
    }
    assert SplitFirst(t, '#').0 == t by {
      assert IndexOf(t, '#') == 2;
    }
    assert IndexOfAny(t, SchemeStops) == 0;
    assert IndexOfAny(t, {'?', '#'}) == 2;
  }

  /** Everywhere else the two agree: a missing path gives "/", and a path
      not starting with '/' that "/" + path lets `URI.create` accept gives
      "/" + path up to its query or fragment. */
  lemma AsWrittenAgrees(p: Option<string>)
    requires p.Some? ==> (p.value == [] || p.value[0] != '/') && Parse("/" + p.value).Success?
    ensures AbsolutePathAsWritten(p) == Success(AbsolutePath(p))
  {
    var t := "/" + (if p.Some? then p.value else "");
    assert Parse(t).Success? && Parse(t).value.path == t[..IndexOfAny(t, {'?', '#'})] by {
      if p.None? {
        RootParses();
      } else {
        assert |t| < 2 || t[1] != '/';
        SlashPathParses(t);
      }
    }
  }

  lemma RootParses()
    ensures Parse("/") == Success(Hierarchical(None, None, "/", None, None))
    ensures IndexOfAny("/", {'?', '#'}) == 1
  {
    var u := Hierarchical(None, None, "/", None, None);
    assert Render(u) == "/";
    assert WellFormed(u) by {
      assert LegalAt("/", 0);
      assert IndexOfAny("/", SchemeStops) == 0;
    }
    ParseRender(u);
  }

  /** Text that starts with a single '/' reads as a path up to the first
      '?' or '#'. */
  lemma SlashPathParses(t: string)
    requires |t| >= 1 && t[0] == '/' && (|t| < 2 || t[1] != '/') && Parse(t).Success?
    ensures Parse(t).value.path == t[..IndexOfAny(t, {'?', '#'})]
  {
    var body := SplitFirst(t, '#').0;
    assert body == t[..IndexOf(t, '#')];
    assert body[0] == '/';
    assert IndexOfAny(body, SchemeStops) == 0;
    assert !(|body| >= 2 && body[..2] == "//") by {
      if |body| >= 2 {
        assert body[1] == t[1];
      }
    }
    CutBoth(t);
  }

  /** The path `URI.create` reads from a relative reference is the text up
      to the first '?' or '#'. */
  lemma CutBoth(t: string)
    ensures SplitFirst(SplitFirst(t, '#').0, '?').0 == t[..IndexOfAny(t, {'?', '#'})]
  {
    var h := IndexOf(t, '#');
    var body := t[..h];
    var m := IndexOfAny(t, {'?', '#'});
    assert m <= h;
    var q := IndexOf(body, '?');
    forall i | 0 <= i < m ensures body[i] != '?' {
      assert body[i] == t[i];
    }
    if m < h {
      assert body[m] == t[m] == '?';
      IndexOfAt(body, '?', m);
    } else {
      assert NoChar(body, '?');
    }
    assert q == m;
  }

  // ------------------------------------------------------------ getUrl

  /** As written, `getUrl` puts the container into the host name and the
      endpoint suffix into the path: for container "c", account "a" and
      suffix "core.windows.net" the host is "a.blob.c". */
  lemma GetUrlSwapsContainer(w: WasbUri)
    requires Canonical(w)
    ensures GetUrl(w) == Success(Hierarchical(Some("https"), Some(w.storageAccount + BlobInfix + w.container),
                                              "/" + w.endpointSuffix + w.absolutePath, None, None))
  {
    var host := w.storageAccount + BlobInfix + w.container;
    var path := "/" + w.endpointSuffix + w.absolutePath;
    HostClean(w.storageAccount, w.container);
    PathClean(w.endpointSuffix, w.absolutePath);
    assert ValidScheme("https");
    ServerParses("https", host, path, UrlText(w));
  }

  /** The corrected `getUrl` names the blob endpoint as host, and its text
      reads back through `parse` as the very same location. */
  lemma UrlRoundTrip(w: WasbUri)
    requires Canonical(w)
    ensures GetUrlCorrected(w) == Success(Hierarchical(Some("https"), Some(w.storageAccount + BlobInfix + w.endpointSuffix),
                                                       "/" + w.container + w.absolutePath, None, None))
    ensures ParseBlob(UrlTextCorrected(w)).Success?
    ensures var v := ParseBlob(UrlTextCorrected(w)).value;
            && v.container == w.container && v.storageAccount == w.storageAccount
            && v.endpointSuffix == w.endpointSuffix && v.absolutePath == w.absolutePath
  {
    var t := UrlTextCorrected(w);
    var abs := w.absolutePath;
    var p := Parts(w.container, w.storageAccount, w.endpointSuffix, Some(abs[1..]));
    assert Parse(t).Success? by {
      UrlTextCorrectedParses(w);
    }
    assert MatchBlob(t) == Success(p) by {
      MatchUrlText(w);
    }
    assert AbsolutePath(p.path) == abs by {
      AbsoluteKept(abs);
    }
    ParseBlobOf(t, p);
    UrlTextCorrectedParses(w);
  }

  lemma UrlTextCorrectedParses(w: WasbUri)
    requires Canonical(w)
    ensures Parse(UrlTextCorrected(w)) == Success(Hierarchical(Some("https"), Some(w.storageAccount + BlobInfix + w.endpointSuffix),
                                                               "/" + w.container + w.absolutePath, None, None))
  {
    HostClean(w.storageAccount, w.endpointSuffix);
    PathClean(w.container, w.absolutePath);
    assert ValidScheme("https");
    ServerParses("https", w.storageAccount + BlobInfix + w.endpointSuffix, "/" + w.container + w.absolutePath, UrlTextCorrected(w));
  }

  /** The corrected text selects and matches the http pattern with exactly
      the location's components. */
  lemma MatchUrlText(w: WasbUri)
    requires Canonical(w)
    ensures MatchBlob(UrlTextCorrected(w)) ==
            Success(Parts(w.container, w.storageAccount, w.endpointSuffix, Some(w.absolutePath[1..])))
  {
    var host := w.storageAccount + BlobInfix + w.endpointSuffix;
    var path := "/" + w.container + w.absolutePath;
    assert MatchHttpRest(host + path) == Some(Parts(w.container, w.storageAccount, w.endpointSuffix, Some(w.absolutePath[1..]))) by {
      MatchHttpRestOf(w.container, w.storageAccount, w.endpointSuffix, w.absolutePath, host, path);
    }
    assert UrlTextCorrected(w) == "https://" + (host + path) by {
      ConcatAssoc("https://", host, path);
    }
    BlobHttps(UrlTextCorrected(w), host + path);
  }

  /** scheme://authority/path with clean components reads back as exactly
      those components. */
  lemma ServerParses(scheme: string, host: string, path: string, t: string)
    requires ValidScheme(scheme)
    requires |host| >= 1 && Legal(host) && NoneIn(host, {'/', '?', '#'})
    requires |path| >= 1 && path[0] == '/' && Legal(path) && NoneIn(path, {'?', '#'})
    requires t == scheme + "://" + host + path
    ensures Parse(t) == Success(Hierarchical(Some(scheme), Some(host), path, None, None))
  {
    var u := Hierarchical(Some(scheme), Some(host), path, None, None);
    var r := Render(u);
    assert r == t by {
      assert r == scheme + ":" + ("//" + host) + path + "" + "";
    }
    assert Parse(r) == Success(u) by {
      assert WellFormed(u);
      ParseRender(u);
    }
  }

  lemma JoinClean(p: string, q: string, cs: set<char>)
    requires Legal(p) && Legal(q) && NoneIn(p, cs) && NoneIn(q, cs)
    ensures Legal(p + q) && NoneIn(p + q, cs)
  {
    LegalConcat(p, q);
    var t := p + q;
    forall i | 0 <= i < |t| ensures t[i] !in cs {
      if i < |p| {
        assert t[i] == p[i];
      } else {
        assert t[i] == q[i - |p|];
      }
    }
  }

  /** account.blob.host-part: legal, and free of '/', '?' and '#'. */
  lemma HostClean(a: string, b: string)
    requires Legal(a) && Legal(b) && NoneIn(a, {'/', '?', '#'}) && NoneIn(b, {'/', '?', '#'})
    ensures Legal(a + BlobInfix + b) && NoneIn(a + BlobInfix + b, {'/', '?', '#'})
  {
    assert Legal(BlobInfix) && NoneIn(BlobInfix, {'/', '?', '#'}) by {
      forall i | 0 <= i < 6 ensures LegalAt(BlobInfix, i) { }
    }
    JoinClean(a, BlobInfix, {'/', '?', '#'});
    JoinClean(a + BlobInfix, b, {'/', '?', '#'});
  }

  /** "/" + segment + absolute path: legal, and free of '?' and '#'. */
  lemma PathClean(seg: string, abs: string)
    requires Legal(seg) && Legal(abs) && NoneIn(seg, {'?', '#'}) && NoneIn(abs, {'?', '#'})
    ensures Legal("/" + seg + abs) && NoneIn("/" + seg + abs, {'?', '#'})
  {
    assert Legal("/") by {
      assert LegalAt("/", 0);
    }
    JoinClean("/", seg, {'?', '#'});
    JoinClean("/" + seg, abs, {'?', '#'});
  }

  lemma MatchHttpRestOf(c: string, a: string, x: string, abs: string, host: string, path: string)
    requires IsLabel(c) && IsLabel(a)
    requires |x| >= 1 && NoChar(x, '/')
    requires |abs| >= 1 && abs[0] == '/' && Legal(abs)
    requires host == a + BlobInfix + x && path == "/" + c + abs
    ensures MatchHttpRest(host + path) == Some(Parts(c, a, x, Some(abs[1..])))
  {
    var rest := host + path;
    var n := |a|;
    assert BlobAt(rest) == Some(n) by {
      HttpRestShape(a, x, host, path);
      BlobAtOf(rest, n);
    }
    assert rest[..n] == a && rest[n + 6..] == x + "/" + c + abs by {
      HttpRestShape(a, x, host, path);
    }
    assert HttpGroups(a, rest[n + 6..]) == Some(Parts(c, a, x, Some(abs[1..]))) by {
      MatchSuffixContainerOf(c, x, abs, rest[n + 6..]);
    }
    HttpRestUnfold(rest, n);
  }

  lemma HttpRestShape(a: string, x: string, host: string, path: string)
    requires IsLabel(a) && host == a + BlobInfix + x
    ensures var rest, n := host + path, |a|;
            && IndexOfAny(rest, {'/', '.'}) == n && n + 6 <= |rest|
            && rest[..n] == a && rest[n..n + 6] == BlobInfix && rest[n + 6..] == x + path
  {
    var rest, n := host + path, |a|;
    forall i | 0 <= i < n ensures rest[i] !in {'/', '.'} {
      assert rest[i] == a[i];
    }
    assert rest[n] == '.';
    IndexOfAnyAt(rest, {'/', '.'}, n);
  }

  lemma MatchSuffixContainerOf(c: string, x: string, abs: string, after: string)
    requires IsLabel(c)
    requires |x| >= 1 && NoChar(x, '/')
    requires |abs| >= 1 && abs[0] == '/' && Legal(abs)
    requires after == x + "/" + c + abs
    ensures MatchSuffixContainer(after) == Some((x, c, Some(abs[1..])))
  {
    assert IndexOf(after, '/') == |x| by {
      assert after[|x|] == '/';
      assert forall i :: 0 <= i < |x| ==> after[i] == x[i];
      IndexOfAt(after, '/', |x|);
    }
    var tail := after[|x| + 1..];
    assert after[..|x|] == x;
    assert MatchContainerPath(tail) == Some((c, Some(abs[1..]))) by {
      assert tail == c + abs;
      MatchContainerPathOf(c, abs, tail);
    }
  }

  lemma MatchContainerPathOf(c: string, abs: string, tail: string)
    requires IsLabel(c)
    requires |abs| >= 1 && abs[0] == '/' && Legal(abs)
    requires tail == c + abs
    ensures MatchContainerPath(tail) == Some((c, Some(abs[1..])))
  {
    assert IndexOfAny(tail, {'/', '.'}) == |c| by {
      forall i | 0 <= i < |c| ensures tail[i] !in {'/', '.'} {
        assert tail[i] == c[i];
      }
      assert tail[|c|] == '/';
      IndexOfAnyAt(tail, {'/', '.'}, |c|);
    }
    assert tail[..|c|] == c && tail[|c| + 1..] == abs[1..];
    LegalSuffix(abs, 1);
    LegalNoLineTerminator(abs[1..]);
  }
}

=== FILE: wrappers.dfy ===
/** Failure-compatible wrappers shared by every module of the model.
    `Option` stands for a Java reference that may be null (or an empty
    `Optional`), `Result` for a call that either returns or throws. */
module Wrappers {

  datatype Option<+T> = None | Some(value: T) {
    predicate IsFailure() {
      None?
    }

    function PropagateFailure<U>(): Option<U>
      requires None?
    {
      None
    }

    function Extract(): T
      requires Some?
    {
      value
    }

    function GetOr(default: T): T {
      match this
      case Some(v) => v
      case None => default
    }
  }

  /** `Failure(e)` carries the message of the exception the source throws. */
  datatype Result<+T, +E> = Success(value: T) | Failure(error: E) {
    predicate IsFailure() {
      Failure?
    }

    function PropagateFailure<U>(): Result<U, E>
      requires Failure?
    {
      Failure(error)
    }

    function Extract(): T
      requires Success?
    {
      value
    }
  }
}

=== FILE: yarn_app.dfy ===
/** App: the Yarn ResourceManager's description of one application. */
module YarnApp {
  import opened Wrappers
  import opened Text

  /** The states of YarnApplicationState. */
  const AppStates: seq<string> :=
    ["NEW", "NEW_SAVING", "SUBMITTED", "ACCEPTED", "RUNNING", "FINISHED", "FAILED", "KILLED"]

  const FinishedStates: set<string> := {"FINISHED", "FAILED", "KILLED"}

  /** `isFinished()` on a non-null state: its upper-case form is one of the
      three final states. */
  function IsFinished(state: string): (r: bool)
    ensures r <==> ToUpper(state) in FinishedStates
  {
    var upper := ToUpper(state);
    upper == "FINISHED" || upper == "FAILED" || upper == "KILLED"
  }

  /** The five live states of YarnApplicationState are not finished. */
  lemma LiveStatesNotFinished()
    ensures forall i :: 0 <= i < 5 ==> !IsFinished(AppStates[i])
    ensures forall i :: 5 <= i < |AppStates| ==> IsFinished(AppStates[i])
  {
    forall i | 0 <= i < |AppStates| ensures ToUpper(AppStates[i]) == AppStates[i] {
      UpperOfUpper(AppStates[i]);
    }
  }

  /** A string without lower-case ASCII letters is its own upper case. */
  lemma UpperOfUpper(s: string)
    requires forall i :: 0 <= i < |s| ==> !('a' <= s[i] <= 'z')
    ensures ToUpper(s) == s
  {
  }

  /** `isFinished` does not depend on the case of the state. */
  lemma IsFinishedIgnoresCase(a: string, b: string)
    requires EqualsIgnoreCase(a, b)
    ensures IsFinished(a) == IsFinished(b)
  {
    EqualsIgnoreCaseUpper(a, b);
  }

  /** `getResourceRequests()`: an absent list reads as empty. */
  function ResourceRequests<R>(resourceRequests: Option<seq<R>>): (r: seq<R>)
    ensures resourceRequests.Some? ==> r == resourceRequests.value
    ensures resourceRequests.None? ==> r == []
  {
    resourceRequests.GetOr([])
  }
}

=== FILE: yarn_container_log.dfy ===
/** YarnContainerLogFetcher: reads a Spark driver's log through the Yarn UI.
    Modelled here are its decisions: whether log aggregation is done and
    whether the application has stopped (from the last application report
    it kept), the per-type offsets that stop a stopped application's log
    from being read twice, the probing for a usable public log URL, and
    the scan of a log page for "Log Type:" sections. HTTP, HTML parsing and
    the Rx polling are not: a page arrives as its list of elements and a
    probe as the answer of a `valid` function. */
module YarnContainerLog {
  import opened Wrappers
  import opened Text
  import opened Uri
  import opened UriUtils
  import YarnApp
  import opened YarnLogCommon

  // ------------------------------------------------ application report

  /** The two fields of the last application report the fetcher reads. */
  datatype AppReport = AppReport(state: string, logAggregationStatus: string)

  /** What both getters answer before any report has arrived. */
  const Unknown := "UNKNOWN"

  const AggregationDoneStatuses: set<string> := {"SUCCEEDED", "FAILED", "TIME_OUT"}
  const RunningStates: set<string> := {"RUNNING", "SUBMITTED", "ACCEPTED"}

  function LogAggregationStatus(last: Option<AppReport>): string {
    if last.Some? then last.value.logAggregationStatus else Unknown
  }

  function YarnAppState(last: Option<AppReport>): string {
    if last.Some? then last.value.state else Unknown
  }

  /** `isYarnAppLogAggregationDone`: a switch over the exact status text. */
  function IsLogAggregationDone(last: Option<AppReport>): (r: bool)
    ensures r <==> last.Some? && last.value.logAggregationStatus in AggregationDoneStatuses
  {
    var status := LogAggregationStatus(last);
    status == "SUCCEEDED" || status == "FAILED" || status == "TIME_OUT"
  }

  /** `isYarnAppStop`: every state but the three running ones, and no
      report at all, count as stopped. */
  function IsYarnAppStop(last: Option<AppReport>): (r: bool)
    ensures r <==> last.None? || last.value.state !in RunningStates
  {
    var state := YarnAppState(last);
    !(state == "RUNNING" || state == "SUBMITTED" || state == "ACCEPTED")
  }

  /** The statuses the switch lists as not done, the missing report, and a
      lower-case spelling of a done status are all "not done". */
  lemma AggregationNotDone(state: string)
    ensures !IsLogAggregationDone(None)
    ensures forall s :: s in ["DISABLED", "NOT_START", "RUNNING", "RUNNING_WITH_FAILURE", "succeeded"] ==>
              !IsLogAggregationDone(Some(AppReport(state, s)))
  {
  }

  /** An application Yarn reports as finished has stopped; but a stopped
      application need not be finished: one that is still NEW, or whose
      state is spelt in lower case, counts as stopped too. */
  lemma FinishedIsStopped(report: AppReport)
    ensures YarnApp.IsFinished(report.state) ==> IsYarnAppStop(Some(report))
    ensures IsYarnAppStop(Some(AppReport("NEW", report.logAggregationStatus)))
    ensures !YarnApp.IsFinished("NEW")
    ensures IsYarnAppStop(Some(AppReport("running", report.logAggregationStatus)))
  {
    if report.state in RunningStates {
      YarnApp.UpperOfUpper(report.state);
    }
    YarnApp.UpperOfUpper("NEW");
  }

  // ------------------------------------------------------ fetched offsets

  /** Per log type, the offset up to which the log has been read. */
  type Offsets = map<string, int>

  /** `getOrDefault(logType, 0L)`. */
  function Recorded(offsets: Offsets, logType: string): int {
    if logType in offsets then offsets[logType] else 0
  }

  /** `setFetched`: the type's offset becomes the larger of the new one and
      the one recorded (0 when none is). */
  function SetFetched(offsets: Offsets, logType: string, logCharsGot: int): (r: Offsets)
    ensures r.Keys == offsets.Keys + {logType}
    ensures r[logType] >= logCharsGot && r[logType] >= Recorded(offsets, logType)
    ensures r[logType] == logCharsGot || r[logType] == Recorded(offsets, logType)
    ensures forall t :: t in offsets && t != logType ==> r[t] == offsets[t]
  {
    var before := Recorded(offsets, logType);
    offsets[logType := if logCharsGot >= before then logCharsGot else before]
  }

  /** `isFetchable`: a running application is always read; a stopped one
      only below the offset recorded for the type. */
  predicate IsFetchable(last: Option<AppReport>, offsets: Offsets, logType: string, start: int) {
    !IsYarnAppStop(last) || logType !in offsets || start < offsets[logType]
  }

  /** A run of `setFetched` calls, in order. */
  function RecordAll(offsets: Offsets, records: seq<(string, int)>): Offsets
    decreases |records|
  {
    if records == [] then offsets
    else RecordAll(SetFetched(offsets, records[0].0, records[0].1), records[1..])
  }

  /** Some record of the run sets `logType` to `value`. */
  predicate RecordedIn(records: seq<(string, int)>, logType: string, value: int) {
    exists i :: 0 <= i < |records| && records[i] == (logType, value)
  }

  /** After a run of `setFetched` calls every type's offset is the maximum
      of what was recorded before (0 when nothing was) and every offset
      reported for it: at least each of them, and equal to one. */
  lemma RecordAllIsMax(offsets: Offsets, records: seq<(string, int)>, logType: string)
    ensures var r := RecordAll(offsets, records);
            && (logType in r <==> logType in offsets || exists i :: 0 <= i < |records| && records[i].0 == logType)
            && (logType in offsets ==> r[logType] >= offsets[logType])
            && (forall i :: 0 <= i < |records| && records[i].0 == logType ==> r[logType] >= records[i].1)
            && (logType in r ==> r[logType] == Recorded(offsets, logType) || RecordedIn(records, logType, r[logType]))
  {
    RecordAllKeys(offsets, records, logType);
    RecordAllBounds(offsets, records, logType);
    RecordAllAttained(offsets, records, logType);
  }

  lemma {:induction false} RecordAllKeys(offsets: Offsets, records: seq<(string, int)>, logType: string)
    ensures logType in RecordAll(offsets, records) <==>
              logType in offsets || exists i :: 0 <= i < |records| && records[i].0 == logType
    decreases |records|
  {
    if records != [] {
      var next := SetFetched(offsets, records[0].0, records[0].1);
      RecordAllKeys(next, records[1..], logType);
      if exists i :: 0 <= i < |records| && records[i].0 == logType {
        var i :| 0 <= i < |records| && records[i].0 == logType;
        if i > 0 {
          assert records[1..][i - 1].0 == logType;
        }
      }
      if exists i :: 0 <= i < |records[1..]| && records[1..][i].0 == logType {
        var i :| 0 <= i < |records[1..]| && records[1..][i].0 == logType;
        assert records[i + 1].0 == logType;
      }
    }
  }

  lemma {:induction false} RecordAllBounds(offsets: Offsets, records: seq<(string, int)>, logType: string)
    ensures var r := RecordAll(offsets, records);
            && (logType in offsets ==> logType in r && r[logType] >= offsets[logType])
            && (forall i :: 0 <= i < |records| && records[i].0 == logType ==>
                  logType in r && r[logType] >= records[i].1)
    decreases |records|
  {
    if records != [] {
      var next := SetFetched(offsets, records[0].0, records[0].1);
      RecordAllBounds(next, records[1..], logType);
      var r := RecordAll(offsets, records);
      assert r == RecordAll(next, records[1..]);
      forall i | 1 <= i < |records| && records[i].0 == logType
        ensures logType in r && r[logType] >= records[i].1
      {
        assert records[1..][i - 1] == records[i];
      }
    }
  }

  lemma {:induction false} RecordAllAttained(offsets: Offsets, records: seq<(string, int)>, logType: string)
    ensures var r := RecordAll(offsets, records);
            logType in r ==> r[logType] == Recorded(offsets, logType) || RecordedIn(records, logType, r[logType])
    decreases |records|
  {
    if records != [] {
      var next := SetFetched(offsets, records[0].0, records[0].1);
      RecordAllAttained(next, records[1..], logType);
      var r := RecordAll(offsets, records);
      assert r == RecordAll(next, records[1..]);
      if logType in r && RecordedIn(records[1..], logType, r[logType]) {
        var i :| 0 <= i < |records[1..]| && records[1..][i] == (logType, r[logType]);
        assert records[i + 1] == (logType, r[logType]);
      }
      if logType in r && r[logType] == Recorded(next, logType) && records[0].0 == logType
         && next[logType] != Recorded(offsets, logType) {
        assert records[0] == (logType, r[logType]);
      }
    }
  }

  /** A stopped application's log of a type that has been recorded at all
      is not fetchable from any offset at or past every offset recorded for
      that type (a type never recorded is always fetchable). */
  lemma StoppedPastRecordedNotFetchable(last: Option<AppReport>, offsets: Offsets, records: seq<(string, int)>,
                                        logType: string, start: int)
    requires IsYarnAppStop(last) && start >= Recorded(offsets, logType)
    requires logType in offsets || exists rec :: rec in records && rec.0 == logType
    requires forall rec :: rec in records && rec.0 == logType ==> start >= rec.1
    ensures !IsFetchable(last, RecordAll(offsets, records), logType, start)
  {
    var r := RecordAll(offsets, records);
    RecordAllKeys(offsets, records, logType);
    if logType !in offsets {
      var rec :| rec in records && rec.0 == logType;
      var i :| 0 <= i < |records| && records[i] == rec;
    }
    assert logType in r;
    {
      RecordAllAttained(offsets, records, logType);
      var v := r[logType];
      if v != Recorded(offsets, logType) {
        var i :| 0 <= i < |records| && records[i] == (logType, v);
        assert records[i] in records;
      }
    }
  }

  // ------------------------------------------------- one page of a log

  /** Logs scraped from a page, by type, and `getOrDefault(type, "")`. */
  function LogOf(logs: map<string, string>, logType: string): string {
    if logType in logs then logs[logType] else ""
  }

  /** The end of `getContentFromYarnLogDom`: record the offset reached,
      the start plus the log's `length()` in UTF-16 code units, and emit
      the log of the type, or nothing when it is empty. */
  function TakeLogs(offsets: Offsets, logType: string, start: int, logs: map<string, string>)
    : (r: (Offsets, Option<string>))
    ensures r.1.None? <==> logType !in logs || logs[logType] == ""
    ensures r.1.Some? ==> r.1.value == logs[logType]
    ensures r.0 == SetFetched(offsets, logType, start + Utf16Length(LogOf(logs, logType)))
    ensures r.0[logType] >= start + Utf16Length(LogOf(logs, logType)) >= start + |LogOf(logs, logType)|
  {
    var text := LogOf(logs, logType);
    (SetFetched(offsets, logType, start + Utf16Length(text)), if text == "" then None else Some(text))
  }

  /** `fetch` up to the page: nothing when the type is not fetchable,
      otherwise the page's log for the type (also the page's default type). */
  function FetchPage(last: Option<AppReport>, offsets: Offsets, logType: string, start: int,
                     page: Option<seq<Element>>, unescape: string -> string): (r: (Offsets, Option<string>))
    ensures !IsFetchable(last, offsets, logType, start) ==> r == (offsets, None)
    ensures IsFetchable(last, offsets, logType, start) ==>
              r == TakeLogs(offsets, logType, start, ParseLogsFromHtml(logType, page, unescape))
  {
    if !IsFetchable(last, offsets, logType, start) then (offsets, None)
    else TakeLogs(offsets, logType, start, ParseLogsFromHtml(logType, page, unescape))
  }

  /** Once the application has stopped, reading a type's log ends where
      the reads so far ended: a request from that offset or beyond is not
      fetchable, so nothing is read twice. */
  lemma StoppedReadEndsAtReachedOffset(last: Option<AppReport>, offsets: Offsets, logType: string, start: int,
                                       logs: map<string, string>, next: int)
    requires IsYarnAppStop(last)
    requires next >= start + Utf16Length(LogOf(logs, logType)) && next >= Recorded(offsets, logType)
    ensures !IsFetchable(last, TakeLogs(offsets, logType, start, logs).0, logType, next)
  {
  }

  // ------------------------------------------------- public log URL

  /** BASE: `normalizeWithSlashEnding(URI.create(yarnUIBaseUrl))`, printed. */
  function YarnUiBase(yarnUiBaseUrl: string): (r: Result<string, string>)
    ensures r.Failure? <==> NormalizeTextWithSlashEnding(yarnUiBaseUrl).Failure?
    ensures r.Failure? ==> r.error == NormalizeTextWithSlashEnding(yarnUiBaseUrl).error
  {
    var u :- NormalizeTextWithSlashEnding(yarnUiBaseUrl);
    Success(Render(u))
  }

  /** For a base URL without query or fragment, BASE exists and ends with
      '/', as the templates expect. */
  lemma YarnUiBaseEndsWithSlash(yarnUiBaseUrl: string)
    requires Parse(yarnUiBaseUrl).Success?
    requires var u := Parse(yarnUiBaseUrl).value;
             u.Hierarchical? && u.query.None? && u.fragment.None? && !DoubleSlashAfterEmptyAuthority(u)
    ensures YarnUiBase(yarnUiBaseUrl).Success?
    ensures EndsWith(YarnUiBase(yarnUiBaseUrl).value, "/")
  {
    var u := Parse(yarnUiBaseUrl).value;
    RenderParse(yarnUiBaseUrl);
    NormalizeAppendsSlash(u);
    var n := NormalizeWithSlashEnding(u).value;
    RenderEndsWithSlash(n);
  }

  /** A hierarchical URI without query or fragment prints its path last. */
  lemma RenderEndsWithSlash(n: Uri)
    requires n.Hierarchical? && n.query.None? && n.fragment.None? && EndsWith(n.path, "/")
    ensures EndsWith(Render(n), "/")
  {
    var head := SchemePart(n.scheme) + AuthorityPart(n.authority);
    assert Render(n) == head + n.path;
    assert (head + n.path)[|head + n.path| - 1] == n.path[|n.path| - 1];
  }

  /** The probing state: the mode found (the `LaterInit` cell, which is only
      ever set to a mode), and the modes the iterator has not handed out. */
  datatype Probing = Probing(chosen: Option<ConversionMode>, untried: seq<ConversionMode>)

  const InitialProbing := Probing(None, ProbingModes)
  const NoConversionPrefix := "Can't find conversion mode of Yarn "

  /** `convertToPublicLogUri` as a function of the probing state. A mode
      found earlier is used without probing; otherwise the untried modes
      are probed in order, each one handed out by the iterator for good,
      and the first whose URL is valid is kept; when none is, the call
      fails. */
  function Convert(p: Probing, base: string, u: InternalUrl, valid: string -> bool, nmConnectUri: string)
    : (r: (Probing, Result<string, string>))
    ensures p.chosen.Some? ==> r == (p, Success(PublicUrl(p.chosen.value, base, u)))
    ensures p.chosen.None? ==>
              (r.1.Success? <==> exists i :: 0 <= i < |p.untried| && valid(PublicUrl(p.untried[i], base, u)))
    ensures p.chosen.None? && r.1.Success? ==>
              exists k :: 0 <= k < |p.untried| && valid(PublicUrl(p.untried[k], base, u))
                && (forall j :: 0 <= j < k ==> !valid(PublicUrl(p.untried[j], base, u)))
                && r == (Probing(Some(p.untried[k]), p.untried[k + 1..]), Success(PublicUrl(p.untried[k], base, u)))
    ensures r.1.Failure? ==> r == (Probing(None, []), Failure(NoConversionPrefix + nmConnectUri))
  {
    if p.chosen.Some? then (p, Success(PublicUrl(p.chosen.value, base, u)))
    else
      var k := FirstValid(p.untried, base, u, valid);
      if k < |p.untried| then
        (Probing(Some(p.untried[k]), p.untried[k + 1..]), Success(PublicUrl(p.untried[k], base, u)))
      else (Probing(None, []), Failure(NoConversionPrefix + nmConnectUri))
  }

  /** The probing loop as written: take the iterator's next mode until one
      validates or none is left. */
  method ConvertToPublicLogUri(p: Probing, base: string, u: InternalUrl, valid: string -> bool, nmConnectUri: string)
    returns (next: Probing, r: Result<string, string>)
    ensures (next, r) == Convert(p, base, u, valid, nmConnectUri)
  {
    if p.chosen.Some? {
      return p, Success(PublicUrl(p.chosen.value, base, u));
    }
    var i := ProbeModes(p.untried, base, u, valid);
    if i < |p.untried| {
      ConvertFinds(p, base, u, valid, nmConnectUri, i);
      return Probing(Some(p.untried[i]), p.untried[i + 1..]), Success(PublicUrl(p.untried[i], base, u));
    }
    ConvertFindsNone(p, base, u, valid, nmConnectUri);
    return Probing(None, []), Failure(NoConversionPrefix + nmConnectUri);
  }

  /** The loop itself: the number of modes the iterator hands out before
      one whose URL is valid, which is the first valid mode's position. */
  method ProbeModes(modes: seq<ConversionMode>, base: string, u: InternalUrl, valid: string -> bool)
    returns (i: nat)
    ensures i == FirstValid(modes, base, u, valid)
  {
    i := 0;
    while i < |modes|
      invariant i <= |modes| && FirstValid(modes, base, u, valid) >= i
    {
      var uriProbe := PublicUrl(modes[i], base, u);
      if valid(uriProbe) {
        return;
      }
      i := i + 1;
    }
  }

  /** The probe keeps the first valid mode. */
  lemma ConvertFinds(p: Probing, base: string, u: InternalUrl, valid: string -> bool, nmConnectUri: string, i: nat)
    requires p.chosen.None? && i < |p.untried|
    requires FirstValid(p.untried, base, u, valid) >= i && valid(PublicUrl(p.untried[i], base, u))
    ensures Convert(p, base, u, valid, nmConnectUri)
            == (Probing(Some(p.untried[i]), p.untried[i + 1..]), Success(PublicUrl(p.untried[i], base, u)))
  {
    assert FirstValid(p.untried, base, u, valid) == i;
  }

  /** The probe fails when no mode is valid. */
  lemma ConvertFindsNone(p: Probing, base: string, u: InternalUrl, valid: string -> bool, nmConnectUri: string)
    requires p.chosen.None? && FirstValid(p.untried, base, u, valid) >= |p.untried|
    ensures Convert(p, base, u, valid, nmConnectUri) == (Probing(None, []), Failure(NoConversionPrefix + nmConnectUri))
  {
  }

  /** Once a mode is found it is used for every later URL and no probe is
      made: the validity answers do not matter. */
  lemma ChosenIsFinal(p: Probing, base: string, u: InternalUrl, valid1: string -> bool, valid2: string -> bool, nm: string)
    requires p.chosen.Some?
    ensures Convert(p, base, u, valid1, nm) == Convert(p, base, u, valid2, nm)
    ensures Convert(p, base, u, valid1, nm).0 == p
  {
  }

  /** A rejected mode is never probed again: what is left untried is a
      suffix of what was untried, and when every mode is rejected the
      fetcher fails from then on, whatever the probes would answer. */
  lemma RejectedNeverRetried(p: Probing, base: string, u: InternalUrl, valid: string -> bool,
                             later: string -> bool, u2: InternalUrl, nm: string)
    requires p.chosen.None?
    ensures var next := Convert(p, base, u, valid, nm).0;
            |next.untried| <= |p.untried| && next.untried == p.untried[|p.untried| - |next.untried|..]
    ensures Convert(p, base, u, valid, nm).1.Failure? ==>
              Convert(Convert(p, base, u, valid, nm).0, base, u2, later, nm).1
                == Failure(NoConversionPrefix + nm)
  {
  }

  /** From the initial state: the first valid mode in the order
      WITHOUT_PORT, WITH_PORT, ORIGINAL is the one kept. */
  lemma InitialProbingOrder(base: string, u: InternalUrl, valid: string -> bool, nm: string)
    ensures var r := Convert(InitialProbing, base, u, valid, nm);
            var without, with := PublicUrl(WithoutPort, base, u), PublicUrl(WithPort, base, u);
            && (valid(without) ==> r == (Probing(Some(WithoutPort), [WithPort, Original]), Success(without)))
            && (!valid(without) && valid(with) ==> r == (Probing(Some(WithPort), [Original]), Success(with)))
            && (!valid(without) && !valid(with) && valid(u.text) ==> r == (Probing(Some(Original), []), Success(u.text)))
  {
    var modes := InitialProbing.untried;
    assert modes[0] == WithoutPort && modes[1..][0] == WithPort && modes[1..][1..][0] == Original;
    assert modes[1..] == [WithPort, Original] && modes[1..][1..] == [Original];
    assert modes[1..][1..][1..] == [];
  }

  // ------------------------------------------------------- log pages

  /** A child element of the page's log cell: its tag name and the HTML
      text of each of its child nodes (`Node.toString`). */
  datatype Element = Element(tagName: string, childNodes: seq<string>)

  /** The scan state: logs found so far and the type of the next `<pre>`. */
  datatype LogScan = LogScan(logs: map<string, string>, current: Option<string>)

  predicate IsTag(e: Element, tag: string) {
    EqualsIgnoreCase(e.tagName, tag)
  }

  /** The type a `<p>` element announces. */
  function Announces(e: Element): Option<string> {
    if IsTag(e, "p") && e.childNodes != [] then LogTypeOf(e.childNodes[0]) else None
  }

  /** The non-empty log text a `<pre>` element holds, once unescaped. */
  function PreText(e: Element, unescape: string -> string): (r: Option<string>)
    ensures r.Some? ==> r.value != ""
  {
    if !IsTag(e, "p") && IsTag(e, "pre") && e.childNodes != [] && unescape(e.childNodes[0]) != "" then
      Some(unescape(e.childNodes[0]))
    else None
  }

  /** One turn of the loop of `parseLogsFromHtml`. */
  function ScanStep(s: LogScan, e: Element, unescape: string -> string): (r: LogScan)
    ensures Announces(e).Some? ==> r == LogScan(s.logs - {Announces(e).value}, Announces(e))
    ensures PreText(e, unescape).Some? && s.current.Some? ==>
              r == LogScan(s.logs[s.current.value := PreText(e, unescape).value], None)
    ensures !IsTag(e, "p") && IsTag(e, "pre") && e.childNodes == [] ==> r == s.(current := None)
    ensures Announces(e).None? && !(IsTag(e, "pre") && !IsTag(e, "p") && s.current.Some?) ==> r == s
  {
    if IsTag(e, "p") then
      if e.childNodes == [] then s
      else
        var found := LogTypeOf(e.childNodes[0]);
        if found.Some? then LogScan(s.logs - {found.value}, found) else s
    else if IsTag(e, "pre") && s.current.Some? then
      if e.childNodes == [] then s.(current := None)
      else
        var logs := unescape(e.childNodes[0]);
        if logs != "" then LogScan(s.logs[s.current.value := logs], None) else s
    else s
  }

  /** Some element of the page announces `logType`. */
  predicate AnnouncedIn(es: seq<Element>, logType: string)
    decreases |es|
  {
    es != [] && (Announces(es[0]) == Some(logType) || AnnouncedIn(es[1..], logType))
  }

  /** Some `<pre>` of the page holds the text `text`. */
  predicate PreTextIn(es: seq<Element>, text: string, unescape: string -> string)
    decreases |es|
  {
    es != [] && (PreText(es[0], unescape) == Some(text) || PreTextIn(es[1..], text, unescape))
  }

  /** The loop over the elements. Every type it ends up with was known
      before or announced on the page, and every log it ends up with was
      there before or is the text of one of the page's `<pre>`s. */
  function Scan(s: LogScan, es: seq<Element>, unescape: string -> string): (r: LogScan)
    ensures forall t :: t in r.logs ==> t in s.logs || s.current == Some(t) || AnnouncedIn(es, t)
    ensures forall t :: t in r.logs ==>
              (t in s.logs && r.logs[t] == s.logs[t]) || (r.logs[t] != "" && PreTextIn(es, r.logs[t], unescape))
    decreases |es|
  {
    if es == [] then s
    else
      Scan(ScanStep(s, es[0], unescape), es[1..], unescape)
  }

  /** `parseLogsFromHtml(defaultType, page)`: the children of the element
      after `#navcell`, None when the page has none. */
  function ParseLogsFromHtml(defaultType: string, page: Option<seq<Element>>, unescape: string -> string)
    : (r: map<string, string>)
    ensures page.None? ==> r == map[]
    ensures page.Some? ==> forall t :: t in r ==> t == defaultType || AnnouncedIn(page.value, t)
    ensures page.Some? ==> forall t :: t in r ==> r[t] != "" && PreTextIn(page.value, r[t], unescape)
  {
    if page.None? then map[]
    else Scan(LogScan(map[], Some(defaultType)), page.value, unescape).logs
  }

  /** Scanning a page in two parts is scanning the parts one after the
      other. */
  lemma {:induction false} ScanConcat(s: LogScan, a: seq<Element>, b: seq<Element>, unescape: string -> string)
    ensures Scan(s, a + b, unescape) == Scan(Scan(s, a, unescape), b, unescape)
    decreases |a|
  {
    if a != [] {
      assert (a + b)[0] == a[0] && (a + b)[1..] == a[1..] + b;
      ScanConcat(ScanStep(s, a[0], unescape), a[1..], b, unescape);
    } else {
      assert a + b == b;
    }
  }

  /** The history server's page: for each log, a paragraph naming its type
      followed by a `<pre>` holding it. */
  function Section(logType: string, html: string): seq<Element> {
    [Element("p", [LogTypeLabel + " " + logType]), Element("pre", [html])]
  }

  function SectionsPage(sections: seq<(string, string)>): seq<Element>
    decreases |sections|
  {
    if sections == [] then [] else Section(sections[0].0, sections[0].1) + SectionsPage(sections[1..])
  }

  /** The expected result: the logs in page order, a later section of the
      same type replacing an earlier one. */
  function SectionsLogs(logs: map<string, string>, sections: seq<(string, string)>, unescape: string -> string)
    : map<string, string>
    decreases |sections|
  {
    if sections == [] then logs
    else SectionsLogs(logs[sections[0].0 := unescape(sections[0].1)], sections[1..], unescape)
  }

  /** A section whose type is printable and whose log is not empty. */
  predicate GoodSection(section: (string, string), unescape: string -> string) {
    && section.0 != []
    && (forall i :: 0 <= i < |section.0| ==> section.0[i] > ' ')
    && unescape(section.1) != ""
  }

  /** Scanning such a page yields exactly the logs of its sections. */
  lemma {:induction false} ScanSections(s: LogScan, sections: seq<(string, string)>, unescape: string -> string)
    requires forall i :: 0 <= i < |sections| ==> GoodSection(sections[i], unescape)
    ensures Scan(s, SectionsPage(sections), unescape).logs == SectionsLogs(s.logs, sections, unescape)
    ensures sections != [] ==> Scan(s, SectionsPage(sections), unescape).current.None?
    decreases |sections|
  {
    if sections != [] {
      var t, html := sections[0].0, sections[0].1;
      assert GoodSection(sections[0], unescape);
      var sec := Section(t, html);
      ScanConcat(s, sec, SectionsPage(sections[1..]), unescape);
      var s1 := ScanSection(s, t, html, unescape);
      ScanSections(s1, sections[1..], unescape);
      if sections[1..] == [] {
        assert SectionsPage(sections[1..]) == [];
      }
    }
  }

  /** The tag names a section uses, compared as the page parser does. */
  lemma SectionTags()
    ensures IsTag(Element("p", []), "p") && !IsTag(Element("pre", []), "p")
    ensures IsTag(Element("pre", []), "pre")
  {
    assert EqualsIgnoreCase("p", "p") && EqualsIgnoreCase("pre", "pre");
    assert |"pre"| != |"p"|;
  }

  /** A section's paragraph announces its type. */
  lemma AnnouncesSection(logType: string)
    requires logType != [] && forall i :: 0 <= i < |logType| ==> logType[i] > ' '
    ensures Announces(Element("p", [LogTypeLabel + " " + logType])) == Some(logType)
  {
    SectionTags();
    LogTypeOfLabel(" ", logType);
  }

  /** A paragraph that announces a type forgets any log kept under it. */
  lemma ParagraphStep(s: LogScan, e: Element, logType: string, unescape: string -> string)
    requires Announces(e) == Some(logType)
    ensures ScanStep(s, e, unescape) == LogScan(s.logs - {logType}, Some(logType))
  {
  }

  /** Scanning two elements is two steps. */
  lemma ScanTwo(s: LogScan, e0: Element, e1: Element, unescape: string -> string)
    ensures Scan(s, [e0, e1], unescape) == ScanStep(ScanStep(s, e0, unescape), e1, unescape)
  {
    var a := ScanStep(s, e0, unescape);
    assert [e0, e1][1..] == [e1] && [e1][1..] == [];
    assert Scan(s, [e0, e1], unescape) == Scan(a, [e1], unescape);
    assert Scan(a, [e1], unescape) == Scan(ScanStep(a, e1, unescape), [], unescape);
  }

  /** A paragraph announcing a type, then a `<pre>` with text: the text is
      filed under that type and nothing is left pending. */
  lemma AnnounceThenPre(s: LogScan, e0: Element, e1: Element, logType: string, text: string,
                        unescape: string -> string)
    requires Announces(e0) == Some(logType) && PreText(e1, unescape) == Some(text)
    ensures Scan(s, [e0, e1], unescape) == LogScan(s.logs[logType := text], None)
  {
    ScanTwo(s, e0, e1, unescape);
    ParagraphStep(s, e0, logType, unescape);
    PreStep(LogScan(s.logs - {logType}, Some(logType)), e1, text, unescape);
    RemoveThenSet(s.logs, logType, text);
  }

  /** A `<pre>` with text after an announcement files the text. */
  lemma PreStep(s: LogScan, e: Element, text: string, unescape: string -> string)
    requires s.current.Some? && PreText(e, unescape) == Some(text)
    ensures ScanStep(s, e, unescape) == LogScan(s.logs[s.current.value := text], None)
  {
  }

  lemma RemoveThenSet(m: map<string, string>, k: string, v: string)
    ensures (m - {k})[k := v] == m[k := v]
  {
  }

  /** A section's `<pre>` yields its unescaped text. */
  lemma PreTextSection(html: string, unescape: string -> string)
    requires unescape(html) != ""
    ensures PreText(Element("pre", [html]), unescape) == Some(unescape(html))
  {
    SectionTags();
  }

  /** One section: its type is announced, then its log stored under it. */
  lemma ScanSection(s: LogScan, logType: string, html: string, unescape: string -> string)
      returns (s1: LogScan)
    requires logType != [] && forall i :: 0 <= i < |logType| ==> logType[i] > ' '
    requires unescape(html) != ""
    ensures s1 == Scan(s, Section(logType, html), unescape)
    ensures s1 == LogScan(s.logs[logType := unescape(html)], None)
  {
    var sec := Section(logType, html);
    AnnouncesSection(logType);
    PreTextSection(html, unescape);
    AnnounceThenPre(s, sec[0], sec[1], logType, unescape(html), unescape);
    assert sec == [sec[0], sec[1]];
    s1 := LogScan(s.logs[logType := unescape(html)], None);
  }

  /** The running application's page: no paragraph, one `<pre>`; its log is
      filed under the default type. */
  lemma RunningPage(defaultType: string, html: string, unescape: string -> string)
    requires unescape(html) != ""
    ensures ParseLogsFromHtml(defaultType, Some([Element("pre", [html])]), unescape)
              == map[defaultType := unescape(html)]
  {
    assert EqualsIgnoreCase("pre", "pre") && !EqualsIgnoreCase("pre", "p");
    var es := [Element("pre", [html])];
    var s0 := LogScan(map[], Some(defaultType));
    var s1 := ScanStep(s0, es[0], unescape);
    assert s1 == LogScan(map[defaultType := unescape(html)], None);
    assert es[1..] == [];
    assert Scan(s0, es, unescape) == Scan(s1, [], unescape) == s1;
  }
}

=== FILE: yarn_driver_log.dfy ===
/** `YarnSparkApplicationDriverLog`: the Spark driver's log read through the
    Yarn UI. The pure parts are the conversion-mode enumeration and its
    probing, the public URL of a mode, the offset reset on a new log URL,
    and the choice of the log text on a log page. HTTP calls, the HtmlUnit
    page parser and the Rx wiring are parameters: `answer` tells what the
    GET of a probe URL comes to, `page` gives the log text of the page at
    a URL or the exception that escapes its scan, and a page is the list of child elements of the log cell. */
module YarnDriverLog {
  import opened Wrappers
  import opened Text
  import opened YarnLogCommon
  import YarnContainerLog
  import LivyCluster
  import opened Uri

  // ------------------------------------------------- conversion modes

  /** `DriverLogConversionMode`: UNKNOWN, then the three modes in the
      order they are declared. */
  datatype DriverMode = Unknown | Known(mode: ConversionMode)

  /** `DriverLogConversionMode.values()`. */
  const DriverModes: seq<DriverMode> := [Unknown, Known(WithoutPort), Known(WithPort), Known(Original)]

  /** The declaration index of a mode. */
  function Ordinal(m: DriverMode): (k: nat)
    ensures k < |DriverModes| && DriverModes[k] == m
  {
    match m
    case Unknown => 0
    case Known(WithoutPort) => 1
    case Known(WithPort) => 2
    case Known(Original) => 3
  }

  /** `next`: the mode declared after `current`; None stands for the
      NoSuchElementException thrown after the last one. */
  function Next(current: DriverMode): (r: Option<DriverMode>)
    ensures r.None? <==> current == Known(Original)
    ensures r.Some? ==> Ordinal(r.value) == Ordinal(current) + 1
  {
    var found := Ordinal(current);
    if found + 1 >= |DriverModes| then None else Some(DriverModes[found + 1])
  }

  /** Stepping with `next` from UNKNOWN visits the three conversion modes
      in the probing order of the container fetcher, then stops. */
  lemma NextWalk()
    ensures Next(Unknown) == Some(Known(ProbingModes[0]))
    ensures Next(Known(ProbingModes[0])) == Some(Known(ProbingModes[1]))
    ensures Next(Known(ProbingModes[1])) == Some(Known(ProbingModes[2]))
    ensures Next(Known(ProbingModes[2])).None?
  {
  }

  // ------------------------------------------------------- public URL

  /** The Yarn UI base with a '/' appended when it lacks one. */
  function DriverBase(yarnUiBaseUrl: string): (r: string)
    ensures EndsWith(r, "/")
    ensures StartsWith(r, yarnUiBaseUrl) && |r| <= |yarnUiBaseUrl| + 1
    ensures EndsWith(yarnUiBaseUrl, "/") ==> r == yarnUiBaseUrl
  {
    var r := yarnUiBaseUrl + (if EndsWith(yarnUiBaseUrl, "/") then "" else "/");
    assert r[..|yarnUiBaseUrl|] == yarnUiBaseUrl;
    r
  }

  /** Normalising the base twice is normalising it once. */
  lemma DriverBaseIdempotent(yarnUiBaseUrl: string)
    ensures DriverBase(DriverBase(yarnUiBaseUrl)) == DriverBase(yarnUiBaseUrl)
  {
  }

  /** `convertToPublicLogUri(mode, internalLogUrl)`: UNKNOWN gives nothing,
      ORIGINAL the URL itself, and the other two the host, with "/port/"
      and the port for WITH_PORT, and the path ("/" when blank) after the
      base. */
  function DriverConvert(mode: DriverMode, yarnUiBaseUrl: string, u: InternalUrl): (r: Option<string>)
    ensures r.None? <==> mode.Unknown?
    ensures mode == Known(Original) ==> r == Some(u.text)
  {
    match mode
    case Unknown => None
    case Known(m) => Some(PublicUrl(m, DriverBase(yarnUiBaseUrl), u))
  }

  /** The two proxied forms start with the base as given, then '/' if it
      lacked one, and end with the path ("/" when blank). */
  lemma DriverConvertShapes(m: ConversionMode, yarnUiBaseUrl: string, u: InternalUrl)
    requires m != Original
    ensures var r := DriverConvert(Known(m), yarnUiBaseUrl, u).value;
            && StartsWith(r, DriverBase(yarnUiBaseUrl)) && StartsWith(r, yarnUiBaseUrl)
            && EndsWith(r, PathOrRoot(u.path))
  {
    var base := DriverBase(yarnUiBaseUrl);
    var r := DriverConvert(Known(m), yarnUiBaseUrl, u).value;
    assert (base + u.host)[..|base|] == base;
    StartsWithTransitive(r, base + u.host, base);
    StartsWithTransitive(r, base, yarnUiBaseUrl);
  }

  /** Over a base that already ends with '/', the driver and the container
      fetcher build the same URL for every mode. */
  lemma DriverConvertAgrees(m: ConversionMode, yarnUiBaseUrl: string, u: InternalUrl)
    requires EndsWith(yarnUiBaseUrl, "/")
    ensures DriverConvert(Known(m), yarnUiBaseUrl, u) == Some(PublicUrl(m, yarnUiBaseUrl, u))
  {
  }

  // --------------------------------------------------------- probing

  /** A conversion that ends with a public URL. */
  predicate Found(r: Result<Option<string>, string>) {
    r.Success? && r.value.Some?
  }

  /** `convertToPublicLogUri(internalLogUri)` as a function of the mode
      kept so far. A known mode converts without any probe. From UNKNOWN
      the modes are probed in declaration order: a refused URL moves on to
      the next mode; a URL that responds below 300 has its mode kept and is
      returned; a probe GET that throws ends the conversion in that error,
      as `isUriValid` has no `onErrorReturn` and `firstOrDefault` rethrows.
      When every URL is refused the result is empty. Only a found URL
      changes the mode. */
  function Probe(mode: DriverMode, yarnUiBaseUrl: string, u: InternalUrl, answer: string -> ProbeAnswer)
    : (r: (DriverMode, Result<Option<string>, string>))
    ensures mode.Known? ==> r == (mode, Success(DriverConvert(mode, yarnUiBaseUrl, u)))
    ensures !Found(r.1) ==> r.0 == mode
    ensures mode.Unknown? ==>
              (r.1 == Success(None) <==> forall i :: 0 <= i < |ProbingModes| ==>
                                           answer(PublicUrl(ProbingModes[i], DriverBase(yarnUiBaseUrl), u)).Refuses?)
    ensures mode.Unknown? && Found(r.1) ==>
              exists k :: 0 <= k < |ProbingModes| && r.0 == Known(ProbingModes[k])
                && r.1.value == DriverConvert(r.0, yarnUiBaseUrl, u)
                && answer(r.1.value.value).Responds?
                && (forall j :: 0 <= j < k ==> answer(PublicUrl(ProbingModes[j], DriverBase(yarnUiBaseUrl), u)).Refuses?)
    ensures mode.Unknown? && r.1.Failure? ==>
              exists k :: 0 <= k < |ProbingModes|
                && answer(PublicUrl(ProbingModes[k], DriverBase(yarnUiBaseUrl), u)) == Throws(r.1.error)
                && (forall j :: 0 <= j < k ==> answer(PublicUrl(ProbingModes[j], DriverBase(yarnUiBaseUrl), u)).Refuses?)
  {
    if mode.Known? then (mode, Success(DriverConvert(mode, yarnUiBaseUrl, u)))
    else
      var base := DriverBase(yarnUiBaseUrl);
      var k := FirstValid(ProbingModes, base, u, Decisive(answer));
      if k == |ProbingModes| then (Unknown, Success(None))
      else
        var url := PublicUrl(ProbingModes[k], base, u);
        if answer(url).Throws? then (Unknown, Failure(answer(url).message))
        else (Known(ProbingModes[k]), Success(Some(url)))
  }

  /** The probing loop as written: convert with the probe mode, keep it if
      the URL responds, fail if its GET throws, otherwise step with `next`
      until it runs out. */
  method ConvertToPublicLogUri(mode: DriverMode, yarnUiBaseUrl: string, u: InternalUrl, answer: string -> ProbeAnswer)
    returns (next: DriverMode, r: Result<Option<string>, string>)
    ensures (next, r) == Probe(mode, yarnUiBaseUrl, u, answer)
  {
    var converted := DriverConvert(mode, yarnUiBaseUrl, u);
    if converted.Some? {
      return mode, Success(converted);
    }
    ghost var k := FirstValid(ProbingModes, DriverBase(yarnUiBaseUrl), u, Decisive(answer));
    var probeMode := mode;
    var noMoreTry := false;
    while !noMoreTry
      invariant probeMode.Known? ==> k >= Ordinal(probeMode) - 1
      invariant noMoreTry ==> k == |ProbingModes|
      decreases if noMoreTry then 0 else 5 - Ordinal(probeMode)
    {
      var uri := DriverConvert(probeMode, yarnUiBaseUrl, u);
      if uri.Some? {
        var probed := answer(uri.value);
        if !probed.Refuses? {
          assert ProbingModes[Ordinal(probeMode) - 1] == probeMode.mode;
          assert k == Ordinal(probeMode) - 1;
          if probed.Throws? {
            return mode, Failure(probed.message);
          }
          return probeMode, Success(uri);
        }
      }
      var stepped := Next(probeMode);
      if stepped.None? {
        noMoreTry := true;
      } else {
        probeMode := stepped.value;
      }
    }
    return mode, Success(None);
  }

  /** Unlike the container fetcher, a probe that finds nothing, or fails,
      leaves no trace: the next call probes every mode again, so a URL
      that has come up since is found. */
  lemma FailedProbeRetries(yarnUiBaseUrl: string, u: InternalUrl, answer: string -> ProbeAnswer,
                           later: string -> ProbeAnswer)
    requires !Found(Probe(Unknown, yarnUiBaseUrl, u, answer).1)
    ensures Probe(Probe(Unknown, yarnUiBaseUrl, u, answer).0, yarnUiBaseUrl, u, later)
            == Probe(Unknown, yarnUiBaseUrl, u, later)
    ensures later(PublicUrl(WithoutPort, DriverBase(yarnUiBaseUrl), u)).Responds? ==>
              Probe(Probe(Unknown, yarnUiBaseUrl, u, answer).0, yarnUiBaseUrl, u, later)
              == (Known(WithoutPort), Success(Some(PublicUrl(WithoutPort, DriverBase(yarnUiBaseUrl), u))))
  {
  }

  /** A mode once kept is used for every later URL without probing. */
  lemma KnownModeIsFinal(m: ConversionMode, yarnUiBaseUrl: string, u: InternalUrl, answer: string -> ProbeAnswer)
    ensures Probe(Known(m), yarnUiBaseUrl, u, answer).0 == Known(m)
    ensures Probe(Known(m), yarnUiBaseUrl, u, answer).1 == Success(Some(PublicUrl(m, DriverBase(yarnUiBaseUrl), u)))
  {
  }

  /** The two fetchers part ways on a probe GET that throws: the driver's
      conversion ends in that error with the mode still UNKNOWN, while the
      container fetcher reads the error as "not valid", drops the mode and
      goes on to WITH_PORT exactly as if the URL had been refused. */
  lemma ProbeErrorContrast(yarnUiBaseUrl: string, u: InternalUrl, answer: string -> ProbeAnswer, nm: string)
    requires answer(PublicUrl(WithoutPort, DriverBase(yarnUiBaseUrl), u)).Throws?
    ensures Probe(Unknown, yarnUiBaseUrl, u, answer)
            == (Unknown, Failure(answer(PublicUrl(WithoutPort, DriverBase(yarnUiBaseUrl), u)).message))
    ensures var base := DriverBase(yarnUiBaseUrl);
            YarnContainerLog.Convert(YarnContainerLog.InitialProbing, base, u, ValidOrFalse(answer), nm)
            == YarnContainerLog.Convert(YarnContainerLog.Probing(None, [WithPort, Original]), base, u, ValidOrFalse(answer), nm)
  {
    DriverProbeThrows(yarnUiBaseUrl, u, answer);
    ContainerSkipsThrown(DriverBase(yarnUiBaseUrl), u, answer, nm);
  }

  lemma DriverProbeThrows(yarnUiBaseUrl: string, u: InternalUrl, answer: string -> ProbeAnswer)
    requires answer(PublicUrl(WithoutPort, DriverBase(yarnUiBaseUrl), u)).Throws?
    ensures Probe(Unknown, yarnUiBaseUrl, u, answer)
            == (Unknown, Failure(answer(PublicUrl(WithoutPort, DriverBase(yarnUiBaseUrl), u)).message))
  {
    var base := DriverBase(yarnUiBaseUrl);
    assert Decisive(answer)(PublicUrl(ProbingModes[0], base, u));
    assert FirstValid(ProbingModes, base, u, Decisive(answer)) == 0;
  }

  lemma ContainerSkipsThrown(base: string, u: InternalUrl, answer: string -> ProbeAnswer, nm: string)
    requires answer(PublicUrl(WithoutPort, base, u)).Throws?
    ensures YarnContainerLog.Convert(YarnContainerLog.InitialProbing, base, u, ValidOrFalse(answer), nm)
            == YarnContainerLog.Convert(YarnContainerLog.Probing(None, [WithPort, Original]), base, u, ValidOrFalse(answer), nm)
  {
    var valid := ValidOrFalse(answer);
    assert !valid(PublicUrl(ProbingModes[0], base, u));
    assert ProbingModes[1..] == [WithPort, Original];
    assert FirstValid(ProbingModes, base, u, valid) == 1 + FirstValid([WithPort, Original], base, u, valid);
  }

  // ------------------------------------------------- reading the log

  /** The remembered URL matches the new one, ignoring case. */
  predicate SameLogUrl(current: Option<string>, logUrl: string) {
    current.Some? && EqualsIgnoreCase(logUrl, current.value)
  }

  /** One `getDriverLog` step for a converted log URL: a URL that differs
      (ignoring case) from the remembered one is remembered and read from
      offset 0; otherwise the remembered spelling is read from the caller's
      offset. `fetch` reads the log at a URL and offset, or fails with the
      exception that ends the stream; an empty log emits nothing, any
      other emits the log with the offset used. */
  function GetDriverLog(current: Option<string>, logUrl: string, logOffset: int,
                        fetch: (string, int) -> Result<string, string>)
    : (r: (Option<string>, Result<Option<(string, int)>, string>))
    ensures r.0.Some? && EqualsIgnoreCase(r.0.value, logUrl)
    ensures SameLogUrl(current, logUrl) ==> r.0 == current
    ensures !SameLogUrl(current, logUrl) ==> r.0 == Some(logUrl)
    ensures var offset := if SameLogUrl(current, logUrl) then logOffset else 0;
            var got := fetch(r.0.value, offset);
            && (got.Failure? ==> r.1 == Failure(got.error))
            && (got == Success("") ==> r.1 == Success(None))
            && (got.Success? && got.value != "" ==> r.1 == Success(Some((got.value, offset))))
  {
    var offset := if SameLogUrl(current, logUrl) then logOffset else 0;
    var next := if SameLogUrl(current, logUrl) then current else Some(logUrl);
    var got := fetch(next.value, offset);
    (next, if got.Failure? then Failure(got.error)
           else if got.value == "" then Success(None) else Success(Some((got.value, offset))))
  }

  /** After a first read of a URL, reading it again (in any case) keeps
      the first spelling and honours the caller's offset; a different URL
      starts over from 0. */
  lemma RereadKeepsOffset(current: Option<string>, logUrl: string, again: string, o1: int, o2: int,
                          fetch: (string, int) -> Result<string, string>)
    ensures var first := GetDriverLog(current, logUrl, o1, fetch).0;
            var second := GetDriverLog(first, again, o2, fetch);
            && (EqualsIgnoreCase(again, logUrl) ==>
                  second.0 == first && (Emits(second.1) ==> second.1.value.value.1 == o2))
            && (!EqualsIgnoreCase(again, logUrl) ==>
                  second.0 == Some(again) && (Emits(second.1) ==> second.1.value.value.1 == 0))
  {
  }

  /** A step that emits a log. */
  predicate Emits(r: Result<Option<(string, int)>, string>) {
    r.Success? && r.value.Some?
  }

  // ------------------------------------------------- the page request

  /** The reference resolved for a page: "<type>?start=<start>", followed
      by "&&end=<start + size>" when `size` is positive. */
  function PageQuery(logType: string, start: int, size: int): string {
    logType + "?" + PageParameters(start, size)
  }

  function PageParameters(start: int, size: int): string {
    "start=" + IntToString(start) + (if size <= 0 then "" else "&&end=" + IntToString(start + size))
  }

  /** The text `URI.create` is given in place of the log URL: Java has no
      string interpolation, so "$baseUrl" stays as it is written. */
  const LiteralBase := "$baseUrl/"

  /** `URI.create(baseText).resolve(reference)`. A failure is the
      IllegalArgumentException of `create` or `resolve`, raised before the
      `try`. */
  function RequestFrom(baseText: string, reference: string): Result<Uri, string> {
    var base :- Parse(baseText);
    ResolveText(base, reference)
  }

  /** The page request as written: `URI.create("$baseUrl/")` resolved
      against the page's reference. */
  function PageRequestAsWritten(logType: string, start: int, size: int): Result<Uri, string> {
    RequestFrom(LiteralBase, PageQuery(logType, start, size))
  }

  /** The page request with the log URL in place of the literal:
      `URI.create(baseUrl + "/")` resolved against the same reference. */
  function PageRequest(logUrl: string, logType: string, start: int, size: int): Result<Uri, string> {
    RequestFrom(logUrl + "/", PageQuery(logType, start, size))
  }

  /** `webClient.getPage(url.toString())` and the scan of the page. A URL
      without a scheme cannot be opened (MalformedURLException, an
      IOException that the `catch` turns into ""). Otherwise `page` gives
      the log text the page at that URL yields: "" when the request fails
      with an HTTP status or an I/O error, which the `catch` takes, and a
      failure for an exception it does not take, such as the
      NullPointerException of a page without the "navcell" element. */
  function ReadAt(request: Result<Uri, string>, page: string -> Result<string, string>): Result<string, string> {
    var url :- request;
    if GetScheme(url).None? then Success("") else page(Render(url))
  }

  /** `getInformationFromYarnLogDom` as written, as the fetch of
      `GetDriverLog`: the log URL it is handed plays no part. */
  function ReadLogAsWritten(logType: string, size: int, page: string -> Result<string, string>): (string, int) -> Result<string, string> {
    (logUrl: string, start: int) => ReadAt(PageRequestAsWritten(logType, start, size), page)
  }

  /** `getInformationFromYarnLogDom` reading the page under the log URL. */
  function ReadLog(logType: string, size: int, page: string -> Result<string, string>): (string, int) -> Result<string, string> {
    (logUrl: string, start: int) => ReadAt(PageRequest(logUrl, logType, start, size), page)
  }

  /** As written, the request never has a scheme: for a log type of
      letters and digits every read comes to "", whatever the log URL and
      whatever the pages hold, so `getDriverLog` never emits a log. */
  lemma AsWrittenNeverEmits(current: Option<string>, logUrl: string, logOffset: int, logType: string,
                            size: int, page: string -> Result<string, string>)
    requires LivyCluster.IsSegment(logType)
    ensures var r := GetDriverLog(current, logUrl, logOffset, ReadLogAsWritten(logType, size, page));
            r.1 == Success(None)
  {
    var offset := if SameLogUrl(current, logUrl) then logOffset else 0;
    var next := if SameLogUrl(current, logUrl) then current else Some(logUrl);
    AsWrittenReadsNothing(logType, offset, size, page);
    assert ReadLogAsWritten(logType, size, page)(next.value, offset) == Success("");
  }

  lemma AsWrittenReadsNothing(logType: string, start: int, size: int, page: string -> Result<string, string>)
    requires LivyCluster.IsSegment(logType)
    ensures ReadAt(PageRequestAsWritten(logType, start, size), page) == Success("")
  {
    var resolved := AsWrittenRequest(logType, start, size);
  }

  /** The request as written resolves, and it has no scheme. */
  lemma AsWrittenRequest(logType: string, start: int, size: int) returns (resolved: Uri)
    requires LivyCluster.IsSegment(logType)
    ensures PageRequestAsWritten(logType, start, size) == Success(resolved)
    ensures GetScheme(resolved).None?
  {
    LiteralBaseParses();
    resolved := RelativeBaseRequest(LiteralBase, logType, start, size);
  }

  /** Against a base without scheme or authority, the resolved request
      has no scheme either. */
  lemma RelativeBaseRequest(baseText: string, logType: string, start: int, size: int) returns (resolved: Uri)
    requires LivyCluster.IsSegment(logType)
    requires Parse(baseText) == Success(Hierarchical(None, None, baseText, None, None))
    ensures RequestFrom(baseText, PageQuery(logType, start, size)) == Success(resolved)
    ensures GetScheme(resolved).None?
  {
    var base := Hierarchical(None, None, baseText, None, None);
    var child := QueryParses(logType, start, size);
    resolved := ResolveSegment(base, child);
    assert ResolveText(base, PageQuery(logType, start, size)) == Success(resolved);
  }

  /** "$baseUrl/" reads as a relative URI: its path is the whole text. */
  lemma LiteralBaseParses()
    ensures Parse(LiteralBase) == Success(Hierarchical(None, None, LiteralBase, None, None))
  {
    var u := Hierarchical(None, None, LiteralBase, None, None);
    assert WellFormed(u) by {
      LiteralBasePlain();
      RelativeWellFormed(LiteralBase, None);
    }
    assert Render(u) == LiteralBase by {
      RenderNoQuery(LiteralBase);
    }
    ParseRender(u);
  }

  lemma RenderNoQuery(path: string)
    ensures Render(Hierarchical(None, None, path, None, None)) == path
  {
    assert Render(Hierarchical(None, None, path, None, None)) == "" + "" + path + "" + "";
  }

  lemma LiteralBasePlain()
    ensures Legal(LiteralBase) && NoneIn(LiteralBase, {'?', '#'}) && NoChar(LiteralBase, ':')
    ensures LiteralBase[0] != '/'
  {
    var t := LiteralBase;
    forall i | 0 <= i < |t| ensures LegalAt(t, i) && t[i] !in {'?', '#', ':'} {
      assert t[i] == '$' || t[i] == '/' || IsAlpha(t[i]);
    }
  }

  /** A relative URI with neither authority nor fragment is well formed
      when its path and query are. */
  lemma RelativeWellFormed(path: string, query: Option<string>)
    requires Legal(path) && NoneIn(path, {'?', '#'}) && NoChar(path, ':')
    requires |path| >= 1 && path[0] != '/'
    requires query.Some? ==> Legal(query.value) && NoChar(query.value, '#')
    ensures WellFormed(Hierarchical(None, None, path, query, None))
  {
    var k := IndexOfAny(path, SchemeStops);
    assert k == |path| || path[k] != ':';
  }

  /** The page reference reads as a relative URI with the type as its
      path and the parameters as its query. */
  lemma QueryParses(logType: string, start: int, size: int) returns (child: Uri)
    requires LivyCluster.IsSegment(logType)
    ensures child == Hierarchical(None, None, logType, Some(PageParameters(start, size)), None)
    ensures Parse(PageQuery(logType, start, size)) == Success(child)
  {
    child := Hierarchical(None, None, logType, Some(PageParameters(start, size)), None);
    assert Render(child) == PageQuery(logType, start, size) by {
      RenderRelative(logType, PageParameters(start, size));
    }
    assert WellFormed(child) by {
      SegmentPlain(logType);
      ParametersLegal(start, size);
      RelativeWellFormed(logType, child.query);
    }
    ParseRender(child);
  }

  lemma RenderRelative(path: string, query: string)
    ensures Render(Hierarchical(None, None, path, Some(query), None)) == path + "?" + query
  {
    assert Render(Hierarchical(None, None, path, Some(query), None)) == "" + "" + path + ("?" + query) + "";
  }

  lemma SegmentPlain(seg: string)
    requires LivyCluster.IsSegment(seg)
    ensures Legal(seg) && NoneIn(seg, {'?', '#'}) && NoChar(seg, ':') && seg[0] != '/'
  {
    forall i | 0 <= i < |seg| ensures LegalAt(seg, i) && seg[i] !in {'?', '#', ':'} {
      assert IsAlphaNum(seg[i]);
    }
    assert IsAlphaNum(seg[0]);
  }

  /** The parameters use letters, digits, '=', '-' and '&' only. */
  predicate PlainQuery(q: string) {
    forall i :: 0 <= i < |q| ==> IsAlphaNum(q[i]) || q[i] == '=' || q[i] == '-' || q[i] == '&'
  }

  lemma PlainQueryConcat(a: string, b: string)
    requires PlainQuery(a) && PlainQuery(b)
    ensures PlainQuery(a + b)
  {
    forall i | 0 <= i < |a + b| ensures IsAlphaNum((a + b)[i]) || (a + b)[i] in {'=', '-', '&'} {
      if i >= |a| {
        assert (a + b)[i] == b[i - |a|];
      }
    }
  }

  lemma IntPlain(i: int)
    ensures PlainQuery(IntToString(i))
  {
    var d := NatToString(if i < 0 then -i else i);
    assert PlainQuery(d) by {
      forall k | 0 <= k < |d| ensures IsAlphaNum(d[k]) {
        assert IsDigit(d[k]);
      }
    }
    if i < 0 {
      PlainQueryConcat("-", d);
    }
  }

  lemma ParametersLegal(start: int, size: int)
    ensures var q := PageParameters(start, size);
            Legal(q) && NoChar(q, '#')
  {
    var q := PageParameters(start, size);
    IntPlain(start);
    IntPlain(start + size);
    PlainQueryConcat("start=", IntToString(start));
    PlainQueryConcat("&&end=", IntToString(start + size));
    var tail := if size <= 0 then "" else "&&end=" + IntToString(start + size);
    PlainQueryConcat("start=" + IntToString(start), tail);
    forall i | 0 <= i < |q| ensures LegalAt(q, i) && q[i] != '#' {
      assert IsAlphaNum(q[i]) || q[i] in {'=', '-', '&'};
    }
  }

  /** With the log URL in place of the literal, the request is the log
      URL, a '/', and the page's reference, for a log URL that is an
      absolute URL with a host and neither query nor fragment. */
  lemma ReadLogFetchesUnderLogUrl(logUrl: string, logType: string, start: int, size: int, page: string -> Result<string, string>)
    requires LivyCluster.IsSegment(logType)
    requires Parse(logUrl + "/").Success?
    requires var b := Parse(logUrl + "/").value;
             b.Hierarchical? && b.scheme.Some? && b.query.None? && b.fragment.None? && b.authority != Some("")
    ensures ReadLog(logType, size, page)(logUrl, start) == page(logUrl + "/" + PageQuery(logType, start, size))
  {
    var resolved := RequestUnderLogUrl(logUrl, logType, start, size);
    assert ReadAt(Success(resolved), page) == page(Render(resolved));
  }

  /** The corrected request: the log URL's scheme and authority, the
      type appended to its path, and the parameters as query. */
  lemma RequestUnderLogUrl(logUrl: string, logType: string, start: int, size: int) returns (resolved: Uri)
    requires LivyCluster.IsSegment(logType)
    requires Parse(logUrl + "/").Success?
    requires var b := Parse(logUrl + "/").value;
             b.Hierarchical? && b.scheme.Some? && b.query.None? && b.fragment.None? && b.authority != Some("")
    ensures PageRequest(logUrl, logType, start, size) == Success(resolved)
    ensures resolved.Hierarchical? && resolved.scheme.Some?
    ensures Render(resolved) == logUrl + "/" + PageQuery(logType, start, size)
  {
    var text := logUrl + "/";
    var b := Parse(text).value;
    RenderParse(text);
    var child := QueryParses(logType, start, size);
    resolved := ResolveSegment(b, child);
    assert RequestFrom(text, PageQuery(logType, start, size)) == Success(resolved);
    LivyCluster.SlashPathMerges(b, text, logType);
    RenderedUnder(b, resolved, text, logType, child.query.value);
  }

  /** A relative reference whose path is a plain segment merges into the
      base's path and keeps its query. */
  lemma ResolveSegment(b: Uri, child: Uri) returns (resolved: Uri)
    requires b.Hierarchical? && child.Hierarchical?
    requires child.scheme.None? && child.authority.None? && child.path != [] && child.path[0] != '/'
    ensures resolved == Hierarchical(b.scheme, GetAuthority(b), MergePath(b.path, child.path), child.query, child.fragment)
    ensures Resolve(b, child) == resolved
  {
    resolved := Hierarchical(b.scheme, GetAuthority(b), MergePath(b.path, child.path), child.query, child.fragment);
  }

  lemma RenderedUnder(b: Uri, resolved: Uri, text: string, seg: string, query: string)
    requires b.Hierarchical? && GetAuthority(b) == b.authority
    requires resolved == Hierarchical(b.scheme, GetAuthority(b), MergePath(b.path, seg), Some(query), None)
    requires SchemePart(b.scheme) + AuthorityPart(b.authority) + MergePath(b.path, seg) == text + seg
    ensures Render(resolved) == text + (seg + "?" + query)
  {
    var head := SchemePart(b.scheme) + AuthorityPart(b.authority) + MergePath(b.path, seg);
    assert Render(resolved) == head + ("?" + query) + "";
    assert head + ("?" + query) + "" == head + ("?" + query);
    ConcatAssoc(text, seg, "?" + query);
    ConcatAssoc(seg, "?", query);
  }

  /** The first read of a log URL with the corrected request: the page
      under that URL is read from offset 0; its log, when not empty, is
      emitted with offset 0, and an exception the read lets through ends
      the step in its message. */
  lemma CorrectedFirstRead(logUrl: string, logOffset: int, logType: string, size: int, page: string -> Result<string, string>)
    requires LivyCluster.IsSegment(logType)
    requires Parse(logUrl + "/").Success?
    requires var b := Parse(logUrl + "/").value;
             b.Hierarchical? && b.scheme.Some? && b.query.None? && b.fragment.None? && b.authority != Some("")
    ensures var got := page(logUrl + "/" + PageQuery(logType, 0, size));
            var r := GetDriverLog(None, logUrl, logOffset, ReadLog(logType, size, page));
            && r.0 == Some(logUrl)
            && r.1 == if got.Failure? then Failure(got.error)
                      else if got.value == "" then Success(None) else Success(Some((got.value, 0)))
  {
    ReadLogFetchesUnderLogUrl(logUrl, logType, 0, size, page);
  }

  // ---------------------------------------------------- the log page

  /** A child element of the log cell as the page loop sees it: a
      paragraph or a preformatted block with the text content of its first
      child (None when it has none), or any other element. */
  datatype PageNode = Paragraph(firstText: Option<string>) | Preformatted(firstText: Option<string>) | OtherNode

  /** The loop's state: logs by type, the type announced last and not yet
      used (the AtomicReference), and the text of the last `<pre>`. */
  datatype PageScan = PageScan(logs: map<string, string>, pending: Option<string>, last: string)

  const InitialScan := PageScan(map[], None, "")

  /** The type a paragraph announces: its trimmed text matches
      "Log Type:\s+(\S+)". */
  function Announces(n: PageNode): Option<string> {
    if n.Paragraph? && n.firstText.Some? then LogTypeOf(n.firstText.value) else None
  }

  /** The text a `<pre>` yields: its first child's, or "". */
  function PreContent(n: PageNode): string {
    if !n.OtherNode? && n.firstText.Some? then n.firstText.value else ""
  }

  /** One element of the loop: a paragraph announcing a type makes it the
      pending type; a `<pre>` becomes the last text and, when a type is
      pending, is stored under it, empty or not, and the type is used up. */
  function PageStep(s: PageScan, n: PageNode): (r: PageScan)
    ensures Announces(n).Some? ==> r == s.(pending := Announces(n))
    ensures n.Preformatted? && s.pending.Some? ==>
              r == PageScan(s.logs[s.pending.value := PreContent(n)], None, PreContent(n))
    ensures n.Preformatted? && s.pending.None? ==> r == s.(last := PreContent(n))
    ensures !n.Preformatted? && Announces(n).None? ==> r == s
  {
    match n
    case Paragraph(_) => if Announces(n).Some? then s.(pending := Announces(n)) else s
    case Preformatted(_) =>
      var logs := PreContent(n);
      if s.pending.Some? then PageScan(s.logs[s.pending.value := logs], None, logs) else s.(last := logs)
    case OtherNode => s
  }

  /** The texts of the page's `<pre>` elements. */
  function PreTexts(ns: seq<PageNode>): set<string> {
    set i | 0 <= i < |ns| && ns[i].Preformatted? :: PreContent(ns[i])
  }

  /** The loop over the elements, in order. Every text it ends with, last
      or stored, was either there at the start or is some `<pre>`'s. */
  function ScanPage(s: PageScan, ns: seq<PageNode>): (r: PageScan)
    ensures r.last == s.last || r.last in PreTexts(ns)
    ensures forall t :: t in r.logs ==> (t in s.logs && r.logs[t] == s.logs[t]) || r.logs[t] in PreTexts(ns)
    decreases |ns|
  {
    if ns == [] then s
    else
      var init, n := ns[..|ns| - 1], ns[|ns| - 1];
      assert forall i :: 0 <= i < |init| ==> init[i] == ns[i];
      assert PreTexts(init) <= PreTexts(ns);
      assert n.Preformatted? ==> PreContent(n) in PreTexts(ns) by {
        if n.Preformatted? { assert ns[|ns| - 1] == n; }
      }
      PageStep(ScanPage(s, init), n)
  }

  /** `getInformationFromYarnLogDom`'s answer from a page: the log stored
      for `logType`, or else the last `<pre>` text; either way "" or the
      text of one of the page's `<pre>` elements. */
  function SelectLog(logType: string, ns: seq<PageNode>): (r: string)
    ensures r == "" || r in PreTexts(ns)
  {
    var s := ScanPage(InitialScan, ns);
    if logType in s.logs then s.logs[logType] else s.last
  }

  /** Reference definition: the text of the last `<pre>` of the page, ""
      when there is none. */
  function LastPre(ns: seq<PageNode>): string
    decreases |ns|
  {
    if ns == [] then ""
    else if ns[|ns| - 1].Preformatted? then PreContent(ns[|ns| - 1])
    else LastPre(ns[..|ns| - 1])
  }

  /** The page has a `<pre>`. */
  predicate HasPre(ns: seq<PageNode>)
    decreases |ns|
  {
    ns != [] && (ns[|ns| - 1].Preformatted? || HasPre(ns[..|ns| - 1]))
  }

  /** Some paragraph of the page announces `logType`. */
  predicate AnnouncedIn(ns: seq<PageNode>, logType: string)
    decreases |ns|
  {
    ns != [] && (Announces(ns[|ns| - 1]) == Some(logType) || AnnouncedIn(ns[..|ns| - 1], logType))
  }

  /** The loop's last text is the page's last `<pre>` text, or the
      starting one when the page has no `<pre>`. */
  lemma {:induction false} ScanLast(s: PageScan, ns: seq<PageNode>)
    ensures !HasPre(ns) ==> ScanPage(s, ns).last == s.last
    ensures HasPre(ns) ==> ScanPage(s, ns).last == LastPre(ns)
  {
    if ns != [] {
      ScanLast(s, ns[..|ns| - 1]);
    }
  }

  /** Every type the loop stores or leaves pending was pending at the
      start, stored at the start, or announced on the page. */
  lemma {:induction false} ScanKeys(s: PageScan, ns: seq<PageNode>, t: string)
    requires t !in s.logs && s.pending != Some(t) && !AnnouncedIn(ns, t)
    ensures t !in ScanPage(s, ns).logs && ScanPage(s, ns).pending != Some(t)
  {
    if ns != [] {
      ScanKeys(s, ns[..|ns| - 1], t);
    }
  }

  /** A type no paragraph announces is answered with the last `<pre>` of
      the page: the running application's page, which has no paragraphs,
      is read whole whatever type is asked for. */
  lemma UnannouncedGivesLastPre(logType: string, ns: seq<PageNode>)
    requires !AnnouncedIn(ns, logType) && HasPre(ns)
    ensures SelectLog(logType, ns) == LastPre(ns)
  {
    ScanKeys(InitialScan, ns, logType);
    ScanLast(InitialScan, ns);
  }

  /** With no `<pre>` and no stored type the answer is "". */
  lemma NoPreGivesEmpty(logType: string, ns: seq<PageNode>)
    requires !AnnouncedIn(ns, logType) && !HasPre(ns)
    ensures SelectLog(logType, ns) == ""
  {
    ScanKeys(InitialScan, ns, logType);
    ScanLast(InitialScan, ns);
  }

  /** A history server section: the type paragraph, then the log. */
  function Section(logType: string, text: string): seq<PageNode> {
    [Paragraph(Some(LogTypeLabel + " " + logType)), Preformatted(Some(text))]
  }

  /** A section's paragraph announces its type. */
  lemma AnnouncesSection(logType: string)
    requires logType != [] && forall i :: 0 <= i < |logType| ==> logType[i] > ' '
    ensures Announces(Paragraph(Some(LogTypeLabel + " " + logType))) == Some(logType)
  {
    LogTypeOfLabel(" ", logType);
  }

  /** Scanning a paragraph that announces a type, then a `<pre>`, stores
      the `<pre>` text under the type and leaves nothing pending. */
  lemma ScanSection(s: PageScan, ns: seq<PageNode>, p: PageNode, logType: string, text: string)
    requires Announces(p) == Some(logType)
    ensures ScanPage(s, ns + [p, Preformatted(Some(text))])
            == PageScan(ScanPage(s, ns).logs[logType := text], None, text)
  {
    var a := ScanPage(s, ns);
    ScanTwoMore(s, ns, p, Preformatted(Some(text)));
    assert PageStep(a, p) == a.(pending := Some(logType));
  }

  /** Scanning two more elements is two more steps. */
  lemma ScanTwoMore(s: PageScan, ns: seq<PageNode>, n1: PageNode, n2: PageNode)
    ensures ScanPage(s, ns + [n1, n2]) == PageStep(PageStep(ScanPage(s, ns), n1), n2)
  {
    assert ns + [n1, n2] == (ns + [n1]) + [n2];
    ScanAppend(s, ns + [n1], n2);
    ScanAppend(s, ns, n1);
  }

  /** Scanning one more element is one more step. */
  lemma ScanAppend(s: PageScan, ns: seq<PageNode>, n: PageNode)
    ensures ScanPage(s, ns + [n]) == PageStep(ScanPage(s, ns), n)
  {
    assert (ns + [n])[..|ns + [n]| - 1] == ns;
  }

  /** A stored log survives any later elements that do not announce its
      type again. */
  lemma {:induction false} StoredSurvives(s: PageScan, rest: seq<PageNode>, logType: string)
    requires logType in s.logs && s.pending != Some(logType) && !AnnouncedIn(rest, logType)
    ensures logType in ScanPage(s, rest).logs && ScanPage(s, rest).logs[logType] == s.logs[logType]
    ensures ScanPage(s, rest).pending != Some(logType)
  {
    if rest != [] {
      StoredSurvives(s, rest[..|rest| - 1], logType);
    }
  }

  /** The history server's page: the log of the last section of the
      requested type is returned, whatever sections follow it. */
  lemma TypedSectionSelected(ns: seq<PageNode>, logType: string, text: string, rest: seq<PageNode>)
    requires logType != [] && forall i :: 0 <= i < |logType| ==> logType[i] > ' '
    requires !AnnouncedIn(rest, logType)
    ensures SelectLog(logType, ns + Section(logType, text) + rest) == text
  {
    AnnouncesSection(logType);
    ScanSection(InitialScan, ns, Paragraph(Some(LogTypeLabel + " " + logType)), logType, text);
    var page := ns + Section(logType, text);
    ScanConcat(InitialScan, page, rest);
    StoredSurvives(ScanPage(InitialScan, page), rest, logType);
  }

  /** Scanning a concatenation scans its parts in turn. */
  lemma {:induction false} ScanConcat(s: PageScan, a: seq<PageNode>, b: seq<PageNode>)
    ensures ScanPage(s, a + b) == ScanPage(ScanPage(s, a), b)
    decreases |b|
  {
    if b == [] {
      assert a + b == a;
    } else {
      assert (a + b)[..|a + b| - 1] == a + b[..|b| - 1];
      ScanConcat(s, a, b[..|b| - 1]);
    }
  }

  // ------------------------------------------------------ driver host

  /** `parseAmHostHttpAddressHost`: the same "host:port" rule as the
      container fetcher's. */
  function DriverHost(driverHttpAddress: Option<string>): (r: Option<string>)
    ensures r.Some? <==> driverHttpAddress.Some? && IsHostPort(driverHttpAddress.value)
    ensures r.Some? ==> exists p :: driverHttpAddress.value == HostPort(r.value, p) && AllDigits(p)
  {
    ParseAmHostHttpAddressHost(driverHttpAddress)
  }

  /** `isYarnAppLogAggregationDone`: SUCCEEDED, FAILED and TIME_OUT only,
      compared exactly. */
  function IsAggregationDone(logAggregationStatus: string): (r: bool)
    ensures r <==> logAggregationStatus in {"SUCCEEDED", "FAILED", "TIME_OUT"}
  {
    match logAggregationStatus
    case "SUCCEEDED" => true
    case "FAILED" => true
    case "TIME_OUT" => true
    case _ => false
  }

  /** The driver's test agrees with the container fetcher's for a known
      application report. */
  lemma AggregationDoneAgrees(state: string, logAggregationStatus: string)
    ensures IsAggregationDone(logAggregationStatus)
            == YarnContainerLog.IsLogAggregationDone(Some(YarnContainerLog.AppReport(state, logAggregationStatus)))
  {
  }
}

=== FILE: yarn_log_common.dfy ===
/** What the two Yarn log readers (`YarnContainerLogFetcher` and
    `YarnSparkApplicationDriverLog`) share: the driver address parser, the
    "Log Type:" paragraph matcher, the choice of the current application
    attempt and the public log URL templates. */
module YarnLogCommon {
  import opened Wrappers
  import opened Text

  // ------------------------------------------------ amHostHttpAddress

  /** "host:port" with a non-empty host free of ':' and a non-empty decimal
      port: what the regular expression `(?<host>[^:]+):(?<port>\d+)`
      matches as a whole. */
  ghost predicate IsHostPort(s: string) {
    exists h: string, p: string ::
      s == HostPort(h, p) && h != [] && NoChar(h, ':') && p != [] && AllDigits(p)
  }

  function HostPort(host: string, port: string): string {
    host + ":" + port
  }

  /** `parseAmHostHttpAddressHost`: the host part of "host:port", None for a
      null address or any other shape. */
  function ParseAmHostHttpAddressHost(address: Option<string>): (r: Option<string>)
    ensures r.Some? <==> address.Some? && IsHostPort(address.value)
    ensures r.Some? ==> exists p :: address.value == HostPort(r.value, p) && AllDigits(p)
  {
    if address.None? then None
    else
      var s := address.value;
      var k := IndexOf(s, ':');
      HostPortAt(s);
      if 0 < k < |s| - 1 && AllDigits(s[k + 1..]) then
        assert s == HostPort(s[..k], s[k + 1..]);
        Some(s[..k])
      else None
  }

  /** The one place where "host:port" can split is its first ':'. */
  lemma HostPortAt(s: string)
    ensures var k := IndexOf(s, ':');
            IsHostPort(s) <==> 0 < k < |s| - 1 && AllDigits(s[k + 1..])
  {
    var k := IndexOf(s, ':');
    if 0 < k < |s| - 1 && AllDigits(s[k + 1..]) {
      HostPortSplit(s, k);
    }
    if IsHostPort(s) {
      var h, p :| s == HostPort(h, p) && h != [] && NoChar(h, ':') && p != [] && AllDigits(p);
      HostPortFirstColon(h, p);
    }
  }

  lemma HostPortSplit(s: string, k: nat)
    requires 0 < k < |s| - 1 && NoChar(s[..k], ':') && s[k] == ':' && AllDigits(s[k + 1..])
    ensures IsHostPort(s)
  {
    assert s == HostPort(s[..k], s[k + 1..]);
  }

  lemma HostPortFirstColon(h: string, p: string)
    requires NoChar(h, ':')
    ensures IndexOf(HostPort(h, p), ':') == |h|
    ensures HostPort(h, p)[|h| + 1..] == p && HostPort(h, p)[..|h|] == h
  {
    IndexOfJoin(h, ':', p);
    assert HostPort(h, p) == h + ([':'] + p);
  }

  /** Parsing gives back the host of every "host:port" text. */
  lemma ParseHostOf(h: string, p: string)
    requires h != [] && NoChar(h, ':') && p != [] && AllDigits(p)
    ensures ParseAmHostHttpAddressHost(Some(HostPort(h, p))) == Some(h)
  {
    HostPortFirstColon(h, p);
  }

  /** The two address shapes the fetcher's comments give as samples. */
  lemma ParseHostSamples()
    ensures ParseAmHostHttpAddressHost(Some("host.domain.com:8900")) == Some("host.domain.com")
    ensures ParseAmHostHttpAddressHost(Some("10.0.0.15:30060")) == Some("10.0.0.15")
  {
    ParseHostNameSample();
    ParseHostIpSample();
  }

  lemma ParseHostNameSample()
    ensures ParseAmHostHttpAddressHost(Some("host.domain.com:8900")) == Some("host.domain.com")
  {
    ParseHostOf("host.domain.com", "8900");
    assert "host.domain.com:8900" == HostPort("host.domain.com", "8900");
  }

  lemma ParseHostIpSample()
    ensures ParseAmHostHttpAddressHost(Some("10.0.0.15:30060")) == Some("10.0.0.15")
  {
    ParseHostOf("10.0.0.15", "30060");
    assert "10.0.0.15:30060" == HostPort("10.0.0.15", "30060");
  }

  /** A missing port, a missing host or no ':' at all gives no host. */
  lemma ParseHostRejects(h: string)
    requires h != [] && NoChar(h, ':')
    ensures ParseAmHostHttpAddressHost(Some(h)) == None
    ensures ParseAmHostHttpAddressHost(Some(h + ":")) == None
    ensures ParseAmHostHttpAddressHost(Some(":" + h)) == None
  {
    HostPortFirstColon(h, "");
    assert HostPort(h, "") == h + ":";
    assert (":" + h)[0] == ':';
  }

  // ------------------------------------------------------- "Log Type:"

  const LogTypeLabel := "Log Type:"

  predicate AllRegexSpace(s: string) {
    forall i :: 0 <= i < |s| ==> IsRegexSpace(s[i])
  }

  predicate NoRegexSpace(s: string) {
    forall i :: 0 <= i < |s| ==> !IsRegexSpace(s[i])
  }

  /** The length of the run of `\s` characters that starts `s`. */
  function LeadingSpaces(s: string): (k: nat)
    ensures k <= |s| && AllRegexSpace(s[..k])
    ensures k < |s| ==> !IsRegexSpace(s[k])
  {
    if s == [] || !IsRegexSpace(s[0]) then 0
    else
      var k := 1 + LeadingSpaces(s[1..]);
      assert s[..k] == [s[0]] + s[1..][..k - 1];
      k
  }

  /** A whole-text match of `Log Type:\s+(\S+)`: the captured type. Since
      `\S` excludes what `\s` matches, the spaces run to the first non-space
      and the type is all the rest. */
  function MatchLogType(t: string): (r: Option<string>)
    ensures r.Some? ==> var n := |LogTypeLabel|;
              && |t| > n + |r.value| && t[..n] == LogTypeLabel
              && t[|t| - |r.value|..] == r.value
              && r.value != [] && NoRegexSpace(r.value)
              && AllRegexSpace(t[n..|t| - |r.value|])
  {
    var n := |LogTypeLabel|;
    if |t| <= n || t[..n] != LogTypeLabel then None
    else
      var rest := t[n..];
      var k := LeadingSpaces(rest);
      if k == 0 || k == |rest| || !NoRegexSpace(rest[k..]) then None
      else
        assert t[n..|t| - |rest[k..]|] == rest[..k];
        Some(rest[k..])
  }

  /** Every text of the pattern's shape matches, capturing its type. */
  lemma MatchLogTypeOf(spaces: string, logType: string)
    requires spaces != [] && AllRegexSpace(spaces)
    requires logType != [] && NoRegexSpace(logType)
    ensures MatchLogType(LogTypeLabel + spaces + logType) == Some(logType)
  {
    var t := LogTypeLabel + spaces + logType;
    var n := |LogTypeLabel|;
    assert t[..n] == LogTypeLabel;
    var rest := t[n..];
    assert rest == spaces + logType;
    LeadingSpacesOf(spaces, logType);
    assert rest[|spaces|..] == logType;
  }

  lemma {:induction false} LeadingSpacesOf(spaces: string, s: string)
    requires AllRegexSpace(spaces)
    requires s != [] && !IsRegexSpace(s[0])
    ensures LeadingSpaces(spaces + s) == |spaces|
  {
    if spaces != [] {
      assert (spaces + s)[1..] == spaces[1..] + s;
      LeadingSpacesOf(spaces[1..], s);
    } else {
      assert spaces + s == s;
    }
  }

  /** `findLogTypeDomNode`: the type named by a paragraph's first child,
      trimmed first. */
  function LogTypeOf(text: string): (r: Option<string>)
    ensures r.Some? ==> r.value != [] && NoRegexSpace(r.value)
  {
    MatchLogType(Trim(text))
  }

  /** A paragraph "Log Type:" + spaces + type names that type whenever the
      type is made of printable characters (which trimming leaves alone). */
  lemma LogTypeOfLabel(spaces: string, logType: string)
    requires spaces != [] && AllRegexSpace(spaces)
    requires logType != [] && forall i :: 0 <= i < |logType| ==> logType[i] > ' '
    ensures LogTypeOf(LogTypeLabel + spaces + logType) == Some(logType)
  {
    var t := LogTypeLabel + spaces + logType;
    assert t[0] == 'L' && t[|t| - 1] == logType[|logType| - 1];
    assert TrimStart(t) == t;
    assert TrimEnd(t) == t;
    MatchLogTypeOf(spaces, logType);
  }

  // -------------------------------------------------- current attempt

  datatype AppAttempt = AppAttempt(id: int, logsLink: string)

  /** The index `Stream.max` by id picks: a maximal id, the first among
      equals (the reduction keeps its left operand on ties). */
  function MaxIdIndex(attempts: seq<AppAttempt>): (k: nat)
    requires attempts != []
    ensures k < |attempts|
    ensures forall j :: 0 <= j < |attempts| ==> attempts[j].id <= attempts[k].id
    ensures forall j :: 0 <= j < k ==> attempts[j].id < attempts[k].id
  {
    if |attempts| == 1 then 0
    else
      var k := MaxIdIndex(attempts[..|attempts| - 1]);
      var last := attempts[|attempts| - 1];
      assert forall j :: 0 <= j < |attempts| - 1 ==> attempts[j] == attempts[..|attempts| - 1][j];
      if attempts[k].id >= last.id then k else |attempts| - 1
  }

  /** The current attempt: the one with the greatest id, none when the
      application has no attempt. */
  function CurrentAttempt(attempts: seq<AppAttempt>): (r: Option<AppAttempt>)
    ensures r.None? <==> attempts == []
    ensures r.Some? ==> r.value in attempts
    ensures r.Some? ==> forall a :: a in attempts ==> a.id <= r.value.id
  {
    if attempts == [] then None else Some(attempts[MaxIdIndex(attempts)])
  }

  /** Attempts with distinct ids have exactly one current attempt: the same
      whatever order the list comes in. */
  lemma CurrentAttemptUnique(a: seq<AppAttempt>, b: seq<AppAttempt>)
    requires forall x :: x in a <==> x in b
    requires forall x, y :: x in a && y in a && x.id == y.id ==> x == y
    ensures CurrentAttempt(a) == CurrentAttempt(b)
  {
    assert a == [] <==> b == [] by {
      if a != [] {
        assert a[0] in b;
      }
      if b != [] {
        assert b[0] in a;
      }
    }
  }

  // -------------------------------------------------- public log URLs

  /** The getters of the internal log URI the Yarn RM reports: host, port
      (-1 when absent), path and its whole text. */
  datatype InternalUrl = InternalUrl(host: string, port: int, path: string, text: string)

  /** The three ways of turning the internal log URL into one reachable
      through the Yarn UI. */
  datatype ConversionMode = WithoutPort | WithPort | Original

  /** A blank path stands for "/". */
  function PathOrRoot(path: string): (r: string)
    ensures !IsBlank(Some(r))
    ensures IsBlank(Some(path)) ==> r == "/"
    ensures !IsBlank(Some(path)) ==> r == path
  {
    if IsBlank(Some(path)) then
      assert "/"[0] == '/';
      "/"
    else path
  }

  /** The public URL text of a mode over a base that ends with '/':
      WITHOUT_PORT `${BASE}${HOST}${PATH}`, WITH_PORT
      `${BASE}${HOST}/port/${PORT}${PATH}`, ORIGINAL the URL itself. */
  function PublicUrl(mode: ConversionMode, base: string, u: InternalUrl): (r: string)
    ensures mode == Original ==> r == u.text
    ensures mode != Original ==> StartsWith(r, base + u.host) && EndsWith(r, PathOrRoot(u.path))
    ensures mode == WithoutPort ==> |r| == |base + u.host| + |PathOrRoot(u.path)|
    ensures mode == WithPort ==>
              |r| >= |base + u.host| + |PathOrRoot(u.path)|
              && r[|base + u.host|..|r| - |PathOrRoot(u.path)|] == "/port/" + IntToString(u.port)
  {
    match mode
    case WithoutPort =>
      ThreeParts(base + u.host, "", PathOrRoot(u.path));
      assert base + u.host + "" == base + u.host;
      base + u.host + PathOrRoot(u.path)
    case WithPort =>
      ThreeParts(base + u.host, "/port/" + IntToString(u.port), PathOrRoot(u.path));
      base + u.host + "/port/" + IntToString(u.port) + PathOrRoot(u.path)
    case Original => u.text
  }

  /** The two proxied forms differ only by "/port/<port>" between host and
      path; both start with the base and end with the path ("/" when
      blank). */
  lemma PublicUrlShapes(base: string, u: InternalUrl)
    ensures var without := PublicUrl(WithoutPort, base, u);
            var with := PublicUrl(WithPort, base, u);
            var head := base + u.host;
            && without == head + PathOrRoot(u.path)
            && with == head + "/port/" + IntToString(u.port) + PathOrRoot(u.path)
            && StartsWith(without, base) && StartsWith(with, base)
            && EndsWith(without, PathOrRoot(u.path)) && EndsWith(with, PathOrRoot(u.path))
            && |with| == |without| + 6 + |IntToString(u.port)|
    ensures PublicUrl(Original, base, u) == u.text
  {
    var p := PathOrRoot(u.path);
    var without := PublicUrl(WithoutPort, base, u);
    var with := PublicUrl(WithPort, base, u);
    assert without[..|base|] == base;
    assert with[..|base|] == base;
    assert without[|without| - |p|..] == p;
    assert with[|with| - |p|..] == p;
  }

  /** The order in which both fetchers probe the conversion modes. */
  const ProbingModes: seq<ConversionMode> := [WithoutPort, WithPort, Original]

  /** What the GET of a probe URL comes to: a reply with a code below 300,
      any other reply, or an exception (the IOException of the request)
      with its message. */
  datatype ProbeAnswer = Responds | Refuses | Throws(message: string)

  /** The container fetcher's reading of the answers: `onErrorReturn(false)`
      makes an exception count as "not valid". */
  function ValidOrFalse(answer: string -> ProbeAnswer): string -> bool {
    s => answer(s).Responds?
  }

  /** The driver's reading: with no `onErrorReturn`, every answer but a
      plain refusal ends the probing, a reply by keeping the mode and an
      exception by ending the conversion in that error. */
  function Decisive(answer: string -> ProbeAnswer): string -> bool {
    s => !answer(s).Refuses?
  }

  /** The two readings of the same answers: a URL the container fetcher
      finds valid also decides the driver's probe, and they part ways
      exactly on the URLs whose GET throws, which end the driver's probing
      but count as invalid for the container fetcher. */
  lemma ReadingsCompared(answer: string -> ProbeAnswer)
    ensures forall s :: ValidOrFalse(answer)(s) ==> Decisive(answer)(s)
    ensures forall s :: Decisive(answer)(s) && !ValidOrFalse(answer)(s) <==> answer(s).Throws?
    ensures forall s :: !Decisive(answer)(s) <==> answer(s).Refuses?
  {
  }

  /** The first of `modes` whose public URL `valid` accepts, or |modes|. */
  function FirstValid(modes: seq<ConversionMode>, base: string, u: InternalUrl, valid: string -> bool): (k: nat)
    ensures k <= |modes|
    ensures forall j :: 0 <= j < k ==> !valid(PublicUrl(modes[j], base, u))
    ensures k < |modes| ==> valid(PublicUrl(modes[k], base, u))
  {
    if modes == [] then 0
    else if valid(PublicUrl(modes[0], base, u)) then 0
    else 1 + FirstValid(modes[1..], base, u, valid)
  }
}
